=== FILE: README.md ===
# A verified model of the ROB-driven CPU and DDR5 memory simulator

This project models the core of a trace-driven simulator of out-of-order
CPU cores in front of a DDR5 memory system, together with the vendored
DRAMsim3 bank and channel state machines and the two scripts that
write its DRAMsim3 configuration files. Each source file becomes one Dafny
module, in the form the source takes: objects whose fields change in place
are classes with `modifies` frames, and pure computations are functions
with lemmas.

- **CPU side.** `Core` is a core with a circular reorder buffer (ROB): it
  retires finished instructions in order and fills the ROB from the trace
  each cycle. `Ring` has the circular-window lemmas the ROB uses. `Os`
  hands out physical frames to virtual pages and keeps the two maps
  inverse. `Replacement` holds the cache-set victim choices (LRU, SRRIP,
  PROWB and Belady). `Defs` and `BitCount` hold the shared helpers.
- **Address decoding.** `AddressMapping` and `Mop4` split a line address
  into channel, subchannel, rank, bankgroup, bank, row and column, with and
  without MOP (multiple cache lines per page) interleaving. Both are proved
  to invert address assembly.
- **DDR5 model.**
  - `DramConfig` derives timings from the clock.
  - `DramBank` is the bank state machine.
  - `DramRank` keeps per-bank command queues with round-robin selection,
    the four-activation window and refresh.
  - `DramSubchannel` holds read and write queues, pending transactions and
    the refresh schedule.
  - `DramChannel` holds the circular command queue and per-bank refresh
    management.
- **DRAMsim3.**
  - `Ds3Config` covers protocol and policy lookup, the structure
    parameters, channel sizing and the address-mapping positions and masks.
  - `Ds3BankState` is the bank state machine with per-row activation
    counters (PRAC), RFM bookkeeping and the MIRZA and MOAT mitigation
    schemes.
  - `Ds3ChannelState` covers readiness at bank, bankset and rank scope, the
    refresh and RFM queues, the activation windows, the alert protocol and
    the fan-out of timing constraints.
- **Configuration generators.** `MakeIni` writes an INI file from the
  default catalog and command-line overrides. `MakeConf` writes one
  configuration per design point. `ArgParse` is the simulator's own
  command-line parser.
- **Helpers.** `Bits`, `BitFields`, `Decimal` and `Wrappers` hold
  arithmetic helpers on unbounded naturals. Shifts are division and
  multiplication by powers of two, and masks are remainders. The usual
  Option and Result types live in `Wrappers`.

Global clocks (`GL_cycle_`, `GL_dram_cycle_`) and the global configuration
become parameters. Random draws are parameters too: the MIRZA sampling, the
page mapping and the random replacement way. So are the LLC access results
and the instruction trace.

## Model

| member | source | states |
|---|---|---|
| MakeIni.ScanOverrides | ds3conf/make_ini.py:79-92 | the `while i < len(argv)` loop agrees with `ScanArgs` on `argv[2:]`: when it runs to the end, the catalog and the printed notes are those of the scan; when a flag has no following token, the outcome is the IndexError |
| MakeIni.ScanKeepsKeys | ds3conf/make_ini.py:80-89 | overrides never remove a key, and a key that no `-key` token names keeps its value |
| MakeIni.SingleOverride | ds3conf/make_ini.py:81-89 | `-NAME VALUE` sets `params[NAME]` to `int(VALUE)` when that parses, otherwise to the string, and consumes both tokens |
| MakeIni.LastOverrideWins | ds3conf/make_ini.py:88 | giving the same key twice keeps the later value |
| MakeIni.ScanTwoOverrides | ds3conf/make_ini.py:80-89 | two overrides apply in order, the second on top of the first |
| MakeIni.NegativeValueStored | ds3conf/make_ini.py:83-88 | the value token is never checked for a leading `-`: `-CL -5` stores the int -5 |
| MakeIni.FlagAtEndIsIndexError | ds3conf/make_ini.py:83 | a flag as the last argument raises IndexError at `argv[i+1]` |
| MakeIni.LeadingZerosAccepted | ds3conf/make_ini.py:84-85 | `int("007")` succeeds, so `007` is stored as the int 7 |
| MakeIni.PyIntOfPrinted | ds3conf/make_ini.py:84-85 | `int()` of a printed integer gives that integer back, so a printed value is stored as an int |
| MakeIni.PyIntOfDigits | ds3conf/make_ini.py:84-85 | a non-empty run of decimal digits parses to its value |
| MakeIni.NegativeText | ds3conf/make_ini.py:84-85 | a minus sign followed by a digit group parses to the negated value |
| MakeIni.WordStaysText | ds3conf/make_ini.py:84-87 | a token starting with a letter is not an int, so the verbatim string is stored |
| MakeIni.WriteSection | ds3conf/make_ini.py:101-105 | the inner loop writes `[sec]`, one `key = value` line per listed key in list order, then a blank line; a missing key stops it with that key after the lines before it |
| MakeIni.WriteSections | ds3conf/make_ini.py:100-105 | the outer loop writes the sections in order and stops at the first KeyError |
| MakeIni.KeyLineInjective | ds3conf/make_ini.py:104 | a `key = value` line determines the rendered value it was written from |
| MakeIni.KeyLinesAllPresent | ds3conf/make_ini.py:102-104 | with every listed key present there is no KeyError, and line i is the line of key i |
| MakeIni.WritesAllPresent | ds3conf/make_ini.py:100-105 | with every key present the sections finish, taking one header, one line per key and one blank line each |
| MakeIni.WritesSectionAt | ds3conf/make_ini.py:100-105 | section s occupies exactly its own block of lines, placed after the blocks of the sections before it |
| MakeIni.KeyLineAt | ds3conf/make_ini.py:100-105 | the header of section s, the line of its j-th key and its closing blank line are at fixed positions of the output |
| MakeIni.KeyLinesOnlyListed | ds3conf/make_ini.py:102-104 | a section's lines depend only on the catalog entries of its listed keys |
| MakeIni.WritesOnlyListed | ds3conf/make_ini.py:100-104 | the written sections depend only on the catalog entries of the listed keys |
| MakeIni.UnlistedKeyInvisible | ds3conf/make_ini.py:88-104 | an override of a key in none of the four lists changes nothing in the output |
| MakeIni.ListsDistinct | ds3conf/make_ini.py:66-76 | no key repeats within a section list |
| MakeIni.TimingDistinct | ds3conf/make_ini.py:71-74 | the 27 timing keys are pairwise distinct |
| MakeIni.ListsDisjointFromDramStructure | ds3conf/make_ini.py:66-76 | no `dram_structure` key appears in another list |
| MakeIni.ListsDisjointFromRfm | ds3conf/make_ini.py:68-76 | the `system`, `timing` and `rfm` lists share no key |
| MakeIni.SectionsKeys | ds3conf/make_ini.py:66-99 | the sections list 7+10+27+6 keys in order; they take 58 lines, and the sections start at lines 0, 9, 21 and 50 |
| MakeIni.SectionKeysDistinct | ds3conf/make_ini.py:66-76 | the 50 listed keys are pairwise distinct |
| MakeIni.GroupKeys | ds3conf/make_ini.py:8-76 | each commented group of the catalog has exactly the keys of its section list |
| MakeIni.CatalogKeys | ds3conf/make_ini.py:8-76 | the default catalog's keys are exactly the listed keys, so the writer finds every one |
| MakeIni.MakeIni | ds3conf/make_ini.py:78-124 | the script as a whole (output path, override scan, writer, fixed block) agrees with `Run` |
| MakeIni.RunNeverKeyError | ds3conf/make_ini.py:78-105 | no run ends in KeyError; a run ends in IndexError exactly when no file is opened |
| MakeIni.ScanKeepsListed | ds3conf/make_ini.py:80-105 | after any completed scan every listed key is present, so the 58 section lines are all written |
| MakeIni.RunCompletes | ds3conf/make_ini.py:78-124 | a completed scan writes the file named by `argv[1]`: the 58 section lines followed by the fixed power/other text, whose first line is `[power] ` with its trailing space |
| MakeIni.RefreshLines | ds3conf/make_ini.py:68-105 | line 16 of a complete output is the `refresh_policy` line and line 32 the `tREFI` line |
| MakeConf.Cyc | ds3conf/ref/make_conf.py:3-6 | `cyc`: the result is within half a cycle of the exact quotient `x / 0.416` |
| MakeConf.RoundHalfEven | ds3conf/ref/make_conf.py:6 | Python's `round`: the nearest integer to the quotient, the even one on a tie |
| MakeConf.RoundMonotone | ds3conf/ref/make_conf.py:6 | rounding keeps the order of its inputs |
| MakeConf.TREFIMonotone | ds3conf/ref/make_conf.py:14-15 | the derived `tREFI` is non-decreasing in the refresh window |
| MakeConf.SweepIntervals | ds3conf/ref/make_conf.py:14-15 | the windows 8, 16, 32, 64 and 128 ms give 2348, 4695, 9390, 18780 and 37560 cycles |
| MakeConf.DoubleWindow | ds3conf/ref/make_conf.py:14-15 | doubling the window doubles the interval, up to one cycle of rounding |
| MakeConf.MakeConf | ds3conf/ref/make_conf.py:8-18 | the sweep produces one command per point, in the order NONE, 8, 16, 32, 64, 128; NONE uses 18720 and `NO_REFRESH` without `cyc`, the rest `cyc` and `RANK_LEVEL_STAGGERED`, with the policy key spelled as the generator reads it; corrected (see Findings ds3conf/ref/make_conf.py:18) |
| MakeConf.Sweep | ds3conf/ref/make_conf.py:8-18 | the loop body run over any list of windows gives the command of each window, in order; corrected (see Findings ds3conf/ref/make_conf.py:18) |
| MakeConf.WordsOfJoin | ds3conf/ref/make_conf.py:18 | splitting the space-joined command at its spaces gives the words back |
| MakeConf.CommandWords | ds3conf/ref/make_conf.py:18 | the shell hands `python` and then exactly the generator's argv: the output path, `-tREFI` with the decimal interval, and the policy flag with the policy |
| MakeConf.PathsDistinct | ds3conf/ref/make_conf.py:18 | `ref/DDR5_32GB_x4_r{W}.ini` differs for different sweep points |
| MakeConf.ScanOfConf | ds3conf/ref/make_conf.py:18 | the generator stores the interval as an int (it is a decimal integer) and the policy as text |
| MakeConf.RunOfConf | ds3conf/ref/make_conf.py:18 | each generated command runs the generator to completion, writing the 58 section lines and the fixed block to the point's file, with the interval on the `tREFI` line |
| MakeConf.PolicyDroppedAsWritten | ds3conf/ref/make_conf.py:18 | as written, `-refresh-policy` names a key no section lists, so every file keeps `refresh_policy = RANK_LEVEL_STAGGERED` |
| MakeConf.AsWrittenKeepsDefaultPolicy | ds3conf/ref/make_conf.py:18 | the misspelt flag leaves the catalog's `refresh_policy` at its default |
| MakeConf.NoRefreshIgnoredAsWritten | ds3conf/ref/make_conf.py:9-18 | as written, the NONE point's file does not carry `NO_REFRESH` |
| MakeConf.PolicyWritten | ds3conf/ref/make_conf.py:18 | with the flag spelt as the generator's key, each file carries its point's policy and interval |
| ArgParse.Parse | src/utils/argparse.cpp:24-90 | `parse` agrees with `ParseSpec`: help text first, too few positional arguments die with the help, then required binding, defaults and the option loop |
| ArgParse.BuildHelp | src/utils/argparse.cpp:35-49 | the help text is built as `HelpText`: the usage line, the options banner, one line per optional argument |
| ArgParse.BuildUsage | src/utils/argparse.cpp:36-40 | the usage line is `usage:` followed by ` <name>` for each required argument |
| ArgParse.BuildOptionLines | src/utils/argparse.cpp:42-48 | one line per optional argument, in declaration order |
| ArgParse.HelpStartsWithUsage | src/utils/argparse.cpp:36-40 | the help text begins with `usage:` and then ` <first>` for the first required name |
| ArgParse.UsageNamesPrefix | src/utils/argparse.cpp:37-39 | the usage names of the first k required arguments are a prefix of the whole list |
| ArgParse.PadRight | src/utils/argparse.cpp:45-47 | `std::setw(w) << std::left`: the text, then spaces up to width w; longer text is kept whole |
| ArgParse.BindRequiredArgs | src/utils/argparse.cpp:55-59 | the first loop binds the required names to `argv[1..]` as `BindRequired` does |
| ArgParse.SetDefaults | src/utils/argparse.cpp:61 | the second loop stores every optional flag's default, later declarations over earlier ones |
| ArgParse.ScanTokens | src/utils/argparse.cpp:63-88 | the option loop agrees with `ScanOptions` |
| ArgParse.TooFewArgumentsDies | src/utils/argparse.cpp:51-53 | fewer positional arguments than required names: help printed, exit 1 |
| ArgParse.RequiredBound | src/utils/argparse.cpp:55-59 | the i-th required name (when not repeated later) is bound to `argv[i+1]` |
| ArgParse.DefaultInstalled | src/utils/argparse.cpp:61 | each optional flag starts with its declared default |
| ArgParse.DefaultsKeepOthers | src/utils/argparse.cpp:61 | installing defaults leaves every other name alone |
| ArgParse.NonOptionDies | src/utils/argparse.cpp:65-68 | a token in option position not starting with `-` is an error exit with `Expected option but got` |
| ArgParse.SwitchConsumesOne | src/utils/argparse.cpp:72-74 | an option whose stored value is empty (a flag, or an unknown name) is set to `y` and consumes only itself |
| ArgParse.ValuedConsumesTwo | src/utils/argparse.cpp:76-86 | a valued option followed by a token not starting with `-` stores that token and consumes both |
| ArgParse.ValueMissingDies | src/utils/argparse.cpp:80-84 | a valued option followed by another option is an error exit |
| ArgParse.SwitchTwiceNeedsValue | src/utils/argparse.cpp:72-80 | a switch given twice demands a value the second time, because it now holds `y` |
| ArgParse.ScanKeepsUnnamed | src/utils/argparse.cpp:63-88 | the option loop changes only the names that appear as `-name` tokens |
| ArgParse.Lookup | src/utils/argparse.h:27-61 | an unknown name exits with `Unknown argument` and the help; a bool target is true iff the stored text is non-empty; a string target gets the text verbatim |
| ArgParse.SwitchLookup | src/utils/argparse.h:38-40 | after a parse, a switch given on the command line reads true and an unset one reads false |
| ArgParse.Stoull | src/utils/argparse.h:41-43 | `stoull` yields a 64-bit value, or fails (no digits, or out of range) |
| ArgParse.Stoll | src/utils/argparse.h:44-46 | `stoll` yields a value in the signed 64-bit range, or fails |
| ArgParse.StoullOfPrinted | src/utils/argparse.h:41-43 | an unsigned value printed in decimal reads back as itself |
| ArgParse.StollOfPrinted | src/utils/argparse.h:44-46 | a signed value in range printed in decimal reads back as itself |
| ArgParse.StoullOfMinusOne | src/utils/argparse.h:41-43 | `stoull` accepts a minus sign and wraps: `-1` reads as 2^64 - 1 |
| ArgParse.NoDigitsRejected | src/utils/argparse.h:41-46 | text with no leading integer is rejected by both conversions |
| ArgParse.NumberLookupReadsBack | src/utils/argparse.h:41-46 | a stored decimal number reads back through the signed lookup, and through the unsigned one when non-negative |
| ArgParse.NumberLookupRejects | src/utils/argparse.h:56-60 | text the conversion rejects makes the numeric lookups exit with the `Could not parse data` message and the help |
| BitCount.Log2 | src/utils/bitcount.h:7-12 | `Log2<X>` is floor(log2 X) for X >= 1: `2^r <= X < 2^(r+1)` |
| BitCount.Log2OfPow2 | src/utils/bitcount.h:7-12 | `Log2<2^k> == k` |
| BitCount.Log2Monotone | src/utils/bitcount.h:7-12 | `Log2` is non-decreasing |
| Defs.ReplPolicyName | src/defs.h:27-34 | every policy has a non-empty name other than the fallback `Unknown Cache Policy` |
| Defs.ReplPolicyNamesDistinct | src/defs.h:27-34 | the four policies have four different names |
| Defs.IncrementAndModByPow2 | src/defs.h:106 | `((x)+1) & ((mod)-1)` is below the modulus |
| Defs.IncrementAndModByPow2IsMod | src/defs.h:106 | for a power-of-two modulus it equals `(x+1) mod m`, with 64-bit wrap-around of `x+1` |
| Defs.IncrementAndMod | src/defs.h:105 | `INCREMENT_AND_MOD` pre-increments `x` in place (64-bit) and yields 0 exactly when the new `x` equals the modulus (or wrapped to 0), else the new `x`; `x` itself is not reset |
| Defs.SizesArePowersOfTwo | src/defs.h:66-69 | `ROB_WIDTH` = 2^8 and `LINES_PER_PAGE` = 2^6, and a page is `LINES_PER_PAGE` lines |
| Decimal.NatToString | ds3conf/ref/make_conf.py:18 | how an f-string prints an int: a non-empty run of digits without a leading zero |
| Decimal.NatToStringRoundTrip | ds3conf/ref/make_conf.py:18 | reading the printed digits back gives the number |
| Decimal.NatToStringInjective | ds3conf/ref/make_conf.py:18 | different numbers print differently |
| Mop4.BCo | src/dram/address/mop4.inl:17 | the column width is at least `B_LOW`, so `B_CO - B_LOW` does not wrap |
| Mop4.Channel | src/dram/address/mop4.inl:22 | `(x >> CH_OFF) & MASK(B_CH)`: the `B_CH`-bit field at `CH_OFF`, below 2^B_CH |
| Mop4.Subchannel | src/dram/address/mop4.inl:23 | the `B_SC`-bit field at `SC_OFF`, below 2^B_SC |
| Mop4.Rank | src/dram/address/mop4.inl:24 | the `B_RA`-bit field at `RA_OFF`, below 2^B_RA |
| Mop4.Bankgroup | src/dram/address/mop4.inl:25 | the `B_BG`-bit field at `BG_OFF`, below 2^B_BG |
| Mop4.Bank | src/dram/address/mop4.inl:26 | the `B_BA`-bit field at `BA_OFF`, below 2^B_BA |
| Mop4.Row | src/dram/address/mop4.inl:27 | the `B_RO`-bit field at `RO_OFF`, below 2^B_RO |
| Mop4.Column | src/dram/address/mop4.inl:32-37 | the low 2 bits of COLUMN are those of x, its upper `B_CO-2` bits are the field at `HI_OFF`, and COLUMN < 2^B_CO |
| Mop4.LayoutOffsets | src/dram/address/mop4.inl:9-17 | the offsets chain: SC at 2, then CH, BG, BA, RA, HI and RO, each one width after the previous |
| Mop4.DecodeAssemble | src/dram/address/mop4.inl:9-37 | assembling an address from in-range field values and decoding it gives the same values back |
| Mop4.DecodeAssembleFields | src/dram/address/mop4.inl:22-27 | the round trip for the six plain fields |
| Mop4.DecodeAssembleColumn | src/dram/address/mop4.inl:32-37 | the round trip for the split column |
| Mop4.HighBitsIgnored | src/dram/address/mop4.inl:27 | bits at or above `RO_OFF + B_RO` do not affect any decoded field |
| Mop4.ColumnOfParts | src/dram/address/mop4.inl:32-37 | COLUMN depends only on the low two bits and the field at `HI_OFF` |
| AddressMapping.BitLength | src/dram/address_mapping.cpp:12 | `64 - clz(count)`, the number of bits needed to write `count` |
| AddressMapping.BitWidth | src/dram/address_mapping.cpp:11-13 | `BIT_WIDTH(0) = 0`, otherwise one more than the bit length of `count` |
| AddressMapping.ClzIsLog | src/dram/address_mapping.cpp:12 | `__builtin_clzll` counts the zeros above the highest set bit: `n - 1 - floor(log2 x)` |
| AddressMapping.WidthsOf | src/dram/address_mapping.cpp:22-29 | each width is `BIT_WIDTH` of its count: zero for no items, otherwise `count` needs `width - 1` bits |
| AddressMapping.ChunkAsWrittenLowBitsSet | src/dram/address_mapping.cpp:15-17 | as written, the low `delta` bits of every `GET_CHUNK` result are set, whatever the address |
| AddressMapping.ChunkAsWrittenOfZero | src/dram/address_mapping.cpp:15-17 | as written, the zero address gives chunk 3 for a 2-bit field, where the field holds 0 |
| AddressMapping.GetChunk | src/dram/address_mapping.cpp:15-17 | the chunk as intended (a bitwise and in place of the bitwise or): the `delta`-bit field at `base`, below 2^delta |
| AddressMapping.MopColumnLowBits | src/dram/address_mapping.cpp:36-42 | the MOP `COL`'s low MOP bits equal `x & MOP_MASK`; the bits above are the column chunk stored above the rank; corrected (see Findings src/dram/address_mapping.cpp:15-17) |
| AddressMapping.Col | src/dram/address_mapping.cpp:38-54 | `COL` fits the column width in both schemes; without MOP it is the low column bits of the address; corrected (see Findings src/dram/address_mapping.cpp:15-17) |
| AddressMapping.MopCol | src/dram/address_mapping.cpp:38-42 | the MOP `COL` (low MOP bits joined below the column chunk above the rank) fits the column width; corrected (see Findings src/dram/address_mapping.cpp:15-17) |
| AddressMapping.DigitsBelow | src/dram/address_mapping.cpp:38-42 | a value whose part above the low MOP bits fits `b_column - MOP` bits fits `b_column` bits, the bound behind the MOP `COL` |
| AddressMapping.Ba | src/dram/address_mapping.cpp:44-55 | `BA` is the bank field just above the channel and bank-group fields (above the column or the MOP bits), below 2^b_bank; corrected (see Findings src/dram/address_mapping.cpp:15-17) |
| AddressMapping.Bg | src/dram/address_mapping.cpp:45-56 | `BG` is the bank-group field just above the channel field, below 2^b_bgrp; corrected (see Findings src/dram/address_mapping.cpp:15-17) |
| AddressMapping.Rk | src/dram/address_mapping.cpp:46-57 | `RK` is the rank field just above the bank field, below 2^b_rank; corrected (see Findings src/dram/address_mapping.cpp:15-17) |
| AddressMapping.Ch | src/dram/address_mapping.cpp:47-58 | `CH` is the channel field just above the column (or the MOP bits), below 2^b_channel; corrected (see Findings src/dram/address_mapping.cpp:15-17) |
| AddressMapping.Row | src/dram/address_mapping.cpp:68 | `ROW` keeps every bit above the other fields; it fits `b_row` bits exactly when the address fits the total width of all fields |
| AddressMapping.DivBelow | src/dram/address_mapping.cpp:68 | `x >> n` stays below `2^b` exactly when `x` is below `2^(n+b)`, the bound behind `ROW` |
| AddressMapping.Decode | src/dram/address_mapping.cpp:36-68 | every decoded field but the row fits its width for any address, and all fields fit exactly when the address fits the total width; corrected (see Findings src/dram/address_mapping.cpp:15-17) |
| AddressMapping.MopOffsets | src/dram/address_mapping.cpp:41-47 | the MOP layout places CH at MOP, BG at MOP+ch, BA at MOP+ch+bg, RK at MOP+ch+bg+ba, the upper column after the rank, then the row |
| AddressMapping.NoMopOffsets | src/dram/address_mapping.cpp:54-58 | the non-MOP layout places the column at 0, then CH, BG, BA, RK, then the row |
| AddressMapping.NoMopRoundTrip | src/dram/address_mapping.cpp:54-68 | without MOP, decoding an address assembled from in-range fields gives the fields back; corrected (see Findings src/dram/address_mapping.cpp:15-17) |
| AddressMapping.MopRoundTrip | src/dram/address_mapping.cpp:36-68 | with MOP, decoding an address assembled from in-range fields gives the fields back; corrected (see Findings src/dram/address_mapping.cpp:15-17) |
| AddressMapping.MopColumnRoundTrip | src/dram/address_mapping.cpp:38-42 | with MOP, `COL` of an assembled address is the column it was assembled from; corrected (see Findings src/dram/address_mapping.cpp:15-17) |
| AddressMapping.AsWrittenRoundTripFails | src/dram/address_mapping.cpp:15-17 | as written, the address assembled from all-zero fields decodes to column 3, not 0 |
| Os.PageShiftIsSix | src/os.cpp:95-104 | the page shift used by the split and the join is 6, and 2 to that power is the lines-per-page constant (64) |
| Os.SplitIsDivMod | src/os.cpp:95-99 | splitting a line address gives its quotient and remainder by the lines per page, and the offset is below the lines per page |
| Os.SplitJoin | src/os.cpp:95-104 | joining a page and an in-range offset gives page times 64 plus offset, and splitting that gives back the page and the offset |
| Os.JoinSplit | src/os.cpp:95-104 | joining the page and the offset of any line address gives that address back |
| Os.FrameWord | src/os.cpp:80-81 | the word index of any frame below the frame count lies inside the availability bitmap |
| Os.TakeMarks | src/os.cpp:82-83 | after marking a free frame, a frame is taken exactly when it is that frame or was already taken |
| Os.OnlyFrameZero | src/os.cpp:19-22 | in the freshly built bitmap (word 0 is 1, all others 0) a frame is taken exactly when it is frame 0 |
| Os.OneHasOnlyBitZero | src/os.cpp:22 | bit k of the value 1 is set exactly when k is 0 |
| Os.FirstFree | src/os.cpp:77-87 | a frame found among the random draws is below the frame count, free, and equal to some draw modulo the frame count; nothing is found exactly when every draw lands on a taken frame |
| Os.Record | src/os.cpp:53-54 | recording a new page adds the virtual page to the forward map and the frame to the reverse map, each pointing at the other; corrected (see Findings src/os.cpp:32-37) |
| Os.RecordAsWritten | src/os.cpp:47-56 | the code records only the forward map; the reverse map that p2v reads is left unchanged |
| Os.P2VAsWrittenAlwaysFails | src/os.cpp:32-37 | with the mapping as written, the reverse map never holds the frame just given out, so the two maps are not inverse and p2v on it throws |
| Os.RecordKeepsInverse | src/os.cpp:47-56 | recording a fresh virtual page on a fresh frame keeps the two maps inverse to each other; corrected (see Findings src/os.cpp:32-37) |
| Os.OS.constructor | src/os.cpp:16-23 | the frame count is 256 per megabyte, both maps start empty, the counters start at 0, and frame 0 is the only frame taken |
| Os.OS.P2V | src/os.cpp:32-37 | a physical address has a virtual address exactly when its frame is in the reverse map, and that address has the mapped page and the same offset |
| Os.OS.P2VUndoesV2P | src/os.cpp:32-59 | for a mapped virtual address, translating to physical and back gives the address again; corrected (see Findings src/os.cpp:32-37) |
| Os.OS.MapPage | src/os.cpp:74-90 | counts one page fault, returns the first free frame among 2048 draws, and marks it taken; with no free frame the bitmap is unchanged and the failure is returned |
| Os.OS.TakeFrame | src/os.cpp:80-83 | sets the bit of a free frame and changes nothing else in the bitmap |
| Os.OS.V2P | src/os.cpp:42-59 | a mapped page translates with no change of state; an unmapped page gets the first free drawn frame, is recorded in both maps and counted; it fails exactly when the page is unmapped and no draw is free; corrected (see Findings src/os.cpp:32-37) |
| Replacement.Lru | src/cache/replacement.cpp:13-22 | the chosen way lies inside the set |
| Replacement.LruScanFindsOldest | src/cache/replacement.cpp:16-20 | the scan keeps the first way with the smallest timestamp among the ways seen so far |
| Replacement.LruIsFirstOldest | src/cache/replacement.cpp:13-22 | the LRU victim has the smallest timestamp in the set, and no earlier way ties with it |
| Replacement.RandomWay | src/cache/replacement.cpp:27-30 | for a power-of-two set, masking the draw with size minus 1 picks way draw modulo size, always inside the set |
| Replacement.Prowb | src/cache/replacement.cpp:51-64 | the chosen way lies inside the set |
| Replacement.ProwbScanFindsOldestClean | src/cache/replacement.cpp:55-61 | the second scan ends on the first oldest clean way, or stays on the dirty LRU way when every way is dirty |
| Replacement.ProwbPrefersClean | src/cache/replacement.cpp:51-64 | with a clean way present the victim is the first oldest clean way; with every way dirty it is the LRU victim |
| Replacement.BeladyAsWritten | src/cache/replacement.cpp:74-85 | the code gives a victim exactly when every way's address has an access stream (the lookup throws otherwise) |
| Replacement.BeladyAsWrittenIsLastLater | src/cache/replacement.cpp:78-83 | as written, the scan compares each way with way 0's next use only, and so ends on the last way used later than way 0 |
| Replacement.BeladyAsWrittenMissesFurthest | src/cache/replacement.cpp:74-85 | for three ways next used at 1, 3 and 2, the code picks way 2 although way 1 is used furthest in the future |
| Replacement.Belady | src/cache/replacement.cpp:69-85 | the corrected choice gives a victim exactly when every address has a stream, and it lies inside the set |
| Replacement.BeladyScanFindsFurthest | src/cache/replacement.cpp:78-83 | a scan that updates the best next use keeps the first way whose next use is furthest among those seen |
| Replacement.BeladyIsFirstFurthest | src/cache/replacement.cpp:69-85 | the corrected victim is the first way whose next use (never used counting as the largest value) is furthest in the future |
| Replacement.MinRrpv | src/cache/replacement.cpp:37-41 | the value is at most every way's RRPV and equals the RRPV of some way |
| Replacement.AgingByMinimum | src/cache/replacement.cpp:42-44 | subtracting the minimum RRPV keeps each RRPV in range, leaves a way at 0, changes no other field, and keeps the order between any two ways |
| Replacement.ScanForZero | src/cache/replacement.cpp:37-41 | the first loop stops at the first line with prediction 0; when there is none it has found the smallest prediction of the set |
| Replacement.AgeAll | src/cache/replacement.cpp:42-44 | the second loop lowers every prediction by the same amount and changes nothing else |
| Replacement.CacheSet.Srrip | src/cache/replacement.cpp:35-46 | returns the first way with RRPV 0; if there was none, every RRPV is first lowered by the minimum, otherwise the set is unchanged |
| Ring.WriteBeyondWindow | src/core.cpp:31-34 | writing the slot just past the live window leaves the window unchanged |
| Ring.PushBack | src/core.cpp:31-54 | writing the slot just past the window and growing it by one appends the entry to the window |
| Ring.PopFront | src/core.cpp:116-120 | advancing the head pointer and shrinking by one drops the first entry of the window |
| Ring.WindowHead | src/core.cpp:117 | the first entry of a non-empty window is the slot at the head pointer |
| Core.FetchShape | src/core.cpp:31-57 | one allocation pass keeps the old entries, adds at most the fetch width and never exceeds the ROB width; the new entries get consecutive instruction numbers and the current cycle; every consumed result is an access or a full MSHR, with at most one full MSHR and misses never above accesses |
| Core.FetchStep | src/core.cpp:35-53 | a full MSHR on a due instruction stops the pass with the ROB unchanged and one more full-MSHR count; otherwise an entry is added, ending now plus the bad latency for a due load and now in any other case |
| Core.Retirable | src/core.cpp:116-128 | the count of retired entries is at most the fetch width and at most the ROB occupancy |
| Core.RetirableIsLeadingFinished | src/core.cpp:116-128 | every retired entry has finished, and retiring stops below the width only at an empty ROB or an unfinished head |
| Core.RetirableCount | src/core.cpp:116-128 | the retire count is exactly the length of the leading run of finished entries, capped by the fetch width |
| Core.DelayStep | src/core.cpp:126 | the total delay of the first i+1 retired entries adds the end-minus-begin time of entry i |
| Core.RobIncrement | src/core.cpp:54 | the power-of-two increment of a ROB index below 256 is the next index modulo 256 |
| Core.TailStep | src/core.cpp:31-54 | advancing the tail index gives the slot after the live window |
| Core.Core.constructor | src/core.cpp:18-21 | the ROB starts empty with all counters at 0 and the fetch width and first instruction as given |
| Core.Core.RobRetire | src/core.cpp:114-129 | removes the leading finished entries (at most the fetch width), sets the finished instruction number to the last one removed, and adds their delays to the total |
| Core.Core.Allocate | src/core.cpp:31-57 | the ROB, instruction counters and LLC statistics become the result of one allocation pass on the old state, with the head pointer unchanged |
| Core.Core.Store | src/core.cpp:34-39 | writing the slot after the window keeps the old window and appends the entry when the window grows by one |
| Core.Core.Tick | src/core.cpp:26-58 | a tick retires first and then runs the allocation pass on what remains |
| DramBank.NewBank | src/dram/bank.cpp:10-14 | a fresh bank has one refresh group per 2^13 rows, one closed subarray per 2^k rows, is idle and has counted nothing |
| DramBank.BusyBankRefuses | src/dram/bank.cpp:20-21 | the bank takes a command exactly when the cycle has reached its busy-until cycle; a refused command changes nothing |
| DramBank.BusyUntilGrows | src/dram/bank.cpp:20-44 | the busy-until cycle never moves back, and after a taken command it is at least the current cycle |
| DramBank.RefreshStep | src/dram/bank.cpp:23-27 | a refresh on an idle bank is taken, blocks for tRFC, keeps the group in range, wraps to group 0 exactly after the last group, and leaves the rows and the access count alone |
| DramBank.RefreshGroupsCycle | src/dram/bank.cpp:27 | starting at group 0, one refresh more than the number of groups brings the bank back to group 0 |
| DramBank.RefreshesAdvance | src/dram/bank.cpp:23-27 | k back-to-back refreshes below the last group advance the group by k and keep the bank busy for at most k times tRFC |
| DramBank.RefreshesSplit | src/dram/bank.cpp:23-27 | k+1 back-to-back refreshes are k refreshes followed by one more issued k times tRFC later |
| DramBank.DemandAccessDelay | src/dram/bank.cpp:28-44 | a demand access on an idle bank is taken and busies the bank for tRCD + CL, plus tRP on a row conflict, plus tRP under the closed page policy; it counts one access, and one row-buffer miss exactly on a conflict |
| DramBank.OpenPolicyLeavesRowOpen | src/dram/bank.cpp:38-39 | under the open page policy the accessed row is afterwards the open row of its subarray, so the same row does not conflict again |
| DramBank.ClosedPolicyNeverConflicts | src/dram/bank.cpp:38-42 | under the closed page policy no row is ever opened, so a bank that starts closed never counts a row-buffer miss |
| DramBank.DRAMBank.constructor | src/dram/bank.cpp:10-14 | the object starts in the fresh bank state |
| DramBank.DRAMBank.DoCommand | src/dram/bank.cpp:19-45 | the new bank state and the answer are those of the bank transition on the old state |
| DramBank.DRAMBank.IsRowInRowBuffer | src/dram/bank.cpp:50-53 | true exactly when the row is the open row of its subarray |
| DramConfig.RoundIsNearest | src/dram/config.cpp:16-18 | the rounding of a/b is the nearest integer, halves rounding up (away from zero for these non-negative times) |
| DramConfig.RoundMonotone | src/dram/config.cpp:16-18 | rounding is monotone in the numerator |
| DramConfig.CkCastMonotone | src/dram/config.cpp:16-18 | a longer time in nanoseconds never converts to fewer clock cycles |
| DramConfig.DeriveBounds | src/dram/config.cpp:31-53 | the derived timings: CWL is CL - 2, the long write-to-read gap is CWL + burst + at least 16 cycles, the read-to-write gaps copy the write-to-read ones, the long-gap floors of 8 and 32 hold, the short gaps are 8, short never exceeds long, and tFAW is at least 32 for 4400/4800 and 40 otherwise; corrected (see Findings src/dram/config.cpp:44) |
| DramConfig.ShortWtrWithinLong | src/dram/config.cpp:39-45 | the short write-to-read gap never exceeds the long one |
| DramConfig.RoundScale | src/dram/config.cpp:16-18 | scaling numerator and denominator by the same factor does not change the rounding |
| DramConfig.DivModScale | src/dram/config.cpp:16-18 | scaling numerator and divisor by the same factor does not change the quotient |
| DramConfig.ChainedAssignmentClobbersCwl | src/dram/config.cpp:44 | at the default clock with CL 40 and burst 16, the chained assignment leaves CWL at 22 and the short write-to-read gap at 22, where CL - 2 = 38 and 38 + 16 + 6 = 60 were meant |
| DramConfig.DefaultCasts | src/dram/config.cpp:37-52 | at the default tCK of 0.416 ns the conversions of 5, 20, 10, 2.5, 14.545, 13.333 and 15.384 ns give 12, 48, 24, 6, 35, 32 and 37 cycles |
| DramConfig.Default4800 | src/dram/config.cpp:31-53 | at the default clock with CL 40 the 4800 timings are tCCD_L 12, tCCD_L_WR 48, tRRD_L 12, tFAW 32, and write-to-read gaps of 38 + burst + 24 and 38 + burst + 6; corrected (see Findings src/dram/config.cpp:44) |
| DramConfig.DRAMConfig.constructor | src/dram/config.h:41-43 | a new configuration has tCK 0.416 ns and CL 40 |
| DramConfig.DRAMConfig.FillCommon | src/dram/config.cpp:23-26 | sets the inverse clock to the reciprocal of tCK and changes no timing |
| DramConfig.DRAMConfig.FillConfig | src/dram/config.cpp:31-53 | the timings become the corrected derivation from tCK, CL, the burst length and the speed grade; corrected (see Findings src/dram/config.cpp:44) |
| DramRank.QueuedCommandKinds | src/dram/rank.h:25-33 | the queued read is a read and the queued write a write, they differ, and each closes its row exactly under the closed page policy |
| DramRank.Stamp | src/dram/rank.cpp:144-148 | a stamped gate opens at now + the short delay for another bankgroup and at now + the long delay for the same bankgroup |
| DramRank.QueueOf | src/dram/rank.h:130-132 | the command queue of a line address lies inside the rank's queue array |
| DramRank.QueueIndexInRange | src/dram/rank.cpp:230-233 | the index bankgroup times banks plus bank lies inside the queue array, and distinct (bankgroup, bank) pairs get distinct queues |
| DramRank.QueueOfInRange | src/dram/rank.h:130-131 | the bankgroup and the bank decoded from any line address are inside the rank |
| DramRank.NumQueuesIsPow2 | src/dram/rank.h:43 | with power-of-two geometry the number of queues is 2 to the bankgroup plus bank bits, below 2^64 |
| DramRank.SplitIndexRoundTrip | src/dram/rank.cpp:54-57 | splitting a queue index into bankgroup and bank (corrected mask) gives an in-range pair that indexes back to the same queue |
| DramRank.DefaultOrgIsPowerOfTwo | src/dram/rank.h:43 | the default organisation has 32 queues, 3 bankgroup bits, 2 bank bits, 1 channel bit and 1 subchannel bit |
| DramRank.BankOfIndexAsWrittenOverruns | src/dram/rank.cpp:54 | the mask (1 << NUM_BANKS) - 1 keeps 4 bits instead of 2, so queue 5 is taken to be bank 5 of a 4-bank group; the corrected split gives bank 1 |
| DramRank.NextQueue | src/dram/rank.cpp:58 | the corrected round-robin step is the next queue modulo the number of queues |
| DramRank.NextQueueAsWrittenOverruns | src/dram/rank.cpp:58 | the step wraps modulo the 32-entry queue size, so with 16 queues it moves from queue 15 to 16, past the array, where the corrected step returns to 0 |
| DramRank.AutoPrechargeNeverAllowedAsWritten | src/dram/rank.cpp:105-110 | as written the read/write test names only READ and WRITE, so a read or write with auto-precharge is never allowed |
| DramRank.AutoPrechargeAllowed | src/dram/rank.cpp:121-134 | corrected, an auto-precharge read or write is allowed exactly when the plain one is and the bank may precharge; plain reads and writes are unchanged |
| DramRank.AllowedConditions | src/dram/rank.cpp:94-139 | nothing runs on a bank being refreshed; a read or write needs its row open and its column gate; an activate and a precharge are never both allowed; four activates in the window block a fifth |
| DramRank.ActivateOpensRow | src/dram/rank.cpp:187-197 | an activate opens the row; a second activate is refused; a precharge waits tRAS and a read tRCD beyond the bank's old gates |
| DramRank.PrechargeClosesRow | src/dram/rank.cpp:156-185 | a precharge closes the row; an activate then waits tRP; no read and no further precharge is allowed |
| DramRank.AutoPrechargeLatency | src/dram/rank.cpp:155-176 | an auto-precharge falls through to the latency of its plain read or write, and a plain read or write leaves the bank unchanged |
| DramRank.TotalCommandsZero | src/dram/rank.cpp:222-225 | the command count is 0 exactly when every queue is empty |
| DramRank.TotalCommandsUpdate | src/dram/rank.cpp:133-136 | replacing one queue changes the total by the difference in that queue's length |
| DramRank.Remove | src/dram/rank.cpp:72 | erasing an entry shortens the queue by one and adds no command |
| DramRank.DropExpired | src/dram/rank.cpp:40-43 | the retained activation times are a suffix of the old ones; every dropped time has passed and the first kept one has not |
| DramRank.BanksAfterTick | src/dram/rank.cpp:32-39 | a waiting rank whose banks are all done gets every bank blocked until now + tRFC; otherwise the banks are unchanged |
| DramRank.RefreshBlocksBanks | src/dram/rank.cpp:210-217 | during a refresh no command is allowed on any bank, and the open rows stay as they were |
| DramRank.ClosedBanks | src/dram/rank.h:45 | the initial banks form a bankgroups by banks grid, all closed |
| DramRank.EmptyQueues | src/dram/rank.cpp:18-21 | the initial queues are all empty and hold no commands |
| DramRank.MissCommandAsWrittenWrongBank | src/dram/rank.cpp:79-84 | as written the precharge or activate keeps the address of the caller's command, so for a miss in queue 1 it can target queue 0 |
| DramRank.MissCommandTargetsQueue | src/dram/rank.cpp:79-84 | corrected, the precharge or activate targets the queue of the waiting command, and it is a precharge exactly when a row is open |
| DramRank.DRAMRank.constructor | src/dram/rank.cpp:18-26 | a new rank has closed banks, empty queues, zeroed gates, no activations, no pending refresh and no busy bank |
| DramRank.DRAMRank.SetNeedsRefresh | src/dram/rank.h:124 | marks the rank as waiting to refresh |
| DramRank.DRAMRank.GetCommandQueue | src/dram/rank.cpp:230-233 | the queue of a (bankgroup, bank) pair holds at most 32 commands, all for that bankgroup and bank |
| DramRank.DRAMRank.AllCmdQueuesAreEmpty | src/dram/rank.cpp:222-225 | true exactly when every command queue is empty |
| DramRank.DRAMRank.TryAndInsertCommand | src/dram/rank.h:126-140 | inserts the read or write command (per page policy) at the back of its queue and counts it exactly when that queue holds fewer than 32; otherwise nothing changes |
| DramRank.DRAMRank.FirstHit | src/dram/rank.cpp:67-76 | the first position in the queue that hits the open row and may run; no earlier position does |
| DramRank.DRAMRank.QueueChoice | src/dram/rank.cpp:60-85 | the choice for one queue names that queue, and a hit names a position in it; corrected (see Findings src/dram/rank.cpp:54, 79-84 and 105-110) |
| DramRank.DRAMRank.ScanFrom | src/dram/rank.cpp:53-87 | the round-robin scan ends on an in-range queue, and any choice it makes names a real queue and position; corrected (see Findings src/dram/rank.cpp:54, 58, 79-84 and 105-110) |
| DramRank.DRAMRank.ScanFromSound | src/dram/rank.cpp:53-87 | a chosen hit is a runnable command on the open row of a bank not under refresh; a chosen miss is the runnable precharge or activate for the head of a non-empty queue; corrected (see Findings src/dram/rank.cpp:54, 79-84 and 105-110) |
| DramRank.DRAMRank.VisitQueue | src/dram/rank.cpp:57-85 | visiting one queue computes that queue's choice |
| DramRank.DRAMRank.FindRowHit | src/dram/rank.cpp:67-76 | the loop returns the first runnable row hit of the queue |
| DramRank.DRAMRank.SelectCommand | src/dram/rank.cpp:49-88 | a waiting rank selects nothing and changes nothing; otherwise a hit is removed from its queue and returned, a miss returns its precharge or activate with the queues unchanged, and the next queue index is where the scan stopped; corrected (see Findings src/dram/rank.cpp:54, 58, 79-84 and 105-110) |
| DramRank.DRAMRank.RoundRobin | src/dram/rank.cpp:53-86 | the loop's choice and final queue index are those of the scan |
| DramRank.DRAMRank.TakeCommand | src/dram/rank.cpp:71-73 | returns the entry, erases it from its queue and counts one command less |
| DramRank.DRAMRank.RemoveKeepsQueue | src/dram/rank.cpp:72-73 | erasing an entry keeps the queue well formed and the command count one less |
| DramRank.DRAMRank.ExecuteCommand | src/dram/rank.cpp:150-205 | a refresh is an error with nothing changed; any other command updates its bank and the rank gates, records an activate's time, returns the command's latency and raises the busy-until cycle to now plus that latency |
| DramRank.DRAMRank.IssueRefresh | src/dram/rank.cpp:210-217 | every bank becomes blocked until now + tRFC |
| DramRank.DRAMRank.Tick | src/dram/rank.cpp:31-44 | a waiting rank refreshes once all banks are done and stops waiting; activation times that have passed are dropped |
| DramRank.DRAMRank.RefreshIfDue | src/dram/rank.cpp:33-39 | the banks and the waiting flag become those of the refresh step |
| DramRank.DRAMRank.ExpireActivates | src/dram/rank.cpp:40-43 | the activation times become those left once passed times are dropped |
| DramSubchannel.Top | src/dram/subchannel.h:34-42 | the head of the finished-read queue is a transaction with no other finishing earlier |
| DramSubchannel.TopIsEarliest | src/dram/subchannel.h:34-42 | the head's finish cycle is at most that of every queued transaction |
| DramSubchannel.Erase | src/dram/subchannel.cpp:115-124 | erasing position j shifts the later entries down by one and keeps the earlier ones |
| DramSubchannel.CountLine | src/dram/subchannel.cpp:136 | the count of pending reads for a line is 0 exactly when no entry has that line |
| DramSubchannel.WithLine | src/dram/subchannel.cpp:136-143 | the entries for the line, as many as the count |
| DramSubchannel.WithoutLine | src/dram/subchannel.cpp:136-143 | the entries for other lines, the count fewer |
| DramSubchannel.LineMembers | src/dram/subchannel.cpp:136-143 | an entry is kept for the line exactly when it is pending with that line, and kept for other lines exactly when pending with another line |
| DramSubchannel.FindLine | src/dram/subchannel.cpp:137 | the position found holds the line and no earlier position does |
| DramSubchannel.EraseFound | src/dram/subchannel.cpp:136-143 | one loop step erases the first entry for the line: the other lines stay, and that entry leads the ones finished |
| DramSubchannel.Finish | src/dram/subchannel.cpp:139 | every transaction gets the given finish cycle and nothing else changes |
| DramSubchannel.SetFired | src/dram/subchannel.cpp:123 | the transaction with the id gets the fire cycle and the others are unchanged |
| DramSubchannel.Lines | src/dram/subchannel.cpp:120-122 | the line addresses of the read queue, position by position |
| DramSubchannel.DrainAfter | src/dram/subchannel.cpp:95-109 | a drain starts exactly when none is running, the buffer is not empty, and it is full or the command queues are empty with more than 8 writes; a started drain covers the whole buffer |
| DramSubchannel.Completion | src/dram/subchannel.cpp:38-39 | corrected, a completed command settles a read exactly when it is the queued read and a write exactly when it is the queued write |
| DramSubchannel.AfterCompletion | src/dram/subchannel.cpp:134-149 | a settled read moves every pending read of the line to the finished reads with the finish cycle; a settled write clears the line's pending write; nothing else changes |
| DramSubchannel.ActivateClearsPendingWriteAsWritten | src/dram/subchannel.cpp:38-39 | as written an activate or precharge for a line clears its pending write although no write ran; corrected, it stays pending |
| DramSubchannel.OnlyWriteClearsPending | src/dram/subchannel.cpp:146-149 | corrected, a pending write is cleared exactly by the queued write for its line |
| DramSubchannel.RefreshRound | src/dram/subchannel.cpp:75-88 | n refresh steps from rank 0 return to rank 0 and move the next refresh one tREFI later; fewer steps only advance the rank |
| DramSubchannel.RefreshFrom | src/dram/subchannel.cpp:78-83 | k refresh steps from rank i land on rank i+k, wrapping to 0 and adding tREFI after the last rank |
| DramSubchannel.RankOf | src/dram/subchannel.h:149 | the rank decoded from a line address lies inside the subchannel |
| DramSubchannel.FirstInsertable | src/dram/subchannel.cpp:112-127 | the first buffered line that can be inserted; no earlier line can |
| DramSubchannel.AppendedQueuesOne | src/dram/subchannel.h:144-150 | an insertion adds exactly one command to the ranks' queues |
| DramSubchannel.QueuedUpdate | src/dram/rank.h:133-135 | replacing one rank's queues changes the total by the difference |
| DramSubchannel.DrainStep | src/dram/subchannel.cpp:111-118 | the drain count drops by one and one buffered write moves into the command queues exactly when some buffered write is insertable; otherwise nothing changes; writes are conserved |
| DramSubchannel.ReadStep | src/dram/subchannel.cpp:119-127 | one queued read moves into the command queues exactly when some read is insertable; otherwise nothing changes; reads are conserved |
| DramSubchannel.NextRankIsIncrement | src/dram/subchannel.cpp:33 | the power-of-two increment of a rank index is the next rank modulo the rank count |
| DramSubchannel.TurnsIsMod | src/dram/subchannel.cpp:31-33 | k turns from a starting rank land on start + k modulo the rank count |
| DramSubchannel.DRAMSubchannel.constructor | src/dram/subchannel.cpp:13-18 | a new subchannel has empty queues and buffers, no drain, refresh due at cycle 0 from rank 0, and fresh empty ranks |
| DramSubchannel.DRAMSubchannel.MakeRequest | src/dram/subchannel.cpp:51-70 | a read is accepted exactly when the read queue has room; a read of a line with a pending write finishes at once; otherwise it is queued and pending; a write is accepted exactly when the buffer has room and becomes pending; a refused request changes nothing |
| DramSubchannel.DRAMSubchannel.CompleteRead | src/dram/subchannel.cpp:134-144 | every pending read of the line leaves the pending reads and is finished at cycle + latency |
| DramSubchannel.DRAMSubchannel.CompleteWrite | src/dram/subchannel.cpp:146-149 | the line's pending write is cleared |
| DramSubchannel.DRAMSubchannel.ScheduleRefresh | src/dram/subchannel.cpp:75-88 | the next rank is marked for refresh, and the rank index and the next refresh cycle take one refresh step |
| DramSubchannel.DRAMSubchannel.AllCmdQueuesAreEmpty | src/dram/subchannel.cpp:154-161 | true exactly when every rank's command queues are empty |
| DramSubchannel.DRAMSubchannel.TryAndInsertCommand | src/dram/subchannel.h:144-150 | a write for a line with a pending read is refused; otherwise the command goes to its rank's queue exactly when that queue has room |
| DramSubchannel.DRAMSubchannel.InsertFirstWrite | src/dram/subchannel.cpp:112-118 | inserts the first insertable buffered write and reports its position; with none the queues are unchanged |
| DramSubchannel.DRAMSubchannel.DrainOneWrite | src/dram/subchannel.cpp:111-118 | the buffer, drain count and queues take one drain step |
| DramSubchannel.DRAMSubchannel.InsertFirstRead | src/dram/subchannel.cpp:120-127 | inserts the first insertable queued read and reports its position; with none the queues are unchanged |
| DramSubchannel.DRAMSubchannel.IssueOneRead | src/dram/subchannel.cpp:119-127 | the read queue and queues take one read step |
| DramSubchannel.DRAMSubchannel.StartDrainIfDue | src/dram/subchannel.cpp:95-109 | the drain count follows the drain rule; a started drain is counted, and as opportunistic when the queues were empty with more than 8 writes |
| DramSubchannel.DRAMSubchannel.ScheduleNextRequest | src/dram/subchannel.cpp:93-129 | when a drain is on after the rule, one write drain step runs and reads are untouched; otherwise one read step runs and the buffer is untouched |
| DramSubchannel.DRAMSubchannel.Settle | src/dram/subchannel.cpp:38-39 | the pending and finished sets follow the corrected completion of the issued command; corrected (see Findings src/dram/subchannel.cpp:38-39) |
| DramSubchannel.DRAMSubchannel.SelectFromRanks | src/dram/subchannel.cpp:31-43 | visits ranks in turn from the next rank, stops at the first that selects a command, and leaves the next rank after the last visited |
| DramSubchannel.DRAMSubchannel.IssueCommand | src/dram/subchannel.cpp:29-43 | with no command from any rank nothing settles; otherwise the command runs with its latency and settles by the corrected completion; corrected (see Findings src/dram/subchannel.cpp:38-39) |
| DramSubchannel.DRAMSubchannel.IssueOn | src/dram/subchannel.cpp:33-41 | the chosen rank executes the command, the latency is that of its type, and the pending and finished reads and pending writes follow the corrected completion; corrected (see Findings src/dram/subchannel.cpp:38-39) |
| DramSubchannel.DRAMSubchannel.Tick | src/dram/subchannel.cpp:23-46 | when the refresh cycle is reached the refresh pointer and cycle take the round-robin refresh step, otherwise they stay; then, as for Serve, the round-robin pointer moves past the ranks offered the command, an issued command (never a refresh) settles its reads and writes after its latency, and one write is drained or one read scheduled; corrected (see Findings src/dram/subchannel.cpp:38-39) |
| DramSubchannel.DRAMSubchannel.Serve | src/dram/subchannel.cpp:29-45 | the round-robin pointer moves past the ranks offered the command (all of them when none issues); an issued command, never a refresh, settles its line's pending reads and writes after its latency; then, if a drain is due, one write moves from the buffer to its rank queue, and otherwise one read is scheduled; corrected (see Findings src/dram/subchannel.cpp:38-39) |
| DramSubchannel.DRAMSubchannel.VisitNextRank | src/dram/subchannel.cpp:31-34 | one turn of the loop visits the next rank and advances the next-rank index by one modulo the rank count; a selected command is never a refresh |
| DramSubchannel.DRAMSubchannel.SelectOn | src/dram/subchannel.cpp:35 | a command selected from one rank is never a refresh |
| DramSubchannel.DRAMSubchannel.ExecuteOn | src/dram/subchannel.cpp:36 | executing a selected command on a rank gives the latency of its command type |
| DramChannel.NewRankData | src/dram/channel.h:40-66 | a fresh rank record is well shaped, has no recorded activations, owes every bank a refresh and has its first refresh at cycle 0 |
| DramChannel.StaggerWithinPeriod | src/dram/channel.cpp:15-21 | under the staggered policy the ranks' first refresh cycles rise with the rank index and all fall inside the first tREFI |
| DramChannel.BankIndexFits | src/dram/channel.cpp:71-73 | the flat index of a bank inside its bankgroup lies inside the rank |
| DramChannel.BankIdSplit | src/dram/channel.cpp:71-72 | splitting a flat bank id by division and remainder gives an in-range bankgroup and bank that index back to the same id |
| DramChannel.DoCmdKeepsShape | src/dram/bank.cpp:19-45 | a bank command never changes the number of subarrays |
| DramChannel.RefreshOne | src/dram/channel.cpp:73-77 | refreshing one owed bank keeps the rank record well shaped |
| DramChannel.RefreshUpTo | src/dram/channel.cpp:70-78 | refreshing the first k banks changes only the banks and the owed set |
| DramChannel.RefreshUpToBank | src/dram/channel.cpp:70-78 | after the first k banks are visited, an owed bank below k has taken the refresh and every other bank is unchanged |
| DramChannel.RefreshUpToPending | src/dram/channel.cpp:75-77 | a bank stays owed exactly when it was owed and either lies at or beyond k or was busy and refused the refresh |
| DramChannel.RefreshUpToOtherBits | src/dram/channel.cpp:76 | ids from k up, including those past the last bank, keep their owed bit |
| DramChannel.ManageRank | src/dram/channel.cpp:64-85 | the corrected per-rank refresh management keeps the record well shaped and its activations unchanged; corrected (see Findings src/dram/channel.cpp:70-78 and 80) |
| DramChannel.ManageRankPeriod | src/dram/channel.cpp:64-85 | before its refresh cycle a rank is unchanged; once due, if every owed bank takes its refresh the owed set resets to all ones and the next refresh moves a tREFI on; otherwise exactly the busy banks stay owed and the refresh cycle stays; corrected (see Findings src/dram/channel.cpp:70-78 and 80) |
| DramChannel.FfsIgnoresHigherBits | src/dram/channel.cpp:70 | clearing a bit at or above the lowest set bit found from i does not change that lowest set bit |
| DramChannel.ManageRefreshAsWrittenStuck | src/dram/channel.cpp:70-78 | as written the loop recomputes the same bank id whether or not the bank took the refresh (ffsll is one-based and clears the wrong bit), so once an id is below the bank count the loop never ends |
| DramChannel.ManageRefreshAsWrittenFromReset | src/dram/channel.cpp:64-78 | from the all-ones reset value ffsll gives 1, and after clearing bit 1 it still gives 1 |
| DramChannel.ManageRankAsWritten | src/dram/channel.cpp:64-85 | per-rank refresh management with the reset test as written (the whole 64-bit vector zero) keeps the record well shaped and its activations unchanged |
| DramChannel.ManageRankAsWrittenKeepsBit63 | src/dram/channel.cpp:70-83 | as written, with fewer than 64 banks, a vector with bit 63 set keeps it through a call, so the refresh cycle does not move |
| DramChannel.PeriodNeverAdvancesAsWritten | src/dram/channel.cpp:80-83 | as written, from the all-ones vector a rank starts with, the refresh cycle never moves however many calls are made |
| DramChannel.DropExpired | src/dram/channel.cpp:52-59 | the kept activation windows are a suffix of the old ones; every dropped one has passed and the first kept one has not |
| DramChannel.ExpiredShrinks | src/dram/channel.cpp:52-59 | expiring windows never adds one and changes nothing else in the rank record |
| DramChannel.ExpireRanks | src/dram/channel.cpp:53-58 | every rank's windows are expired and the rank count is kept |
| DramChannel.DropExpiredFaw | src/dram/channel.cpp:54-57 | the loop keeps exactly the windows that the expiry function keeps |
| DramChannel.Push | src/dram/channel.cpp:37-47 | the corrected push keeps the slot count, a pointer in range and a size at most the capacity |
| DramChannel.PushAppends | src/dram/channel.cpp:37-47 | corrected (head pointer unchanged), a push appends the entry to the live window |
| DramChannel.PushAsWrittenLosesEntry | src/dram/channel.cpp:39-45 | as written the push also advances the head pointer, so pushing onto an empty queue leaves a stale slot as the only live entry instead of the new one |
| DramChannel.MaskIsMod | src/dram/channel.cpp:39 | masking with the queue size minus 1 is the remainder by 32 |
| DramChannel.AssignInConditionTakesSameBankGap | src/dram/channel.cpp:100-113 | as written the test `last_bank_ = bank` assigns and is true for a non-zero bank, so a write to bank 2 after a write to bank 1 of the same group waits tCCD_L_WR and the record claims bank 2; the comparison gives tCCD_M_WR |
| DramChannel.CcdGapByScope | src/dram/channel.cpp:100-123 | corrected, after a write the gap is the long write gap for the same bank, the middle one for another bank of the bankgroup and the short one for another bankgroup |
| DramChannel.Target | src/dram/channel.cpp:124 | the targeted bank lies inside the rank |
| DramChannel.Issue | src/dram/channel.cpp:91-139 | the head command issues exactly when the bank-to-bank gap has passed, the bank is idle and it is not an activate with four windows open; then the bank takes it, the rank records its group, bank, cycle and write flag, an activate opens a window ending tFAW later, at most four windows stay open, and the other banks are untouched; corrected (see Findings src/dram/channel.cpp:101) |
| DramChannel.DRAMChannel.constructor | src/dram/channel.cpp:10-22 | a new channel has an empty queue at cycle 0 and one fresh rank record per rank, with the staggered first refresh cycles |
| DramChannel.DRAMChannel.PushBackCmd | src/dram/channel.cpp:37-47 | a full queue refuses and is unchanged; otherwise the entry, stamped with the current cycle, is appended to the queue contents; corrected (see Findings src/dram/channel.cpp:39-45) |
| DramChannel.DRAMChannel.CheckFaw | src/dram/channel.cpp:51-59 | every rank's passed activation windows are dropped |
| DramChannel.DRAMChannel.RefreshBanks | src/dram/channel.cpp:70-78 | the corrected loop over bank ids refreshes the owed idle banks as the specification function says |
| DramChannel.DRAMChannel.ManageRefresh | src/dram/channel.cpp:64-85 | every rank becomes its corrected managed record; corrected (see Findings src/dram/channel.cpp:70-78 and 80) |
| DramChannel.DRAMChannel.ExecuteNextCmd | src/dram/channel.cpp:90-139 | an empty queue changes nothing; otherwise the head command's rank becomes the issued record and the head is stamped with its exit cycle, or nothing changes when it cannot issue; corrected (see Findings src/dram/channel.cpp:101) |
| DramChannel.DRAMChannel.IssueOn | src/dram/channel.cpp:99-138 | the method's result is the issue function's |
| DramChannel.DRAMChannel.Tick | src/dram/channel.cpp:27-31 | the queue pointer and size stay the same, since the head command is never popped; the effects of the two steps are stated on ManageRefresh and ExecuteNextCmd |
| Ds3BankState.GroupInRange | DRAMsim3/src/bankstate.cc:383 | with MIRZA on, a row below the row count falls in a group below the group count, and groups hold at least one row |
| Ds3BankState.InitialData | DRAMsim3/src/bankstate.cc:5-51 | the initial bank record is well formed and closed with no open row; every timing, the RAA counter, the refresh index and every row counter are 0; the MIRZA queue is empty and no MOAT row is tracked |
| Ds3BankState.RequiredIsAccepted | DRAMsim3/src/bankstate.cc:54-146 | whenever a command is required, the bank's state machine accepts that command in its current state |
| Ds3BankState.ReadWriteRequirement | DRAMsim3/src/bankstate.cc:57-140 | for a read or write: a closed bank needs an activate unless the RAA counter has reached RAAMMT under RFM mode 1 or 2, which need a same-bank or all-bank RFM; an open bank needs the command itself on a row hit and a precharge otherwise; a bank in self refresh needs a self-refresh exit |
| Ds3BankState.MaintenanceRequirement | DRAMsim3/src/bankstate.cc:79-139 | a refresh, self-refresh entry or RFM runs itself on a closed bank, needs a precharge on an open bank, and aborts in self refresh |
| Ds3BankState.ReadyFor | DRAMsim3/src/bankstate.cc:148-155 | the answer aborts exactly when nothing can be required; an issued command is the required one at the same address and its timing has passed; a wait means the required command's timing has not |
| Ds3BankState.TimingUpdated | DRAMsim3/src/bankstate.cc:305-309 | only the given command's earliest time changes, it never decreases, it becomes at least the given time, and it is either the old value or that time |
| Ds3BankState.GeostatBin | DRAMsim3/src/bankstate.cc:159-175 | bin 0 holds exactly 0, bin 1 exactly 1, bin 12 exactly the values above 1024, and bin b in 2..11 the values in (2^(b-2), 2^(b-1)] |
| Ds3BankState.GeostatBinMonotone | DRAMsim3/src/bankstate.cc:159-175 | larger values never fall in a lower bin |
| Ds3BankState.Cleared | DRAMsim3/src/bankstate.cc:217-222 | clearing the refreshed rows keeps the number of per-row counters |
| Ds3BankState.OffsetStep | DRAMsim3/src/bankstate.cc:219 | row j is the i-th row visited from the refresh index, wrapping modulo the row count, exactly when its offset from that index is i |
| Ds3BankState.ClearedRows | DRAMsim3/src/bankstate.cc:217-222 | after clearing n rows from the refresh index, a row's counter is 0 if the walk visited it and unchanged otherwise |
| Ds3BankState.FindRow | DRAMsim3/src/bankstate.cc:418-420 | the first MIRZA queue entry for the row, or none when no entry has that row |
| Ds3BankState.FirstMax | DRAMsim3/src/bankstate.cc:491-493 | the first queue entry whose activation count is the largest |
| Ds3BankState.RemoveGroup | DRAMsim3/src/bankstate.cc:467-469 | removing a group leaves only entries of other groups, all from the old queue |
| Ds3BankState.RemoveGroupKeeps | DRAMsim3/src/bankstate.cc:467-469 | every entry of another group survives the removal |
| Ds3BankState.MirzaActed | DRAMsim3/src/bankstate.cc:378-440 | an activation changes only the MIRZA group counters, the current-group counter and the queue |
| Ds3BankState.MirzaCounted | DRAMsim3/src/bankstate.cc:383-398 | counting an activation changes only the group counters and the current-group counter |
| Ds3BankState.MirzaTracked | DRAMsim3/src/bankstate.cc:418-439 | tracking an activation changes only the MIRZA queue |
| Ds3BankState.MirzaRefreshed | DRAMsim3/src/bankstate.cc:442-479 | a refresh changes only the current group, its counter, the group counters and the queue |
| Ds3BankState.MirzaMitigated | DRAMsim3/src/bankstate.cc:481-500 | a mitigation changes only the MIRZA queue |
| Ds3BankState.MirzaRefreshDropsGroup | DRAMsim3/src/bankstate.cc:442-479 | off a group boundary the refresh changes nothing; on one, the refreshed group becomes current with its count, its counter is reset, its entries leave the queue and all other entries stay |
| Ds3BankState.MirzaMitigRemovesHottest | DRAMsim3/src/bankstate.cc:481-500 | mitigation removes exactly the first entry with the largest activation count and keeps the others in order |
| Ds3BankState.MoatActed | DRAMsim3/src/bankstate.cc:504-516 | an activation changes only the tracked MOAT row |
| Ds3BankState.MoatRefreshed | DRAMsim3/src/bankstate.cc:518-527 | a refresh changes only the tracked MOAT row |
| Ds3BankState.Bump | DRAMsim3/src/bankstate.cc:254 | the counter of one row grows by one, wrapping at 2^16, and the others are unchanged |
| Ds3BankState.MoatMitigated | DRAMsim3/src/bankstate.cc:529-546 | a mitigation changes only the per-row counters and the tracked row |
| Ds3BankState.MoatMitigEffect | DRAMsim3/src/bankstate.cc:529-546 | with no tracked row nothing changes; otherwise the tracked row's counter is cleared, each existing neighbour within two rows gains one (wrapping at 2^16), all other rows are unchanged, and no row is tracked |
| Ds3BankState.Decrement | DRAMsim3/src/bankstate.cc:211 | the RAA counter drops by the decrement, never below 0 |
| Ds3BankState.Transition | DRAMsim3/src/bankstate.cc:177-303 | the bank takes the command exactly when its state accepts it, and the new record is well formed |
| Ds3BankState.StatusTransitions | DRAMsim3/src/bankstate.cc:177-303 | a read or write on an open bank counts a row hit; a precharge in any form closes the row and resets the hit count; an activate opens its row; self-refresh entry and exit move to and from self refresh; refresh and RFM leave the bank closed |
| Ds3BankState.ActivateCounts | DRAMsim3/src/bankstate.cc:242-261 | an activate adds one to the RAA counter and to its row's counter (wrapping at 2^16), leaves other rows, the refresh index and the timings alone |
| Ds3BankState.RefreshEffect | DRAMsim3/src/bankstate.cc:207-231 | a refresh lowers the RAA counter by the refresh decrement, clears the refreshed rows' counters and advances the refresh index by the rows refreshed, modulo the row count |
| Ds3BankState.RfmEffect | DRAMsim3/src/bankstate.cc:232-240 | an RFM lowers the RAA counter by the RFM decrement; a same-bank RFM changes nothing else |
| Ds3BankState.AccessKeepsCounters | DRAMsim3/src/bankstate.cc:181-184 | a read or write on an open bank leaves the row counters, refresh index, RAA counter and timings unchanged |
| Ds3BankState.MoatMitigClearsAlert | DRAMsim3/src/bankstate.cc:529-546 | under MOAT alone, after a mitigation the bank raises no alert |
| Ds3BankState.BankState.constructor | DRAMsim3/src/bankstate.cc:5-51 | a new bank holds the initial record for its configuration and its position |
| Ds3BankState.BankState.GetReadyCommand | DRAMsim3/src/bankstate.cc:54-156 | the answer is that of the ready-command rule on the bank's current record |
| Ds3BankState.BankState.UpdateTiming | DRAMsim3/src/bankstate.cc:305-309 | the record becomes the timing-updated record |
| Ds3BankState.BankState.ClearRefreshedRows | DRAMsim3/src/bankstate.cc:217-222 | the loop clears exactly the refreshed rows' counters and changes nothing else |
| Ds3BankState.BankState.MirzaRefresh | DRAMsim3/src/bankstate.cc:442-479 | the record becomes the MIRZA-refreshed record |
| Ds3BankState.BankState.MirzaMitig | DRAMsim3/src/bankstate.cc:481-500 | the record becomes the MIRZA-mitigated record |
| Ds3BankState.BankState.MirzaAct | DRAMsim3/src/bankstate.cc:378-440 | the record becomes the MIRZA-activated record for the row and the random draw |
| Ds3BankState.BankState.MirzaCount | DRAMsim3/src/bankstate.cc:383-407 | the record becomes the counted record for the row |
| Ds3BankState.BankState.MirzaTrack | DRAMsim3/src/bankstate.cc:418-439 | the record becomes the tracked record for the row and the draw |
| Ds3BankState.BankState.MoatAct | DRAMsim3/src/bankstate.cc:504-516 | the record becomes the MOAT-activated record for the row |
| Ds3BankState.BankState.MoatRefresh | DRAMsim3/src/bankstate.cc:518-527 | the record becomes the MOAT-refreshed record |
| Ds3BankState.BankState.MoatMitig | DRAMsim3/src/bankstate.cc:529-546 | the record becomes the MOAT-mitigated record |
| Ds3BankState.BankState.UpdateState | DRAMsim3/src/bankstate.cc:177-303 | a command the state accepts moves the record by the transition; any other command aborts and leaves the record unchanged |
| Ds3BankState.BankState.Refresh | DRAMsim3/src/bankstate.cc:207-231 | the record becomes the refreshed record |
| Ds3BankState.BankState.Rfm | DRAMsim3/src/bankstate.cc:232-240 | the record becomes the record after the RFM |
| Ds3BankState.BankState.ActivateRow | DRAMsim3/src/bankstate.cc:242-261 | the record becomes the activated record for the row and the draw |
| Ds3ChannelState.InitialBanks | DRAMsim3/src/channel_state.cc:4-35 | the initial bank records form a ranks by bankgroups by banks grid of well-formed records |
| Ds3ChannelState.Entry | DRAMsim3/src/channel_state.cc:70-115 | a queue entry built for a bank, bankset or rank key matches that key |
| Ds3ChannelState.FirstMatch | DRAMsim3/src/channel_state.cc:76-82 | the first queue position whose entry matches the key, and none when no entry matches |
| Ds3ChannelState.CountAppend | DRAMsim3/src/channel_state.cc:70-115 | the number of entries matching a key in two joined queues is the sum of the two counts |
| Ds3ChannelState.CountNone | DRAMsim3/src/channel_state.cc:76-82 | a queue with no matching entry counts 0 matches |
| Ds3ChannelState.ErasedRemovesOne | DRAMsim3/src/channel_state.cc:76-82 | erasing by key leaves a queue with no match unchanged; otherwise it removes exactly one matching entry and keeps every non-matching entry |
| Ds3ChannelState.ErasedSubset | DRAMsim3/src/channel_state.cc:76-82 | erasing adds no entry |
| Ds3ChannelState.RequestedQueues | DRAMsim3/src/channel_state.cc:118-176 | after an RFM request the queue holds an entry for the key; it is unchanged exactly when such an entry was there, and otherwise gains one new entry at the back |
| Ds3ChannelState.ErasedRfmOk | DRAMsim3/src/channel_state.cc:135-144 | erasing keeps the RFM queue free of duplicate keys |
| Ds3ChannelState.RequestedRfmOk | DRAMsim3/src/channel_state.cc:118-176 | requesting an RFM keeps the RFM queue free of duplicate keys |
| Ds3ChannelState.Slid | DRAMsim3/src/channel_state.cc:575-588 | sliding an activation window drops at most one time, appends now plus the span as its last time, and never shrinks it |
| Ds3ChannelState.SlideKeepsLive | DRAMsim3/src/channel_state.cc:575-579 | every time still in the future is kept, and the window keeps its length only when its oldest time had passed |
| Ds3ChannelState.SlideSorted | DRAMsim3/src/channel_state.cc:575-579 | a sorted window whose times are at most now plus the span stays sorted after sliding |
| Ds3ChannelState.WindowBlocks | DRAMsim3/src/channel_state.cc:590-607 | for a sorted window, activation is blocked exactly when the window holds the limit (4 or 32) or more times and every one is still in the future |
| Ds3ChannelState.RemainingIsBanks | DRAMsim3/src/channel_state.cc:183-184 | the banks left to scan from bankgroup j are the remaining bankgroups times the banks per group |
| Ds3ChannelState.RankScanSound | DRAMsim3/src/channel_state.cc:181-204 | the rank scan answers the requested command only when every bank from the scan point on is ready for it and all banks were counted |
| Ds3ChannelState.RankScanComplete | DRAMsim3/src/channel_state.cc:181-204 | when every remaining bank is ready for the command, the rank scan answers the command itself |
| Ds3ChannelState.RankScanRedirects | DRAMsim3/src/channel_state.cc:186-192 | a different command from the rank scan is the one some bank requires, addressed to that bank's rank, bankgroup and bank |
| Ds3ChannelState.RankReadiness | DRAMsim3/src/channel_state.cc:181-204 | a rank command is ready exactly when the rank has banks and every bank is ready for it, and then it is answered as given; any other answer is a bank's required command readdressed to that bank |
| Ds3ChannelState.SetScanSound | DRAMsim3/src/channel_state.cc:205-227 | the bankset scan answers the command only when the bank is ready in every remaining bankgroup |
| Ds3ChannelState.SetScanComplete | DRAMsim3/src/channel_state.cc:205-227 | when the bank is ready in every remaining bankgroup the scan answers the command itself |
| Ds3ChannelState.SetReadiness | DRAMsim3/src/channel_state.cc:205-227 | a same-bank command is ready exactly when there are bankgroups and the bank is ready in each, and then it is answered as given |
| Ds3ChannelState.Constrained | DRAMsim3/src/channel_state.cc:475-478 | applying a timing list changes only the bank's timings and keeps the record well formed |
| Ds3ChannelState.ConstrainedMeets | DRAMsim3/src/channel_state.cc:475-478 | after a timing list no timing decreases, each listed command is no earlier than now plus its delay, and every timing is either unchanged or now plus the delay of some listed entry |
| Ds3ChannelState.ApplyList | DRAMsim3/src/channel_state.cc:475-478 | the loop over the list gives the constrained record |
| Ds3ChannelState.RetimeRank | DRAMsim3/src/channel_state.cc:437-546 | every bank of the rank in the scope gets the timing list applied and every other bank is unchanged |
| Ds3ChannelState.ScopesPartition | DRAMsim3/src/channel_state.cc:471-531 | same bank, other banks of the bankgroup, other bankgroups of the rank and other ranks cover every bank exactly once; the same-bank scope is the addressed bank; the two bankset scopes are disjoint and miss exactly the same bank in other ranks |
| Ds3ChannelState.BankLevelTimed | DRAMsim3/src/channel_state.cc:381-408 | the four scoped updates in turn give the timing update for a bank-level command |
| Ds3ChannelState.RankLevelTimed | DRAMsim3/src/channel_state.cc:410-419 | the same-rank update gives the timing update for a rank-level command |
| Ds3ChannelState.BanksetLevelTimed | DRAMsim3/src/channel_state.cc:420-430 | the same-bankset then other-bankset updates give the timing update for a same-bank refresh or RFM |
| Ds3ChannelState.PendingLifecycle | DRAMsim3/src/channel_state.cc:61-68 | after an activate a read or write to its row is pending on refresh; after a read or write to the row it no longer is |
| Ds3ChannelState.Stepped | DRAMsim3/src/channel_state.cc:285-323 | one bank step keeps the bank record well formed |
| Ds3ChannelState.StepRow | DRAMsim3/src/channel_state.cc:287-317 | the banks of one bankgroup in the scope all accept the command exactly when the loop succeeds, and then each of them takes its transition and the others are unchanged |
| Ds3ChannelState.StepRank | DRAMsim3/src/channel_state.cc:287-317 | the same, for every bankgroup of the rank |
| Ds3ChannelState.GetChannelAgrees | DRAMsim3/src/channel_state.cc:279-283 | the channel taken from an address is the channel field of the full address mapping, and fits in the channel bits |
| Ds3ChannelState.ChannelState.constructor | DRAMsim3/src/channel_state.cc:4-35 | a new channel state holds the initial banks, empty refresh and RFM queues, no rank in self refresh, empty activation windows, and no alert |
| Ds3ChannelState.ChannelState.IsAllBankIdleInRank | DRAMsim3/src/channel_state.cc:50-59 | true exactly when no bank of the rank has an open row |
| Ds3ChannelState.ChannelState.BankNeedRefresh | DRAMsim3/src/channel_state.cc:70-85 | a needed refresh appends a bank refresh entry; otherwise the first entry for the bank is erased |
| Ds3ChannelState.ChannelState.BanksetNeedRefresh | DRAMsim3/src/channel_state.cc:87-100 | a needed refresh appends a same-bank refresh entry; otherwise the first entry for the bankset is erased |
| Ds3ChannelState.ChannelState.RankNeedRefresh | DRAMsim3/src/channel_state.cc:102-115 | a needed refresh appends an all-bank refresh entry; otherwise the first entry for the rank is erased |
| Ds3ChannelState.ChannelState.NeedRefresh | DRAMsim3/src/channel_state.cc:70-115 | the shared loop appends the entry or erases the first match for the key |
| Ds3ChannelState.ChannelState.BanksetNeedRFM | DRAMsim3/src/channel_state.cc:118-146 | a needed RFM is requested for the bankset (added once only); otherwise the first entry for it is erased |
| Ds3ChannelState.ChannelState.RankNeedRFM | DRAMsim3/src/channel_state.cc:148-176 | a needed RFM is requested for the rank (added once only); otherwise the first entry for it is erased |
| Ds3ChannelState.ChannelState.NeedRfm | DRAMsim3/src/channel_state.cc:118-176 | the shared loop requests or erases for the key |
| Ds3ChannelState.ChannelState.UpdateActivationTimes | DRAMsim3/src/channel_state.cc:575-588 | the rank's four-activation window slides by tFAW, and under GDDR its 32-activation window slides by t32AW; other ranks are unchanged |
| Ds3ChannelState.ChannelState.RankReady | DRAMsim3/src/channel_state.cc:181-204 | the nested loops give the rank scan's answer |
| Ds3ChannelState.ChannelState.BanksetReady | DRAMsim3/src/channel_state.cc:205-227 | the loop gives the bankset scan's answer |
| Ds3ChannelState.ChannelState.GetReadyCommand | DRAMsim3/src/channel_state.cc:178-277 | rank and bankset commands follow their scans; a bank command that is not ready is passed on; a ready one waits and requests an all-bank RFM and clears the alert once the alert window has passed, waits and queues an RFM when an RFM is required, waits when an activate would break the activation windows, and is issued otherwise |
| Ds3ChannelState.ChannelState.UpdateState | DRAMsim3/src/channel_state.cc:285-323 | when every bank in the command's scope accepts it, those banks step, a completed refresh or RFM leaves its queue, and self-refresh entry and exit set and clear the rank's flag; other ranks are unchanged; a refused command changes nothing |
| Ds3ChannelState.ChannelState.TriggerSameBankAlert | DRAMsim3/src/channel_state.cc:325-340 | an alert is raised (and its cycle recorded) exactly when none is up, enough activations have passed, alert mode 1 is on and the bank reports an alert |
| Ds3ChannelState.ChannelState.TriggerSameRankAlert | DRAMsim3/src/channel_state.cc:343-369 | the same, when some bank of the rank reports an alert |
| Ds3ChannelState.ChannelState.UpdateScopeTiming | DRAMsim3/src/channel_state.cc:437-546 | every rank is retimed for the scope with the timing list |
| Ds3ChannelState.ChannelState.UpdateTiming | DRAMsim3/src/channel_state.cc:371-435 | the banks get the command's timing update; the activation count, the activation windows and the alert follow the command, including the fall-through from activate to precharge to read |
| Ds3ChannelState.ChannelState.CountAndAlert | DRAMsim3/src/channel_state.cc:373-422 | counts an activate (and resets the count on an all-bank RFM), slides the windows on an activate, and raises an alert by the command's alert rule |
| Ds3ChannelState.ChannelState.BankLevelTiming | DRAMsim3/src/channel_state.cc:381-408 | a bank-level command gets the four scoped timing updates |
| Ds3ChannelState.ChannelState.RankLevelTiming | DRAMsim3/src/channel_state.cc:410-419 | a rank-level command gets the same-rank timing update |
| Ds3ChannelState.ChannelState.BanksetLevelTiming | DRAMsim3/src/channel_state.cc:420-430 | a same-bank command gets the two bankset timing updates |
| Ds3ChannelState.ChannelState.UpdateTimingAndStates | DRAMsim3/src/channel_state.cc:548-562 | the state step then the timing update: a refused command changes nothing; an accepted one steps the banks in scope, updates the refresh and RFM queues and self-refresh flags, retimes every bank, counts activations, slides the activation windows and raises the alert as the timing update states |
| Ds3ChannelState.EraseFirst | DRAMsim3/src/channel_state.cc:76-82 | the loop erases the first entry matching the key, as the erase function says |
| Ds3Config.GetDRAMProtocol | DRAMsim3/src/configuration.cc:79-94 | a protocol is found only under its own name; any other name is an abort (none) |
| Ds3Config.ProtocolNamesResolve | DRAMsim3/src/configuration.cc:79-94 | each of the twelve protocol names looks up its own protocol |
| Ds3Config.GetRowBufPolicy | DRAMsim3/src/configuration.cc:240-250 | a row buffer policy is found only under its own name; any other name aborts |
| Ds3Config.RowBufPolicyNamesResolve | DRAMsim3/src/configuration.cc:240-250 | each of the three row buffer policy names looks up its own policy |
| Ds3Config.GetRefreshPolicy | DRAMsim3/src/configuration.cc:257-272 | a refresh policy is found only under its own name; any other name aborts |
| Ds3Config.RefreshPolicyNamesResolve | DRAMsim3/src/configuration.cc:257-272 | each of the five refresh policy names looks up its own policy |
| Ds3Config.InitDRAMParams | DRAMsim3/src/configuration.cc:101-166 | the structure parameters are derived exactly when the protocol name is known |
| Ds3Config.BankgroupFoldKeepsBanks | DRAMsim3/src/configuration.cc:107-114 | the bank count is the configured bankgroups times banks per group whether or not bankgroups are enabled; disabled bankgroups leave one group, enabled ones keep the configured shape |
| Ds3Config.BurstCycleOfBL | DRAMsim3/src/configuration.cc:139-151 | outside HMC a set BL is kept and the burst cycle is BL divided (rounding down) by 4, 8, 16 or 2 by protocol family; a BL of 0 gives burst 0 and becomes 4 on HBM and 8 otherwise |
| Ds3Config.CalculateSize | DRAMsim3/src/configuration.cc:58-77 | there is at least one rank and the channel size is whole ranks; a request smaller than a rank gets one rank, and otherwise the size is rounded down to within one rank of the request |
| Ds3Config.LogBase2 | DRAMsim3/src/configuration.cc:387-391 | the shift and field widths use the floor of the base-2 logarithm |
| Ds3Config.Tokens | DRAMsim3/src/configuration.cc:421-426 | the mapping string is cut into its consecutive two-character fields, in order |
| Ds3Config.Positions | DRAMsim3/src/configuration.cc:428-438 | the position loop succeeds exactly when every field is a known field name |
| Ds3Config.PositionIsSpan | DRAMsim3/src/configuration.cc:428-438 | with distinct known fields, each field's position is the sum of the widths of the fields after it in the string |
| Ds3Config.FieldPositions | DRAMsim3/src/configuration.cc:428-438 | the loop that pops fields from the back gives the positions of the recursive definition |
| Ds3Config.SetAddressMapping | DRAMsim3/src/configuration.cc:383-471 | a mapping is built only from 12 or 14 characters, MOP is on exactly for 14, the shift is the log of the request size, and every mask is two to the field width minus one |
| Ds3Config.MappingPositions | DRAMsim3/src/configuration.cc:428-446 | for a six-field mapping of distinct known fields, each decoder position is the sum of the widths of the later fields |
| Ds3Config.BadMappingsAbort | DRAMsim3/src/configuration.cc:405-436 | a mapping of another length aborts, as does one holding an unknown field |
| Ds3Config.MopColumnFits | DRAMsim3/src/configuration.cc:45-50 | the MOP column is the high part shifted over the low bits and joined to them, and fits the column bits |
| Ds3Config.BankFieldsFit | DRAMsim3/src/configuration.cc:37-43 | each decoded channel, rank, bankgroup, bank and row is below two to its field width |
| Ds3Config.DecodedFieldsFit | DRAMsim3/src/configuration.cc:37-56 | every field of a decoded address fits its width, and with MOP the column is high times the MOP size plus low |

## Left out

- File, console and process I/O are left out: printing, the statistics dumps, `PrintDeadlock`, reading INI files and writing configuration files (the generators' output is modelled as the text they would write).
- Reading gzip-compressed traces (zlib) is left out; the trace is a sequence parameter.
- Timers, wall-clock measurements and the simulator's statistics counters that only feed reports are left out: bank and rank activation statistics, `simple_stats` and `rank_idle_cycles`.
- The `MemorySystem` interface, the cache controllers and the instruction generators in `cpu.cc` are not part of this model; the LLC result of each access is a parameter.
- Floating point is left out; clock periods and delays are exact rationals, so float rounding error is not modelled. `CKCAST` uses C's `round`, halves away from zero (`DramConfig.RoundHalfAway`); `cyc` in the configuration script uses Python's `round`, halves to even (`MakeConf.RoundHalfEven`).
- The argument parser's floating-point branch (`std::stof`) is left out with the rest of floating point. `std::stoull` and `std::stoll` are modelled with leading space, an optional sign, decimal digits, the 64-bit ranges where they throw, and the wrap of a negated unsigned value (`ArgParse.Stoull`, `ArgParse.Stoll`).
- For an unknown option, utils/argparse.cpp lines 69-74 look up and insert a map key that is a `string_view` into the temporary `opt`, which is destroyed after the iteration. The model keys the map by an owned string, so the dangling key is not modelled.
- Python's `int()` is modelled for surrounding whitespace (every character Python counts as space: `\t` to `\r`, U+001C to U+001F, space, U+0085, U+00A0, U+1680, U+2000 to U+200A, U+2028, U+2029, U+202F, U+205F and U+3000), an optional sign and ASCII decimal digits with single underscores between them; other Unicode decimal digits, which `int()` also accepts, are not modelled.
- Random draws are parameters: the MIRZA sampling draw, the page chosen by `map_page`, and the way chosen by `CacheSet::rand`.
- Power-down and the `SIZE` placeholder bank states of DRAMsim3 are left out; only closed, open and self-refresh are modelled.
- Only MIRZA and MOAT modes 0 and 1 are modelled. With both on, the MOAT index the source leaves uninitialised is taken as -1.
- The MIRZA group of a row is the row divided by the group size. The row count is assumed to be a multiple of the MIRZA group count, a requirement on the configuration.
- DRAMsim3's `common.h`, `channel_state.h` and `common.cc` are not part of this model. `ResetAlert` is taken to clear the alert flag, `IsGDDR` and `IsHBM` are taken as the protocol-family tests, and `LogBase2` is taken as the floor of the base-2 logarithm.
- The channel state holds its bank states as values, not as separate objects. Nothing aliases them, so aliasing between bank objects is not captured.
- The nested loops of `UpdateSameBankTiming` and its neighbours are modelled as one loop per rank that tests whether each bank is in scope.
- After an `AbruptExit` the model returns none or an abort value. The process exit itself and any state after it are not modelled. This covers unknown names, bad mappings, and a maintenance command while in self-refresh.
- Timing delays and cycle counts are naturals, since no configured delay is negative; the signed arithmetic of the source is not modelled.
- `BIT_WIDTH` is modelled as written: one more than the number of bits needed to write its argument.
- Constructs in the DDR5 model that cannot compile as written are read as their evident meaning, as below.
  - `pending_reads_.insert(lineaddr, trans)` is read as inserting the pair.
  - In `manage_refresh`, `bank` shadows an integer and is read as the bank record.
  - At `channel.cpp` line 108, `last_bank_was_written_to_` is read as the rank's field.
- The channel tick calls `retire_next_cmd`, which is not defined anywhere; it is modelled as `execute_next_cmd`.
- `DRAMChannel::check_faw` is never called in the source, but it is modelled as `DramChannel.DRAMChannel.CheckFaw`. The issue step also checks the four-activation window itself.
- The non-MOP `RK` at address_mapping.cpp line 57 names `b_grp`, which is not a member of the mapping; it is read as `b_bgrp`.
- `DRAMBank::do_cmd` falls off its end without a return value after a taken command; the model returns true there.
- `DRAMBank::is_row_in_row_buffer` compares a subarray index to a row; it is read as the comparison with the open row.
- When a rank's activation window is empty, its tick still reads the front entry. The model drops only the times that have passed.
- DramChannel.DRAMChannel.Tick: states only that the queue pointer and size do not change. The refresh step and the issue step each have their own contract (`ManageRefresh`, `ExecuteNextCmd`).
- AddressMapping.MopColumnLowBits: is stated for the corrected `GET_CHUNK` of address_mapping.cpp lines 15-17 (see Findings); as written the chunk is `AddressMapping.GetChunkAsWritten`, whose low bits are always set (`AddressMapping.ChunkAsWrittenLowBitsSet`), and the round trip fails (`AddressMapping.AsWrittenRoundTripFails`).
- AddressMapping.NoMopRoundTrip: is stated for the corrected `GET_CHUNK` of address_mapping.cpp lines 15-17 (see Findings); as written the chunk is `AddressMapping.GetChunkAsWritten`, whose low bits are always set (`AddressMapping.ChunkAsWrittenLowBitsSet`), and the round trip fails (`AddressMapping.AsWrittenRoundTripFails`).
- AddressMapping.MopRoundTrip: is stated for the corrected `GET_CHUNK` of address_mapping.cpp lines 15-17 (see Findings); as written the chunk is `AddressMapping.GetChunkAsWritten`, whose low bits are always set (`AddressMapping.ChunkAsWrittenLowBitsSet`), and the round trip fails (`AddressMapping.AsWrittenRoundTripFails`).
- AddressMapping.MopColumnRoundTrip: is stated for the corrected `GET_CHUNK` of address_mapping.cpp lines 15-17 (see Findings); as written the chunk is `AddressMapping.GetChunkAsWritten`, whose low bits are always set (`AddressMapping.ChunkAsWrittenLowBitsSet`), and the round trip fails (`AddressMapping.AsWrittenRoundTripFails`).
- AddressMapping.Col: is stated for the corrected `GET_CHUNK` of address_mapping.cpp lines 15-17 (see Findings); as written the chunk is `AddressMapping.GetChunkAsWritten`, whose low bits are always set (`AddressMapping.ChunkAsWrittenLowBitsSet`), and the round trip fails (`AddressMapping.AsWrittenRoundTripFails`).
- AddressMapping.MopCol: is stated for the corrected `GET_CHUNK` of address_mapping.cpp lines 15-17 (see Findings); as written the chunk is `AddressMapping.GetChunkAsWritten`, whose low bits are always set (`AddressMapping.ChunkAsWrittenLowBitsSet`), and the round trip fails (`AddressMapping.AsWrittenRoundTripFails`).
- AddressMapping.Ba: is stated for the corrected `GET_CHUNK` of address_mapping.cpp lines 15-17 (see Findings); as written the chunk is `AddressMapping.GetChunkAsWritten`, whose low bits are always set (`AddressMapping.ChunkAsWrittenLowBitsSet`), and the round trip fails (`AddressMapping.AsWrittenRoundTripFails`).
- AddressMapping.Bg: is stated for the corrected `GET_CHUNK` of address_mapping.cpp lines 15-17 (see Findings); as written the chunk is `AddressMapping.GetChunkAsWritten`, whose low bits are always set (`AddressMapping.ChunkAsWrittenLowBitsSet`), and the round trip fails (`AddressMapping.AsWrittenRoundTripFails`).
- AddressMapping.Rk: is stated for the corrected `GET_CHUNK` of address_mapping.cpp lines 15-17 (see Findings); as written the chunk is `AddressMapping.GetChunkAsWritten`, whose low bits are always set (`AddressMapping.ChunkAsWrittenLowBitsSet`), and the round trip fails (`AddressMapping.AsWrittenRoundTripFails`).
- AddressMapping.Ch: is stated for the corrected `GET_CHUNK` of address_mapping.cpp lines 15-17 (see Findings); as written the chunk is `AddressMapping.GetChunkAsWritten`, whose low bits are always set (`AddressMapping.ChunkAsWrittenLowBitsSet`), and the round trip fails (`AddressMapping.AsWrittenRoundTripFails`).
- AddressMapping.Decode: is stated for the corrected `GET_CHUNK` of address_mapping.cpp lines 15-17 (see Findings); as written the chunk is `AddressMapping.GetChunkAsWritten`, whose low bits are always set (`AddressMapping.ChunkAsWrittenLowBitsSet`), and the round trip fails (`AddressMapping.AsWrittenRoundTripFails`).
- Os.RecordKeepsInverse: holds for the corrected insertion into both maps of os.cpp lines 32-37 (see Findings); as written the reverse map never gets the frame (`Os.RecordAsWritten`, `Os.P2VAsWrittenAlwaysFails`).
- DramConfig.DeriveBounds: states the corrected write-to-read gap of config.cpp line 44 (see Findings); as written the chained assignment also overwrites CWL (`DramConfig.ChainedAssignmentClobbersCwl`).
- MakeConf.MakeConf: states the sweep with the corrected key `-refresh_policy` of make_conf.py line 18 (see Findings); the key as written is modelled by `MakeConf.PolicyDroppedAsWritten`.
- DramConfig.DRAMConfig.FillConfig: sets the timings by the corrected derivation of config.cpp line 44 (see Findings); the chained assignment as written is `DramConfig.ChainedAssignmentClobbersCwl`.
- DramSubchannel.DRAMSubchannel.Settle: settles by the corrected completion of subchannel.cpp lines 38-39 (see Findings); as written every non-read command completes a write (`DramSubchannel.CompletionAsWritten`, `DramSubchannel.ActivateClearsPendingWriteAsWritten`).
- DramSubchannel.DRAMSubchannel.IssueOn: settles the issued command by the corrected completion of subchannel.cpp lines 38-39 (see Findings); the as-written completion is `DramSubchannel.CompletionAsWritten`.
- DramSubchannel.DRAMSubchannel.IssueCommand: settles by the corrected completion of subchannel.cpp lines 38-39 (see Findings); the as-written completion is `DramSubchannel.CompletionAsWritten`.
- MakeConf.Sweep: models the corrected key `-refresh_policy` of make_conf.py line 18 (see Findings); the key as written is modelled by `MakeConf.PolicyDroppedAsWritten`.
- Os.Record: models the corrected insertion into both maps of os.cpp lines 32-37 (see Findings); as written the reverse map is never given the frame, shown by `Os.P2VAsWrittenAlwaysFails`.
- Os.OS.V2P: records a new page in both maps, the corrected behaviour of os.cpp lines 32-37 (see Findings).
- Os.OS.P2VUndoesV2P: holds for the corrected reverse map (see Findings os.cpp lines 32-37); as written `p2v` never finds a page (`Os.P2VAsWrittenAlwaysFails`).
- DramConfig.Default4800: states the corrected write-to-read gap of config.cpp line 44 (see Findings); the chained assignment as written is `DramConfig.ChainedAssignmentClobbersCwl`.
- DramRank.DRAMRank.QueueChoice: uses the corrected bank split, miss command and auto-precharge test of rank.cpp lines 54, 79-84 and 105-110 (see Findings); the as-written members are named there.
- DramRank.DRAMRank.ScanFrom: uses the corrected wrap of rank.cpp line 58 and the corrected choices of lines 54, 79-84 and 105-110 (see Findings).
- DramRank.DRAMRank.ScanFromSound: is stated for the corrected choices of rank.cpp lines 54, 79-84 and 105-110 (see Findings).
- DramRank.DRAMRank.SelectCommand: selects with the corrected scan of rank.cpp lines 54, 58, 79-84 and 105-110 (see Findings).
- DramChannel.ManageRank: models the corrected refresh loop of channel.cpp lines 70-78 and the corrected reset test of line 80 (see Findings); the test as written is `DramChannel.ManageRankAsWritten`.
- DramChannel.ManageRankPeriod: is stated for the corrected `ManageRank`; as written the period never advances with fewer than 64 banks (`DramChannel.PeriodNeverAdvancesAsWritten`).
- DramChannel.DRAMChannel.ManageRefresh: applies the corrected `ManageRank` to every rank (see Findings channel.cpp lines 70-78 and 80).
- DramChannel.Issue: uses the corrected same-bank comparison of channel.cpp line 101 (see Findings); the assignment as written is `DramChannel.AssignInConditionTakesSameBankGap`.
- DramChannel.DRAMChannel.ExecuteNextCmd: issues through the corrected `Issue` (see Findings channel.cpp line 101).
- DramChannel.DRAMChannel.PushBackCmd: appends without moving the head, the corrected push of channel.cpp lines 39-45 (see Findings); the push as written is `DramChannel.PushAsWrittenLosesEntry`.
- DramSubchannel.DRAMSubchannel.Serve: the rank command queues between the issue and the scheduling are a ghost output; the rank's own methods state how issuing changes them, and Serve does not repeat that.
- DramSubchannel.DRAMSubchannel.Tick: as for Serve; in addition, the refresh flag set on the rank is stated on `ScheduleRefresh`, not on Tick, because the issue step that follows may clear it.
- Nothing models 32- or 64-bit overflow of cycle counters or addresses; they are unbounded naturals, except where the source's wrap is named (the 16-bit PRAC counters).

## Findings

| source | as written | input that shows it | evidently intended | confidence | as-written member | corrected member |
|---|---|---|---|---|---|---|
| ds3conf/ref/make_conf.py:18 | the policy is passed as `-refresh-policy`, a key no section of the generator lists, so it is dropped | the NONE design point | `-refresh_policy`, so each file carries its point's refresh policy | not executed | MakeConf.PolicyDroppedAsWritten | MakeConf.PolicyWritten |
| src/dram/address_mapping.cpp:15-17 | `GET_CHUNK` ors the mask into the shifted address, which sets the field's low bits | the all-zero address decodes to column 3 | a bitwise and, which extracts the field | not executed | AddressMapping.AsWrittenRoundTripFails | AddressMapping.NoMopRoundTrip |
| src/dram/config.cpp:44 | a chained assignment also sets CWL to the short write-to-read gap | CL 40 and burst 16 at the default clock give CWL 22 | CWL stays CL - 2 = 38 and the gap is 60 | not executed | DramConfig.ChainedAssignmentClobbersCwl | DramConfig.DeriveBounds |
| src/dram/rank.cpp:54 | the bank mask is `(1 << NUM_BANKS) - 1` | queue 5 is taken as bank 5 of a 4-bank group | a mask of the bank-index width, giving bank 1 | not executed | DramRank.BankOfIndexAsWrittenOverruns | DramRank.SplitIndexRoundTrip |
| src/dram/rank.cpp:58 | the round-robin index wraps at the 32-entry queue size | with 16 queues it steps from 15 to 16, past the array | wrap at the number of queues | not executed | DramRank.NextQueueAsWrittenOverruns | DramRank.NextQueue |
| src/dram/rank.cpp:105-110 | the read/write test lists only READ and WRITE | any read or write with auto-precharge | auto-precharge commands are allowed when the plain ones are and the bank may precharge | not executed | DramRank.AutoPrechargeNeverAllowedAsWritten | DramRank.AutoPrechargeAllowed |
| src/dram/rank.cpp:79-84 | the miss command keeps the address of the caller's command | a miss in queue 1 targets queue 0 | the precharge or activate targets the waiting command's bank | not executed | DramRank.MissCommandAsWrittenWrongBank | DramRank.MissCommandTargetsQueue |
| src/dram/subchannel.cpp:38-39 | every command that is not a read completes a write | an activate for a line with a pending write | only the write completes the pending write | not executed | DramSubchannel.ActivateClearsPendingWriteAsWritten | DramSubchannel.OnlyWriteClearsPending |
| src/dram/channel.cpp:39-45 | the push also advances the head pointer | a push onto an empty queue | the head stays and the entry is appended | not executed | DramChannel.PushAsWrittenLosesEntry | DramChannel.PushAppends |
| src/dram/channel.cpp:70-78 | `ffsll` is one-based and the loop clears the wrong bit, so it recomputes the same bank | all banks owed, just after reset | each owed bank is visited once | not executed | DramChannel.ManageRefreshAsWrittenStuck | DramChannel.ManageRankPeriod |
| src/dram/channel.cpp:80 | the period ends when the whole 64-bit owed vector is zero, but the reset sets all 64 bits and the pass clears only bank ids below the bank count | 32 banks, all idle at the first tREFI cycle: bits 32-63 stay set | the period ends when every bank id below the bank count has refreshed | not executed | DramChannel.PeriodNeverAdvancesAsWritten | DramChannel.ManageRankPeriod |
| src/dram/channel.cpp:101 | `last_bank_ = bank` assigns in the same-bank test | a write to bank 2 after a write to bank 1 of the same group | a comparison, giving the middle gap tCCD_M_WR | not executed | DramChannel.AssignInConditionTakesSameBankGap | DramChannel.CcdGapByScope |
| src/os.cpp:32-37 | the reverse map is never given the new frame | any first mapping of a page | both maps are updated, so `p2v` finds the page | not executed | Os.P2VAsWrittenAlwaysFails | Os.RecordKeepsInverse |
| src/cache/replacement.cpp:74-85 | the best next use is never updated during the scan | three ways next used at 1, 3 and 2 | the way used furthest in the future (way 1) | not executed | Replacement.BeladyAsWrittenMissesFurthest | Replacement.BeladyIsFirstFurthest |

=== FILE: address_mapping.dfy ===
/**
 * The configurable address mapping of the in-house DRAM model: the field
 * widths derived from the configured counts with `BIT_WIDTH`, and the
 * column, bank, bankgroup, rank, channel and row decoders, with and without
 * a MOP (column bits split around the channel and bank fields).
 */
module AddressMapping {
  import opened Bits
  import opened BitCount
  import opened BitFields

  // ---------------------------------------------------------------------
  // BIT_WIDTH

  /** `__builtin_clzll` over the top `n` bits of `x`: zeros above the highest set bit. */
  function LeadingZeros(x: nat, n: nat): nat
  {
    if n == 0 then 0 else if Bit(x, n - 1) then 0 else 1 + LeadingZeros(x, n - 1)
  }

  /** The number of bits needed to write `x`. */
  function BitLength(x: nat): (r: nat)
    ensures x >= 1 ==> r >= 1 && Pow2(r - 1) <= x < Pow2(r)
    ensures x == 0 ==> r == 0
  {
    if x == 0 then 0 else Log2(x) + 1
  }

  /**
   * `BIT_WIDTH(count)`: 0 for 0, otherwise `64 - clz(count) + 1`, which is
   * one more than the number of bits in `count`.
   */
  function BitWidth(count: nat): (r: nat)
    requires count < U64_LIMIT
    ensures r == if count == 0 then 0 else BitLength(count) + 1
  {
    if count == 0 then 0
    else
      Pow2Of64();
      ClzIsLog(count, 64);
      64 - LeadingZeros(count, 64) + 1
  }

  lemma {:induction false} Log2Unique(x: nat, k: nat)
    requires Pow2(k) <= x < Pow2(k + 1)
    ensures Log2(x) == k
  {
    var l := Log2(x);
    if l < k {
      Pow2Monotone(l + 1, k);
    } else if l > k {
      Pow2Monotone(k + 1, l);
    }
  }

  /** Below `2^n`, the leading zeros in `n` bits are `n - 1 - floor(log2 x)`. */
  lemma {:induction false} ClzIsLog(x: nat, n: nat)
    requires 1 <= x < Pow2(n)
    ensures LeadingZeros(x, n) == n - 1 - Log2(x)
    decreases n
  {
    var h := Pow2(n - 1);
    if x >= h {
      DivModUnique(x, h, 1, x - h);
      Log2Unique(x, n - 1);
    } else {
      DivModUnique(x, h, 0, x);
      ClzIsLog(x, n - 1);
    }
  }

  // ---------------------------------------------------------------------
  // GET_CHUNK

  /** `GET_CHUNK` as written: `(x >> base) | ((1 << delta) - 1)`. */
  function GetChunkAsWritten(x: nat, base: nat, delta: nat): nat
  {
    Or(Shr(x, base), Pow2(delta) - 1)
  }

  /** As written, the low `delta` bits of every chunk are set, whatever `x` holds. */
  lemma {:induction false} ChunkAsWrittenLowBitsSet(x: nat, base: nat, delta: nat)
    ensures GetChunkAsWritten(x, base, delta) % Pow2(delta) == Pow2(delta) - 1
  {
    var y := Shr(x, base);
    OrLowMask(y, delta);
    TopOfBlock(y, Pow2(delta));
  }

  /** The last value of the block of `p` that holds `y` leaves remainder `p - 1`. */
  lemma {:induction false} TopOfBlock(y: nat, p: nat)
    requires p > 0
    ensures (y - y % p + p - 1) % p == p - 1
  {
    assert y - y % p == (y / p) * p;
    DivModUnique(y - y % p + p - 1, p, y / p, p - 1);
  }

  /** The zero address decodes to column 3 under a two-bit column field. */
  lemma {:induction false} ChunkAsWrittenOfZero()
    ensures GetChunkAsWritten(0, 0, 2) == 3 && Field(0, 0, 2) == 0
  {
    assert Pow2(2) == 4;
    OrLowMask(0, 2);
  }

  /** The chunk as intended: `(x >> base) & ((1 << delta) - 1)`, the field of width `delta` at `base`. */
  function GetChunk(x: nat, base: nat, delta: nat): (r: nat)
    ensures r == Field(x, base, delta) && r < Pow2(delta)
  {
    ShiftMaskIsField(x, base, delta);
    And(Shr(x, base), Pow2(delta) - 1)
  }

  // ---------------------------------------------------------------------
  // The decoders

  /** The field widths (`b_column`, `b_row`, ...), fixed at construction. */
  datatype Widths = Widths(column: nat, row: nat, bank: nat, bgrp: nat, rank: nat, channel: nat)

  /** The counts of the DRAM configuration the widths are derived from. */
  datatype Counts = Counts(columns: nat, rows: nat, banksPerBgrp: nat, bgrps: nat, ranks: nat, channels: nat)

  predicate CountsFit(c: Counts)
  {
    c.columns < U64_LIMIT && c.rows < U64_LIMIT && c.banksPerBgrp < U64_LIMIT &&
    c.bgrps < U64_LIMIT && c.ranks < U64_LIMIT && c.channels < U64_LIMIT
  }

  /**
   * A width derived from a count: zero for no items, otherwise one bit more
   * than writing the count takes, so `count` needs `width - 1` bits and
   * `width - 2` bits do not hold it.
   */
  predicate WidthFor(count: nat, width: nat)
  {
    if count == 0 then width == 0 else width >= 2 && Pow2(width - 2) <= count < Pow2(width - 1)
  }

  /** The constructor: each width is `BIT_WIDTH` of its count. */
  function WidthsOf(c: Counts): (w: Widths)
    requires CountsFit(c)
    ensures WidthFor(c.columns, w.column) && WidthFor(c.rows, w.row)
    ensures WidthFor(c.banksPerBgrp, w.bank) && WidthFor(c.bgrps, w.bgrp)
    ensures WidthFor(c.ranks, w.rank) && WidthFor(c.channels, w.channel)
  {
    BitWidthFits(c.columns);
    BitWidthFits(c.rows);
    BitWidthFits(c.banksPerBgrp);
    BitWidthFits(c.bgrps);
    BitWidthFits(c.ranks);
    BitWidthFits(c.channels);
    Widths(BitWidth(c.columns), BitWidth(c.rows), BitWidth(c.banksPerBgrp),
           BitWidth(c.bgrps), BitWidth(c.ranks), BitWidth(c.channels))
  }

  lemma {:induction false} BitWidthFits(count: nat)
    requires count < U64_LIMIT
    ensures WidthFor(count, BitWidth(count))
  {
  }

  /** Whether a MOP of `m` low column bits is compiled in. */
  datatype Scheme = NoMop | Mop(m: nat)

  predicate SchemeFits(w: Widths, s: Scheme)
  {
    s.Mop? ==> s.m <= w.column
  }

  /** The address bits below the channel field: the column without a MOP, the MOP bits with one. */
  function Below(w: Widths, s: Scheme): nat
  {
    match s
    case NoMop => w.column
    case Mop(m) => m
  }

  /** The column fits its width; without a MOP it is the low address bits. */
  function Col(w: Widths, s: Scheme, x: nat): (r: nat)
    requires SchemeFits(w, s)
    ensures r < Pow2(w.column)
    ensures s.NoMop? ==> r == x % Pow2(w.column)
  {
    match s
    case NoMop => assert x / Pow2(0) == x; GetChunk(x, 0, w.column)
    case Mop(m) => MopCol(w, m, x)
  }

  /** The MOP column: the low MOP address bits below the column bits stored above the rank. */
  function MopCol(w: Widths, m: nat, x: nat): (r: nat)
    requires m <= w.column
    ensures r < Pow2(w.column)
  {
    var mopMask := Pow2(m) - 1;
    var hi := GetChunk(x, m + w.channel + w.bgrp + w.bank + w.rank, w.column - m);
    var lo := And(x, mopMask);
    AndLowMask(x, m);
    JoinAbove(lo, hi, m);
    DigitsBelow(Or(lo, Shl(hi, m)), m, w.column);
    Or(lo, Shl(hi, m))
  }

  /** A number whose digits above `2^m` stay below `2^(k-m)` is below `2^k`. */
  lemma {:induction false} DigitsBelow(c: nat, m: nat, k: nat)
    requires m <= k && c / Pow2(m) < Pow2(k - m)
    ensures c < Pow2(k)
  {
    Pow2Add(k - m, m);
    assert k - m + m == k;
    DivBelow(c, Pow2(m), Pow2(k - m));
  }

  /** The bank field, above the channel and bank-group fields. */
  function Ba(w: Widths, s: Scheme, x: nat): (r: nat)
    ensures r < Pow2(w.bank)
    ensures r == Field(x, Below(w, s) + w.channel + w.bgrp, w.bank)
  {
    match s
    case NoMop => GetChunk(x, w.column + w.channel + w.bgrp, w.bank)
    case Mop(m) => GetChunk(x, m + w.channel + w.bgrp, w.bank)
  }

  /** The bank-group field, just above the channel field. */
  function Bg(w: Widths, s: Scheme, x: nat): (r: nat)
    ensures r < Pow2(w.bgrp)
    ensures r == Field(x, Below(w, s) + w.channel, w.bgrp)
  {
    match s
    case NoMop => GetChunk(x, w.column + w.channel, w.bgrp)
    case Mop(m) => GetChunk(x, m + w.channel, w.bgrp)
  }

  /** The rank field, above the bank field. */
  function Rk(w: Widths, s: Scheme, x: nat): (r: nat)
    ensures r < Pow2(w.rank)
    ensures r == Field(x, Below(w, s) + w.channel + w.bgrp + w.bank, w.rank)
  {
    match s
    case NoMop => GetChunk(x, w.column + w.channel + w.bgrp + w.bank, w.rank)
    case Mop(m) => GetChunk(x, m + w.channel + w.bgrp + w.bank, w.rank)
  }

  /** The channel field, the lowest field above the column (or the MOP bits). */
  function Ch(w: Widths, s: Scheme, x: nat): (r: nat)
    ensures r < Pow2(w.channel)
    ensures r == Field(x, Below(w, s), w.channel)
  {
    match s
    case NoMop => GetChunk(x, w.column, w.channel)
    case Mop(m) => GetChunk(x, m, w.channel)
  }

  /** The row: every bit above the other fields, unmasked, in both schemes; it fits its width exactly when the address fits the mapped space. */
  function Row(w: Widths, x: nat): (r: nat)
    ensures x < Pow2(AddressWidth(w)) <==> r < Pow2(w.row)
  {
    var low := w.column + w.bank + w.bgrp + w.rank + w.channel;
    Pow2Add(low, w.row);
    DivBelow(x, Pow2(low), Pow2(w.row));
    Shr(x, low)
  }

  /** All the address bits the widths account for. */
  function AddressWidth(w: Widths): nat
  {
    w.column + w.bank + w.bgrp + w.rank + w.channel + w.row
  }

  /** `x / d < e` exactly when `x < d * e`. */
  lemma {:induction false} DivBelow(x: nat, d: nat, e: nat)
    requires d > 0
    ensures x / d < e <==> x < d * e
  {
    var q := x / d;
    assert x == q * d + x % d;
    if q < e {
      assert (q + 1) * d <= e * d;
    } else {
      assert q * d >= e * d;
    }
  }

  /** The MOP column keeps the low MOP bits of the address. */
  lemma {:induction false} MopColumnLowBits(w: Widths, m: nat, x: nat)
    requires m <= w.column
    ensures MopCol(w, m, x) % Pow2(m) == x % Pow2(m)
    ensures MopCol(w, m, x) / Pow2(m) == Field(x, m + w.channel + w.bgrp + w.bank + w.rank, w.column - m)
  {
    var lo := And(x, Pow2(m) - 1);
    var hi := GetChunk(x, m + w.channel + w.bgrp + w.bank + w.rank, w.column - m);
    var col := Or(lo, Shl(hi, m));
    assert MopCol(w, m, x) == col;
    AndLowMask(x, m);
    assert lo == x % Pow2(m);
    JoinAbove(lo, hi, m);
    assert col % Pow2(m) == lo && col / Pow2(m) == hi;
  }

  /** `lo | (hi << m)` with `lo` below `2^m` puts `hi` above `lo`. */
  lemma {:induction false} JoinAbove(lo: nat, hi: nat, m: nat)
    requires lo < Pow2(m)
    ensures Or(lo, Shl(hi, m)) % Pow2(m) == lo && Or(lo, Shl(hi, m)) / Pow2(m) == hi
  {
    OrDisjoint(hi, lo, m);
    OrCommutes(lo, Shl(hi, m));
    DivModUnique(hi * Pow2(m) + lo, Pow2(m), hi, lo);
  }

  // ---------------------------------------------------------------------
  // Round trip

  datatype Fields = Fields(column: nat, row: nat, bank: nat, bgrp: nat, rank: nat, channel: nat)

  /** Every decoded field fits its width when the address fits the mapped space; every field but the row always does. */
  function Decode(w: Widths, s: Scheme, x: nat): (r: Fields)
    requires SchemeFits(w, s)
    ensures r.column < Pow2(w.column) && r.bank < Pow2(w.bank) && r.bgrp < Pow2(w.bgrp)
    ensures r.rank < Pow2(w.rank) && r.channel < Pow2(w.channel)
    ensures Fits(w, r) <==> x < Pow2(AddressWidth(w))
  {
    Fields(Col(w, s, x), Row(w, x), Ba(w, s, x), Bg(w, s, x), Rk(w, s, x), Ch(w, s, x))
  }

  predicate Fits(w: Widths, f: Fields)
  {
    f.column < Pow2(w.column) && f.row < Pow2(w.row) && f.bank < Pow2(w.bank) &&
    f.bgrp < Pow2(w.bgrp) && f.rank < Pow2(w.rank) && f.channel < Pow2(w.channel)
  }

  /** The address layout, least significant field first. */
  function Layout(w: Widths, s: Scheme, f: Fields): seq<(nat, nat)>
    requires SchemeFits(w, s)
  {
    match s
    case NoMop =>
      [(f.column, w.column), (f.channel, w.channel), (f.bgrp, w.bgrp), (f.bank, w.bank),
       (f.rank, w.rank), (f.row, w.row)]
    case Mop(m) =>
      [(f.column % Pow2(m), m), (f.channel, w.channel), (f.bgrp, w.bgrp), (f.bank, w.bank),
       (f.rank, w.rank), (Quot(f.column, Pow2(m)), w.column - m), (f.row, w.row)]
  }

  function Assemble(w: Widths, s: Scheme, f: Fields): nat
    requires SchemeFits(w, s)
  {
    Pack(Layout(w, s, f))
  }

  lemma {:induction false} NoMopOffsets(w: Widths, f: Fields)
    ensures var fs := Layout(w, NoMop, f);
      OffsetOf(fs, 1) == w.column && OffsetOf(fs, 2) == w.column + w.channel &&
      OffsetOf(fs, 3) == w.column + w.channel + w.bgrp &&
      OffsetOf(fs, 4) == w.column + w.channel + w.bgrp + w.bank &&
      OffsetOf(fs, 5) == w.column + w.bank + w.bgrp + w.rank + w.channel
  {
    var fs := Layout(w, NoMop, f);
    assert OffsetOf(fs, 0) == 0;
    OffsetStep(fs, 0);
    OffsetStep(fs, 1);
    OffsetStep(fs, 2);
    OffsetStep(fs, 3);
    OffsetStep(fs, 4);
  }

  lemma {:induction false} MopOffsets(w: Widths, m: nat, f: Fields)
    requires m <= w.column
    ensures var fs := Layout(w, Mop(m), f);
      OffsetOf(fs, 1) == m && OffsetOf(fs, 2) == m + w.channel &&
      OffsetOf(fs, 3) == m + w.channel + w.bgrp &&
      OffsetOf(fs, 4) == m + w.channel + w.bgrp + w.bank &&
      OffsetOf(fs, 5) == m + w.channel + w.bgrp + w.bank + w.rank &&
      OffsetOf(fs, 6) == w.column + w.bank + w.bgrp + w.rank + w.channel
  {
    var fs := Layout(w, Mop(m), f);
    assert OffsetOf(fs, 0) == 0;
    OffsetStep(fs, 0);
    OffsetStep(fs, 1);
    OffsetStep(fs, 2);
    OffsetStep(fs, 3);
    OffsetStep(fs, 4);
    OffsetStep(fs, 5);
  }

  lemma {:induction false} LayoutInRange(w: Widths, s: Scheme, f: Fields)
    requires SchemeFits(w, s) && Fits(w, f)
    ensures InRange(Layout(w, s, f))
  {
    if s.Mop? {
      var m := s.m;
      Pow2Add(w.column - m, m);
      QuotientBound(f.column, Pow2(m), Pow2(w.column - m));
    }
  }

  lemma {:induction false} QuotientBound(a: nat, d: nat, e: nat)
    requires d > 0 && a < e * d
    ensures a / d < e
  {
  }

  /** Without a MOP, assembling in-range fields and decoding gives them back. */
  lemma {:induction false} NoMopRoundTrip(w: Widths, f: Fields)
    requires Fits(w, f)
    ensures Decode(w, NoMop, Assemble(w, NoMop, f)) == f
  {
    var fs := Layout(w, NoMop, f);
    LayoutInRange(w, NoMop, f);
    NoMopOffsets(w, f);
    assert OffsetOf(fs, 0) == 0;
    PackField(fs, 0);
    PackField(fs, 1);
    PackField(fs, 2);
    PackField(fs, 3);
    PackField(fs, 4);
    PackLast(fs);
  }

  /** With a MOP, assembling in-range fields and decoding gives them back. */
  lemma {:induction false} MopRoundTrip(w: Widths, m: nat, f: Fields)
    requires m <= w.column && Fits(w, f)
    ensures Decode(w, Mop(m), Assemble(w, Mop(m), f)) == f
  {
    var fs := Layout(w, Mop(m), f);
    LayoutInRange(w, Mop(m), f);
    MopOffsets(w, m, f);
    PackField(fs, 1);
    PackField(fs, 2);
    PackField(fs, 3);
    PackField(fs, 4);
    PackLast(fs);
    MopColumnRoundTrip(w, m, f);
  }

  lemma {:induction false} MopColumnRoundTrip(w: Widths, m: nat, f: Fields)
    requires m <= w.column && Fits(w, f)
    ensures Col(w, Mop(m), Assemble(w, Mop(m), f)) == f.column
  {
    var fs := Layout(w, Mop(m), f);
    var x := Assemble(w, Mop(m), f);
    LayoutInRange(w, Mop(m), f);
    MopOffsets(w, m, f);
    PackField(fs, 0);
    PackField(fs, 5);
    assert OffsetOf(fs, 0) == 0;
    assert Field(x, 0, m) == x % Pow2(m) by {
      assert x / Pow2(0) == x;
    }
    MopColumnLowBits(w, m, x);
    SameDigits(MopCol(w, m, x), f.column, Pow2(m));
  }

  lemma {:induction false} SameDigits(a: nat, b: nat, d: nat)
    requires d > 0 && a % d == b % d && a / d == b / d
    ensures a == b
  {
  }

  /** As written, the round trip fails: the zero address has column 0 but decodes to 3. */
  lemma {:induction false} AsWrittenRoundTripFails()
    ensures var w := Widths(2, 1, 1, 1, 1, 1);
      Assemble(w, NoMop, Fields(0, 0, 0, 0, 0, 0)) == 0 &&
      GetChunkAsWritten(0, 0, w.column) == 3 &&
      Col(w, NoMop, 0) == 0
  {
    ChunkAsWrittenOfZero();
    var w := Widths(2, 1, 1, 1, 1, 1);
    var fs := Layout(w, NoMop, Fields(0, 0, 0, 0, 0, 0));
    assert Pack(fs[5..]) == 0;
    assert Pack(fs[4..]) == 0;
    assert Pack(fs[3..]) == 0;
    assert Pack(fs[2..]) == 0;
    assert Pack(fs[1..]) == 0;
    assert Pack(fs) == 0;
  }
}

=== FILE: argparse.dfy ===
/**
 * The simulator's command-line parser: required positional arguments, a
 * table of optional `-flag` arguments with defaults, switches versus valued
 * options, error exits that print the help text, and typed lookup of a
 * parsed value.
 */
module ArgParse {
  import opened Wrappers
  import opened Decimal
  import opened Bits

  /** An optional argument: its flag, its description and its default value. */
  datatype OptionalArgument = OptionalArgument(flag: string, desc: string, defaultValue: string)

  /** The parse result: the help text and the table from argument name to stored text. */
  datatype ArgParseResult = ArgParseResult(help: string, data: map<string, string>)

  /** How `parse` ends: with a result, or by `exit(1)` after writing `stderr`. */
  datatype ParseOutcome = Parsed(result: ArgParseResult) | Died(stderr: string)

  // ---------------------------------------------------------------------
  // The help text

  function Spaces(n: nat): string
  {
    if n == 0 then "" else Spaces(n - 1) + " "
  }

  /** `std::setw(w) << std::left << s`: `s` padded with spaces to at least `w` characters. */
  function PadRight(s: string, w: nat): (r: string)
    ensures |r| == if |s| < w then w else |s|
    ensures r[..|s|] == s
    ensures forall i :: |s| <= i < |r| ==> r[i] == ' '
  {
    SpacesAreSpaces(if |s| < w then w - |s| else 0);
    if |s| < w then s + Spaces(w - |s|) else s
  }

  lemma {:induction false} SpacesAreSpaces(n: nat)
    ensures |Spaces(n)| == n && forall i :: 0 <= i < n ==> Spaces(n)[i] == ' '
  {
    if n > 0 {
      SpacesAreSpaces(n - 1);
    }
  }

  /** The banner between the usage line and the option lines: 49 dashes either side of the title. */
  const OPTIONS_BANNER: string :=
    "-------------------------------------------------" + " Available Options " +
    "-------------------------------------------------" + "\n"

  /** What follows the required names on the usage line, banner included. */
  const USAGE_TAIL: string := " [ options ]\n" + OPTIONS_BANNER

  function UsageNames(required: seq<string>): string
  {
    if required == [] then "" else UsageNames(required[..|required| - 1]) + UsageName(required[|required| - 1])
  }

  function UsageName(name: string): string
  {
    " <" + name + ">"
  }

  function OptionLine(o: OptionalArgument): string
  {
    var descs := "\"" + o.desc + "\"";
    var defs := if o.defaultValue == "" then "" else "default: " + o.defaultValue;
    "\t-" + PadRight(o.flag, 12) + PadRight(descs, 48) + PadRight(defs, 16) + "\n"
  }

  function OptionLines(optional: seq<OptionalArgument>): string
  {
    if optional == [] then "" else OptionLines(optional[..|optional| - 1]) + OptionLine(optional[|optional| - 1])
  }

  function HelpText(required: seq<string>, optional: seq<OptionalArgument>): string
  {
    "usage:" + UsageNames(required) + USAGE_TAIL + OptionLines(optional)
  }

  /** The stream writes that build the help text. */
  method BuildHelp(required: seq<string>, optional: seq<OptionalArgument>) returns (help: string)
    ensures help == HelpText(required, optional)
  {
    var usage := BuildUsage(required);
    var lines := BuildOptionLines(optional);
    help := "usage:" + usage + USAGE_TAIL + lines;
  }

  /** The loop writing ` <name>` for each required argument. */
  method BuildUsage(required: seq<string>) returns (usage: string)
    ensures usage == UsageNames(required)
  {
    usage := "";
    var i := 0;
    while i < |required|
      invariant 0 <= i <= |required|
      invariant usage == UsageNames(required[..i])
    {
      assert required[..i + 1][..i] == required[..i];
      usage := usage + UsageName(required[i]);
      i := i + 1;
    }
    assert required[..i] == required;
  }

  /** The loop writing one padded line per optional argument. */
  method BuildOptionLines(optional: seq<OptionalArgument>) returns (lines: string)
    ensures lines == OptionLines(optional)
  {
    lines := "";
    var j := 0;
    while j < |optional|
      invariant 0 <= j <= |optional|
      invariant lines == OptionLines(optional[..j])
    {
      assert optional[..j + 1][..j] == optional[..j];
      lines := lines + OptionLine(optional[j]);
      j := j + 1;
    }
    assert optional[..j] == optional;
  }

  /** The usage names of a prefix of the required names begin the usage names of all of them. */
  lemma {:induction false} UsageNamesPrefix(required: seq<string>, k: nat)
    requires k <= |required|
    ensures UsageNames(required[..k]) <= UsageNames(required)
    decreases |required|
  {
    if k < |required| {
      var init := required[..|required| - 1];
      assert init[..k] == required[..k];
      UsageNamesPrefix(init, k);
    } else {
      assert required[..k] == required;
    }
  }

  /** The help text begins `usage:`, then ` <name>` for the first required argument. */
  lemma {:induction false} HelpStartsWithUsage(required: seq<string>, optional: seq<OptionalArgument>)
    ensures "usage:" <= HelpText(required, optional)
    ensures |required| > 0 ==> "usage:" + UsageName(required[0]) <= HelpText(required, optional)
  {
    var u := UsageNames(required);
    var rest := u + (USAGE_TAIL + OptionLines(optional));
    assert HelpText(required, optional) == "usage:" + rest;
    PrefixOfAppend("usage:", rest);
    if |required| > 0 {
      var n := UsageName(required[0]);
      FirstUsageName(required);
      PrefixOfAppend(u, USAGE_TAIL + OptionLines(optional));
      assert n <= rest;
      PrefixAfter("usage:", n, rest);
    }
  }

  /** The usage names start with the first required argument's. */
  lemma {:induction false} FirstUsageName(required: seq<string>)
    requires |required| > 0
    ensures UsageName(required[0]) <= UsageNames(required)
  {
    UsageNamesPrefix(required, 1);
    assert required[..1][..0] == [];
  }

  lemma {:induction false} PrefixOfAppend(a: string, b: string)
    ensures a <= a + b
  {
    assert (a + b)[..|a|] == a;
  }

  /** A prefix stays a prefix after a common start. */
  lemma {:induction false} PrefixAfter(a: string, n: string, v: string)
    requires n <= v
    ensures a + n <= a + v
  {
    assert forall i :: 0 <= i < |a + n| ==> (a + n)[i] == (a + v)[i];
  }

  // ---------------------------------------------------------------------
  // Binding and scanning

  /** The required names bound, in order, to the positional arguments. */
  function BindRequired(required: seq<string>, values: seq<string>): map<string, string>
    requires |values| >= |required|
  {
    if required == [] then map[]
    else BindRequired(required[..|required| - 1], values)[required[|required| - 1] := values[|required| - 1]]
  }

  /** Every optional flag set to its default, later entries over earlier ones. */
  function WithDefaults(table: map<string, string>, optional: seq<OptionalArgument>): map<string, string>
  {
    if optional == [] then table
    else WithDefaults(table, optional[..|optional| - 1])[optional[|optional| - 1].flag := optional[|optional| - 1].defaultValue]
  }

  /** `table[name]` as `operator[]` reads it: an absent name reads as the empty string. */
  function Get(table: map<string, string>, name: string): string
  {
    if name in table then table[name] else ""
  }

  /** Where the option scan ends: the final table, or an error message before the help. */
  datatype Scan = ScanDone(table: map<string, string>) | ScanError(message: string)

  /**
   * The option loop. A token must start with `-`; the name after it is a
   * switch when its stored text is empty (absent names included) and is
   * then set to `y`; otherwise it takes the next token, which must exist
   * and not start with `-`.
   */
  function ScanOptions(args: seq<string>, table: map<string, string>): Scan
    decreases |args|
  {
    if args == [] then ScanDone(table)
    else if args[0] == "" || args[0][0] != '-' then
      ScanError("Expected option but got \"" + args[0] + "\".\n")
    else
      var opt := args[0][1..];
      if Get(table, opt) == "" then ScanOptions(args[1..], table[opt := "y"])
      else if |args| < 2 then
        ScanError("Expected value for argument \"-" + opt + "\" but reached end.\n")
      else if args[1] != "" && args[1][0] == '-' then
        ScanError("Expected value for argument \"-" + opt + "\" but got new argument \"" + args[1] + "\".\n")
      else ScanOptions(args[2..], table[opt := args[1]])
  }

  /** The whole of `parse`, with `argv[0]` the program name. */
  function ParseSpec(argv: seq<string>, required: seq<string>, optional: seq<OptionalArgument>): ParseOutcome
    requires |argv| >= 1
  {
    var help := HelpText(required, optional);
    if |argv| - 1 < |required| then Died(help)
    else
      var table := WithDefaults(BindRequired(required, argv[1..]), optional);
      match ScanOptions(argv[1 + |required|..], table)
      case ScanDone(t) => Parsed(ArgParseResult(help, t))
      case ScanError(msg) => Died(msg + help)
  }

  /** `parse`: bind the required names, install the defaults, then scan the options. */
  method Parse(argv: seq<string>, required: seq<string>, optional: seq<OptionalArgument>) returns (outcome: ParseOutcome)
    requires |argv| >= 1
    ensures outcome == ParseSpec(argv, required, optional)
  {
    var argc := |argv| - 1;
    var help := BuildHelp(required, optional);
    if argc < |required| {
      return Died(help);
    }
    var data := BindRequiredArgs(argv, required);
    data := SetDefaults(data, optional);
    var scan := ScanTokens(argv[|required| + 1..], data);
    match scan
    case ScanDone(t) => outcome := Parsed(ArgParseResult(help, t));
    case ScanError(msg) => outcome := Died(msg + help);
  }

  /** The first loop of `parse`: the i-th required name is bound to `argv[i]`. */
  method BindRequiredArgs(argv: seq<string>, required: seq<string>) returns (data: map<string, string>)
    requires |argv| > |required|
    ensures data == BindRequired(required, argv[1..])
  {
    data := map[];
    var ii := 1;
    while ii <= |required|
      invariant 1 <= ii <= |required| + 1
      invariant data == BindRequired(required[..ii - 1], argv[1..])
    {
      assert required[..ii][..ii - 1] == required[..ii - 1];
      data := data[required[ii - 1] := argv[ii]];
      ii := ii + 1;
    }
    assert required[..ii - 1] == required;
  }

  /** The second loop of `parse`: every optional flag starts at its default. */
  method SetDefaults(table: map<string, string>, optional: seq<OptionalArgument>) returns (data: map<string, string>)
    ensures data == WithDefaults(table, optional)
  {
    data := table;
    var k := 0;
    while k < |optional|
      invariant 0 <= k <= |optional|
      invariant data == WithDefaults(table, optional[..k])
    {
      assert optional[..k + 1][..k] == optional[..k];
      data := data[optional[k].flag := optional[k].defaultValue];
      k := k + 1;
    }
    assert optional[..k] == optional;
  }

  /** The option loop of `parse`, over the tokens after the required arguments. */
  method ScanTokens(args: seq<string>, table: map<string, string>) returns (scan: Scan)
    ensures scan == ScanOptions(args, table)
  {
    var data := table;
    var i := 0;
    while i < |args|
      invariant 0 <= i <= |args|
      invariant ScanOptions(args[i..], data) == ScanOptions(args, table)
    {
      assert args[i..][0] == args[i];
      if args[i] == "" || args[i][0] != '-' {
        return ScanError("Expected option but got \"" + args[i] + "\".\n");
      }
      var opt := args[i][1..];
      if Get(data, opt) == "" {
        assert args[i..][1..] == args[i + 1..];
        data := data[opt := "y"];
        i := i + 1;
      } else {
        if i + 1 >= |args| {
          return ScanError("Expected value for argument \"-" + opt + "\" but reached end.\n");
        }
        assert args[i..][1] == args[i + 1];
        if args[i + 1] != "" && args[i + 1][0] == '-' {
          return ScanError("Expected value for argument \"-" + opt + "\" but got new argument \"" + args[i + 1] + "\".\n");
        }
        assert args[i..][2..] == args[i + 2..];
        data := data[opt := args[i + 1]];
        i := i + 2;
      }
    }
    assert args[i..] == [];
    scan := ScanDone(data);
  }

  // ---------------------------------------------------------------------
  // Properties of parse

  /** Too few positional arguments: the help is printed and the process exits. */
  lemma {:induction false} TooFewArgumentsDies(argv: seq<string>, required: seq<string>, optional: seq<OptionalArgument>)
    requires 1 <= |argv| <= |required|
    ensures ParseSpec(argv, required, optional) == Died(HelpText(required, optional))
  {
  }

  /** The `i`-th required name is bound to `argv[i + 1]` unless a later required name repeats it. */
  lemma {:induction false} RequiredBound(required: seq<string>, values: seq<string>, i: nat)
    requires |values| >= |required| && i < |required|
    requires forall j :: i < j < |required| ==> required[j] != required[i]
    ensures required[i] in BindRequired(required, values) && BindRequired(required, values)[required[i]] == values[i]
    decreases |required|
  {
    if i < |required| - 1 {
      RequiredBound(required[..|required| - 1], values, i);
    }
  }

  /** Every flag starts at its default unless a later entry repeats the flag. */
  lemma {:induction false} DefaultInstalled(table: map<string, string>, optional: seq<OptionalArgument>, j: nat)
    requires j < |optional|
    requires forall k :: j < k < |optional| ==> optional[k].flag != optional[j].flag
    ensures optional[j].flag in WithDefaults(table, optional)
    ensures WithDefaults(table, optional)[optional[j].flag] == optional[j].defaultValue
    decreases |optional|
  {
    if j < |optional| - 1 {
      DefaultInstalled(table, optional[..|optional| - 1], j);
    }
  }

  /** Names the defaults do not mention keep their value. */
  lemma {:induction false} DefaultsKeepOthers(table: map<string, string>, optional: seq<OptionalArgument>, name: string)
    requires forall k :: 0 <= k < |optional| ==> optional[k].flag != name
    ensures Get(WithDefaults(table, optional), name) == Get(table, name)
    decreases |optional|
  {
    if optional != [] {
      DefaultsKeepOthers(table, optional[..|optional| - 1], name);
    }
  }

  /** A switch consumes only itself and reads `y` afterwards. */
  lemma {:induction false} SwitchConsumesOne(f: string, rest: seq<string>, table: map<string, string>)
    requires Get(table, f) == ""
    ensures ScanOptions(["-" + f] + rest, table) == ScanOptions(rest, table[f := "y"])
  {
    var args := ["-" + f] + rest;
    assert args[0][1..] == f && args[1..] == rest;
  }

  /** A valued option consumes its value token as well. */
  lemma {:induction false} ValuedConsumesTwo(f: string, v: string, rest: seq<string>, table: map<string, string>)
    requires Get(table, f) != "" && (v == "" || v[0] != '-')
    ensures ScanOptions(["-" + f, v] + rest, table) == ScanOptions(rest, table[f := v])
  {
    var args := ["-" + f, v] + rest;
    assert args[0][1..] == f && args[1] == v && args[2..] == rest;
  }

  /** A switch given twice asks for a value the second time, and dies at the end of the line. */
  lemma {:induction false} SwitchTwiceNeedsValue(f: string, table: map<string, string>)
    requires Get(table, f) == ""
    ensures ScanOptions(["-" + f, "-" + f], table).ScanError?
  {
    SwitchConsumesOne(f, ["-" + f], table);
    assert ["-" + f] + ["-" + f] == ["-" + f, "-" + f];
    var t := table[f := "y"];
    assert ["-" + f][0][1..] == f;
    assert Get(t, f) == "y";
  }

  /** A valued option followed by another option dies. */
  lemma {:induction false} ValueMissingDies(f: string, g: string, table: map<string, string>)
    requires Get(table, f) != ""
    ensures ScanOptions(["-" + f, "-" + g], table).ScanError?
  {
    var args := ["-" + f, "-" + g];
    assert args[0][1..] == f && args[1][0] == '-';
  }

  /** A token in option position without a leading `-` dies. */
  lemma {:induction false} NonOptionDies(a: string, rest: seq<string>, table: map<string, string>)
    requires a == "" || a[0] != '-'
    ensures ScanOptions([a] + rest, table) == ScanError("Expected option but got \"" + a + "\".\n")
  {
    assert ([a] + rest)[0] == a;
  }

  /** The scan changes only the names its option tokens carry. */
  lemma {:induction false} ScanKeepsUnnamed(args: seq<string>, table: map<string, string>, name: string)
    requires ScanOptions(args, table).ScanDone?
    requires forall i :: 0 <= i < |args| ==> args[i] != "-" + name
    ensures Get(ScanOptions(args, table).table, name) == Get(table, name)
    decreases |args|
  {
    if args != [] {
      var opt := args[0][1..];
      assert args[0] == "-" + opt;
      if Get(table, opt) == "" {
        assert forall i :: 0 <= i < |args[1..]| ==> args[1..][i] == args[i + 1];
        ScanKeepsUnnamed(args[1..], table[opt := "y"], name);
      } else {
        assert forall i :: 0 <= i < |args[2..]| ==> args[2..][i] == args[i + 2];
        ScanKeepsUnnamed(args[2..], table[opt := args[1]], name);
      }
    }
  }

  // ---------------------------------------------------------------------
  // Typed lookup

  /** The C++ type of the lookup target (floating point is not modelled). */
  datatype Target = BoolTarget | UnsignedTarget | SignedTarget | StringTarget

  datatype Looked = BoolValue(b: bool) | UnsignedValue(u: nat) | SignedValue(s: int) | StringValue(text: string)

  predicate IsCSpace(c: char)
  {
    c == ' ' || '\t' <= c <= '\r'
  }

  function SkipSpace(s: string): (t: string)
    ensures |t| <= |s| && t == s[|s| - |t|..]
  {
    if |s| > 0 && IsCSpace(s[0]) then SkipSpace(s[1..]) else s
  }

  /** The longest run of digits at the start of `s`. */
  function LeadingDigits(s: string): (d: string)
    ensures |d| <= |s| && d == s[..|d|] && AllDigits(d)
    ensures |d| < |s| ==> !IsDigit(s[|d|])
  {
    if |s| > 0 && IsDigit(s[0]) then [s[0]] + LeadingDigits(s[1..]) else []
  }

  /** The sign and the digits `strtoull`/`strtoll` read after the leading space. */
  function SignedDigits(s: string): (bool, string)
  {
    var t := SkipSpace(s);
    if |t| > 0 && (t[0] == '+' || t[0] == '-') then (t[0] == '-', LeadingDigits(t[1..]))
    else (false, LeadingDigits(t))
  }

  /**
   * `std::stoull`: `None` where it throws (no digits, or a magnitude that
   * does not fit 64 bits); a minus sign negates modulo 2^64.
   */
  function Stoull(s: string): (r: Option<nat>)
    ensures r.Some? ==> r.value < U64_LIMIT
  {
    var (neg, d) := SignedDigits(s);
    if d == [] || DigitsValue(d) >= U64_LIMIT then None
    else if neg then Some((U64_LIMIT - DigitsValue(d)) % U64_LIMIT)
    else Some(DigitsValue(d))
  }

  const I64_MIN: int := -0x8000_0000_0000_0000
  const I64_MAX: int := 0x7fff_ffff_ffff_ffff

  /** `std::stoll`: `None` where it throws (no digits, or outside the 64-bit signed range). */
  function Stoll(s: string): (r: Option<int>)
    ensures r.Some? ==> I64_MIN <= r.value <= I64_MAX
  {
    var (neg, d) := SignedDigits(s);
    if d == [] then None
    else
      var v := if neg then -(DigitsValue(d) as int) else DigitsValue(d);
      if v < I64_MIN || v > I64_MAX then None else Some(v)
  }

  /**
   * `operator()(name, ref)`: an unknown name, or text the conversion
   * rejects, exits after printing a message and the help text.
   */
  function Lookup(r: ArgParseResult, name: string, target: Target): (v: Result<Looked, string>)
    ensures name !in r.data ==> v == Err("Unknown argument \"" + name + "\"\n" + r.help)
    ensures name in r.data && target == BoolTarget ==> v == Ok(BoolValue(r.data[name] != ""))
    ensures name in r.data && target == StringTarget ==> v == Ok(StringValue(r.data[name]))
  {
    if name !in r.data then Err("Unknown argument \"" + name + "\"\n" + r.help)
    else
      var value := r.data[name];
      match target
      case BoolTarget => Ok(BoolValue(value != ""))
      case UnsignedTarget =>
        (match Stoull(value)
         case Some(u) => Ok(UnsignedValue(u))
         case None => Err("Could not parse data for " + name + " as type \"uint64_t\"\n" + r.help))
      case SignedTarget =>
        (match Stoll(value)
         case Some(i) => Ok(SignedValue(i))
         case None => Err("Could not parse data for " + name + " as type \"int64_t\"\n" + r.help))
      case StringTarget => Ok(StringValue(value))
  }

  lemma {:induction false} LeadingDigitsOfDigits(d: string)
    requires AllDigits(d)
    ensures LeadingDigits(d) == d
  {
    if |d| > 0 {
      LeadingDigitsOfDigits(d[1..]);
    }
  }

  lemma {:induction false} SkipSpaceStops(s: string)
    requires |s| > 0 && !IsCSpace(s[0])
    ensures SkipSpace(s) == s
  {
  }

  lemma {:induction false} SignedDigitsOfPrinted(n: nat)
    ensures SignedDigits(NatToString(n)) == (false, NatToString(n))
  {
    var d := NatToString(n);
    LeadingDigitsOfDigits(d);
    assert IsDigit(d[0]);
    SkipSpaceStops(d);
    var t := SkipSpace(d);
    assert t == d;
    assert !(t[0] == '+' || t[0] == '-');
  }

  lemma {:induction false} SignedDigitsOfNegated(n: nat)
    ensures SignedDigits("-" + NatToString(n)) == (true, NatToString(n))
  {
    var d := NatToString(n);
    LeadingDigitsOfDigits(d);
    var m := "-" + d;
    SkipSpaceStops(m);
    assert m[1..] == d;
  }

  /** An unsigned value printed in decimal reads back as itself. */
  lemma {:induction false} StoullOfPrinted(n: nat)
    requires n < U64_LIMIT
    ensures Stoull(NatToString(n)) == Some(n)
  {
    SignedDigitsOfPrinted(n);
    NatToStringRoundTrip(n);
  }

  /** A signed value in range printed in decimal reads back as itself. */
  lemma {:induction false} StollOfPrinted(i: int)
    requires I64_MIN <= i <= I64_MAX
    ensures Stoll(IntToString(i)) == Some(i)
  {
    var m: nat := if i < 0 then -i else i;
    SignedDigitsOfPrinted(m);
    SignedDigitsOfNegated(m);
    NatToStringRoundTrip(m);
  }

  /** `stoull` accepts a minus sign and wraps: `-1` reads as 2^64 - 1. */
  lemma {:induction false} StoullOfMinusOne()
    ensures Stoull("-1") == Some(U64_LIMIT - 1)
  {
    SkipSpaceStops("-1");
    assert "-1"[1..] == "1";
    assert LeadingDigits("1") == "1";
    assert DigitsValue("1") == 1;
  }

  /** Text with no leading integer is rejected by both conversions. */
  lemma {:induction false} NoDigitsRejected(s: string)
    requires |s| > 0 && !IsCSpace(s[0]) && !IsDigit(s[0]) && s[0] != '+' && s[0] != '-'
    ensures Stoull(s) == None && Stoll(s) == None
  {
    assert SkipSpace(s) == s;
  }

  /** After a parse, a switch given on the command line reads as true and an unset one as false. */
  lemma {:induction false} SwitchLookup(r: ArgParseResult, f: string)
    requires f in r.data && (r.data[f] == "y" || r.data[f] == "")
    ensures Lookup(r, f, BoolTarget) == Ok(BoolValue(r.data[f] == "y"))
  {
  }
  /** A stored decimal number reads back through the unsigned and signed lookups. */
  lemma {:induction false} NumberLookupReadsBack(r: ArgParseResult, name: string, i: int)
    requires name in r.data && r.data[name] == IntToString(i) && I64_MIN <= i <= I64_MAX
    ensures Lookup(r, name, SignedTarget) == Ok(SignedValue(i))
    ensures 0 <= i ==> Lookup(r, name, UnsignedTarget) == Ok(UnsignedValue(i))
  {
    StollOfPrinted(i);
    if 0 <= i {
      StoullOfPrinted(i);
    }
  }

  /** Stored text with no leading integer makes both numeric lookups exit with the conversion message. */
  lemma {:induction false} NumberLookupRejects(r: ArgParseResult, name: string)
    requires name in r.data && var s := r.data[name];
      |s| > 0 && !IsCSpace(s[0]) && !IsDigit(s[0]) && s[0] != '+' && s[0] != '-'
    ensures Lookup(r, name, UnsignedTarget) == Err("Could not parse data for " + name + " as type \"uint64_t\"\n" + r.help)
    ensures Lookup(r, name, SignedTarget) == Err("Could not parse data for " + name + " as type \"int64_t\"\n" + r.help)
  {
    NoDigitsRejected(r.data[name]);
  }
}

=== FILE: bitcount.dfy ===
/**
 * The compile-time `Log2<X>` template: `Log2<1>` is 0 and `Log2<X>` is
 * `Log2<X/2> + 1`. Instantiating it at 0 never reaches the base case and does
 * not compile, so the model's domain is X >= 1.
 */
module BitCount {
  import opened Bits

  /** `Log2<x>::value`, which is the floor of the base-2 logarithm of `x`. */
  function Log2(x: nat): (r: nat)
    requires x >= 1
    ensures Pow2(r) <= x < 2 * Pow2(r)
  {
    if x == 1 then 0 else Log2(x / 2) + 1
  }

  /** On a power of two the template gives back its exponent. */
  lemma {:induction false} Log2OfPow2(k: nat)
    ensures Log2(Pow2(k)) == k
  {
    if k > 0 {
      assert Pow2(k) / 2 == Pow2(k - 1);
      Log2OfPow2(k - 1);
    }
  }

  /** A larger argument never gives a smaller logarithm. */
  lemma {:induction false} Log2Monotone(x: nat, y: nat)
    requires 1 <= x <= y
    ensures Log2(x) <= Log2(y)
    decreases x
  {
    if x > 1 {
      Log2Monotone(x / 2, y / 2);
    }
  }
}

=== FILE: bitfields.dfy ===
/**
 * Bit fields of a line address. An address layout is a list of
 * (value, width) pairs from the least significant end; `Pack` lays the
 * values side by side and `Field` reads `width` bits starting at a bit
 * offset, which is what `(x >> off) & ((1 << width) - 1)` computes.
 */
module BitFields {
  import opened Bits

  /** The bits `off .. off + b - 1` of `x`. */
  function Field(x: nat, off: nat, b: nat): (r: nat)
    ensures r < Pow2(b)
  {
    x / Pow2(off) % Pow2(b)
  }

  /** `(x >> off) & MASK(b)` is the field at `off` of width `b`. */
  lemma {:induction false} ShiftMaskIsField(x: nat, off: nat, b: nat)
    ensures And(Shr(x, off), Pow2(b) - 1) == Field(x, off, b)
  {
    AndLowMask(Shr(x, off), b);
  }

  /** The values of a layout laid side by side, the first one lowest. */
  function Pack(fs: seq<(nat, nat)>): nat
  {
    if fs == [] then 0 else fs[0].0 + Pow2(fs[0].1) * Pack(fs[1..])
  }

  /** The bit offset at which the `i`-th field of a layout starts. */
  function OffsetOf(fs: seq<(nat, nat)>, i: nat): nat
    requires i <= |fs|
  {
    if i == 0 then 0 else fs[0].1 + OffsetOf(fs[1..], i - 1)
  }

  /** Each field starts where the previous one ends. */
  lemma {:induction false} OffsetStep(fs: seq<(nat, nat)>, i: nat)
    requires i < |fs|
    ensures OffsetOf(fs, i + 1) == OffsetOf(fs, i) + fs[i].1
    decreases i
  {
    if i > 0 {
      OffsetStep(fs[1..], i - 1);
    }
  }

  predicate InRange(fs: seq<(nat, nat)>)
  {
    forall i :: 0 <= i < |fs| ==> fs[i].0 < Pow2(fs[i].1)
  }

  lemma {:induction false} PackFirst(fs: seq<(nat, nat)>)
    requires InRange(fs) && |fs| > 0
    ensures Pack(fs) / Pow2(fs[0].1) == Pack(fs[1..])
    ensures Pack(fs) % Pow2(fs[0].1) == fs[0].0
  {
    var v, p, n := fs[0].0, Pow2(fs[0].1), Pack(fs[1..]);
    assert v < p;
    assert Pack(fs) == n * p + v;
    DivModUnique(Pack(fs), p, n, v);
  }

  /** Shifting a packed address right by a field's offset leaves the fields from there on. */
  lemma {:induction false} PackTail(fs: seq<(nat, nat)>, i: nat)
    requires InRange(fs) && i <= |fs|
    ensures Pack(fs) / Pow2(OffsetOf(fs, i)) == Pack(fs[i..])
    decreases i
  {
    if i == 0 {
      assert fs[0..] == fs;
    } else {
      var rest := fs[1..];
      assert InRange(rest) by {
        forall j | 0 <= j < |rest|
          ensures rest[j].0 < Pow2(rest[j].1)
        {
          assert rest[j] == fs[j + 1];
        }
      }
      PackFirst(fs);
      PackTail(rest, i - 1);
      Pow2Add(fs[0].1, OffsetOf(rest, i - 1));
      DivDiv(Pack(fs), Pow2(fs[0].1), Pow2(OffsetOf(rest, i - 1)));
      assert rest[i - 1..] == fs[i..];
    }
  }

  /** Every field of a layout whose values fit their widths reads back its value. */
  lemma {:induction false} PackField(fs: seq<(nat, nat)>, i: nat)
    requires InRange(fs) && i < |fs|
    ensures Field(Pack(fs), OffsetOf(fs, i), fs[i].1) == fs[i].0
  {
    PackTail(fs, i);
    var tail := fs[i..];
    assert InRange(tail) by {
      forall j | 0 <= j < |tail|
        ensures tail[j].0 < Pow2(tail[j].1)
      {
        assert tail[j] == fs[i + j];
      }
    }
    PackFirst(tail);
  }

  /** The last field read with a shift and no mask is still its value. */
  lemma {:induction false} PackLast(fs: seq<(nat, nat)>)
    requires InRange(fs) && |fs| > 0
    ensures Pack(fs) / Pow2(OffsetOf(fs, |fs| - 1)) == fs[|fs| - 1].0
  {
    PackTail(fs, |fs| - 1);
    var tail := fs[|fs| - 1..];
    assert tail == [fs[|fs| - 1]];
    assert Pack(tail[1..]) == 0;
  }

  /** Adding a multiple of the divisor moves the quotient and keeps the remainder. */
  lemma {:induction false} DivAddMultiple(a: nat, d: nat, c: nat)
    requires d > 0
    ensures (a + d * c) / d == a / d + c && (a + d * c) % d == a % d
  {
    assert a + d * c == (a / d + c) * d + a % d by {
      assert (a / d + c) * d == (a / d) * d + c * d;
    }
    DivModUnique(a + d * c, d, a / d + c, a % d);
  }

  /** A remainder modulo `po * pb * pk` fixes the digit `x / po % pb`. */
  lemma {:induction false} DigitOfRemainder(x: nat, po: nat, pb: nat, pk: nat)
    requires po > 0 && pb > 0 && pk > 0
    ensures x / po % pb == x % (po * (pb * pk)) / po % pb
  {
    var t := po * (pb * pk);
    var r, q := x % t, x / t;
    assert x == r + po * (pb * (pk * q)) by {
      assert t * q == po * (pb * (pk * q));
    }
    DivAddMultiple(r, po, pb * (pk * q));
    DivAddMultiple(r / po, pb, pk * q);
  }

  /** Two addresses that agree below bit `t` agree on every field that ends at or below `t`. */
  lemma {:induction false} FieldIgnoresHigh(x: nat, y: nat, off: nat, b: nat, t: nat)
    requires off + b <= t && x % Pow2(t) == y % Pow2(t)
    ensures Field(x, off, b) == Field(y, off, b)
  {
    var po, pb, pk := Pow2(off), Pow2(b), Pow2(t - off - b);
    Pow2Add(off, b + (t - off - b));
    Pow2Add(b, t - off - b);
    assert Pow2(t) == po * (pb * pk);
    DigitOfRemainder(x, po, pb, pk);
    DigitOfRemainder(y, po, pb, pk);
  }
}

=== FILE: bits.dfy ===
/**
 * The C and C++ unsigned operators the simulator uses on addresses and
 * bit vectors, stated on unbounded naturals: `x >> k` is `Shr`, `x << k` is
 * `Shl`, and `&`/`|` are `And`/`Or`, defined bit by bit. Wrap-around at 64
 * bits is applied explicitly by the modules that need it.
 */
module Bits {
  const U64_LIMIT: nat := 0x1_0000_0000_0000_0000

  function Pow2(k: nat): (r: nat)
    ensures r >= 1
  {
    if k == 0 then 1 else 2 * Pow2(k - 1)
  }

  function Shr(x: nat, k: nat): nat { Quot(x, Pow2(k)) }

  /** Division of naturals, kept apart so that its result's sign is checked once. */
  function Quot(x: nat, d: nat): nat
    requires d >= 1
  {
    x / d
  }

  function Shl(x: nat, k: nat): nat { x * Pow2(k) }

  /** Bitwise AND, one bit at a time from the least significant end. */
  function And(a: nat, b: nat): nat
    decreases a
  {
    if a == 0 || b == 0 then 0
    else 2 * And(a / 2, b / 2) + (if a % 2 == 1 && b % 2 == 1 then 1 else 0)
  }

  /** Bitwise OR, one bit at a time from the least significant end. */
  function Or(a: nat, b: nat): nat
    decreases a + b
  {
    if a == 0 then b
    else if b == 0 then a
    else 2 * Or(a / 2, b / 2) + (if a % 2 == 1 || b % 2 == 1 then 1 else 0)
  }

  /** Bit `i` of `x`. */
  function Bit(x: nat, i: nat): bool { x / Pow2(i) % 2 == 1 }

  /** `|` is commutative. */
  lemma {:induction false} OrCommutes(a: nat, b: nat)
    ensures Or(a, b) == Or(b, a)
    decreases a + b
  {
    if a != 0 && b != 0 {
      OrCommutes(a / 2, b / 2);
    }
  }

  lemma {:induction false} Pow2Add(a: nat, b: nat)
    ensures Pow2(a + b) == Pow2(a) * Pow2(b)
    decreases a
  {
    if a > 0 {
      Pow2Add(a - 1, b);
    }
  }

  lemma {:induction false} Pow2Of64()
    ensures Pow2(64) == U64_LIMIT
  {
    assert Pow2(2) == 4;
    Pow2Add(2, 2);
    Pow2Add(4, 4);
    assert Pow2(8) == 256;
    Pow2Add(8, 8);
    assert Pow2(16) == 65536;
    Pow2Add(16, 16);
    assert Pow2(32) == 4294967296;
    Pow2Add(32, 32);
  }

  lemma {:induction false} Pow2Monotone(a: nat, b: nat)
    requires a <= b
    ensures Pow2(a) <= Pow2(b)
    decreases b
  {
    if a < b {
      Pow2Monotone(a, b - 1);
    }
  }

  lemma {:induction false} MulSmall(x: int, d: int)
    requires d > 0 && -d < x * d < d
    ensures x == 0
  {
  }

  lemma {:induction false} MulLe(x: nat, y: nat, b: nat)
    requires x <= y
    ensures x * b <= y * b
  {
  }

  /** Division with remainder has exactly one answer. */
  lemma {:induction false} DivModUnique(a: nat, d: nat, q: nat, r: nat)
    requires d > 0 && r < d && a == q * d + r
    ensures a / d == q && a % d == r
  {
    var q', r' := a / d, a % d;
    assert (q - q') * d == r' - r;
    MulSmall(q - q', d);
  }

  lemma {:induction false} DivDiv(a: nat, b: nat, c: nat)
    requires b > 0 && c > 0
    ensures a / b / c == a / (b * c)
  {
    var q1, r1 := a / b, a % b;
    var q2, r2 := q1 / c, q1 % c;
    assert a == q1 * b + r1;
    assert q1 == q2 * c + r2;
    RegroupProduct(q1, q2, r2, r1, b, c);
    DivModUnique(a, b * c, q2, r2 * b + r1);
  }

  /** The arithmetic behind `DivDiv`: `(q2 c + r2) b + r1` regrouped, and its remainder part below `b c`. */
  lemma {:induction false} RegroupProduct(q1: nat, q2: nat, r2: nat, r1: nat, b: nat, c: nat)
    requires q1 == q2 * c + r2 && r1 < b && r2 < c
    ensures q1 * b + r1 == q2 * (b * c) + (r2 * b + r1)
    ensures r2 * b + r1 < b * c
  {
    calc {
      q1 * b;
      (q2 * c + r2) * b;
      (q2 * c) * b + r2 * b;
      q2 * (b * c) + r2 * b;
    }
    MulLe(r2, c - 1, b);
    assert (c - 1) * b == c * b - b;
  }

  /** Splitting off the lowest bit: `a mod 2m` from `(a / 2) mod m`. */
  lemma {:induction false} ModDouble(a: nat, m: nat)
    requires m > 0
    ensures a % (2 * m) == 2 * ((a / 2) % m) + a % 2
    ensures a / (2 * m) == (a / 2) / m
  {
    var h := a / 2;
    assert a == 2 * h + a % 2;
    assert h == (h / m) * m + h % m;
    assert a == (h / m) * (2 * m) + (2 * (h % m) + a % 2);
    DivModUnique(a, 2 * m, h / m, 2 * (h % m) + a % 2);
  }

  /** `x & (2^k - 1)` keeps the low `k` bits. */
  lemma {:induction false} AndLowMask(a: nat, k: nat)
    ensures And(a, Pow2(k) - 1) == a % Pow2(k)
    decreases k
  {
    var n := Pow2(k);
    if k == 0 {
      assert n == 1 && And(a, 0) == 0;
      assert a % 1 == 0;
    } else if a == 0 {
      assert And(0, n - 1) == 0;
      DivModUnique(0, n, 0, 0);
    } else {
      var m := Pow2(k - 1);
      assert n == 2 * m && n - 1 == 2 * (m - 1) + 1;
      AndOddMask(a, m - 1);
      AndLowMask(a / 2, k - 1);
      ModDouble(a, m);
      assert a % n == 2 * (a / 2 % m) + a % 2;
    }
  }

  /** One step of `AndLowMask`: an odd mask keeps the lowest bit and halves. */
  lemma {:induction false} AndOddMask(a: nat, c: nat)
    requires a > 0
    ensures And(a, 2 * c + 1) == 2 * And(a / 2, c) + a % 2
  {
    var b := 2 * c + 1;
    DivModUnique(b, 2, c, 1);
    assert And(a, b) == 2 * And(a / 2, b / 2) + (if a % 2 == 1 && b % 2 == 1 then 1 else 0);
  }

  /** `x | (2^k - 1)` keeps the bits above `k` and sets the low `k` bits. */
  lemma {:induction false} OrLowMask(a: nat, k: nat)
    ensures Or(a, Pow2(k) - 1) == a - a % Pow2(k) + Pow2(k) - 1
    decreases k
  {
    if k == 0 {
      assert a % 1 == 0;
    } else if a == 0 {
      DivModUnique(0, Pow2(k), 0, 0);
    } else {
      var m := Pow2(k - 1);
      var n := 2 * m;
      assert Pow2(k) == n && Pow2(k) - 1 == 2 * (m - 1) + 1;
      OrOddMask(a, m - 1);
      var h, t := a / 2, a / 2 % m;
      OrLowMask(h, k - 1);
      assert Or(h, m - 1) == h - t + m - 1;
      ModDouble(a, m);
      assert a % Pow2(k) == 2 * t + a % 2;
      assert a == 2 * h + a % 2;
    }
  }

  /** One step of `OrLowMask`: an odd mask sets the lowest bit and halves. */
  lemma {:induction false} OrOddMask(a: nat, c: nat)
    requires a > 0
    ensures Or(a, 2 * c + 1) == 2 * Or(a / 2, c) + 1
  {
    var b := 2 * c + 1;
    DivModUnique(b, 2, c, 1);
    assert Or(a, b) == 2 * Or(a / 2, b / 2) + (if a % 2 == 1 || b % 2 == 1 then 1 else 0);
  }

  /** OR of a shifted value with a value below the shift is a sum. */
  lemma {:induction false} OrDisjoint(hi: nat, lo: nat, k: nat)
    requires lo < Pow2(k)
    ensures Or(hi * Pow2(k), lo) == hi * Pow2(k) + lo
    decreases k
  {
    if k > 0 && hi > 0 && lo > 0 {
      var m := Pow2(k - 1);
      var a := hi * Pow2(k);
      assert a == 2 * (hi * m);
      DivModUnique(a, 2, hi * m, 0);
      OrDisjoint(hi, lo / 2, k - 1);
      assert Or(a, lo) == 2 * (hi * m + lo / 2) + lo % 2;
    }
  }

  /** Setting a bit that is clear adds its weight. */
  lemma {:induction false} OrClearBit(x: nat, i: nat)
    requires !Bit(x, i)
    ensures Or(x, Pow2(i)) == x + Pow2(i)
    decreases i
  {
    if i == 0 {
      if x != 0 {
        assert Or(x, 1) == 2 * Or(x / 2, 0) + 1;
      }
    } else {
      var m := Pow2(i - 1);
      DivDiv(x, 2, m);
      OrClearBit(x / 2, i - 1);
      DivModUnique(2 * m, 2, m, 0);
      if x != 0 {
        assert Or(x, Pow2(i)) == 2 * Or(x / 2, m) + x % 2;
      }
    }
  }

  /** Bit `j` of `x` is bit `j - 1` of `x / 2`. */
  lemma {:induction false} BitHalf(x: nat, j: nat)
    requires j > 0
    ensures Bit(x, j) == Bit(x / 2, j - 1)
  {
    DivDiv(x, 2, Pow2(j - 1));
  }

  /** Adding the weight of a clear bit sets that bit and leaves every other bit as it was. */
  lemma {:induction false} AddClearBit(x: nat, i: nat, j: nat)
    requires !Bit(x, i)
    ensures Bit(x + Pow2(i), j) == (j == i || Bit(x, j))
    decreases i
  {
    if j == 0 {
      AddClearBitLowest(x, i);
    } else if i == 0 {
      AddLowestBit(x, j);
    } else {
      var y := x + Pow2(i);
      var m := Pow2(i - 1);
      assert Pow2(i) == 2 * m;
      DivModUnique(y, 2, x / 2 + m, x % 2);
      BitHalf(x, i);
      BitHalf(x, j);
      BitHalf(y, j);
      AddClearBit(x / 2, i - 1, j - 1);
    }
  }

  /** Bit 0 after adding the weight of clear bit `i`. */
  lemma {:induction false} AddClearBitLowest(x: nat, i: nat)
    requires !Bit(x, i)
    ensures Bit(x + Pow2(i), 0) == (i == 0 || Bit(x, 0))
  {
    var y := x + Pow2(i);
    assert Pow2(0) == 1 && y / 1 == y && x / 1 == x;
    if i > 0 {
      var m := Pow2(i - 1);
      assert y == x + 2 * m;
      DivModUnique(y, 2, x / 2 + m, x % 2);
    } else {
      DivModUnique(y, 2, x / 2, 1);
    }
  }

  /** Setting a clear bit 0 leaves the higher bits alone. */
  lemma {:induction false} AddLowestBit(x: nat, j: nat)
    requires !Bit(x, 0) && j > 0
    ensures Bit(x + 1, j) == Bit(x, j)
  {
    assert x / 1 == x;
    DivModUnique(x + 1, 2, x / 2, 1);
    BitHalf(x, j);
    BitHalf(x + 1, j);
  }
}

=== FILE: core.dfy ===
/**
 * The trace-driven core: a reorder buffer (ROB) of `ROB_WIDTH` entries kept
 * as a ring (`rob_`, `rob_ptr_`, `rob_size_`). Each tick first retires
 * finished entries from the head, in order, and then allocates up to
 * `fetch_width` new entries at the tail. An entry whose instruction number
 * has reached the next trace record issues that record to the LLC: a load
 * waits `BAD_LATENCY` cycles, and an LLC answer of -1 (no MSHR free) stops
 * allocation for the tick.
 *
 * The LLC's answers and the trace records are parameters: `llc[j]` is the
 * j-th `access` result of the tick and `trace[j]` the record read after it.
 * The global cycle `GL_cycle_` is the parameter `now`.
 */
module Core {
  import opened Bits
  import opened Defs
  import opened Ring

  const BAD_LATENCY: nat := 1_000_000

  /** `ROBEntry`. */
  datatype ROBEntry = ROBEntry(instNum: nat, beginCycle: nat, endCycle: nat)

  /** The fields of `next_inst_` the model needs: its number, its line address and whether it is a write-back. */
  datatype Inst = Inst(num: nat, vla: nat, isWb: bool)

  /**
   * The part of the core that allocation changes: the ROB's live entries,
   * `curr_inst_num_`, `next_inst_`, how many LLC answers have been used,
   * and the MSHR-full, access and miss counters.
   */
  datatype Front = Front(rob: seq<ROBEntry>, curr: nat, next: Inst, used: nat,
                         mshrFull: nat, accesses: nat, misses: nat)

  /** The entry a load waits on finishes `BAD_LATENCY` cycles after it is allocated, any other entry at once. */
  predicate AllocatedAt(e: ROBEntry, now: nat)
  {
    e.beginCycle == now && (e.endCycle == now || e.endCycle == now + BAD_LATENCY)
  }

  /** Whether the entry allocated next reaches `next_inst_` and so issues it to the LLC. */
  predicate Issues(f: Front)
  {
    f.curr >= f.next.num
  }

  /** The entry allocated for `curr_inst_num_`: a load it issues finishes `BAD_LATENCY` later. */
  function NewEntry(f: Front, now: nat): ROBEntry
  {
    ROBEntry(f.curr, now, if Issues(f) && !f.next.isWb then now + BAD_LATENCY else now)
  }

  /**
   * One allocation that takes its slot: the entry goes in at the tail, and
   * an issuing one consumes an LLC answer (counting it as an access, and as
   * a miss when it is 0) and moves on to the next trace record.
   */
  function Advance(f: Front, now: nat, llc: seq<int>, trace: seq<Inst>): Front
    requires Issues(f) ==> f.used < |llc| && f.used < |trace|
  {
    if !Issues(f) then f.(rob := f.rob + [NewEntry(f, now)], curr := f.curr + 1)
    else Front(f.rob + [NewEntry(f, now)], f.curr + 1, trace[f.used], f.used + 1, f.mshrFull, f.accesses + 1,
               f.misses + (if llc[f.used] == 0 then 1 else 0))
  }

  /**
   * The allocation loop of `tick` from iteration `i` on. A slot is taken
   * while fewer than `fw` iterations have run and the ROB has room; an
   * issuing entry whose LLC answer is -1 ends the tick without taking the
   * slot and counts a full MSHR.
   */
  function Fetch(f: Front, now: nat, fw: nat, i: nat, llc: seq<int>, trace: seq<Inst>): (r: Front)
    requires i <= fw && f.used + (fw - i) <= |llc| && f.used + (fw - i) <= |trace|
    decreases fw - i
  {
    if i >= fw || |f.rob| >= ROB_WIDTH then f
    else if Issues(f) && llc[f.used] == -1 then f.(used := f.used + 1, mshrFull := f.mshrFull + 1)
    else Fetch(Advance(f, now, llc, trace), now, fw, i + 1, llc, trace)
  }

  /**
   * What allocation promises: the old entries stay in front, at most one
   * new entry per remaining iteration and never past `ROB_WIDTH`, numbered
   * on from `curr_inst_num_`, each allocated now; every LLC answer used is
   * either an access or the one full MSHR, and misses are accesses.
   */
  lemma {:induction false} FetchShape(f: Front, now: nat, fw: nat, i: nat, llc: seq<int>, trace: seq<Inst>)
    requires i <= fw && f.used + (fw - i) <= |llc| && f.used + (fw - i) <= |trace|
    requires |f.rob| <= ROB_WIDTH
    ensures var r := Fetch(f, now, fw, i, llc, trace);
      |f.rob| <= |r.rob| <= ROB_WIDTH && |r.rob| - |f.rob| <= fw - i &&
      r.rob[..|f.rob|] == f.rob &&
      r.curr == f.curr + (|r.rob| - |f.rob|) &&
      (forall k :: |f.rob| <= k < |r.rob| ==> r.rob[k].instNum == f.curr + (k - |f.rob|) && AllocatedAt(r.rob[k], now)) &&
      f.used <= r.used && r.used - f.used == (r.accesses - f.accesses) + (r.mshrFull - f.mshrFull) &&
      f.mshrFull <= r.mshrFull <= f.mshrFull + 1 && f.accesses <= r.accesses &&
      f.misses <= r.misses && r.misses - f.misses <= r.accesses - f.accesses
    decreases fw - i
  {
    if i >= fw || |f.rob| >= ROB_WIDTH || (Issues(f) && llc[f.used] == -1) {
    } else {
      var g := Advance(f, now, llc, trace);
      FetchShape(g, now, fw, i + 1, llc, trace);
      var r := Fetch(g, now, fw, i + 1, llc, trace);
      assert r.rob[..|f.rob|] == r.rob[..|g.rob|][..|f.rob|];
    }
  }

  /**
   * One allocation step: a full MSHR leaves the ROB and the instruction
   * count as they were; otherwise the slot holds the current instruction,
   * finishing `BAD_LATENCY` later exactly when it issued a load.
   */
  lemma {:induction false} FetchStep(f: Front, now: nat, fw: nat, i: nat, llc: seq<int>, trace: seq<Inst>)
    requires i < fw && f.used + (fw - i) <= |llc| && f.used + (fw - i) <= |trace|
    requires |f.rob| < ROB_WIDTH
    ensures var r := Fetch(f, now, fw, i, llc, trace);
      (f.curr >= f.next.num && llc[f.used] == -1 ==>
         r.rob == f.rob && r.curr == f.curr && r.next == f.next && r.mshrFull == f.mshrFull + 1) &&
      (f.curr < f.next.num || llc[f.used] != -1 ==>
         |r.rob| > |f.rob| &&
         r.rob[|f.rob|].endCycle == if f.curr >= f.next.num && !f.next.isWb then now + BAD_LATENCY else now)
  {
    if !Issues(f) || llc[f.used] != -1 {
      var g := Advance(f, now, llc, trace);
      var r := Fetch(g, now, fw, i + 1, llc, trace);
      FetchShape(g, now, fw, i + 1, llc, trace);
      assert r.rob[..|g.rob|] == g.rob;
      assert r.rob[|f.rob|] == g.rob[|f.rob|];
    }
  }

  /* ---------------- retirement ---------------- */

  /** How many entries `rob_retire` takes off the head: the leading finished ones, at most `fw`. */
  function Retirable(rob: seq<ROBEntry>, now: nat, fw: nat): (k: nat)
    ensures k <= fw && k <= |rob|
  {
    if fw == 0 || rob == [] || rob[0].endCycle > now then 0
    else 1 + Retirable(rob[1..], now, fw - 1)
  }

  /** The retired entries have all finished, and the one after them, if it could have gone, has not. */
  lemma {:induction false} RetirableIsLeadingFinished(rob: seq<ROBEntry>, now: nat, fw: nat)
    ensures var k := Retirable(rob, now, fw);
      (forall j :: 0 <= j < k ==> rob[j].endCycle <= now) &&
      (k < fw && k < |rob| ==> rob[k].endCycle > now)
  {
    if fw == 0 || rob == [] || rob[0].endCycle > now {
    } else {
      RetirableIsLeadingFinished(rob[1..], now, fw - 1);
      var k := Retirable(rob, now, fw);
      forall j | 0 <= j < k
        ensures rob[j].endCycle <= now
      {
        if j > 0 {
          assert rob[j] == rob[1..][j - 1];
        }
      }
    }
  }

  /** A finished prefix that stops at the width, the end, or an unfinished entry is what retires. */
  lemma {:induction false} RetirableCount(rob: seq<ROBEntry>, now: nat, fw: nat, i: nat)
    requires i <= fw && i <= |rob|
    requires forall j :: 0 <= j < i ==> rob[j].endCycle <= now
    requires i == fw || i == |rob| || rob[i].endCycle > now
    ensures Retirable(rob, now, fw) == i
  {
    if i > 0 {
      assert rob[0].endCycle <= now;
      forall j | 0 <= j < i - 1
        ensures rob[1..][j].endCycle <= now
      {
        assert rob[1..][j] == rob[j + 1];
      }
      RetirableCount(rob[1..], now, fw - 1, i - 1);
    }
  }

  /** Every entry ends no earlier than it began. */
  predicate Ordered(rob: seq<ROBEntry>)
  {
    forall j :: 0 <= j < |rob| ==> rob[j].beginCycle <= rob[j].endCycle
  }

  /** The total time the entries spent in the ROB: `s_tot_delay_`'s share of them. */
  function Delay(rob: seq<ROBEntry>): nat
    requires Ordered(rob)
  {
    if rob == [] then 0 else Delay(rob[..|rob| - 1]) + (rob[|rob| - 1].endCycle - rob[|rob| - 1].beginCycle)
  }

  /** Taking one more entry into the prefix adds its time in the ROB. */
  lemma {:induction false} DelayStep(rob: seq<ROBEntry>, i: nat)
    requires Ordered(rob) && i < |rob|
    ensures Delay(rob[..i + 1]) == Delay(rob[..i]) + (rob[i].endCycle - rob[i].beginCycle)
  {
    assert rob[..i + 1][..i] == rob[..i];
  }

  /** `ROB_WIDTH` is a power of two, so the increment macro is the increment modulo it. */
  lemma {:induction false} RobIncrement(x: nat)
    requires x < ROB_WIDTH
    ensures IncrementAndModByPow2(x, ROB_WIDTH) == (x + 1) % ROB_WIDTH
  {
    SizesArePowersOfTwo();
    Pow2Monotone(8, 64);
    Pow2Of64();
    IncrementAndModByPow2IsMod(x, 8);
  }

  /** The increment macro moves the tail slot on with the count. */
  lemma {:induction false} TailStep(ptr: nat, size: nat)
    requires size < ROB_WIDTH
    ensures IncrementAndModByPow2((ptr + size) % ROB_WIDTH, ROB_WIDTH) == (ptr + size + 1) % ROB_WIDTH
  {
    RobIncrement((ptr + size) % ROB_WIDTH);
    ModSucc(ptr + size, ROB_WIDTH);
  }

  /* ---------------- the core object ---------------- */

  class Core {
    const coreid: nat
    const fetchWidth: nat
    const rob: array<ROBEntry>
    var robPtr: nat
    var robSize: nat
    var currInstNum: nat
    var finishedInstNum: nat
    var nextInst: Inst
    var sTotDelay: nat
    var sMshrFull: nat
    var sLlcMisses: nat
    var sLlcAccesses: nat

    ghost predicate Valid()
      reads this, rob
    {
      rob.Length == ROB_WIDTH && robPtr < ROB_WIDTH && robSize <= ROB_WIDTH && Ordered(rob[..])
    }

    /** The live ROB entries, oldest first. */
    ghost function Contents(): (c: seq<ROBEntry>)
      requires Valid()
      reads this, rob
      ensures Ordered(c)
    {
      var c := Window(rob[..], robPtr, robSize);
      assert forall k :: 0 <= k < |c| ==> c[k] == rob[(robPtr + k) % ROB_WIDTH];
      c
    }

    /** The allocation state with `used` LLC answers consumed. */
    ghost function FrontAt(used: nat): Front
      requires Valid()
      reads this, rob
    {
      Front(Contents(), currInstNum, nextInst, used, sMshrFull, sLlcAccesses, sLlcMisses)
    }

    /** A core with an empty ROB whose trace starts with `first`. */
    constructor (coreid: nat, fw: nat, first: Inst)
      ensures Valid() && Contents() == []
      ensures this.coreid == coreid && fetchWidth == fw && nextInst == first
      ensures currInstNum == 0 && finishedInstNum == 0
      ensures sTotDelay == 0 && sMshrFull == 0 && sLlcMisses == 0 && sLlcAccesses == 0
    {
      this.coreid, fetchWidth := coreid, fw;
      rob := new ROBEntry[ROB_WIDTH](_ => ROBEntry(0, 0, 0));
      robPtr, robSize := 0, 0;
      currInstNum, finishedInstNum := 0, 0;
      nextInst := first;
      sTotDelay, sMshrFull, sLlcMisses, sLlcAccesses := 0, 0, 0, 0;
    }

    /**
     * `rob_retire`: entries leave from the head, in order, while they have
     * finished by `now`, at most `fetch_width` of them; the last one retired
     * becomes the finished instruction and each adds its time in the ROB to
     * the delay total.
     */
    method RobRetire(now: nat)
      requires Valid()
      modifies this`robPtr, this`robSize, this`finishedInstNum, this`sTotDelay
      ensures Valid()
      ensures var c0, k := old(Contents()), Retirable(old(Contents()), now, fetchWidth);
        Contents() == c0[k..] &&
        finishedInstNum == (if k == 0 then old(finishedInstNum) else c0[k - 1].instNum) &&
        sTotDelay == old(sTotDelay) + Delay(c0[..k])
    {
      ghost var slots := rob[..];
      ghost var c0 := Contents();
      var ptr: nat, size: nat, finished: nat, delay: nat := robPtr, robSize, finishedInstNum, sTotDelay;
      var i := 0;
      while i < fetchWidth && size > 0
        invariant |slots| == rob.Length == ROB_WIDTH && ptr < ROB_WIDTH && size <= ROB_WIDTH
        invariant i <= fetchWidth && i <= |c0|
        invariant Window(slots, ptr, size) == c0[i..]
        invariant forall j :: 0 <= j < i ==> c0[j].endCycle <= now
        invariant finished == if i == 0 then old(finishedInstNum) else c0[i - 1].instNum
        invariant delay == old(sTotDelay) + Delay(c0[..i])
        decreases fetchWidth - i
      {
        var e := rob[ptr];
        WindowHead(slots, ptr, size);
        assert c0[i..][0] == c0[i];
        if e.endCycle <= now {
          PopFront(slots, ptr, size);
          RobIncrement(ptr);
          DelayStep(c0, i);
          size := size - 1;
          ptr := IncrementAndModByPow2(ptr, ROB_WIDTH);
          finished := e.instNum;
          delay := delay + (e.endCycle - e.beginCycle);
          assert c0[i..][1..] == c0[i + 1..];
        } else {
          break;
        }
        i := i + 1;
      }
      RetirableCount(c0, now, fetchWidth, i);
      robPtr, robSize, finishedInstNum, sTotDelay := ptr, size, finished, delay;
    }

    /**
     * The allocation loop of `tick`: new entries go in at the tail, as
     * `Fetch` describes; the head does not move.
     */
    method Allocate(now: nat, llc: seq<int>, trace: seq<Inst>)
      requires Valid() && |llc| >= fetchWidth && |trace| >= fetchWidth
      modifies this`robSize, this`currInstNum, this`nextInst, this`sMshrFull, this`sLlcAccesses, this`sLlcMisses, rob
      ensures Valid() && robPtr == old(robPtr)
      ensures var f := Fetch(old(FrontAt(0)), now, fetchWidth, 0, llc, trace);
        Contents() == f.rob && currInstNum == f.curr && nextInst == f.next &&
        sMshrFull == f.mshrFull && sLlcAccesses == f.accesses && sLlcMisses == f.misses
    {
      ghost var f0 := FrontAt(0);
      var robid := And(robPtr + robSize, ROB_WIDTH - 1);
      SizesArePowersOfTwo();
      AndLowMask(robPtr + robSize, 8);
      var size: nat, curr: nat, next: Inst := robSize, currInstNum, nextInst;
      var mshr: nat, accesses: nat, misses: nat := sMshrFull, sLlcAccesses, sLlcMisses;
      ghost var c := f0.rob;
      var used: nat, i: nat := 0, 0;
      while i < fetchWidth && size < ROB_WIDTH
        invariant rob.Length == ROB_WIDTH && Ordered(rob[..]) && size <= ROB_WIDTH
        invariant robid == (robPtr + size) % ROB_WIDTH
        invariant c == Window(rob[..], robPtr, size)
        invariant i <= fetchWidth && used <= i
        invariant Fetch(Front(c, curr, next, used, mshr, accesses, misses), now, fetchWidth, i, llc, trace) ==
                  Fetch(f0, now, fetchWidth, 0, llc, trace)
        decreases fetchWidth - i
      {
        ghost var f := Front(c, curr, next, used, mshr, accesses, misses);
        var e := ROBEntry(curr, now, now);
        if curr >= next.num {
          var isLoad := !next.isWb;
          if isLoad {
            e := e.(endCycle := now + BAD_LATENCY);
          }
          var retval := llc[used];
          used := used + 1;
          if retval == -1 {
            Store(robid, e, size);
            mshr := mshr + 1;
            break;
          }
          accesses := accesses + 1;
          if retval == 0 {
            misses := misses + 1;
          }
          next := trace[used - 1];
        }
        assert e == NewEntry(f, now);
        Store(robid, e, size);
        TailStep(robPtr, size);
        c := c + [e];
        size := size + 1;
        robid := IncrementAndModByPow2(robid, ROB_WIDTH);
        curr := curr + 1;
        i := i + 1;
        assert Front(c, curr, next, used, mshr, accesses, misses) == Advance(f, now, llc, trace);
      }
      robSize, currInstNum, nextInst, sMshrFull, sLlcAccesses, sLlcMisses := size, curr, next, mshr, accesses, misses;
    }

    /**
     * `rob_[robid] = e` at the tail of a ROB holding `size` entries: the
     * live entries stay, and counting one more appends `e`.
     */
    method Store(robid: nat, e: ROBEntry, size: nat)
      requires rob.Length == ROB_WIDTH && Ordered(rob[..]) && size < ROB_WIDTH && robPtr < ROB_WIDTH
      requires robid == (robPtr + size) % ROB_WIDTH && e.beginCycle <= e.endCycle
      modifies rob
      ensures Ordered(rob[..])
      ensures Window(rob[..], robPtr, size) == Window(old(rob[..]), robPtr, size)
      ensures Window(rob[..], robPtr, size + 1) == Window(old(rob[..]), robPtr, size) + [e]
    {
      ghost var slots := rob[..];
      rob[robid] := e;
      assert rob[..] == slots[robid := e];
      WriteBeyondWindow(slots, robPtr, size, e);
      PushBack(slots, robPtr, size, e);
    }

    /** `tick`: retire, then allocate. */
    method Tick(now: nat, llc: seq<int>, trace: seq<Inst>)
      requires Valid() && |llc| >= fetchWidth && |trace| >= fetchWidth
      modifies this`robPtr, this`robSize, this`finishedInstNum, this`sTotDelay
      modifies this`currInstNum, this`nextInst, this`sMshrFull, this`sLlcAccesses, this`sLlcMisses, rob
      ensures Valid()
      ensures var c0, k := old(Contents()), Retirable(old(Contents()), now, fetchWidth);
        var f := Fetch(Front(c0[k..], old(currInstNum), old(nextInst), 0, old(sMshrFull), old(sLlcAccesses), old(sLlcMisses)),
                       now, fetchWidth, 0, llc, trace);
        Contents() == f.rob && currInstNum == f.curr && nextInst == f.next &&
        sMshrFull == f.mshrFull && sLlcAccesses == f.accesses && sLlcMisses == f.misses &&
        finishedInstNum == (if k == 0 then old(finishedInstNum) else c0[k - 1].instNum) &&
        sTotDelay == old(sTotDelay) + Delay(c0[..k])
    {
      RobRetire(now);
      Allocate(now, llc, trace);
    }
  }
}

=== FILE: decimal.dfy ===
/** Decimal text of integers, as Python's `str()` and C++ streams print them. */
module Decimal {
  predicate IsDigit(c: char) { '0' <= c <= '9' }

  function DigitValue(c: char): nat
    requires IsDigit(c)
  {
    (c as int - '0' as int) as nat
  }

  function DigitChar(d: nat): (c: char)
    requires d < 10
    ensures IsDigit(c) && DigitValue(c) == d
  {
    ('0' as int + d) as char
  }

  predicate AllDigits(s: string) { forall i :: 0 <= i < |s| ==> IsDigit(s[i]) }

  /** The value of a string of decimal digits, most significant digit first. */
  function DigitsValue(s: string): nat
    requires AllDigits(s)
  {
    if s == [] then 0 else DigitsValue(s[..|s| - 1]) * 10 + DigitValue(s[|s| - 1])
  }

  /** Shortest decimal text of a natural number. */
  function NatToString(n: nat): (s: string)
    ensures |s| > 0 && AllDigits(s)
    ensures |s| > 1 ==> s[0] != '0'
  {
    if n < 10 then [DigitChar(n)] else NatToString(n / 10) + [DigitChar(n % 10)]
  }

  /** Decimal text of an integer, with a leading `-` when it is negative. */
  function IntToString(n: int): string
  {
    if n < 0 then "-" + NatToString(-n) else NatToString(n)
  }

  /** Reading the printed digits back gives the number that was printed. */
  lemma {:induction false} NatToStringRoundTrip(n: nat)
    ensures DigitsValue(NatToString(n)) == n
  {
    if n >= 10 {
      var s := NatToString(n);
      assert s[..|s| - 1] == NatToString(n / 10);
      NatToStringRoundTrip(n / 10);
    }
  }

  /** Different numbers are printed differently. */
  lemma {:induction false} NatToStringInjective(m: nat, n: nat)
    ensures NatToString(m) == NatToString(n) <==> m == n
  {
    NatToStringRoundTrip(m);
    NatToStringRoundTrip(n);
  }
}

=== FILE: defs.dfy ===
/** Constants, enumerations and index helpers shared by the simulator. */
module Defs {
  import opened Bits

  datatype CacheResult = HIT | MISS_NO_WB | MISS_WITH_WB
  datatype CacheReplPolicy = LRU | RAND | SRRIP | BRRIP
  datatype CacheHitPolicy = DEFAULT | INVALIDATE

  const SRRIP_WIDTH: nat := 3
  const ROB_WIDTH: nat := 256
  const OS_PAGESIZE: nat := 4096
  const LINESIZE: nat := 64
  const LINES_PER_PAGE: nat := OS_PAGESIZE / LINESIZE

  /** Display name of a replacement policy; every policy has its own name. */
  function ReplPolicyName(p: CacheReplPolicy): (r: string)
    ensures r != "Unknown Cache Policy"
    ensures |r| > 0
  {
    match p
    case LRU => "Least Recently Used"
    case RAND => "Random"
    case SRRIP => "Static Re-Reference Interval Prediction"
    case BRRIP => "Bimodal Re-Reference Interval Prediction"
  }

  lemma {:induction false} ReplPolicyNamesDistinct(p: CacheReplPolicy, q: CacheReplPolicy)
    ensures ReplPolicyName(p) == ReplPolicyName(q) <==> p == q
  {
  }

  /**
   * `INCREMENT_AND_MOD_BY_POW2(x, mod)`: `(x + 1) & (mod - 1)` on 64-bit
   * unsigned operands. The argument is not changed.
   */
  function IncrementAndModByPow2(x: nat, m: nat): (r: nat)
    requires x < U64_LIMIT && m < U64_LIMIT
    ensures m > 0 ==> r < m
  {
    AndBound((x + 1) % U64_LIMIT, (m - 1 + U64_LIMIT) % U64_LIMIT);
    And((x + 1) % U64_LIMIT, (m - 1 + U64_LIMIT) % U64_LIMIT)
  }

  /** `a & b` never exceeds `b`. */
  lemma {:induction false} AndBound(a: nat, b: nat)
    ensures And(a, b) <= b
    decreases a
  {
    if a != 0 && b != 0 {
      AndBound(a / 2, b / 2);
    }
  }

  /** For a power-of-two modulus the macro is the increment modulo `m`. */
  lemma {:induction false} IncrementAndModByPow2IsMod(x: nat, k: nat)
    requires x < U64_LIMIT && k < 64 && Pow2(k) < U64_LIMIT
    ensures IncrementAndModByPow2(x, Pow2(k)) == (x + 1) % Pow2(k)
  {
    var p := Pow2(k);
    var y := (x + 1) % U64_LIMIT;
    DivModUnique(p - 1 + U64_LIMIT, U64_LIMIT, 1, p - 1);
    assert IncrementAndModByPow2(x, p) == And(y, p - 1);
    AndLowMask(y, k);
    assert And(y, p - 1) == y % p;
    if x + 1 == U64_LIMIT {
      WrapIsMultiple(x + 1, k);
    } else {
      DivModUnique(x + 1, U64_LIMIT, 0, x + 1);
    }
  }

  /** The 64-bit wrap of `x + 1` is invisible modulo a power of two below 2^64. */
  lemma {:induction false} WrapIsMultiple(n: nat, k: nat)
    requires n == U64_LIMIT && k < 64
    ensures n % U64_LIMIT % Pow2(k) == n % Pow2(k) == 0
  {
    DivModUnique(n, U64_LIMIT, 1, 0);
    var j := 64 - k;
    Pow2Add(j, k);
    assert j + k == 64;
    Pow2Of64();
    var p, q := Pow2(k), Pow2(j);
    assert n == q * p + 0;
    DivModUnique(n, p, q, 0);
    DivModUnique(0, p, 0, 0);
  }

  /**
   * `INCREMENT_AND_MOD(x, mod)`: pre-increments `x` (a 64-bit unsigned
   * variable, so the increment wraps) and yields 0 when the new `x` equals
   * `mod`, the new `x` otherwise. `x` itself is never reset.
   */
  method IncrementAndMod(x: nat, m: nat) returns (x': nat, r: nat)
    requires x < U64_LIMIT && m < U64_LIMIT
    ensures x' == (x + 1) % U64_LIMIT
    ensures r == 0 <==> x' == m || x' == 0
    ensures r != 0 ==> r == x'
    ensures x < m ==> r == (x + 1) % m
  {
    x' := (x + 1) % U64_LIMIT;
    if x + 1 < U64_LIMIT {
      DivModUnique(x + 1, U64_LIMIT, 0, x + 1);
    } else {
      DivModUnique(x + 1, U64_LIMIT, 1, 0);
    }
    if x + 1 == m {
      DivModUnique(x + 1, m, 1, 0);
    } else if x < m {
      DivModUnique(x + 1, m, 0, x + 1);
    }
    if x' == m {
      r := 0;
    } else {
      r := x';
    }
  }

  /** The ring buffers indexed with the power-of-two helper have power-of-two sizes. */
  lemma {:induction false} SizesArePowersOfTwo()
    ensures ROB_WIDTH == Pow2(8) && LINES_PER_PAGE == Pow2(6)
    ensures OS_PAGESIZE == LINES_PER_PAGE * LINESIZE
  {
  }
}

=== FILE: dram_bank.dfy ===
/**
 * A bank of the channel-level DRAM model: it is busy until a cycle, walks
 * through refresh groups, and keeps one open row per subarray. The channel
 * keeps its banks by value inside its per-rank records, so the transition
 * is a function on a `BankState`; `DRAMBank` is the object form whose
 * method follows that function.
 */
module DramBank {
  import opened Bits
  import opened DramConfig

  /** The command kinds a channel command-queue entry carries. */
  datatype CmdType = READ | WRITE | REFRESH

  /** A channel command-queue entry: the command, its address parts and its timestamps. */
  datatype CmdQueueEntry = CmdQueueEntry(
    cmdType: CmdType, row: nat, bank: nat, bgrp: nat, rank: nat,
    tEnteredQueue: nat, tExitedQueue: nat, tFinished: nat)

  /** Rows per refresh group are 2^13: `num_rows >> 13` groups. */
  const REFRESH_GROUP_BITS: nat := 13

  /** The fields of a bank: `openRows[i]` is the row open in subarray `i`, or -1. */
  datatype BankState = BankState(
    busyUntil: nat, currRefreshGroup: nat, numRefreshGroups: nat,
    openRows: seq<int>, bankAccesses: nat, rowBufMisses: nat)

  /** The subarray holding a row, for subarrays of `2^subarrayBits` rows. */
  function SubarrayOf(row: nat, subarrayBits: nat): nat
  {
    Shr(row, subarrayBits)
  }

  /** A fresh bank of `numRows` rows: idle, refresh group 0, every subarray closed. */
  function NewBank(numRows: nat, subarrayBits: nat): (b: BankState)
    ensures b.numRefreshGroups == numRows / Pow2(REFRESH_GROUP_BITS)
    ensures |b.openRows| == numRows / Pow2(subarrayBits)
    ensures forall i :: 0 <= i < |b.openRows| ==> b.openRows[i] == -1
    ensures b.busyUntil == 0 && b.currRefreshGroup == 0 && b.bankAccesses == 0 && b.rowBufMisses == 0
  {
    BankState(0, 0, Shr(numRows, REFRESH_GROUP_BITS),
      seq(Shr(numRows, subarrayBits), _ => -1), 0, 0)
  }

  /** A command the bank can take: a refresh, or a demand access whose row lies in a subarray of the bank. */
  predicate Addressable(b: BankState, e: CmdQueueEntry, subarrayBits: nat)
  {
    e.cmdType == REFRESH || SubarrayOf(e.row, subarrayBits) < |b.openRows|
  }

  /** Whether a demand access to `row` finds another row open in its subarray. */
  predicate Conflict(b: BankState, row: nat, subarrayBits: nat)
    requires SubarrayOf(row, subarrayBits) < |b.openRows|
  {
    var open := b.openRows[SubarrayOf(row, subarrayBits)];
    open >= 0 && open != row
  }

  /** `is_row_in_row_buffer`: the row is the one open in its subarray. */
  predicate RowInRowBuffer(b: BankState, row: nat, subarrayBits: nat)
    requires SubarrayOf(row, subarrayBits) < |b.openRows|
  {
    b.openRows[SubarrayOf(row, subarrayBits)] == row
  }

  /** The group after a refresh: one more, back to 0 after `numRefreshGroups`. */
  function NextRefreshGroup(b: BankState): nat
  {
    if b.currRefreshGroup == b.numRefreshGroups then 0 else b.currRefreshGroup + 1
  }

  /**
   * `do_cmd`: the bank after the command at `cycle`, and whether it took it.
   * A busy bank refuses. A refresh blocks for tRFC and moves the refresh
   * group on. A demand access counts itself, pays tRP on a row conflict,
   * tRCD + CL always, and under the closed page policy tRP more instead of
   * leaving its row open.
   */
  function DoCmd(b: BankState, p: Params, subarrayBits: nat, cycle: nat, e: CmdQueueEntry): (BankState, bool)
    requires Addressable(b, e, subarrayBits)
  {
    if cycle < b.busyUntil then (b, false)
    else if e.cmdType == REFRESH then
      (b.(busyUntil := cycle + p.tRFC, currRefreshGroup := NextRefreshGroup(b)), true)
    else
      var sa := SubarrayOf(e.row, subarrayBits);
      var conflict := Conflict(b, e.row, subarrayBits);
      var delay := (if conflict then p.tRP else 0) + p.tRCD + p.CL
                   + (if p.pagePolicy == OPEN then 0 else p.tRP);
      var rows := if p.pagePolicy == OPEN then b.openRows[sa := e.row] else b.openRows;
      (b.(busyUntil := cycle + delay, openRows := rows,
          bankAccesses := b.bankAccesses + 1,
          rowBufMisses := b.rowBufMisses + (if conflict then 1 else 0)), true)
  }

  /** A busy bank takes no command and stays as it was. */
  lemma {:induction false} BusyBankRefuses(b: BankState, p: Params, bits: nat, cycle: nat, e: CmdQueueEntry)
    requires Addressable(b, e, bits)
    ensures DoCmd(b, p, bits, cycle, e).1 <==> cycle >= b.busyUntil
    ensures !DoCmd(b, p, bits, cycle, e).1 ==> DoCmd(b, p, bits, cycle, e).0 == b
  {
  }

  /** A taken command never moves the busy horizon back, and keeps the bank busy from `cycle` on. */
  lemma {:induction false} BusyUntilGrows(b: BankState, p: Params, bits: nat, cycle: nat, e: CmdQueueEntry)
    requires Addressable(b, e, bits)
    ensures DoCmd(b, p, bits, cycle, e).0.busyUntil >= b.busyUntil
    ensures DoCmd(b, p, bits, cycle, e).1 ==> DoCmd(b, p, bits, cycle, e).0.busyUntil >= cycle
  {
  }

  /** A refresh blocks the bank for tRFC and keeps the refresh group within 0 .. numRefreshGroups. */
  lemma {:induction false} RefreshStep(b: BankState, p: Params, bits: nat, cycle: nat, e: CmdQueueEntry)
    requires e.cmdType == REFRESH && cycle >= b.busyUntil
    requires b.currRefreshGroup <= b.numRefreshGroups
    ensures var (b', ok) := DoCmd(b, p, bits, cycle, e);
      ok && b'.busyUntil == cycle + p.tRFC &&
      b'.currRefreshGroup <= b'.numRefreshGroups &&
      (b'.currRefreshGroup == 0 <==> b.currRefreshGroup == b.numRefreshGroups) &&
      b'.openRows == b.openRows && b'.bankAccesses == b.bankAccesses
  {
  }

  /** `n` refreshes in a row, each once the previous one has finished. */
  function Refreshes(b: BankState, p: Params, bits: nat, cycle: nat, n: nat, e: CmdQueueEntry): BankState
    requires e.cmdType == REFRESH
    decreases n
  {
    if n == 0 then b
    else
      var b' := DoCmd(b, p, bits, cycle, e).0;
      Refreshes(b', p, bits, cycle + p.tRFC, n - 1, e)
  }

  /** Refresh groups cycle with period numRefreshGroups + 1: after that many refreshes the group is back. */
  lemma {:induction false} RefreshGroupsCycle(b: BankState, p: Params, bits: nat, cycle: nat, e: CmdQueueEntry)
    requires e.cmdType == REFRESH && cycle >= b.busyUntil && b.currRefreshGroup == 0
    ensures Refreshes(b, p, bits, cycle, b.numRefreshGroups + 1, e).currRefreshGroup == 0
  {
    RefreshesAdvance(b, p, bits, cycle, b.numRefreshGroups, e);
    var mid := Refreshes(b, p, bits, cycle, b.numRefreshGroups, e);
    RefreshesSplit(b, p, bits, cycle, b.numRefreshGroups, e);
  }

  /** `k` refreshes from group `g` with `g + k` groups available end at group `g + k`, and busy until the last one's end. */
  lemma {:induction false} RefreshesAdvance(b: BankState, p: Params, bits: nat, cycle: nat, k: nat, e: CmdQueueEntry)
    requires e.cmdType == REFRESH && cycle >= b.busyUntil
    requires b.currRefreshGroup + k <= b.numRefreshGroups
    ensures var r := Refreshes(b, p, bits, cycle, k, e);
      r.currRefreshGroup == b.currRefreshGroup + k && r.numRefreshGroups == b.numRefreshGroups &&
      r.busyUntil <= cycle + k * p.tRFC
    decreases k
  {
    if k > 0 {
      var b' := DoCmd(b, p, bits, cycle, e).0;
      assert b'.currRefreshGroup == b.currRefreshGroup + 1;
      RefreshesAdvance(b', p, bits, cycle + p.tRFC, k - 1, e);
      assert cycle + p.tRFC + (k - 1) * p.tRFC == cycle + k * p.tRFC;
    }
  }

  /** One more refresh after `k` is the refresh applied to the state after `k`. */
  lemma {:induction false} RefreshesSplit(b: BankState, p: Params, bits: nat, cycle: nat, k: nat, e: CmdQueueEntry)
    requires e.cmdType == REFRESH && cycle >= b.busyUntil
    requires b.currRefreshGroup + k <= b.numRefreshGroups
    ensures Refreshes(b, p, bits, cycle, k + 1, e)
         == DoCmd(Refreshes(b, p, bits, cycle, k, e), p, bits, cycle + k * p.tRFC, e).0
    ensures Refreshes(b, p, bits, cycle, k, e).busyUntil <= cycle + k * p.tRFC
    decreases k
  {
    RefreshesAdvance(b, p, bits, cycle, k, e);
    if k > 0 {
      var b' := DoCmd(b, p, bits, cycle, e).0;
      RefreshesSplit(b', p, bits, cycle + p.tRFC, k - 1, e);
      assert cycle + p.tRFC + (k - 1) * p.tRFC == cycle + k * p.tRFC;
    }
  }

  /**
   * A taken demand access is busy for tRCD + CL, plus tRP on a row
   * conflict, plus tRP under the closed page policy; it counts one access,
   * and one row-buffer miss exactly on a conflict.
   */
  lemma {:induction false} DemandAccessDelay(b: BankState, p: Params, bits: nat, cycle: nat, e: CmdQueueEntry)
    requires e.cmdType != REFRESH && Addressable(b, e, bits) && cycle >= b.busyUntil
    ensures var (b', ok) := DoCmd(b, p, bits, cycle, e);
      ok &&
      b'.busyUntil == cycle + p.tRCD + p.CL
        + (if Conflict(b, e.row, bits) then p.tRP else 0)
        + (if p.pagePolicy == CLOSED then p.tRP else 0) &&
      b'.bankAccesses == b.bankAccesses + 1 &&
      (b'.rowBufMisses == b.rowBufMisses + 1 <==> Conflict(b, e.row, bits)) &&
      b'.rowBufMisses <= b.rowBufMisses + 1 &&
      b'.currRefreshGroup == b.currRefreshGroup
  {
  }

  /** Under the open page policy the accessed row is left in the row buffer, so the next access to it is no conflict. */
  lemma {:induction false} OpenPolicyLeavesRowOpen(b: BankState, p: Params, bits: nat, cycle: nat, e: CmdQueueEntry)
    requires p.pagePolicy == OPEN && e.cmdType != REFRESH && Addressable(b, e, bits) && cycle >= b.busyUntil
    ensures var b' := DoCmd(b, p, bits, cycle, e).0;
      |b'.openRows| == |b.openRows| && RowInRowBuffer(b', e.row, bits) && !Conflict(b', e.row, bits)
  {
  }

  /** Under the closed page policy no subarray ever holds an open row, so no access of a fresh bank is a miss. */
  lemma {:induction false} ClosedPolicyNeverConflicts(b: BankState, p: Params, bits: nat, cycle: nat, e: CmdQueueEntry)
    requires p.pagePolicy == CLOSED && Addressable(b, e, bits)
    requires forall i :: 0 <= i < |b.openRows| ==> b.openRows[i] == -1
    ensures var b' := DoCmd(b, p, bits, cycle, e).0;
      b'.openRows == b.openRows && b'.rowBufMisses == b.rowBufMisses
  {
  }

  /** The bank object: the same fields, updated in place by `DoCmd`. */
  class DRAMBank {
    const numRefreshGroups: nat
    const subarrayBits: nat
    var busyUntil: nat
    var currRefreshGroup: nat
    var openRows: seq<int>
    var bankAccesses: nat
    var rowBufMisses: nat

    function State(): BankState
      reads this
    {
      BankState(busyUntil, currRefreshGroup, numRefreshGroups, openRows, bankAccesses, rowBufMisses)
    }

    /** A bank of `numRows` rows with `2^subarrayBits` rows per subarray. */
    constructor (numRows: nat, subarrayBits: nat)
      ensures State() == NewBank(numRows, subarrayBits) && this.subarrayBits == subarrayBits
    {
      numRefreshGroups := Shr(numRows, REFRESH_GROUP_BITS);
      this.subarrayBits := subarrayBits;
      busyUntil, currRefreshGroup := 0, 0;
      openRows := seq(Shr(numRows, subarrayBits), _ => -1);
      bankAccesses, rowBufMisses := 0, 0;
    }

    /** `do_cmd`: the fields become those `DoCmd` gives; the result says whether the bank took the command. */
    method DoCommand(p: Params, cycle: nat, e: CmdQueueEntry) returns (ok: bool)
      requires Addressable(State(), e, subarrayBits)
      modifies this
      ensures (State(), ok) == DoCmd(old(State()), p, subarrayBits, cycle, e)
    {
      if cycle < busyUntil {
        return false;
      }
      if e.cmdType == REFRESH {
        busyUntil := cycle + p.tRFC;
        currRefreshGroup := if currRefreshGroup == numRefreshGroups then 0 else currRefreshGroup + 1;
      } else {
        var sa := SubarrayOf(e.row, subarrayBits);
        var delay := 0;
        bankAccesses := bankAccesses + 1;
        if openRows[sa] >= 0 && openRows[sa] != e.row {
          rowBufMisses := rowBufMisses + 1;
          delay := delay + p.tRP;
        }
        delay := delay + p.tRCD + p.CL;
        if p.pagePolicy == OPEN {
          openRows := openRows[sa := e.row];
        } else {
          delay := delay + p.tRP;
        }
        busyUntil := cycle + delay;
      }
      return true;
    }

    /** `is_row_in_row_buffer`. */
    function IsRowInRowBuffer(r: nat): (b: bool)
      requires SubarrayOf(r, subarrayBits) < |openRows|
      reads this
      ensures b <==> RowInRowBuffer(State(), r, subarrayBits)
    {
      openRows[SubarrayOf(r, subarrayBits)] == r
    }
  }
}

=== FILE: dram_channel.dfy ===
/**
 * The channel of the in-house DRAM model: a 32-entry ring buffer of
 * commands and, per rank, the banks, the bank and cycle of the last
 * command, the four-activate window and an active-low 64-bit vector of the
 * banks that still owe a refresh in the current tREFI period. The banks
 * sit by value inside the per-rank records, so a bank command is
 * `DramBank.DoCmd`; the per-rank bankgroup-by-bank array is laid out flat,
 * bank `k` of bankgroup `g` at index `g * num_banks_per_bgrp + k`. The
 * 64-bit vector is the set of its set bit positions.
 */
module DramChannel {
  import opened Bits
  import opened Wrappers
  import opened DramConfig
  import opened DramBank
  import opened Ring

  const CMD_QUEUE_SIZE: nat := 32

  /** `~0` on 64 bits: every bit position set. */
  const ALL_ONES: set<nat> := set i: nat | i < 64

  /** The refresh command the channel sends to a bank. */
  const REF_ENTRY: CmdQueueEntry := CmdQueueEntry(REFRESH, 0, 0, 0, 0, 0, 0, 0)

  /** `RankData`: bookkeeping for one rank. */
  datatype RankData = RankData(
    lastBgrp: nat, lastBank: nat, lastBankCycle: nat, lastBankWasWrittenTo: bool,
    banks: seq<BankState>, fawCycles: seq<nat>,
    banksDoneWithCurrTrefi: set<nat>, nextTrefiCycle: nat)

  /** Subarrays per bank. */
  function Subarrays(p: Params, bits: nat): nat
  {
    Shr(p.numRows, bits)
  }

  /** Banks in a rank. */
  function BanksPerRank(p: Params): nat
  {
    p.numBgrps * p.numBanksPerBgrp
  }

  /** Where bank `k` of bankgroup `g` sits in the flat layout. */
  function BankIndex(p: Params, g: nat, k: nat): nat
  {
    g * p.numBanksPerBgrp + k
  }

  /** `num_bgrps` groups of `num_banks_per_bgrp` banks, each with every subarray. */
  predicate RankShaped(rk: RankData, p: Params, bits: nat)
  {
    |rk.banks| == BanksPerRank(p) &&
    forall b :: 0 <= b < |rk.banks| ==> |rk.banks[b].openRows| == Subarrays(p, bits)
  }

  /** A fresh rank: idle banks, no activations, every bank still owing its refresh. */
  function NewRankData(p: Params, bits: nat): (rk: RankData)
    ensures RankShaped(rk, p, bits)
    ensures rk.fawCycles == [] && rk.banksDoneWithCurrTrefi == ALL_ONES && rk.nextTrefiCycle == 0
  {
    RankData(0, 0, 0, false, seq(BanksPerRank(p), _ => NewBank(p.numRows, bits)), [], ALL_ONES, 0)
  }

  /** The first refresh cycle of rank `i`: staggered by `tREFI / num_ranks` per rank, or 0. */
  function FirstRefresh(p: Params, i: nat): nat
    requires p.refPolicy == RANK_STAGGERED ==> p.numRanks > 0
  {
    if p.refPolicy == RANK_STAGGERED then (p.tREFI / p.numRanks) * i else 0
  }

  /** Staggered first refreshes come in rank order and all fall inside the first tREFI period. */
  lemma {:induction false} StaggerWithinPeriod(p: Params, i: nat, j: nat)
    requires p.refPolicy == RANK_STAGGERED && i <= j < p.numRanks
    ensures FirstRefresh(p, i) <= FirstRefresh(p, j)
    ensures p.tREFI > 0 ==> FirstRefresh(p, j) < p.tREFI
  {
    var n, off := p.numRanks, p.tREFI / p.numRanks;
    MulLe(i, j, off);
    assert i * off == off * i && j * off == off * j;
    MulLe(j, n - 1, off);
    assert off * n <= p.tREFI;
    assert (n - 1) * off == off * n - off;
  }

  /* ---------------- bank numbering ---------------- */

  /** Bank ids below `num_banks` name banks of the rank. */
  predicate BankIdsFit(p: Params, numBanks: nat)
  {
    p.numBanksPerBgrp > 0 && numBanks <= BanksPerRank(p)
  }

  /** Bankgroup `g`, bank `k` is a bank of the rank. */
  lemma {:induction false} BankIndexFits(p: Params, g: nat, k: nat)
    requires g < p.numBgrps && k < p.numBanksPerBgrp
    ensures BankIndex(p, g, k) < BanksPerRank(p)
  {
    MulLe(g, p.numBgrps - 1, p.numBanksPerBgrp);
    assert (p.numBgrps - 1) * p.numBanksPerBgrp == p.numBgrps * p.numBanksPerBgrp - p.numBanksPerBgrp;
  }

  /**
   * The refresh pass names bank id `b` as bankgroup `b / num_banks_per_bgrp`,
   * bank `b % num_banks_per_bgrp`: that is bank `b` of the flat layout, and a
   * bank of the rank.
   */
  lemma {:induction false} BankIdSplit(p: Params, b: nat)
    requires p.numBanksPerBgrp > 0 && b < BanksPerRank(p)
    ensures b / p.numBanksPerBgrp < p.numBgrps && b % p.numBanksPerBgrp < p.numBanksPerBgrp
    ensures BankIndex(p, b / p.numBanksPerBgrp, b % p.numBanksPerBgrp) == b
  {
    var n, q := p.numBanksPerBgrp, b / p.numBanksPerBgrp;
    assert b == q * n + b % n;
    if q >= p.numBgrps {
      MulLe(p.numBgrps, q, n);
    }
  }

  /** A bank command keeps the bank's subarrays. */
  lemma {:induction false} DoCmdKeepsShape(bk: BankState, p: Params, bits: nat, cycle: nat, e: CmdQueueEntry)
    requires Addressable(bk, e, bits)
    ensures |DoCmd(bk, p, bits, cycle, e).0.openRows| == |bk.openRows|
  {
  }

  /* ---------------- refresh ---------------- */

  /** One bank of the refresh pass: a bank still owing its refresh is sent REF and, if it takes it, is marked done. */
  function RefreshOne(rk: RankData, p: Params, bits: nat, cycle: nat, b: nat): (r: RankData)
    requires RankShaped(rk, p, bits) && b < |rk.banks|
    ensures RankShaped(r, p, bits)
  {
    if b !in rk.banksDoneWithCurrTrefi then rk
    else
      var (bk', ok) := DoCmd(rk.banks[b], p, bits, cycle, REF_ENTRY);
      DoCmdKeepsShape(rk.banks[b], p, bits, cycle, REF_ENTRY);
      rk.(banks := rk.banks[b := bk'],
          banksDoneWithCurrTrefi := if ok then rk.banksDoneWithCurrTrefi - {b} else rk.banksDoneWithCurrTrefi)
  }

  /** The refresh pass over bank ids `0 .. k-1`, in order. */
  function RefreshUpTo(rk: RankData, p: Params, bits: nat, cycle: nat, k: nat): (r: RankData)
    requires RankShaped(rk, p, bits) && k <= |rk.banks|
    ensures RankShaped(r, p, bits)
    ensures r.(banks := rk.banks, banksDoneWithCurrTrefi := rk.banksDoneWithCurrTrefi) == rk
  {
    if k == 0 then rk else RefreshOne(RefreshUpTo(rk, p, bits, cycle, k - 1), p, bits, cycle, k - 1)
  }

  /**
   * After the pass over ids `0 .. k-1`, bank `b` has been sent REF exactly
   * when `b < k` and it still owed one.
   */
  lemma {:induction false} RefreshUpToBank(rk: RankData, p: Params, bits: nat, cycle: nat, k: nat, b: nat)
    requires RankShaped(rk, p, bits) && k <= |rk.banks| && b < |rk.banks|
    ensures RefreshUpTo(rk, p, bits, cycle, k).banks[b] ==
      if b < k && b in rk.banksDoneWithCurrTrefi then DoCmd(rk.banks[b], p, bits, cycle, REF_ENTRY).0 else rk.banks[b]
  {
    if k > 0 {
      var r' := RefreshUpTo(rk, p, bits, cycle, k - 1);
      RefreshUpToBank(rk, p, bits, cycle, k - 1, b);
      if b == k - 1 {
        RefreshUpToPending(rk, p, bits, cycle, k - 1, b);
      }
    }
  }

  /**
   * After the pass over ids `0 .. k-1`, bank `b` still owes its refresh
   * exactly when it owed one and either lies beyond the pass or was busy
   * and refused it.
   */
  lemma {:induction false} RefreshUpToPending(rk: RankData, p: Params, bits: nat, cycle: nat, k: nat, b: nat)
    requires RankShaped(rk, p, bits) && k <= |rk.banks| && b < |rk.banks|
    ensures b in RefreshUpTo(rk, p, bits, cycle, k).banksDoneWithCurrTrefi <==>
      b in rk.banksDoneWithCurrTrefi && (b >= k || cycle < rk.banks[b].busyUntil)
    ensures b >= k ==> RefreshUpTo(rk, p, bits, cycle, k).banks[b] == rk.banks[b]
  {
    if k > 0 {
      var r' := RefreshUpTo(rk, p, bits, cycle, k - 1);
      RefreshUpToPending(rk, p, bits, cycle, k - 1, b);
      if b == k - 1 && b in r'.banksDoneWithCurrTrefi {
        BusyBankRefuses(r'.banks[b], p, bits, cycle, REF_ENTRY);
      }
    }
  }

  /** Bit positions that are not bank ids of the pass keep their value. */
  lemma {:induction false} RefreshUpToOtherBits(rk: RankData, p: Params, bits: nat, cycle: nat, k: nat, x: nat)
    requires RankShaped(rk, p, bits) && k <= |rk.banks|
    requires x >= k
    ensures x in RefreshUpTo(rk, p, bits, cycle, k).banksDoneWithCurrTrefi <==> x in rk.banksDoneWithCurrTrefi
  {
    if k > 0 {
      RefreshUpToOtherBits(rk, p, bits, cycle, k - 1, x);
    }
  }

  /** Every bank id below `numBanks` has refreshed in this period. */
  predicate AllRefreshed(done: set<nat>, numBanks: nat)
  {
    forall b :: 0 <= b < numBanks ==> b !in done
  }

  /**
   * `manage_refresh` for one rank: once its tREFI cycle has come, every bank
   * still owing a refresh is sent REF; when no bank owes one any more the
   * vector is reset and the next tREFI cycle is one period later.
   */
  function ManageRank(rk: RankData, p: Params, bits: nat, numBanks: nat, cycle: nat): (r: RankData)
    requires RankShaped(rk, p, bits) && BankIdsFit(p, numBanks)
    ensures RankShaped(r, p, bits) && r.fawCycles == rk.fawCycles
  {
    if cycle < rk.nextTrefiCycle then rk
    else
      var r := RefreshUpTo(rk, p, bits, cycle, numBanks);
      if AllRefreshed(r.banksDoneWithCurrTrefi, numBanks) then
        r.(banksDoneWithCurrTrefi := ALL_ONES, nextTrefiCycle := r.nextTrefiCycle + p.tREFI)
      else r
  }

  /** The banks owing a refresh in this period are all idle at `cycle`. */
  ghost predicate OwedBanksIdle(rk: RankData, p: Params, bits: nat, numBanks: nat, cycle: nat)
    requires RankShaped(rk, p, bits) && BankIdsFit(p, numBanks)
  {
    forall b :: 0 <= b < numBanks && b in rk.banksDoneWithCurrTrefi ==> cycle >= rk.banks[b].busyUntil
  }

  /**
   * The period advances exactly when the rank is due and every bank that
   * owes a refresh takes it; a busy bank keeps owing it and holds the
   * period back.
   */
  lemma {:induction false} ManageRankPeriod(rk: RankData, p: Params, bits: nat, numBanks: nat, cycle: nat)
    requires RankShaped(rk, p, bits) && BankIdsFit(p, numBanks)
    ensures var r := ManageRank(rk, p, bits, numBanks, cycle);
      (cycle < rk.nextTrefiCycle ==> r == rk) &&
      (cycle >= rk.nextTrefiCycle && OwedBanksIdle(rk, p, bits, numBanks, cycle) ==>
         r.banksDoneWithCurrTrefi == ALL_ONES && r.nextTrefiCycle == rk.nextTrefiCycle + p.tREFI) &&
      (cycle >= rk.nextTrefiCycle && !OwedBanksIdle(rk, p, bits, numBanks, cycle) ==>
         r.nextTrefiCycle == rk.nextTrefiCycle &&
         forall b :: 0 <= b < numBanks ==> (b in r.banksDoneWithCurrTrefi <==>
           b in rk.banksDoneWithCurrTrefi && cycle < rk.banks[b].busyUntil))
  {
    if cycle >= rk.nextTrefiCycle {
      var r := RefreshUpTo(rk, p, bits, cycle, numBanks);
      forall b | 0 <= b < numBanks
        ensures b in r.banksDoneWithCurrTrefi <==>
          b in rk.banksDoneWithCurrTrefi && cycle < rk.banks[b].busyUntil
      {
        RefreshUpToPending(rk, p, bits, cycle, numBanks, b);
      }
      if !OwedBanksIdle(rk, p, bits, numBanks, cycle) {
        var b :| 0 <= b < numBanks && b in rk.banksDoneWithCurrTrefi && cycle < rk.banks[b].busyUntil;
        assert b in r.banksDoneWithCurrTrefi;
      }
    }
  }

  /**
   * `manage_refresh` for one rank with the reset test as written: the period
   * advances only when the whole 64-bit vector is zero, bit positions at or
   * above the rank's bank count included.
   */
  function ManageRankAsWritten(rk: RankData, p: Params, bits: nat, numBanks: nat, cycle: nat): (r: RankData)
    requires RankShaped(rk, p, bits) && BankIdsFit(p, numBanks)
    ensures RankShaped(r, p, bits) && r.fawCycles == rk.fawCycles
  {
    if cycle < rk.nextTrefiCycle then rk
    else
      var r := RefreshUpTo(rk, p, bits, cycle, numBanks);
      if AllRefreshed(r.banksDoneWithCurrTrefi, 64) then
        r.(banksDoneWithCurrTrefi := ALL_ONES, nextTrefiCycle := r.nextTrefiCycle + p.tREFI)
      else r
  }

  /** `manage_refresh` as written, called once per cycle of `cycles`. */
  function ManageRankAsWrittenOver(rk: RankData, p: Params, bits: nat, numBanks: nat, cycles: seq<nat>): (r: RankData)
    requires RankShaped(rk, p, bits) && BankIdsFit(p, numBanks)
    ensures RankShaped(r, p, bits)
    decreases |cycles|
  {
    if cycles == [] then rk
    else ManageRankAsWrittenOver(ManageRankAsWritten(rk, p, bits, numBanks, cycles[0]), p, bits, numBanks, cycles[1..])
  }

  /**
   * With fewer than 64 banks, no refresh ever clears bit 63, so the test as
   * written never sees zero: the tREFI cycle stays where it is and the vector
   * is never reset.
   */
  lemma {:induction false} ManageRankAsWrittenKeepsBit63(rk: RankData, p: Params, bits: nat, numBanks: nat, cycle: nat)
    requires RankShaped(rk, p, bits) && BankIdsFit(p, numBanks) && numBanks < 64
    requires 63 in rk.banksDoneWithCurrTrefi
    ensures var r := ManageRankAsWritten(rk, p, bits, numBanks, cycle);
      63 in r.banksDoneWithCurrTrefi && r.nextTrefiCycle == rk.nextTrefiCycle
  {
    if cycle >= rk.nextTrefiCycle {
      RefreshUpToOtherBits(rk, p, bits, cycle, numBanks, 63);
    }
  }

  /**
   * From the vector `~0` a rank starts with, the period as written never
   * advances, however many cycles `manage_refresh` runs: each bank is
   * refreshed at most once, in the first period, and never again.
   */
  lemma {:induction false} PeriodNeverAdvancesAsWritten(rk: RankData, p: Params, bits: nat, numBanks: nat, cycles: seq<nat>)
    requires RankShaped(rk, p, bits) && BankIdsFit(p, numBanks) && numBanks < 64
    requires rk.banksDoneWithCurrTrefi == ALL_ONES
    ensures ManageRankAsWrittenOver(rk, p, bits, numBanks, cycles).nextTrefiCycle == rk.nextTrefiCycle
  {
    assert 63 in ALL_ONES;
    KeepsBit63Over(rk, p, bits, numBanks, cycles);
  }

  lemma {:induction false} KeepsBit63Over(rk: RankData, p: Params, bits: nat, numBanks: nat, cycles: seq<nat>)
    requires RankShaped(rk, p, bits) && BankIdsFit(p, numBanks) && numBanks < 64
    requires 63 in rk.banksDoneWithCurrTrefi
    ensures var r := ManageRankAsWrittenOver(rk, p, bits, numBanks, cycles);
      63 in r.banksDoneWithCurrTrefi && r.nextTrefiCycle == rk.nextTrefiCycle
    decreases |cycles|
  {
    if cycles != [] {
      ManageRankAsWrittenKeepsBit63(rk, p, bits, numBanks, cycles[0]);
      KeepsBit63Over(ManageRankAsWritten(rk, p, bits, numBanks, cycles[0]), p, bits, numBanks, cycles[1..]);
    }
  }

  /** `ffsll` on the active-low vector: one more than the lowest set bit position, 0 when no bit is set. */
  function Ffs(s: set<nat>): nat
  {
    FfsFrom(s, 0)
  }

  function FfsFrom(s: set<nat>, i: nat): nat
    decreases 64 - i
  {
    if i >= 64 then 0 else if i in s then i + 1 else FfsFrom(s, i + 1)
  }

  /** Clearing a bit at or above `ffsll`'s answer leaves the answer as it was. */
  lemma {:induction false} FfsIgnoresHigherBits(s: set<nat>, i: nat, x: nat)
    requires x >= FfsFrom(s, i)
    ensures FfsFrom(s - {x}, i) == FfsFrom(s, i)
    decreases 64 - i
  {
    if i < 64 && i !in s {
      FfsIgnoresHigherBits(s, i + 1, x);
    }
  }

  /**
   * The refresh loop as written: it takes `ffsll`'s 1-based answer as the
   * bank id and clears that bit, which is one above the lowest set bit, so
   * whether or not the bank takes the REF the next `ffsll` gives the same
   * id again and the loop guard holds forever.
   */
  lemma {:induction false} ManageRefreshAsWrittenStuck(done: set<nat>, numBanks: nat, took: bool)
    requires Ffs(done) < numBanks
    ensures var id := Ffs(done);
      var next := if took then done - {id} else done;
      Ffs(next) == id && Ffs(next) < numBanks
  {
    FfsIgnoresHigherBits(done, 0, Ffs(done));
  }

  /** From the reset vector `~0`, the loop as written sends REF to bank 1 (never bank 0) and then repeats. */
  lemma {:induction false} ManageRefreshAsWrittenFromReset(numBanks: nat)
    requires numBanks >= 2
    ensures Ffs(ALL_ONES) == 1 && Ffs(ALL_ONES - {1}) == 1
  {
    assert 0 in ALL_ONES;
    ManageRefreshAsWrittenStuck(ALL_ONES, numBanks, true);
  }

  /* ---------------- the four-activate window ---------------- */

  /**
   * `check_faw` for one rank: leading entries whose cycle has come are
   * dropped, up to the first one still in the future.
   */
  function DropExpired(faw: seq<nat>, cycle: nat): (r: seq<nat>)
    ensures |r| <= |faw| && r == faw[|faw| - |r|..]
    ensures r != [] ==> cycle < r[0]
    ensures forall k :: 0 <= k < |faw| - |r| ==> faw[k] <= cycle
    decreases |faw|
  {
    if faw == [] || cycle < faw[0] then faw
    else
      var r := DropExpired(faw[1..], cycle);
      assert faw[1..][|faw| - 1 - |r|..] == faw[|faw| - |r|..];
      r
  }

  /** A rank after `check_faw`. */
  function Expired(rk: RankData, cycle: nat): RankData
  {
    rk.(fawCycles := DropExpired(rk.fawCycles, cycle))
  }

  lemma {:induction false} ExpiredShrinks(rk: RankData, cycle: nat)
    ensures |Expired(rk, cycle).fawCycles| <= |rk.fawCycles|
    ensures Expired(rk, cycle).(fawCycles := rk.fawCycles) == rk
  {
  }

  /** The loop of `check_faw` over the ranks. */
  method ExpireRanks(rs0: seq<RankData>, cycle: nat) returns (rs: seq<RankData>)
    ensures |rs| == |rs0|
    ensures forall i :: 0 <= i < |rs| ==> rs[i] == Expired(rs0[i], cycle)
  {
    rs := rs0;
    for i := 0 to |rs|
      invariant |rs| == |rs0|
      invariant forall j :: 0 <= j < i ==> rs[j] == Expired(rs0[j], cycle)
      invariant forall j :: i <= j < |rs| ==> rs[j] == rs0[j]
    {
      var faw := DropExpiredFaw(rs0[i].fawCycles, cycle);
      var rk := rs0[i].(fawCycles := faw);
      assert rk == Expired(rs0[i], cycle);
      rs := rs[i := rk];
    }
  }

  /** One rank's `check_faw` loop. */
  method DropExpiredFaw(faw: seq<nat>, cycle: nat) returns (r: seq<nat>)
    ensures r == DropExpired(faw, cycle)
  {
    r := faw;
    while r != [] && cycle >= r[0]
      invariant DropExpired(r, cycle) == DropExpired(faw, cycle)
    {
      r := r[1..];
    }
  }

  /* ---------------- the command ring buffer ---------------- */

  /** `push_back_cmd` on a queue with room: the entry goes in the slot after the last one. */
  function Push(slots: seq<CmdQueueEntry>, ptr: nat, size: nat, e: CmdQueueEntry): (r: (seq<CmdQueueEntry>, nat, nat))
    requires |slots| == CMD_QUEUE_SIZE && ptr < CMD_QUEUE_SIZE && size < CMD_QUEUE_SIZE
    ensures |r.0| == CMD_QUEUE_SIZE && r.1 < CMD_QUEUE_SIZE && r.2 <= CMD_QUEUE_SIZE
  {
    (slots[(ptr + size) % CMD_QUEUE_SIZE := e], ptr, size + 1)
  }

  /** The queue after a push is the queue before it with the entry at the back. */
  lemma {:induction false} PushAppends(slots: seq<CmdQueueEntry>, ptr: nat, size: nat, e: CmdQueueEntry)
    requires |slots| == CMD_QUEUE_SIZE && ptr < CMD_QUEUE_SIZE && size < CMD_QUEUE_SIZE
    ensures var (s', p', n') := Push(slots, ptr, size, e);
      Window(s', p', n') == Window(slots, ptr, size) + [e]
  {
    PushBack(slots, ptr, size, e);
  }

  /** `push_back_cmd` as written: the head pointer also moves on by one. */
  function PushAsWritten(slots: seq<CmdQueueEntry>, ptr: nat, size: nat, e: CmdQueueEntry): (seq<CmdQueueEntry>, nat, nat)
    requires |slots| == CMD_QUEUE_SIZE && ptr < CMD_QUEUE_SIZE && size < CMD_QUEUE_SIZE
  {
    (slots[(ptr + size) % CMD_QUEUE_SIZE := e], (ptr + 1) % CMD_QUEUE_SIZE, size + 1)
  }

  /**
   * A push onto an empty queue as written: the pushed entry sits in the old
   * head slot, the head has moved past it, and the one queued entry is
   * whatever the next slot held.
   */
  lemma {:induction false} PushAsWrittenLosesEntry(slots: seq<CmdQueueEntry>, ptr: nat, e: CmdQueueEntry)
    requires |slots| == CMD_QUEUE_SIZE && ptr < CMD_QUEUE_SIZE
    requires slots[(ptr + 1) % CMD_QUEUE_SIZE] != e
    ensures var (s', p', n') := PushAsWritten(slots, ptr, 0, e);
      Window(s', p', n') == [slots[(ptr + 1) % CMD_QUEUE_SIZE]] && Window(s', p', n') != Window(slots, ptr, 0) + [e]
  {
    var (s', p', n') := PushAsWritten(slots, ptr, 0, e);
    ModDistinct(ptr, 0, 1, CMD_QUEUE_SIZE);
    assert Window(s', p', n')[0] == s'[(ptr + 1) % CMD_QUEUE_SIZE];
  }

  /** The ring index `(ptr + size) & 31` is `(ptr + size) mod 32`. */
  lemma {:induction false} MaskIsMod(x: nat)
    ensures And(x, CMD_QUEUE_SIZE - 1) == x % CMD_QUEUE_SIZE
  {
    assert Pow2(5) == 32 by {
      assert Pow2(0) == 1;
      assert Pow2(1) == 2;
      assert Pow2(2) == 4;
      assert Pow2(3) == 8;
      assert Pow2(4) == 16;
    }
    AndLowMask(x, 5);
  }

  /* ---------------- issuing the head command ---------------- */

  /**
   * The column-to-column gap `execute_next_cmd` waits after the rank's
   * last command: the long (same bankgroup) timings for the same bank, the
   * middle ones for another bank of the bankgroup, the short ones for
   * another bankgroup; write-to-x after a write, and read or write timings
   * otherwise.
   */
  function CcdGap(rk: RankData, e: CmdQueueEntry, p: Params): nat
  {
    var isWrite := e.cmdType == WRITE;
    if rk.lastBgrp == e.bgrp then
      if rk.lastBank == e.bank then
        if rk.lastBankWasWrittenTo then (if isWrite then p.tCCD_L_WR else p.tCCD_L_WTR)
        else (if isWrite then p.tCCD_L_RTW else p.tCCD_L)
      else
        if rk.lastBankWasWrittenTo then (if isWrite then p.tCCD_M_WR else p.tCCD_M_WTR)
        else (if isWrite then p.tCCD_L_RTW else p.tCCD_L)
    else
      if rk.lastBankWasWrittenTo then (if isWrite then p.tCCD_S_WR else p.tCCD_S_WTR)
      else (if isWrite then p.tCCD_S_RTW else p.tCCD_S)
  }

  /**
   * The gap as written, with an assignment where the same-bank test should
   * be: within the bankgroup it records the target bank as the last one and
   * takes the same-bank timings for every bank other than bank 0.
   */
  function CcdGapAsWritten(rk: RankData, e: CmdQueueEntry, p: Params): (r: (nat, RankData))
  {
    var isWrite := e.cmdType == WRITE;
    if rk.lastBgrp == e.bgrp then
      var rk' := rk.(lastBank := e.bank);
      if e.bank != 0 then
        if rk.lastBankWasWrittenTo then (if isWrite then p.tCCD_L_WR else p.tCCD_L_WTR, rk')
        else (if isWrite then p.tCCD_L_RTW else p.tCCD_L, rk')
      else
        if rk.lastBankWasWrittenTo then (if isWrite then p.tCCD_M_WR else p.tCCD_M_WTR, rk')
        else (if isWrite then p.tCCD_L_RTW else p.tCCD_L, rk')
    else
      (CcdGap(rk, e, p), rk)
  }

  /** A write to bank 2 after a write to bank 1 of the same bankgroup waits the same-bank gap as written. */
  lemma {:induction false} AssignInConditionTakesSameBankGap(rk: RankData, e: CmdQueueEntry, p: Params)
    requires rk.lastBgrp == e.bgrp && rk.lastBank == 1 && e.bank == 2
    requires rk.lastBankWasWrittenTo && e.cmdType == WRITE
    ensures CcdGapAsWritten(rk, e, p).0 == p.tCCD_L_WR && CcdGap(rk, e, p) == p.tCCD_M_WR
    ensures CcdGapAsWritten(rk, e, p).1.lastBank == 2
  {
  }

  /**
   * The corrected gap after a write follows the scope of the new command:
   * the same bank waits the long write gaps, another bank of the bankgroup
   * the middle ones and another bankgroup the short ones; and the rank's
   * record of its last command is left to the issue step.
   */
  lemma {:induction false} CcdGapByScope(rk: RankData, e: CmdQueueEntry, p: Params)
    requires rk.lastBankWasWrittenTo
    ensures var w := e.cmdType == WRITE;
      (rk.lastBgrp == e.bgrp && rk.lastBank == e.bank ==> CcdGap(rk, e, p) == if w then p.tCCD_L_WR else p.tCCD_L_WTR) &&
      (rk.lastBgrp == e.bgrp && rk.lastBank != e.bank ==> CcdGap(rk, e, p) == if w then p.tCCD_M_WR else p.tCCD_M_WTR) &&
      (rk.lastBgrp != e.bgrp ==> CcdGap(rk, e, p) == if w then p.tCCD_S_WR else p.tCCD_S_WTR)
  {
  }

  /** A queue entry addresses a bank of the channel and a subarray of that bank. */
  predicate EntryFits(e: CmdQueueEntry, p: Params, bits: nat)
  {
    e.rank < p.numRanks && e.bgrp < p.numBgrps && e.bank < p.numBanksPerBgrp && SubarrayOf(e.row, bits) < Subarrays(p, bits)
  }

  /** The flat index of the entry's bank. */
  function Target(e: CmdQueueEntry, p: Params, bits: nat): (b: nat)
    requires EntryFits(e, p, bits)
    ensures b < BanksPerRank(p)
  {
    BankIndexFits(p, e.bgrp, e.bank);
    BankIndex(p, e.bgrp, e.bank)
  }

  /** The command's target row is not open in its subarray, so the bank activates it. */
  predicate IsAct(rk: RankData, e: CmdQueueEntry, p: Params, bits: nat)
    requires RankShaped(rk, p, bits) && EntryFits(e, p, bits)
  {
    !RowInRowBuffer(rk.banks[Target(e, p, bits)], e.row, bits)
  }

  /**
   * `execute_next_cmd` on the head entry `e` for its rank: nothing (None)
   * while the tCCD gap since the rank's last command has not passed, the
   * bank is busy, or an activation finds four in the window; otherwise the
   * bank takes the command, an activation enters the window, and the rank
   * records the command as its last.
   */
  function Issue(rk: RankData, e: CmdQueueEntry, p: Params, bits: nat, cycle: nat): (r: Option<RankData>)
    requires RankShaped(rk, p, bits) && EntryFits(e, p, bits)
    ensures r.Some? <==>
      cycle >= rk.lastBankCycle + CcdGap(rk, e, p) && cycle >= rk.banks[Target(e, p, bits)].busyUntil &&
      !(IsAct(rk, e, p, bits) && |rk.fawCycles| == 4)
    ensures r.Some? ==> RankShaped(r.value, p, bits)
    ensures r.Some? ==> DoCmd(rk.banks[Target(e, p, bits)], p, bits, cycle, e.(tExitedQueue := cycle)).1
    ensures r.Some? ==> (r.value.lastBgrp == e.bgrp && r.value.lastBank == e.bank &&
      r.value.lastBankCycle == cycle && r.value.lastBankWasWrittenTo == (e.cmdType == WRITE))
    ensures r.Some? ==> r.value.fawCycles == rk.fawCycles + (if IsAct(rk, e, p, bits) then [cycle + p.tFAW] else [])
    ensures r.Some? && |rk.fawCycles| <= 4 ==> |r.value.fawCycles| <= 4
    ensures r.Some? ==> forall b :: 0 <= b < |rk.banks| && b != Target(e, p, bits) ==> r.value.banks[b] == rk.banks[b]
  {
    var bk := rk.banks[Target(e, p, bits)];
    var act := IsAct(rk, e, p, bits);
    if cycle < rk.lastBankCycle + CcdGap(rk, e, p) || cycle < bk.busyUntil || (act && |rk.fawCycles| == 4) then None
    else
      var e' := e.(tExitedQueue := cycle);
      BusyBankRefuses(bk, p, bits, cycle, e');
      DoCmdKeepsShape(bk, p, bits, cycle, e');
      var bk' := DoCmd(bk, p, bits, cycle, e').0;
      Some(rk.(banks := rk.banks[Target(e, p, bits) := bk'],
               fawCycles := rk.fawCycles + (if act then [cycle + p.tFAW] else []),
               lastBgrp := e.bgrp, lastBank := e.bank, lastBankCycle := cycle,
               lastBankWasWrittenTo := e.cmdType == WRITE))
  }

  /* ---------------- the channel object ---------------- */

  class DRAMChannel {
    const p: Params
    const subarrayBits: nat
    /** `num_banks`: the bank ids the refresh pass walks. */
    const numBanks: nat
    var cycle: nat
    var ranks: seq<RankData>
    const cmdQueue: array<CmdQueueEntry>
    var cmdQueuePtr: nat
    var cmdQueueSize: nat

    ghost predicate Valid()
      reads this
    {
      cmdQueue.Length == CMD_QUEUE_SIZE && cmdQueuePtr < CMD_QUEUE_SIZE && cmdQueueSize <= CMD_QUEUE_SIZE &&
      BankIdsFit(p, numBanks) && |ranks| == p.numRanks &&
      forall i :: 0 <= i < |ranks| ==> RankShaped(ranks[i], p, subarrayBits) && |ranks[i].fawCycles| <= 4
    }

    /** The queued commands, oldest first. */
    ghost function Contents(): seq<CmdQueueEntry>
      requires Valid()
      reads this, cmdQueue
    {
      Window(cmdQueue[..], cmdQueuePtr, cmdQueueSize)
    }

    /** The head entry addresses a bank and subarray of the channel. */
    ghost predicate HeadFits()
      requires Valid()
      reads this, cmdQueue
    {
      cmdQueueSize > 0 ==> EntryFits(cmdQueue[cmdQueuePtr], p, subarrayBits)
    }

    /** The constructor: `num_ranks` fresh ranks, staggered under RANK_STAGGERED, and an empty queue. */
    constructor (p: Params, subarrayBits: nat, numBanks: nat)
      requires p.refPolicy == RANK_STAGGERED ==> p.numRanks > 0
      requires BankIdsFit(p, numBanks)
      ensures Valid() && Contents() == [] && cycle == 0
      ensures this.p == p && this.subarrayBits == subarrayBits && this.numBanks == numBanks
      ensures |ranks| == p.numRanks
      ensures forall i :: 0 <= i < |ranks| ==>
        ranks[i] == NewRankData(p, subarrayBits).(nextTrefiCycle := FirstRefresh(p, i))
    {
      this.p, this.subarrayBits, this.numBanks := p, subarrayBits, numBanks;
      cycle := 0;
      var rs := Staggered(p, NewRankData(p, subarrayBits));
      ranks := rs;
      cmdQueue := new CmdQueueEntry[CMD_QUEUE_SIZE](_ => REF_ENTRY);
      cmdQueuePtr, cmdQueueSize := 0, 0;
    }

    /** `num_ranks` copies of `rk`; under RANK_STAGGERED rank `i` first refreshes at `(tREFI / num_ranks) * i`. */
    static method Staggered(p: Params, rk: RankData) returns (rs: seq<RankData>)
      requires p.refPolicy == RANK_STAGGERED ==> p.numRanks > 0
      requires rk.nextTrefiCycle == 0
      ensures |rs| == p.numRanks
      ensures forall i :: 0 <= i < |rs| ==> rs[i] == rk.(nextTrefiCycle := FirstRefresh(p, i))
    {
      rs := seq(p.numRanks, _ => rk);
      if p.refPolicy == RANK_STAGGERED {
        var off := p.tREFI / p.numRanks;
        for i := 0 to p.numRanks
          invariant |rs| == p.numRanks
          invariant forall j :: 0 <= j < i ==> rs[j] == rk.(nextTrefiCycle := off * j)
          invariant forall j :: i <= j < p.numRanks ==> rs[j] == rk
        {
          rs := rs[i := rs[i].(nextTrefiCycle := off * i)];
        }
      }
    }

    /**
     * `push_back_cmd`: a full queue refuses the entry; otherwise it is
     * stamped with the current cycle and goes to the back.
     */
    method PushBackCmd(e: CmdQueueEntry) returns (ok: bool)
      requires Valid()
      modifies this`cmdQueueSize, cmdQueue
      ensures Valid()
      ensures ok <==> old(cmdQueueSize) < CMD_QUEUE_SIZE
      ensures ok ==> ((cmdQueue[..], cmdQueuePtr, cmdQueueSize) ==
        Push(old(cmdQueue[..]), cmdQueuePtr, old(cmdQueueSize), e.(tEnteredQueue := cycle)))
      ensures ok ==> Contents() == old(Contents()) + [e.(tEnteredQueue := cycle)]
      ensures !ok ==> cmdQueue[..] == old(cmdQueue[..]) && cmdQueueSize == old(cmdQueueSize)
    {
      if cmdQueueSize == CMD_QUEUE_SIZE {
        return false;
      }
      var i := And(cmdQueuePtr + cmdQueueSize, CMD_QUEUE_SIZE - 1);
      MaskIsMod(cmdQueuePtr + cmdQueueSize);
      var e' := e.(tEnteredQueue := cycle);
      cmdQueue[i] := e';
      cmdQueueSize := cmdQueueSize + 1;
      PushAppends(old(cmdQueue[..]), cmdQueuePtr, old(cmdQueueSize), e');
      return true;
    }

    /** `check_faw`: every rank's window drops its expired leading entries. */
    method CheckFaw()
      requires Valid()
      modifies this`ranks
      ensures Valid()
      ensures |ranks| == |old(ranks)|
      ensures forall i :: 0 <= i < |ranks| ==> ranks[i] == Expired(old(ranks)[i], cycle)
    {
      var rs := ExpireRanks(ranks, cycle);
      forall i | 0 <= i < |rs|
        ensures RankShaped(rs[i], p, subarrayBits) && |rs[i].fawCycles| <= 4
      {
        ExpiredShrinks(ranks[i], cycle);
      }
      ranks := rs;
    }

    /** The refresh pass over bank ids `0 .. num_banks-1` of one rank. */
    method RefreshBanks(rk: RankData) returns (r: RankData)
      requires RankShaped(rk, p, subarrayBits) && BankIdsFit(p, numBanks)
      ensures r == RefreshUpTo(rk, p, subarrayBits, cycle, numBanks)
    {
      r := rk;
      for b := 0 to numBanks
        invariant r == RefreshUpTo(rk, p, subarrayBits, cycle, b)
      {
        if b in r.banksDoneWithCurrTrefi {
          BankIdSplit(p, b);
          var bank := BankIndex(p, b / p.numBanksPerBgrp, b % p.numBanksPerBgrp);
          var bk, took := DoCmd(r.banks[bank], p, subarrayBits, cycle, REF_ENTRY).0,
                          DoCmd(r.banks[bank], p, subarrayBits, cycle, REF_ENTRY).1;
          r := r.(banks := r.banks[bank := bk]);
          if took {
            r := r.(banksDoneWithCurrTrefi := r.banksDoneWithCurrTrefi - {b});
          }
        }
      }
    }

    /** `manage_refresh`: every rank whose tREFI cycle has come runs its refresh pass. */
    method ManageRefresh()
      requires Valid()
      modifies this`ranks
      ensures Valid()
      ensures |ranks| == |old(ranks)|
      ensures forall i :: 0 <= i < |ranks| ==> ranks[i] == ManageRank(old(ranks)[i], p, subarrayBits, numBanks, cycle)
    {
      var rs, rs0 := ranks, ranks;
      for i := 0 to |rs|
        invariant |rs| == |rs0|
        invariant forall j :: 0 <= j < i ==> rs[j] == ManageRank(rs0[j], p, subarrayBits, numBanks, cycle)
        invariant forall j :: i <= j < |rs| ==> rs[j] == rs0[j]
      {
        var rk := rs[i];
        if cycle < rk.nextTrefiCycle {
          continue;
        }
        rk := RefreshBanks(rk);
        if forall b :: 0 <= b < numBanks ==> b !in rk.banksDoneWithCurrTrefi {
          rk := rk.(banksDoneWithCurrTrefi := ALL_ONES, nextTrefiCycle := rk.nextTrefiCycle + p.tREFI);
        }
        rs := rs[i := rk];
      }
      ranks := rs;
    }

    /**
     * `execute_next_cmd`: the head entry, if any, is offered to its rank
     * (`Issue`); when issued it is stamped with the exit cycle. The entry is
     * left at the head of the queue.
     */
    method ExecuteNextCmd()
      requires Valid() && HeadFits()
      modifies this`ranks, cmdQueue
      ensures Valid()
      ensures old(cmdQueueSize) == 0 ==> ranks == old(ranks) && cmdQueue[..] == old(cmdQueue[..])
      ensures old(cmdQueueSize) > 0 ==>
        var e := old(cmdQueue[cmdQueuePtr]);
        match Issue(old(ranks[e.rank]), e, p, subarrayBits, cycle)
        case None => ranks == old(ranks) && cmdQueue[..] == old(cmdQueue[..])
        case Some(r) => ranks == old(ranks)[e.rank := r] &&
                        cmdQueue[..] == old(cmdQueue[..])[cmdQueuePtr := e.(tExitedQueue := cycle)]
    {
      if cmdQueueSize == 0 {
        return;
      }
      var e := cmdQueue[cmdQueuePtr];
      var r := IssueOn(ranks[e.rank], e);
      if r.Some? {
        cmdQueue[cmdQueuePtr] := e.(tExitedQueue := cycle);
        ranks := ranks[e.rank := r.value];
      }
    }

    /** The body of `execute_next_cmd` for the head entry `e` and its rank `rk`. */
    method IssueOn(rk0: RankData, e0: CmdQueueEntry) returns (r: Option<RankData>)
      requires RankShaped(rk0, p, subarrayBits) && EntryFits(e0, p, subarrayBits)
      ensures r == Issue(rk0, e0, p, subarrayBits, cycle)
    {
      var rk, e := rk0, e0;
      var isWrite := e.cmdType == WRITE;
      var c: nat;
      if rk.lastBgrp == e.bgrp {
        if rk.lastBank == e.bank {
          if rk.lastBankWasWrittenTo {
            c := if isWrite then p.tCCD_L_WR else p.tCCD_L_WTR;
          } else {
            c := if isWrite then p.tCCD_L_RTW else p.tCCD_L;
          }
        } else {
          if rk.lastBankWasWrittenTo {
            c := if isWrite then p.tCCD_M_WR else p.tCCD_M_WTR;
          } else {
            c := if isWrite then p.tCCD_L_RTW else p.tCCD_L;
          }
        }
      } else {
        if rk.lastBankWasWrittenTo {
          c := if isWrite then p.tCCD_S_WR else p.tCCD_S_WTR;
        } else {
          c := if isWrite then p.tCCD_S_RTW else p.tCCD_S;
        }
      }
      assert c == CcdGap(rk0, e0, p);
      if cycle < rk.lastBankCycle + c {
        return None;
      }
      var bank := Target(e, p, subarrayBits);
      var bk := rk.banks[bank];
      if cycle < bk.busyUntil {
        return None;
      }
      var isAct := !RowInRowBuffer(bk, e.row, subarrayBits);
      if isAct && |rk.fawCycles| == 4 {
        return None;
      }
      e := e.(tExitedQueue := cycle);
      bk := DoCmd(bk, p, subarrayBits, cycle, e).0;
      if isAct {
        rk := rk.(fawCycles := rk.fawCycles + [cycle + p.tFAW]);
      }
      assert rk.fawCycles == rk0.fawCycles + (if isAct then [cycle + p.tFAW] else []);
      rk := rk.(banks := rk.banks[bank := bk],
                lastBgrp := e.bgrp, lastBank := e.bank, lastBankCycle := cycle, lastBankWasWrittenTo := isWrite);
      return Some(rk);
    }

    /** `tick`: the refresh pass, then the head command. */
    method Tick()
      requires Valid() && HeadFits()
      modifies this`ranks, cmdQueue
      ensures Valid() && HeadFits()
      ensures cmdQueueSize == old(cmdQueueSize) && cmdQueuePtr == old(cmdQueuePtr)
    {
      ManageRefresh();
      ExecuteNextCmd();
    }
  }
}

=== FILE: dram_config.dfy ===
/**
 * The DDR5 timing derivation of the in-house DRAM model. Times given in
 * nanoseconds become clock cycles through `CKCAST`, the product of the time
 * and the inverse clock period rounded to the nearest integer. The clock
 * period and the times are exact rationals here.
 */
module DramConfig {
  import opened Bits

  /** A clock period of `num / den` nanoseconds. */
  datatype Clock = Clock(num: nat, den: nat)

  predicate ClockOk(ck: Clock)
  {
    ck.num > 0 && ck.den > 0
  }

  datatype PagePolicy = OPEN | CLOSED
  datatype RefreshPolicy = RANK_CONCURRENT | RANK_STAGGERED

  /**
   * The configuration values the bank, rank, subchannel and channel models
   * read: organization, page and refresh policy, and every timing parameter
   * in cycles. `burstLength` stands for `BURST_LENGTH`, whose definition is
   * not part of this model.
   */
  datatype Params = Params(
    numBgrps: nat, numBanksPerBgrp: nat, numRanks: nat, numRows: nat,
    pagePolicy: PagePolicy, refPolicy: RefreshPolicy, burstLength: nat,
    CL: nat, CWL: nat, tRCD: nat, tRP: nat, tRAS: nat, tRFC: nat, tREFI: nat,
    tCCD_L: nat, tCCD_L_WR: nat, tCCD_L_WTR: nat, tCCD_L_RTW: nat,
    tCCD_M_WR: nat, tCCD_M_WTR: nat,
    tCCD_S: nat, tCCD_S_WR: nat, tCCD_S_WTR: nat, tCCD_S_RTW: nat,
    tRRD_L: nat, tRRD_S: nat, tFAW: nat)

  /** The default period, 0.416 ns. */
  const DEFAULT_CLOCK: Clock := Clock(416, 1000)

  /** `round(a / b)` for a non-negative quotient: halves round up, away from zero. */
  function RoundHalfAway(a: nat, b: nat): nat
    requires b > 0
  {
    (2 * a + b) / (2 * b)
  }

  /** The rounded quotient is the integer nearest to `a / b`, the upper one on a tie. */
  lemma {:induction false} RoundIsNearest(a: nat, b: nat)
    requires b > 0
    ensures 2 * RoundHalfAway(a, b) * b <= 2 * a + b < 2 * RoundHalfAway(a, b) * b + 2 * b
  {
    var q := RoundHalfAway(a, b);
    var n, d := 2 * a + b, 2 * b;
    assert q * d <= n < q * d + d;
    assert q * d == 2 * q * b;
  }

  /** `CKCAST(conf, tn / td)`: the time in cycles, `round(time * itCK)`. */
  function CkCast(ck: Clock, tn: nat, td: nat): nat
    requires ClockOk(ck) && td > 0
  {
    RoundHalfAway(tn * ck.den, td * ck.num)
  }

  /** Rounding to the nearest integer never reverses the order of two quotients with one divisor. */
  lemma {:induction false} RoundMonotone(a: nat, c: nat, b: nat)
    requires b > 0 && a <= c
    ensures RoundHalfAway(a, b) <= RoundHalfAway(c, b)
  {
    var d := 2 * b;
    var x, y := 2 * a + b, 2 * c + b;
    assert x <= y;
    DivMonotone(x, y, d);
  }

  lemma {:induction false} DivMonotone(x: nat, y: nat, d: nat)
    requires d > 0 && x <= y
    ensures x / d <= y / d
  {
    var qx, qy := x / d, y / d;
    assert qx * d <= y;
    assert y < (qy + 1) * d;
    MulLessThan(qx, qy + 1, d);
  }

  lemma {:induction false} MulLessThan(a: nat, b: nat, d: nat)
    requires a * d < b * d
    ensures a < b
  {
    if a >= b {
      MulLe(b, a, d);
    }
  }

  /** A longer time never takes fewer cycles. */
  lemma {:induction false} CkCastMonotone(ck: Clock, tn1: nat, tn2: nat, td: nat)
    requires ClockOk(ck) && td > 0 && tn1 <= tn2
    ensures CkCast(ck, tn1, td) <= CkCast(ck, tn2, td)
  {
    assert tn1 * ck.den <= tn2 * ck.den;
    RoundMonotone(tn1 * ck.den, tn2 * ck.den, td * ck.num);
  }

  /** `CKCAST` through a stored inverse period `itCK`. */
  function CkCastInverse(it: Clock, tn: nat, td: nat): (r: nat)
    requires ClockOk(it) && td > 0
    ensures r == CkCast(Clock(it.den, it.num), tn, td)
  {
    RoundHalfAway(tn * it.num, td * it.den)
  }

  /** The four-activate window of a speed bin through a stored inverse period. */
  function FawCycles(it: Clock, which: string): (r: nat)
    requires ClockOk(it)
    ensures r == FawFor(Clock(it.den, it.num), which)
  {
    if which == "4400" then Max(32, CkCastInverse(it, 14545, 1000))
    else if which == "4800" then Max(32, CkCastInverse(it, 13333, 1000))
    else Max(40, CkCastInverse(it, 15384, 1000))
  }

  function Max(a: nat, b: nat): nat { if a >= b then a else b }

  /** The timing parameters `fill_config_for_4400_4800_5200` derives. */
  datatype Derived = Derived(
    CWL: nat,
    tCCD_L: nat, tCCD_L_WR: nat, tCCD_L_WTR: nat, tCCD_L_RTW: nat,
    tCCD_S: nat, tCCD_S_WR: nat, tCCD_S_WTR: nat, tCCD_S_RTW: nat,
    tRRD_L: nat, tRRD_S: nat, tFAW: nat)

  /** The four-activate window for a speed bin: 14.545, 13.333 or 15.384 ns with a floor of 32, 32 or 40 cycles. */
  function FawFor(ck: Clock, which: string): nat
    requires ClockOk(ck)
  {
    if which == "4400" then Max(32, CkCast(ck, 14545, 1000))
    else if which == "4800" then Max(32, CkCast(ck, 13333, 1000))
    else Max(40, CkCast(ck, 15384, 1000))
  }

  /**
   * The derivation with the short write-to-read delay as DDR5 defines it,
   * `CWL + BURST_LENGTH + max(4, CKCAST(2.5))`, and `CWL` left at `CL - 2`.
   */
  function Derive(ck: Clock, cl: nat, bl: nat, which: string): Derived
    requires ClockOk(ck) && cl >= 2
  {
    var cwl := cl - 2;
    var lWtr := cwl + bl + Max(16, CkCast(ck, 10, 1));
    var sWtr := cwl + bl + Max(4, CkCast(ck, 5, 2));
    Derived(cwl,
      Max(8, CkCast(ck, 5, 1)), Max(32, CkCast(ck, 20, 1)), lWtr, lWtr,
      8, 8, sWtr, sWtr,
      Max(8, CkCast(ck, 5, 1)), 8, FawFor(ck, which))
  }

  /**
   * The derivation as written: the chained assignment on the short
   * write-to-read line sets both `tCCD_S_WTR` and `CWL` to
   * `BURST_LENGTH + max(4, CKCAST(2.5))`, after `tCCD_L_WTR` has used `CL - 2`.
   */
  function DeriveAsWritten(ck: Clock, cl: nat, bl: nat, which: string): Derived
    requires ClockOk(ck) && cl >= 2
  {
    var chained := bl + Max(4, CkCast(ck, 5, 2));
    Derive(ck, cl, bl, which).(CWL := chained, tCCD_S_WTR := chained, tCCD_S_RTW := chained)
  }

  /** The relations every derived parameter set satisfies. */
  lemma {:induction false} DeriveBounds(ck: Clock, cl: nat, bl: nat, which: string)
    requires ClockOk(ck) && cl >= 2
    ensures var d := Derive(ck, cl, bl, which);
      d.CWL == cl - 2 &&
      d.tCCD_L_WTR == d.CWL + bl + Max(16, CkCast(ck, 10, 1)) &&
      d.tCCD_L_RTW == d.tCCD_L_WTR && d.tCCD_S_RTW == d.tCCD_S_WTR &&
      d.tCCD_L >= 8 && d.tCCD_L_WR >= 32 && d.tRRD_L >= 8 &&
      d.tCCD_S == 8 && d.tCCD_S_WR == 8 && d.tRRD_S == 8 &&
      d.tCCD_S <= d.tCCD_L && d.tRRD_S <= d.tRRD_L &&
      (if which == "4400" || which == "4800" then d.tFAW >= 32 else d.tFAW >= 40)
  {
  }

  /** The short write-to-read delay never exceeds the long one, since 2.5 ns is shorter than 10 ns. */
  lemma {:induction false} ShortWtrWithinLong(ck: Clock, cl: nat, bl: nat, which: string)
    requires ClockOk(ck) && cl >= 2
    ensures Derive(ck, cl, bl, which).tCCD_S_WTR <= Derive(ck, cl, bl, which).tCCD_L_WTR
  {
    CkCastMonotone(ck, 5, 20, 2);
    assert CkCast(ck, 20, 2) == CkCast(ck, 10, 1) by {
      assert 20 * ck.den == 2 * (10 * ck.den);
      assert 2 * ck.num == 2 * (1 * ck.num);
      RoundScale(10 * ck.den, 1 * ck.num, 2);
    }
  }

  /** Scaling numerator and denominator together does not change the rounded quotient. */
  lemma {:induction false} RoundScale(a: nat, b: nat, k: nat)
    requires b > 0 && k > 0
    ensures RoundHalfAway(k * a, k * b) == RoundHalfAway(a, b)
  {
    var q := RoundHalfAway(a, b);
    var n, d := 2 * a + b, 2 * b;
    assert 2 * (k * a) + k * b == k * n;
    assert 2 * (k * b) == k * d;
    DivModScale(n, d, k);
  }

  lemma {:induction false} DivModScale(n: nat, d: nat, k: nat)
    requires d > 0 && k > 0
    ensures (k * n) / (k * d) == n / d
  {
    var q, r := n / d, n % d;
    assert n == q * d + r;
    assert k * n == q * (k * d) + k * r;
    assert k * r < k * d;
    DivModUnique(k * n, k * d, q, k * r);
  }

  /** As written, `CWL` no longer equals `CL - 2`: with CL 40, a burst of 16 and the default clock it ends at 22, not 38. */
  lemma {:induction false} ChainedAssignmentClobbersCwl()
    ensures DeriveAsWritten(DEFAULT_CLOCK, 40, 16, "4800").CWL == 22
    ensures Derive(DEFAULT_CLOCK, 40, 16, "4800").CWL == 38
    ensures DeriveAsWritten(DEFAULT_CLOCK, 40, 16, "4800").tCCD_S_WTR == 22
    ensures Derive(DEFAULT_CLOCK, 40, 16, "4800").tCCD_S_WTR == 60
  {
    DefaultCasts();
  }

  /** The cycle counts of the default 0.416 ns clock. */
  lemma {:induction false} DefaultCasts()
    ensures CkCast(DEFAULT_CLOCK, 5, 1) == 12 && CkCast(DEFAULT_CLOCK, 20, 1) == 48
    ensures CkCast(DEFAULT_CLOCK, 10, 1) == 24 && CkCast(DEFAULT_CLOCK, 5, 2) == 6
    ensures CkCast(DEFAULT_CLOCK, 14545, 1000) == 35 && CkCast(DEFAULT_CLOCK, 13333, 1000) == 32
    ensures CkCast(DEFAULT_CLOCK, 15384, 1000) == 37
  {
    DivModUnique(2 * 5000 + 416, 832, 12, 2 * 5000 + 416 - 12 * 832);
    DivModUnique(2 * 20000 + 416, 832, 48, 2 * 20000 + 416 - 48 * 832);
    DivModUnique(2 * 10000 + 416, 832, 24, 2 * 10000 + 416 - 24 * 832);
    DivModUnique(2 * 5000 + 832, 1664, 6, 2 * 5000 + 832 - 6 * 1664);
    DivModUnique(2 * 14545000 + 416000, 832000, 35, 2 * 14545000 + 416000 - 35 * 832000);
    DivModUnique(2 * 13333000 + 416000, 832000, 32, 2 * 13333000 + 416000 - 32 * 832000);
    DivModUnique(2 * 15384000 + 416000, 832000, 37, 2 * 15384000 + 416000 - 37 * 832000);
  }

  /** The default DDR5-4800 parameters with CL 40: a four-activate window of 32 cycles, tCCD_L of 12, tCCD_L_WR of 48. */
  lemma {:induction false} Default4800(bl: nat)
    ensures var d := Derive(DEFAULT_CLOCK, 40, bl, "4800");
      d.tCCD_L == 12 && d.tCCD_L_WR == 48 && d.tRRD_L == 12 && d.tFAW == 32 &&
      d.tCCD_L_WTR == 38 + bl + 24 && d.tCCD_S_WTR == 38 + bl + 6
  {
    DefaultCasts();
  }

  /** The configuration record `fill_config_for_4400_4800_5200` writes into. */
  class DRAMConfig {
    var tCK: Clock
    var itCK: Clock
    var CL: nat
    var CWL: nat
    var tCCD_L: nat
    var tCCD_L_WR: nat
    var tCCD_L_WTR: nat
    var tCCD_L_RTW: nat
    var tCCD_S: nat
    var tCCD_S_WR: nat
    var tCCD_S_WTR: nat
    var tCCD_S_RTW: nat
    var tRRD_L: nat
    var tRRD_S: nat
    var tFAW: nat

    /** The defaults: a 0.416 ns clock and CL 40; the derived fields start at zero. */
    constructor ()
      ensures tCK == DEFAULT_CLOCK && CL == 40
    {
      tCK := DEFAULT_CLOCK;
      itCK := Clock(1000, 416);
      CL := 40;
      CWL, tCCD_L, tCCD_L_WR, tCCD_L_WTR, tCCD_L_RTW := 0, 0, 0, 0, 0;
      tCCD_S, tCCD_S_WR, tCCD_S_WTR, tCCD_S_RTW := 0, 0, 0, 0;
      tRRD_L, tRRD_S, tFAW := 0, 0, 0;
    }

    /** The derived values currently stored. */
    function Values(): Derived
      reads this
    {
      Derived(CWL, tCCD_L, tCCD_L_WR, tCCD_L_WTR, tCCD_L_RTW, tCCD_S, tCCD_S_WR, tCCD_S_WTR, tCCD_S_RTW,
              tRRD_L, tRRD_S, tFAW)
    }

    /** `fill_common`: the inverse clock period. */
    method FillCommon()
      requires ClockOk(tCK)
      modifies this
      ensures itCK == Clock(tCK.den, tCK.num) && tCK == old(tCK) && CL == old(CL)
      ensures Values() == old(Values())
    {
      itCK := Clock(tCK.den, tCK.num);
    }

    /**
     * `fill_config_for_4400_4800_5200`: the fields assigned one after
     * another, with the short write-to-read delay as DDR5 defines it.
     */
    method FillConfig(bl: nat, which: string)
      requires ClockOk(tCK) && CL >= 2
      modifies this
      ensures tCK == old(tCK) && CL == old(CL) && itCK == Clock(tCK.den, tCK.num)
      ensures Values() == Derive(tCK, CL, bl, which)
    {
      FillCommon();
      var it := itCK;
      CWL := CL - 2;
      tCCD_L := Max(8, CkCastInverse(it, 5, 1));
      tCCD_L_WR := Max(32, CkCastInverse(it, 20, 1));
      tCCD_L_WTR := CWL + bl + Max(16, CkCastInverse(it, 10, 1));
      tCCD_L_RTW := tCCD_L_WTR;
      tCCD_S := 8;
      tCCD_S_WR := 8;
      tCCD_S_WTR := CWL + bl + Max(4, CkCastInverse(it, 5, 2));
      tCCD_S_RTW := tCCD_S_WTR;
      tRRD_L := Max(8, CkCastInverse(it, 5, 1));
      tRRD_S := 8;
      tFAW := FawCycles(it, which);
    }
  }
}

=== FILE: dram_rank.dfy ===
/**
 * A rank of the in-house DRAM model: one bounded command queue per
 * (bankgroup, bank), the bank timing records, the rank-wide tCCD and tRRD
 * gates, the four-activate window, and a pending all-bank refresh.
 * `GL_dram_cycle_` is the parameter `now`, and `GL_dram_conf_` is the
 * constant `p`.
 */
module DramRank {
  import opened Bits
  import opened BitCount
  import opened Wrappers
  import opened Defs
  import opened BitFields
  import opened Mop4
  import opened DramConfig

  const CMD_QUEUE_SIZE: nat := 32

  datatype CommandType = READ | WRITE | READ_PRECHARGE | WRITE_PRECHARGE | PRECHARGE | ACTIVATE | REFRESH

  datatype Command = Command(lineaddr: nat, cmdType: CommandType)

  /** `READ_CMD()`: a plain read under the open page policy, a read with auto-precharge otherwise. */
  function ReadCmd(policy: PagePolicy): CommandType
  {
    if policy == OPEN then READ else READ_PRECHARGE
  }

  /** `WRITE_CMD()`. */
  function WriteCmd(policy: PagePolicy): CommandType
  {
    if policy == OPEN then WRITE else WRITE_PRECHARGE
  }

  predicate IsRead(t: CommandType) { t == READ || t == READ_PRECHARGE }
  predicate IsWrite(t: CommandType) { t == WRITE || t == WRITE_PRECHARGE }
  predicate ClosesRow(t: CommandType) { t == READ_PRECHARGE || t == WRITE_PRECHARGE || t == PRECHARGE }

  /** The queued commands are column commands; they close their row exactly under the closed page policy. */
  lemma {:induction false} QueuedCommandKinds(policy: PagePolicy)
    ensures IsRead(ReadCmd(policy)) && IsWrite(WriteCmd(policy))
    ensures ReadCmd(policy) != WriteCmd(policy)
    ensures ClosesRow(ReadCmd(policy)) <==> policy == CLOSED
    ensures ClosesRow(WriteCmd(policy)) <==> policy == CLOSED
  {
  }

  /** The timing record of one bank; an `openRow` of -1 means no row is open. */
  datatype Bank = Bank(
    openRow: int, busyWithRefUntil: nat, consecutiveColumnAccesses: nat,
    nextPrechargeOk: nat, nextActivateOk: nat, nextColumnAccessOk: nat)

  const CLOSED_BANK: Bank := Bank(-1, 0, 0, 0, 0, 0)

  /** A two-entry gate array: `diff` is entry 0 (another bankgroup), `same` entry 1 (the same bankgroup). */
  datatype Gate = Gate(diff: nat, same: nat)

  function At(gt: Gate, sameBankgroup: bool): nat
  {
    if sameBankgroup then gt.same else gt.diff
  }

  /** `update_timing`: both entries restart at `now`, with the short and the long delay. */
  function Stamp(now: nat, tS: nat, tL: nat): (gt: Gate)
    ensures At(gt, false) == now + tS && At(gt, true) == now + tL
  {
    Gate(now + tS, now + tL)
  }

  // ---------------------------------------------------------------
  // Queue indices

  /** Bankgroup and bank counts that are powers of two, whose product fits a 64-bit index. */
  predicate PowerOfTwoOrg(g: Geometry)
  {
    Mop4.Valid(g) && Pow2(BBg(g)) == g.bankgroups && Pow2(BBa(g)) == g.banks && BBg(g) + BBa(g) < 64
  }

  /** `N_CMD_QUEUES`. */
  function NumQueues(g: Geometry): nat
  {
    g.bankgroups * g.banks
  }

  /** `get_command_queue`'s index, `bg * NUM_BANKS + ba`. */
  function QueueIndex(g: Geometry, bg: nat, ba: nat): nat
  {
    bg * g.banks + ba
  }

  /** The queue a line address belongs to. */
  function QueueOf(g: Geometry, x: nat): (r: nat)
    requires PowerOfTwoOrg(g)
    ensures r < NumQueues(g)
  {
    QueueIndexInRange(g, Bankgroup(g, x), Mop4.Bank(g, x), 0, 0);
    QueueIndex(g, Bankgroup(g, x), Mop4.Bank(g, x))
  }

  /** Every (bankgroup, bank) pair has its own queue, and the queue index names the pair. */
  lemma {:induction false} QueueIndexInRange(g: Geometry, bg: nat, ba: nat, bg': nat, ba': nat)
    requires bg < g.bankgroups && ba < g.banks && bg' < g.bankgroups && ba' < g.banks
    ensures QueueIndex(g, bg, ba) < NumQueues(g)
    ensures QueueIndex(g, bg, ba) == QueueIndex(g, bg', ba') ==> bg == bg' && ba == ba'
  {
    MulLe(bg + 1, g.bankgroups, g.banks);
    if QueueIndex(g, bg, ba) == QueueIndex(g, bg', ba') {
      DivModUnique(QueueIndex(g, bg, ba), g.banks, bg, ba);
      DivModUnique(QueueIndex(g, bg, ba), g.banks, bg', ba');
    }
  }

  /** A line address decodes to a bankgroup and bank of the rank, so its queue exists. */
  lemma {:induction false} QueueOfInRange(g: Geometry, x: nat)
    requires PowerOfTwoOrg(g)
    ensures Bankgroup(g, x) < g.bankgroups && Mop4.Bank(g, x) < g.banks
  {
  }

  lemma {:induction false} NumQueuesIsPow2(g: Geometry)
    requires PowerOfTwoOrg(g)
    ensures NumQueues(g) == Pow2(BBg(g) + BBa(g)) && NumQueues(g) < U64_LIMIT
  {
    Pow2Add(BBg(g), BBa(g));
    Pow2Monotone(BBg(g) + BBa(g), 64);
    Pow2Of64();
    Pow2Increases(BBg(g) + BBa(g), 64);
  }

  lemma {:induction false} Pow2Increases(a: nat, b: nat)
    requires a < b
    ensures Pow2(a) < Pow2(b)
  {
    Pow2Monotone(a + 1, b);
  }

  /** The bank of a queue index, `idx & (NUM_BANKS - 1)`. */
  function BankOfIndex(g: Geometry, idx: nat): nat
    requires g.banks >= 1
  {
    And(idx, g.banks - 1)
  }

  /** The bankgroup of a queue index, `idx >> Log2<NUM_BANKS>`. */
  function BankgroupOfIndex(g: Geometry, idx: nat): nat
    requires Mop4.Valid(g)
  {
    Shr(idx, BBa(g))
  }

  /** Splitting a queue index gives back the pair whose queue it is. */
  lemma {:induction false} SplitIndexRoundTrip(g: Geometry, idx: nat)
    requires PowerOfTwoOrg(g) && idx < NumQueues(g)
    ensures BankgroupOfIndex(g, idx) < g.bankgroups && BankOfIndex(g, idx) < g.banks
    ensures QueueIndex(g, BankgroupOfIndex(g, idx), BankOfIndex(g, idx)) == idx
  {
    var b := g.banks;
    AndLowMask(idx, BBa(g));
    assert BankOfIndex(g, idx) == idx % b;
    assert BankgroupOfIndex(g, idx) == idx / b;
    DivBelow(idx, g.bankgroups, b);
  }

  lemma {:induction false} DivBelow(x: nat, a: nat, b: nat)
    requires b > 0 && x < a * b
    ensures x / b < a && x == (x / b) * b + x % b
  {
    if x / b >= a {
      MulLe(a, x / b, b);
    }
  }

  /** As written, the bank of a queue index is `idx & ((1 << NUM_BANKS) - 1)`. */
  function BankOfIndexAsWritten(g: Geometry, idx: nat): nat
  {
    And(idx, Pow2(g.banks) - 1)
  }

  /** The default organization: 8 bankgroups of 4 banks. */
  const DEFAULT_ORG: Geometry := Geometry(2, 2, 2, 8, 4, 4194304, 1024)

  lemma {:induction false} DefaultOrgIsPowerOfTwo()
    ensures PowerOfTwoOrg(DEFAULT_ORG) && NumQueues(DEFAULT_ORG) == 32
    ensures BBg(DEFAULT_ORG) == 3 && BBa(DEFAULT_ORG) == 2 && BCh(DEFAULT_ORG) == 1 && BSc(DEFAULT_ORG) == 1
  {
    Log2OfPow2(1);
    Log2OfPow2(2);
    Log2OfPow2(3);
    assert Pow2(3) == 8;
  }

  /** With 4 banks per bankgroup, queue 5 (bankgroup 1, bank 1) picks bank 5, past the last bank. */
  lemma {:induction false} BankOfIndexAsWrittenOverruns()
    ensures BankOfIndexAsWritten(DEFAULT_ORG, 5) == 5 && 5 >= DEFAULT_ORG.banks
    ensures BankOfIndex(DEFAULT_ORG, 5) == 1 && 5 < NumQueues(DEFAULT_ORG)
  {
    assert Pow2(4) == 16;
    AndLowMask(5, 4);
    AndLowMask(5, 2);
  }

  /** As written, the round-robin index wraps at `CMD_QUEUE_SIZE`, not at the number of queues. */
  function NextQueueAsWritten(idx: nat): nat
    requires idx < U64_LIMIT
  {
    IncrementAndModByPow2(idx, CMD_QUEUE_SIZE)
  }

  /** The round-robin successor of a queue index. */
  function NextQueue(g: Geometry, idx: nat): (r: nat)
    requires PowerOfTwoOrg(g) && idx < NumQueues(g)
    ensures r < NumQueues(g) && r == (idx + 1) % NumQueues(g)
  {
    NumQueuesIsPow2(g);
    IncrementAndModByPow2IsMod(idx, BBg(g) + BBa(g));
    IncrementAndModByPow2(idx, NumQueues(g))
  }

  /** With 4 bankgroups of 4 banks there are 16 queues; the index after 15 is 16 as written, and 0 corrected. */
  lemma {:induction false} NextQueueAsWrittenOverruns()
    ensures var g := DEFAULT_ORG.(bankgroups := 4);
      NumQueues(g) == 16 && NextQueueAsWritten(15) == 16 && NextQueue(g, 15) == 0
  {
    var g := DEFAULT_ORG.(bankgroups := 4);
    assert Pow2(5) == 32;
    IncrementAndModByPow2IsMod(15, 5);
    assert Log2(4) == 2 by { assert Log2(2) == 1; }
    assert PowerOfTwoOrg(g);
  }

  // ---------------------------------------------------------------
  // Timing conditions (`can_execute_command`)

  /** The column condition: the row is open, tRCD has passed, and the tCCD gate for the command's direction is open. */
  predicate ColumnOk(b: Bank, row: nat, t: CommandType, now: nat, readOk: bool, writeOk: bool)
  {
    b.openRow == row && now >= b.nextColumnAccessOk && ((IsRead(t) && readOk) || (IsWrite(t) && writeOk))
  }

  /** As written the column condition accepts only the plain `READ` and `WRITE` types. */
  predicate ColumnOkAsWritten(b: Bank, row: nat, t: CommandType, now: nat, readOk: bool, writeOk: bool)
  {
    b.openRow == row && now >= b.nextColumnAccessOk && ((t == READ && readOk) || (t == WRITE && writeOk))
  }

  /** A row is open and tRAS has passed. */
  predicate PrechargeOk(b: Bank, now: nat)
  {
    b.openRow >= 0 && now >= b.nextPrechargeOk
  }

  /** The bank is closed, tRP and tRRD have passed, and fewer than four activates are in the window. */
  predicate ActivateOk(b: Bank, now: nat, rrdOk: bool, acts: nat)
  {
    b.openRow == -1 && now >= b.nextActivateOk && rrdOk && acts < 4
  }

  /** `can_execute_command`, with the auto-precharge forms checked as the read or write they carry. */
  predicate Allowed(b: Bank, row: nat, t: CommandType, now: nat, readOk: bool, writeOk: bool, rrdOk: bool, acts: nat)
  {
    if now < b.busyWithRefUntil then false
    else match t
      case READ => ColumnOk(b, row, t, now, readOk, writeOk)
      case WRITE => ColumnOk(b, row, t, now, readOk, writeOk)
      case PRECHARGE => PrechargeOk(b, now)
      case ACTIVATE => ActivateOk(b, now, rrdOk, acts)
      case READ_PRECHARGE => ColumnOk(b, row, t, now, readOk, writeOk) && PrechargeOk(b, now)
      case WRITE_PRECHARGE => ColumnOk(b, row, t, now, readOk, writeOk) && PrechargeOk(b, now)
      case REFRESH => true
  }

  /** `can_execute_command` as written. */
  predicate AllowedAsWritten(b: Bank, row: nat, t: CommandType, now: nat, readOk: bool, writeOk: bool, rrdOk: bool, acts: nat)
  {
    if now < b.busyWithRefUntil then false
    else match t
      case READ => ColumnOkAsWritten(b, row, t, now, readOk, writeOk)
      case WRITE => ColumnOkAsWritten(b, row, t, now, readOk, writeOk)
      case PRECHARGE => PrechargeOk(b, now)
      case ACTIVATE => ActivateOk(b, now, rrdOk, acts)
      case READ_PRECHARGE => ColumnOkAsWritten(b, row, t, now, readOk, writeOk) && PrechargeOk(b, now)
      case WRITE_PRECHARGE => ColumnOkAsWritten(b, row, t, now, readOk, writeOk) && PrechargeOk(b, now)
      case REFRESH => true
  }

  /** As written no auto-precharge command is ever executable, so under the closed page policy no queued command issues. */
  lemma {:induction false} AutoPrechargeNeverAllowedAsWritten(b: Bank, row: nat, now: nat, readOk: bool, writeOk: bool, rrdOk: bool, acts: nat)
    ensures !AllowedAsWritten(b, row, READ_PRECHARGE, now, readOk, writeOk, rrdOk, acts)
    ensures !AllowedAsWritten(b, row, WRITE_PRECHARGE, now, readOk, writeOk, rrdOk, acts)
  {
  }

  /** An auto-precharge command may issue exactly when its plain form may and the row may also be precharged. */
  lemma {:induction false} AutoPrechargeAllowed(b: Bank, row: nat, now: nat, readOk: bool, writeOk: bool, rrdOk: bool, acts: nat)
    ensures Allowed(b, row, READ_PRECHARGE, now, readOk, writeOk, rrdOk, acts)
        <==> Allowed(b, row, READ, now, readOk, writeOk, rrdOk, acts) && PrechargeOk(b, now)
    ensures Allowed(b, row, WRITE_PRECHARGE, now, readOk, writeOk, rrdOk, acts)
        <==> Allowed(b, row, WRITE, now, readOk, writeOk, rrdOk, acts) && PrechargeOk(b, now)
    ensures Allowed(b, row, READ, now, readOk, writeOk, rrdOk, acts)
        <==> AllowedAsWritten(b, row, READ, now, readOk, writeOk, rrdOk, acts)
  {
  }

  /** A bank under refresh runs nothing; a column command needs its row open; ACT and PRE exclude each other; a full window stops ACT. */
  lemma {:induction false} AllowedConditions(b: Bank, row: nat, t: CommandType, now: nat, readOk: bool, writeOk: bool, rrdOk: bool, acts: nat)
    ensures now < b.busyWithRefUntil ==> !Allowed(b, row, t, now, readOk, writeOk, rrdOk, acts)
    ensures (IsRead(t) || IsWrite(t)) && Allowed(b, row, t, now, readOk, writeOk, rrdOk, acts) ==> b.openRow == row
    ensures !(Allowed(b, row, ACTIVATE, now, readOk, writeOk, rrdOk, acts) && Allowed(b, row, PRECHARGE, now, readOk, writeOk, rrdOk, acts))
    ensures acts >= 4 ==> !Allowed(b, row, ACTIVATE, now, readOk, writeOk, rrdOk, acts)
    ensures IsRead(t) && Allowed(b, row, t, now, readOk, writeOk, rrdOk, acts) ==> readOk
    ensures IsWrite(t) && Allowed(b, row, t, now, readOk, writeOk, rrdOk, acts) ==> writeOk
  {
  }

  // ---------------------------------------------------------------
  // Execution (`execute_command`)

  /** The cycles a burst occupies the bus, `BURST_LENGTH / 2 * tCCD_L`. */
  function BurstCycles(p: Params): nat
  {
    p.burstLength / 2 * p.tCCD_L
  }

  /** The latency `execute_command` reports. */
  function Latency(t: CommandType, p: Params): nat
  {
    match t
      case READ => p.CL + BurstCycles(p)
      case READ_PRECHARGE => p.CL + BurstCycles(p)
      case WRITE => p.CWL + BurstCycles(p)
      case WRITE_PRECHARGE => p.CWL + BurstCycles(p)
      case PRECHARGE => p.tRP
      case ACTIVATE => p.tRCD
      case REFRESH => 0
  }

  /** The read gate after a command: a read restarts it with tCCD, a write with the write-to-read turnaround. */
  function ReadGateAfter(t: CommandType, now: nat, p: Params, gt: Gate): Gate
  {
    if IsRead(t) then Stamp(now, p.tCCD_S, p.tCCD_L)
    else if IsWrite(t) then Stamp(now, p.tCCD_S_WTR, p.tCCD_L_WTR)
    else gt
  }

  /** The write gate after a command: a read restarts it with the read-to-write turnaround, a write with tCCD for writes. */
  function WriteGateAfter(t: CommandType, now: nat, p: Params, gt: Gate): Gate
  {
    if IsRead(t) then Stamp(now, p.tCCD_S_RTW, p.tCCD_L_RTW)
    else if IsWrite(t) then Stamp(now, p.tCCD_S_WR, p.tCCD_L_WR)
    else gt
  }

  /** The bank after a command: precharges close the row and restart tRP; an activate opens the row and extends tRAS and tRCD. */
  function Executed(b: Bank, t: CommandType, row: nat, now: nat, p: Params): Bank
  {
    if ClosesRow(t) then b.(openRow := -1, nextActivateOk := now + p.tRP)
    else if t == ACTIVATE then
      b.(openRow := row, nextPrechargeOk := b.nextPrechargeOk + p.tRAS,
         nextColumnAccessOk := b.nextColumnAccessOk + p.tRCD)
    else b
  }

  /** After an activate the row is open: a column command to it finds it, and neither another activate nor (before tRAS) a precharge may follow. */
  lemma {:induction false} ActivateOpensRow(b: Bank, row: nat, now: nat, p: Params, now': nat, readOk: bool, writeOk: bool, rrdOk: bool, acts: nat)
    requires ActivateOk(b, now, rrdOk, acts)
    ensures var b' := Executed(b, ACTIVATE, row, now, p);
      b'.openRow == row &&
      !Allowed(b', row, ACTIVATE, now', readOk, writeOk, rrdOk, acts) &&
      (Allowed(b', row, PRECHARGE, now', readOk, writeOk, rrdOk, acts) ==> now' >= b.nextPrechargeOk + p.tRAS) &&
      (Allowed(b', row, READ, now', readOk, writeOk, rrdOk, acts) ==> now' >= b.nextColumnAccessOk + p.tRCD)
  {
  }

  /** After a precharge, or a column command with auto-precharge, the bank is closed and the next activate waits tRP. */
  lemma {:induction false} PrechargeClosesRow(b: Bank, t: CommandType, row: nat, now: nat, p: Params, now': nat, readOk: bool, writeOk: bool, rrdOk: bool, acts: nat)
    requires ClosesRow(t)
    ensures var b' := Executed(b, t, row, now, p);
      b'.openRow == -1 &&
      (Allowed(b', row, ACTIVATE, now', readOk, writeOk, rrdOk, acts) ==> now' >= now + p.tRP) &&
      !Allowed(b', row, READ, now', readOk, writeOk, rrdOk, acts) &&
      !Allowed(b', row, PRECHARGE, now', readOk, writeOk, rrdOk, acts)
  {
  }

  /** An auto-precharge command has the latency of its plain form; plain column commands leave the bank as it was. */
  lemma {:induction false} AutoPrechargeLatency(p: Params, b: Bank, row: nat, now: nat)
    ensures Latency(READ_PRECHARGE, p) == Latency(READ, p) && Latency(WRITE_PRECHARGE, p) == Latency(WRITE, p)
    ensures Executed(b, READ, row, now, p) == b && Executed(b, WRITE, row, now, p) == b
  {
  }

  // ---------------------------------------------------------------
  // Queues and the activate window

  function TotalCommands(qs: seq<seq<Command>>): nat
  {
    if qs == [] then 0 else |qs[0]| + TotalCommands(qs[1..])
  }

  /** No command is queued exactly when every queue is empty. */
  lemma {:induction false} TotalCommandsZero(qs: seq<seq<Command>>)
    ensures TotalCommands(qs) == 0 <==> forall q :: 0 <= q < |qs| ==> qs[q] == []
  {
    if qs != [] {
      TotalCommandsZero(qs[1..]);
      assert forall q :: 1 <= q < |qs| ==> qs[q] == qs[1..][q - 1];
    }
  }

  /** Replacing one queue changes the total by the difference in its length. */
  lemma {:induction false} TotalCommandsUpdate(qs: seq<seq<Command>>, q: nat, s: seq<Command>)
    requires q < |qs|
    ensures TotalCommands(qs[q := s]) + |qs[q]| == TotalCommands(qs) + |s|
  {
    if q == 0 {
      assert qs[q := s][1..] == qs[1..];
    } else {
      assert qs[q := s][1..] == qs[1..][q - 1 := s];
      TotalCommandsUpdate(qs[1..], q - 1, s);
    }
  }

  function Remove(s: seq<Command>, j: nat): (r: seq<Command>)
    requires j < |s|
    ensures |r| == |s| - 1 && forall c :: c in r ==> c in s
  {
    s[..j] + s[j + 1..]
  }

  /** The rank's FAW loop: leading activate cycles that `now` has reached are dropped. */
  function DropExpired(acts: seq<nat>, now: nat): (r: seq<nat>)
    ensures |r| <= |acts| && r == acts[|acts| - |r|..]
    ensures r != [] ==> now < r[0]
    ensures forall i :: 0 <= i < |acts| - |r| ==> acts[i] <= now
  {
    if acts != [] && now >= acts[0] then
      var t := acts[1..];
      var r := DropExpired(t, now);
      assert t[|t| - |r|..] == acts[|acts| - |r|..];
      assert forall i :: 0 < i < |acts| ==> acts[i] == t[i - 1];
      r
    else acts
  }

  /** `issue_refresh`'s effect on the banks: every bank busy until `until`. */
  function RefreshAll(banks: seq<seq<Bank>>, until: nat): (r: seq<seq<Bank>>)
    ensures |r| == |banks| && forall i :: 0 <= i < |r| ==> |r[i]| == |banks[i]|
  {
    seq(|banks|, i requires 0 <= i < |banks| =>
      seq(|banks[i]|, j requires 0 <= j < |banks[i]| => banks[i][j].(busyWithRefUntil := until)))
  }

  /** The banks after `tick`: refreshed when a refresh was pending and no bank was busy. */
  function BanksAfterTick(banks: seq<seq<Bank>>, waiting: bool, busyUntil: nat, now: nat, tRFC: nat): (r: seq<seq<Bank>>)
    ensures |r| == |banks| && forall i :: 0 <= i < |r| ==> |r[i]| == |banks[i]|
    ensures !waiting || now < busyUntil ==> r == banks
    ensures waiting && now >= busyUntil ==> r == RefreshAll(banks, now + tRFC)
  {
    if waiting && now >= busyUntil then RefreshAll(banks, now + tRFC) else banks
  }

  /** During a refresh no bank may run any command until tRFC has passed. */
  lemma {:induction false} RefreshBlocksBanks(banks: seq<seq<Bank>>, now: nat, p: Params, i: nat, j: nat,
                           row: nat, t: CommandType, now': nat, readOk: bool, writeOk: bool, rrdOk: bool, acts: nat)
    requires i < |banks| && j < |banks[i]| && now' < now + p.tRFC
    ensures !Allowed(RefreshAll(banks, now + p.tRFC)[i][j], row, t, now', readOk, writeOk, rrdOk, acts)
    ensures RefreshAll(banks, now + p.tRFC)[i][j].openRow == banks[i][j].openRow
  {
  }

  /** `n` bankgroups of `m` closed, idle banks. */
  function ClosedBanks(n: nat, m: nat): (r: seq<seq<Bank>>)
    ensures |r| == n && forall i :: 0 <= i < n ==> |r[i]| == m
    ensures forall i, j :: 0 <= i < n && 0 <= j < |r[i]| ==> r[i][j] == CLOSED_BANK
  {
    seq(n, _ => seq(m, _ => CLOSED_BANK))
  }

  /** `n` empty command queues. */
  function EmptyQueues(n: nat): (r: seq<seq<Command>>)
    ensures |r| == n && TotalCommands(r) == 0
    ensures forall q :: 0 <= q < n ==> r[q] == []
  {
    var r := seq(n, _ => []);
    TotalCommandsZero(r);
    r
  }

  /** The command a queue yields when none of its entries hits the open row: precharge an open bank, activate a closed one, for the line at the head of the queue. */
  function MissCommand(head: Command, b: Bank): Command
  {
    Command(head.lineaddr, if b.openRow >= 0 then PRECHARGE else ACTIVATE)
  }

  /** As written the miss command keeps whatever line address the caller's command held. */
  function MissCommandAsWritten(cmdIn: Command, b: Bank): Command
  {
    Command(cmdIn.lineaddr, if b.openRow >= 0 then PRECHARGE else ACTIVATE)
  }

  /** A zeroed caller command targets queue 0, so as written a miss in queue 1 precharges or activates in the wrong bank. */
  lemma {:induction false} MissCommandAsWrittenWrongBank(b: Bank)
    ensures PowerOfTwoOrg(DEFAULT_ORG) &&
      QueueOf(DEFAULT_ORG, MissCommandAsWritten(Command(0, READ), b).lineaddr) == 0 &&
      QueueOf(DEFAULT_ORG, MissCommand(Command(128, READ), b).lineaddr) == 1
  {
    DefaultQueue0();
    DefaultQueue128();
  }

  /** Line 0 belongs to queue 0. */
  lemma {:induction false} DefaultQueue0()
    ensures PowerOfTwoOrg(DEFAULT_ORG) && QueueOf(DEFAULT_ORG, 0) == 0
  {
    DefaultOrgIsPowerOfTwo();
    assert Bankgroup(DEFAULT_ORG, 0) == 0 && Mop4.Bank(DEFAULT_ORG, 0) == 0;
  }

  /** Line 128 (bit 7, the lowest bank bit, set) belongs to queue 1. */
  lemma {:induction false} DefaultQueue128()
    ensures PowerOfTwoOrg(DEFAULT_ORG) && QueueOf(DEFAULT_ORG, 128) == 1
  {
    var g := DEFAULT_ORG;
    DefaultOrgIsPowerOfTwo();
    assert BgOff(g) == 4 && BaOff(g) == 7;
    assert Pow2(2) == 4 && Pow2(3) == 8 && Pow2(4) == 16;
    assert Pow2(7) == 128 by { assert Pow2(5) == 32; }
    assert Bankgroup(g, 128) == Field(128, 4, 3) == 0;
    assert Mop4.Bank(g, 128) == Field(128, 7, 2) == 1;
  }

  /** The corrected miss command stays in the queue's own bank and asks for what the bank needs. */
  lemma {:induction false} MissCommandTargetsQueue(g: Geometry, head: Command, b: Bank)
    requires PowerOfTwoOrg(g)
    ensures QueueOf(g, MissCommand(head, b).lineaddr) == QueueOf(g, head.lineaddr)
    ensures MissCommand(head, b).cmdType == PRECHARGE <==> b.openRow >= 0
    ensures MissCommand(head, b).cmdType == ACTIVATE <==> b.openRow < 0
  {
  }

  /** The banks form a `bankgroups` by `banks` grid. */
  predicate BanksFit(g: Geometry, banks: seq<seq<Bank>>)
  {
    PowerOfTwoOrg(g) && |banks| == g.bankgroups && forall i :: 0 <= i < |banks| ==> |banks[i]| == g.banks
  }

  /** Command `c` belongs in queue `q`: a read or write command for that queue's bank. */
  predicate CmdFits(g: Geometry, p: Params, q: nat, c: Command)
    requires PowerOfTwoOrg(g)
  {
    QueueOf(g, c.lineaddr) == q && (c.cmdType == ReadCmd(p.pagePolicy) || c.cmdType == WriteCmd(p.pagePolicy))
  }

  /** The commands of queue `q` are read or write commands for its own bank, at most `CMD_QUEUE_SIZE` of them. */
  predicate QueueHolds(g: Geometry, p: Params, q: nat, s: seq<Command>)
  {
    PowerOfTwoOrg(g) && |s| <= CMD_QUEUE_SIZE && forall c :: c in s ==> CmdFits(g, p, q, c)
  }

  /** Every queue is well formed and the counter holds their total. */
  predicate QueuesHold(g: Geometry, p: Params, qs: seq<seq<Command>>, n: nat)
  {
    PowerOfTwoOrg(g) && |qs| == NumQueues(g) && n == TotalCommands(qs) &&
    forall q :: 0 <= q < |qs| ==> QueueHolds(g, p, q, qs[q])
  }

  /** The rank invariant on its state: shaped banks, valid queues, the scan index in range. */
  predicate RankInv(g: Geometry, p: Params, banks: seq<seq<Bank>>, qs: seq<seq<Command>>, idx: nat, n: nat)
  {
    BanksFit(g, banks) && QueuesHold(g, p, qs, n) && idx < NumQueues(g)
  }

  /** A new rank's state (closed banks, empty queues, scan index 0) meets the rank invariant. */
  lemma {:induction false} InitialRankInv(g: Geometry, p: Params)
    requires PowerOfTwoOrg(g)
    ensures RankInv(g, p, ClosedBanks(g.bankgroups, g.banks), EmptyQueues(NumQueues(g)), 0, 0)
  {
    var qs := EmptyQueues(NumQueues(g));
    assert NumQueues(g) >= 1 by { MulLe(1, g.bankgroups, g.banks); }
    forall q | 0 <= q < |qs| ensures QueueHolds(g, p, q, qs[q]) {
      assert qs[q] == [];
    }
  }

  /** What `select_command` found in a scan. */
  datatype Selection = NoCommand | Hit(queue: nat, pos: nat) | Miss(queue: nat, cmd: Command)

  /** A rank. */
  class DRAMRank {
    const g: Geometry
    const p: Params

    var banks: seq<seq<Bank>>
    var cmdQueues: seq<seq<Command>>
    var nextCmdQueueIdx: nat
    var numCmds: nat
    var lastFourActCycles: seq<nat>
    var lastBankgroupUsed: nat
    var nextRowActivateOk: Gate
    var nextColumnReadOk: Gate
    var nextColumnWriteOk: Gate
    var isWaitingToDoRef: bool
    var anyBankBusyUntil: nat
    var numActs: nat
    var numPre: nat

    predicate BanksShaped()
      reads this`banks
    {
      BanksFit(g, banks)
    }

    predicate QueuesShaped()
      reads this`cmdQueues
    {
      PowerOfTwoOrg(g) && |cmdQueues| == NumQueues(g)
    }

    predicate QueueOk(q: nat, s: seq<Command>)
    {
      QueueHolds(g, p, q, s)
    }

    predicate QueuesValid()
      reads this`cmdQueues, this`numCmds
    {
      QueuesHold(g, p, cmdQueues, numCmds)
    }

    predicate Valid()
      reads this`banks, this`cmdQueues, this`nextCmdQueueIdx, this`numCmds
    {
      RankInv(g, p, banks, cmdQueues, nextCmdQueueIdx, numCmds)
    }

    /** A rank with closed, idle banks, empty queues and open gates. */
    constructor (g: Geometry, p: Params)
      requires PowerOfTwoOrg(g)
      ensures Valid() && this.g == g && this.p == p
      ensures forall i, j :: 0 <= i < |banks| && 0 <= j < |banks[i]| ==> banks[i][j] == CLOSED_BANK
      ensures numCmds == 0 && lastFourActCycles == [] && !isWaitingToDoRef && anyBankBusyUntil == 0
    {
      InitialRankInv(g, p);
      this.g, this.p := g, p;
      banks := ClosedBanks(g.bankgroups, g.banks);
      cmdQueues := EmptyQueues(NumQueues(g));
      nextCmdQueueIdx, numCmds := 0, 0;
      lastFourActCycles := [];
      lastBankgroupUsed := 0;
      nextRowActivateOk, nextColumnReadOk, nextColumnWriteOk := Gate(0, 0), Gate(0, 0), Gate(0, 0);
      isWaitingToDoRef := false;
      anyBankBusyUntil, numActs, numPre := 0, 0, 0;
      new;
    }

    /** `set_needs_refresh`: only the pending-refresh flag changes. */
    method SetNeedsRefresh()
      modifies this`isWaitingToDoRef
      ensures isWaitingToDoRef
    {
      isWaitingToDoRef := true;
    }

    /** `get_command_queue(bg, ba)`: the queue holds only commands for that bankgroup and bank. */
    function GetCommandQueue(bg: nat, ba: nat): (r: seq<Command>)
      requires Valid() && bg < g.bankgroups && ba < g.banks
      reads this
      ensures |r| <= CMD_QUEUE_SIZE
      ensures forall c :: c in r ==> Bankgroup(g, c.lineaddr) == bg && Mop4.Bank(g, c.lineaddr) == ba
    {
      QueueIndexInRange(g, bg, ba, 0, 0);
      var r := cmdQueues[QueueIndex(g, bg, ba)];
      assert QueueOk(QueueIndex(g, bg, ba), r);
      forall c | c in r ensures Bankgroup(g, c.lineaddr) == bg && Mop4.Bank(g, c.lineaddr) == ba {
        QueueOfInRange(g, c.lineaddr);
        QueueIndexInRange(g, Bankgroup(g, c.lineaddr), Mop4.Bank(g, c.lineaddr), bg, ba);
      }
      r
    }

    /** `all_cmd_queues_are_empty`: the counter is zero exactly when every queue is empty. */
    function AllCmdQueuesAreEmpty(): (r: bool)
      requires Valid()
      reads this
      ensures r <==> forall q :: 0 <= q < |cmdQueues| ==> cmdQueues[q] == []
    {
      TotalCommandsZero(cmdQueues);
      numCmds == 0
    }

    /** `try_and_insert_command<IS_READ>`: append to the line's queue when it has room. */
    method TryAndInsertCommand(isRead: bool, lineaddr: nat) returns (ok: bool)
      requires Valid()
      modifies this`cmdQueues, this`numCmds
      ensures Valid()
      ensures var q := QueueOf(g, lineaddr);
        var c := Command(lineaddr, if isRead then ReadCmd(p.pagePolicy) else WriteCmd(p.pagePolicy));
        (ok <==> |old(cmdQueues)[q]| < CMD_QUEUE_SIZE) &&
        (ok ==> cmdQueues == old(cmdQueues)[q := old(cmdQueues)[q] + [c]] && numCmds == old(numCmds) + 1) &&
        (!ok ==> cmdQueues == old(cmdQueues) && numCmds == old(numCmds))
    {
      var t := if isRead then ReadCmd(p.pagePolicy) else WriteCmd(p.pagePolicy);
      var bg, ba := Bankgroup(g, lineaddr), Mop4.Bank(g, lineaddr);
      QueueIndexInRange(g, bg, ba, 0, 0);
      var q := QueueIndex(g, bg, ba);
      if |cmdQueues[q]| < CMD_QUEUE_SIZE {
        var s := cmdQueues[q] + [Command(lineaddr, t)];
        TotalCommandsUpdate(cmdQueues, q, s);
        assert QueueOk(q, s) by { assert QueueOk(q, cmdQueues[q]); }
        cmdQueues := cmdQueues[q := s];
        numCmds := numCmds + 1;
        return true;
      } else {
        return false;
      }
    }

    /** `can_execute_command` on the rank's current state. */
    predicate CanExecute(now: nat, cmd: Command)
      requires BanksShaped()
      reads this`banks, this`lastBankgroupUsed, this`nextColumnReadOk, this`nextColumnWriteOk,
            this`nextRowActivateOk, this`lastFourActCycles
    {
      QueueOfInRange(g, cmd.lineaddr);
      var bg := Bankgroup(g, cmd.lineaddr);
      var sbg := lastBankgroupUsed == bg;
      Allowed(banks[bg][Mop4.Bank(g, cmd.lineaddr)], Row(g, cmd.lineaddr), cmd.cmdType, now,
              now >= At(nextColumnReadOk, sbg), now >= At(nextColumnWriteOk, sbg),
              now >= At(nextRowActivateOk, sbg), |lastFourActCycles|)
    }

    /** A queued command that hits the open row and may execute now. */
    predicate IsHit(now: nat, c: Command, openRow: int)
      requires BanksShaped()
      reads this`banks, this`lastBankgroupUsed, this`nextColumnReadOk, this`nextColumnWriteOk,
            this`nextRowActivateOk, this`lastFourActCycles
    {
      Row(g, c.lineaddr) == openRow && CanExecute(now, c)
    }

    /** The first row hit of queue `q` at or after position `j`. */
    function FirstHit(now: nat, q: nat, openRow: int, j: nat): (r: Option<nat>)
      requires BanksShaped() && QueuesShaped() && q < |cmdQueues| && j <= |cmdQueues[q]|
      reads this`banks, this`cmdQueues, this`lastBankgroupUsed, this`nextColumnReadOk,
            this`nextColumnWriteOk, this`nextRowActivateOk, this`lastFourActCycles
      ensures r.Some? ==> j <= r.value < |cmdQueues[q]| && IsHit(now, cmdQueues[q][r.value], openRow)
      ensures forall k :: j <= k < |cmdQueues[q]| && (r.None? || k < r.value) ==> !IsHit(now, cmdQueues[q][k], openRow)
      decreases |cmdQueues[q]| - j
    {
      if j == |cmdQueues[q]| then None
      else if IsHit(now, cmdQueues[q][j], openRow) then Some(j)
      else FirstHit(now, q, openRow, j + 1)
    }

    /**
     * What `select_command` takes from queue `q`: nothing when its bank is
     * refreshing or the queue is empty; otherwise its first row hit, or else
     * the precharge or activate its head needs if that may execute now.
     */
    function QueueChoice(now: nat, q: nat): (r: Selection)
      requires BanksShaped() && QueuesShaped() && q < NumQueues(g)
      reads this`banks, this`cmdQueues, this`lastBankgroupUsed, this`nextColumnReadOk,
            this`nextColumnWriteOk, this`nextRowActivateOk, this`lastFourActCycles
      ensures !r.NoCommand? ==> r.queue == q
      ensures r.Hit? ==> r.pos < |cmdQueues[q]|
    {
      var bank := BankOf(q);
      if now < bank.busyWithRefUntil || cmdQueues[q] == [] then NoCommand
      else match FirstHit(now, q, bank.openRow, 0)
        case Some(j) => Hit(q, j)
        case None =>
          var c := MissCommand(cmdQueues[q][0], bank);
          if CanExecute(now, c) then Miss(q, c) else NoCommand
    }

    /** The round-robin scan from the `ii`-th visit on, at queue index `idx`: the first queue with a choice, and the index after it. */
    function ScanFrom(now: nat, ii: nat, idx: nat): (r: (Selection, nat))
      requires BanksShaped() && QueuesShaped() && ii <= NumQueues(g) && idx < NumQueues(g)
      reads this`banks, this`cmdQueues, this`lastBankgroupUsed, this`nextColumnReadOk,
            this`nextColumnWriteOk, this`nextRowActivateOk, this`lastFourActCycles
      ensures r.1 < NumQueues(g)
      ensures !r.0.NoCommand? ==> r.0.queue < |cmdQueues|
      ensures r.0.Hit? ==> r.0.pos < |cmdQueues[r.0.queue]|
      decreases NumQueues(g) - ii
    {
      if ii == NumQueues(g) then (NoCommand, idx)
      else
        var choice := QueueChoice(now, idx);
        if choice.NoCommand? then ScanFrom(now, ii + 1, NextQueue(g, idx))
        else (choice, NextQueue(g, idx))
    }

    /** One visit of `select_command`'s loop: what queue `q` offers. */
    method VisitQueue(now: nat, q: nat) returns (choice: Selection)
      requires BanksShaped() && QueuesShaped() && q < NumQueues(g)
      ensures choice == QueueChoice(now, q)
    {
      SplitIndexRoundTrip(g, q);
      var ba, bg := BankOfIndex(g, q), BankgroupOfIndex(g, q);
      var bank := banks[bg][ba];
      if now < bank.busyWithRefUntil || cmdQueues[q] == [] {
        return NoCommand;
      }
      var hit := FindRowHit(now, q, bank.openRow);
      if hit.Some? {
        return Hit(q, hit.value);
      }
      var cmd := MissCommand(cmdQueues[q][0], bank);
      if CanExecute(now, cmd) {
        return Miss(q, cmd);
      }
      return NoCommand;
    }

    /**
     * What the scan selects is sound: a hit is an executable command of a
     * queue whose bank is not refreshing, on that bank's open row; a miss is
     * the executable precharge or activate for the head of such a queue.
     */
    lemma {:induction false} ScanFromSound(now: nat, ii: nat, idx: nat)
      requires BanksShaped() && QueuesShaped() && ii <= NumQueues(g) && idx < NumQueues(g)
      ensures var r := ScanFrom(now, ii, idx);
        r.0.Hit? ==> (r.0.queue < |cmdQueues| && r.0.pos < |cmdQueues[r.0.queue]| &&
          BankOf(r.0.queue).busyWithRefUntil <= now &&
          IsHit(now, cmdQueues[r.0.queue][r.0.pos], BankOf(r.0.queue).openRow))
      ensures var r := ScanFrom(now, ii, idx);
        r.0.Miss? ==> (r.0.queue < |cmdQueues| && cmdQueues[r.0.queue] != [] &&
          BankOf(r.0.queue).busyWithRefUntil <= now &&
          r.0.cmd == MissCommand(cmdQueues[r.0.queue][0], BankOf(r.0.queue)) && CanExecute(now, r.0.cmd))
      decreases NumQueues(g) - ii
    {
      if ii < NumQueues(g) && QueueChoice(now, idx).NoCommand? {
        ScanFromSound(now, ii + 1, NextQueue(g, idx));
      }
    }

    /** The bank whose queue has index `idx`. */
    function BankOf(idx: nat): Bank
      requires BanksShaped() && idx < NumQueues(g)
      reads this`banks
    {
      SplitIndexRoundTrip(g, idx);
      banks[BankgroupOfIndex(g, idx)][BankOfIndex(g, idx)]
    }

    /** The inner loop of `select_command`: the first row hit in queue `q`. */
    method FindRowHit(now: nat, q: nat, openRow: int) returns (r: Option<nat>)
      requires BanksShaped() && QueuesShaped() && q < |cmdQueues|
      ensures r == FirstHit(now, q, openRow, 0)
    {
      var j := 0;
      while j < |cmdQueues[q]|
        invariant j <= |cmdQueues[q]|
        invariant FirstHit(now, q, openRow, j) == FirstHit(now, q, openRow, 0)
        decreases |cmdQueues[q]| - j
      {
        if Row(g, cmdQueues[q][j].lineaddr) == openRow && CanExecute(now, cmdQueues[q][j]) {
          return Some(j);
        }
        j := j + 1;
      }
      return None;
    }

    /**
     * `select_command`: nothing while a refresh is pending; otherwise the
     * scan's choice. A row hit is removed from its queue; a precharge or
     * activate leaves every queue as it was. The index moves past each queue
     * visited.
     */
    method SelectCommand(now: nat, cmdIn: Command) returns (found: bool, cmd: Command)
      requires Valid()
      modifies this`cmdQueues, this`numCmds, this`nextCmdQueueIdx
      ensures Valid()
      ensures found ==> cmd.cmdType != REFRESH
      ensures old(isWaitingToDoRef) ==> (!found && cmd == cmdIn &&
        cmdQueues == old(cmdQueues) && numCmds == old(numCmds) && nextCmdQueueIdx == old(nextCmdQueueIdx))
      ensures !old(isWaitingToDoRef) ==>
        var (sel, idx) := old(ScanFrom(now, 0, nextCmdQueueIdx));
        nextCmdQueueIdx == idx && (found <==> !sel.NoCommand?) &&
        (sel.Hit? ==> (cmd == old(cmdQueues)[sel.queue][sel.pos] &&
           cmdQueues == old(cmdQueues)[sel.queue := Remove(old(cmdQueues)[sel.queue], sel.pos)] &&
           numCmds == old(numCmds) - 1)) &&
        (sel.Miss? ==> cmd == sel.cmd && cmdQueues == old(cmdQueues) && numCmds == old(numCmds)) &&
        (sel.NoCommand? ==> cmd == cmdIn && cmdQueues == old(cmdQueues) && numCmds == old(numCmds))
    {
      if isWaitingToDoRef {
        return false, cmdIn;
      }
      ScanFromSound(now, 0, nextCmdQueueIdx);
      var choice := RoundRobin(now);
      match choice {
        case NoCommand =>
          return false, cmdIn;
        case Hit(q, j) =>
          assert CmdFits(g, p, q, cmdQueues[q][j]) by { assert QueueOk(q, cmdQueues[q]); }
          cmd := TakeCommand(q, j);
          return true, cmd;
        case Miss(q, c) =>
          MissCommandTargetsQueue(g, cmdQueues[q][0], BankOf(q));
          return true, c;
      }
    }

    /** The loop of `select_command`: visit the queues in turn from the round-robin index until one offers a command. */
    method RoundRobin(now: nat) returns (choice: Selection)
      requires Valid()
      modifies this`nextCmdQueueIdx
      ensures Valid()
      ensures (choice, nextCmdQueueIdx) == old(ScanFrom(now, 0, nextCmdQueueIdx))
    {
      var ii := 0;
      ghost var target := ScanFrom(now, 0, nextCmdQueueIdx);
      ghost var b, qs, n := banks, cmdQueues, numCmds;
      assert BanksFit(g, b) && QueuesHold(g, p, qs, n);
      while ii < NumQueues(g)
        invariant ii <= NumQueues(g) && nextCmdQueueIdx < NumQueues(g)
        invariant ScanFrom(now, ii, nextCmdQueueIdx) == target
        decreases NumQueues(g) - ii
      {
        var q := nextCmdQueueIdx;
        choice := VisitQueue(now, q);
        nextCmdQueueIdx := NextQueue(g, q);
        if !choice.NoCommand? {
          assert ScanFrom(now, ii, q) == (choice, nextCmdQueueIdx);
          assert RankInv(g, p, b, qs, nextCmdQueueIdx, n);
          return;
        }
        ii := ii + 1;
      }
      assert RankInv(g, p, b, qs, nextCmdQueueIdx, n);
      return NoCommand;
    }

    /** Erasing the selected entry of a queue and counting it out. */
    method TakeCommand(q: nat, j: nat) returns (cmd: Command)
      requires Valid() && q < |cmdQueues| && j < |cmdQueues[q]|
      modifies this`cmdQueues, this`numCmds
      ensures Valid()
      ensures cmd == old(cmdQueues)[q][j]
      ensures cmdQueues == old(cmdQueues)[q := Remove(old(cmdQueues)[q], j)] && numCmds == old(numCmds) - 1
    {
      cmd := cmdQueues[q][j];
      RemoveKeepsQueue(q, j);
      cmdQueues := cmdQueues[q := Remove(cmdQueues[q], j)];
      numCmds := numCmds - 1;
    }

    /** Removing one entry of a queue keeps the rank's invariant and lowers the count by one. */
    lemma {:induction false} RemoveKeepsQueue(q: nat, j: nat)
      requires Valid() && q < |cmdQueues| && j < |cmdQueues[q]|
      ensures QueueOk(q, Remove(cmdQueues[q], j))
      ensures TotalCommands(cmdQueues[q := Remove(cmdQueues[q], j)]) == numCmds - 1
    {
      TotalCommandsUpdate(cmdQueues, q, Remove(cmdQueues[q], j));
      assert QueueOk(q, cmdQueues[q]);
    }

    /**
     * `execute_command`: the bank and the rank gates change as the command
     * requires and the latency is returned; a refresh is refused with the
     * source's message, changing nothing.
     */
    method ExecuteCommand(now: nat, cmd: Command) returns (r: Result<nat, string>)
      requires BanksShaped()
      modifies this`banks, this`nextColumnReadOk, this`nextColumnWriteOk, this`nextRowActivateOk,
               this`lastFourActCycles, this`anyBankBusyUntil, this`numActs, this`numPre
      ensures BanksShaped()
      ensures cmd.cmdType == REFRESH ==> (r.Err? &&
        banks == old(banks) && nextColumnReadOk == old(nextColumnReadOk) &&
        nextColumnWriteOk == old(nextColumnWriteOk) && nextRowActivateOk == old(nextRowActivateOk) &&
        lastFourActCycles == old(lastFourActCycles) && anyBankBusyUntil == old(anyBankBusyUntil))
      ensures cmd.cmdType != REFRESH ==> r == Ok(Latency(cmd.cmdType, p))
      ensures cmd.cmdType != REFRESH ==>
        var bg, ba := Bankgroup(g, cmd.lineaddr), Mop4.Bank(g, cmd.lineaddr);
        banks == old(banks)[bg := old(banks)[bg][ba := Executed(old(banks)[bg][ba], cmd.cmdType, Row(g, cmd.lineaddr), now, p)]]
      ensures nextColumnReadOk == ReadGateAfter(cmd.cmdType, now, p, old(nextColumnReadOk))
      ensures nextColumnWriteOk == WriteGateAfter(cmd.cmdType, now, p, old(nextColumnWriteOk))
      ensures nextRowActivateOk == (if cmd.cmdType == ACTIVATE then Stamp(now, p.tRRD_S, p.tRRD_L) else old(nextRowActivateOk))
      ensures lastFourActCycles == (if cmd.cmdType == ACTIVATE then old(lastFourActCycles) + [now] else old(lastFourActCycles))
      ensures cmd.cmdType != REFRESH ==> anyBankBusyUntil == Max(old(anyBankBusyUntil), now + Latency(cmd.cmdType, p))
    {
      var t := cmd.cmdType;
      if t == REFRESH {
        return Err("DRAMRank::execute_command should not issue refreshes! Use DRAMRank::issue_refresh instead!\n");
      }
      QueueOfInRange(g, cmd.lineaddr);
      var bg, ba := Bankgroup(g, cmd.lineaddr), Mop4.Bank(g, cmd.lineaddr);
      var latency := Latency(t, p);
      banks := banks[bg := banks[bg][ba := Executed(banks[bg][ba], t, Row(g, cmd.lineaddr), now, p)]];
      nextColumnReadOk := ReadGateAfter(t, now, p, nextColumnReadOk);
      nextColumnWriteOk := WriteGateAfter(t, now, p, nextColumnWriteOk);
      if ClosesRow(t) {
        numPre := numPre + 1;
      }
      if t == ACTIVATE {
        nextRowActivateOk := Stamp(now, p.tRRD_S, p.tRRD_L);
        lastFourActCycles := lastFourActCycles + [now];
        numActs := numActs + 1;
      }
      anyBankBusyUntil := Max(anyBankBusyUntil, now + latency);
      return Ok(latency);
    }

    /** `issue_refresh`: every bank of every bankgroup is busy until `now + tRFC`. */
    method IssueRefresh(now: nat)
      requires BanksShaped()
      modifies this`banks
      ensures BanksShaped()
      ensures banks == RefreshAll(old(banks), now + p.tRFC)
    {
      var until := now + p.tRFC;
      var i := 0;
      while i < |banks|
        invariant i <= |banks| && BanksShaped()
        invariant forall k :: 0 <= k < i ==> banks[k] == RefreshAll(old(banks), until)[k]
        invariant forall k :: i <= k < |banks| ==> banks[k] == old(banks)[k]
      {
        var row := RefreshRow(banks[i], until);
        banks := banks[i := row];
        i := i + 1;
      }
    }

    /** The inner loop of `issue_refresh` over the banks of one bankgroup. */
    static method RefreshRow(row: seq<Bank>, until: nat) returns (r: seq<Bank>)
      ensures |r| == |row| && forall j :: 0 <= j < |r| ==> r[j] == row[j].(busyWithRefUntil := until)
    {
      r := row;
      var j := 0;
      while j < |r|
        invariant j <= |r| == |row|
        invariant forall k :: 0 <= k < j ==> r[k] == row[k].(busyWithRefUntil := until)
        invariant forall k :: j <= k < |r| ==> r[k] == row[k]
      {
        r := r[j := r[j].(busyWithRefUntil := until)];
        j := j + 1;
      }
    }

    /**
     * `tick`: a pending refresh is issued once no bank is busy, and the flag
     * cleared; then the activate window drops the cycles `now` has reached.
     */
    method Tick(now: nat)
      requires Valid()
      modifies this`banks, this`isWaitingToDoRef, this`lastFourActCycles
      ensures Valid()
      ensures banks == BanksAfterTick(old(banks), old(isWaitingToDoRef), old(anyBankBusyUntil), now, p.tRFC)
      ensures isWaitingToDoRef == (old(isWaitingToDoRef) && now < old(anyBankBusyUntil))
      ensures lastFourActCycles == DropExpired(old(lastFourActCycles), now)
    {
      RefreshIfDue(now);
      ghost var b, qs, i, n := banks, cmdQueues, nextCmdQueueIdx, numCmds;
      assert RankInv(g, p, b, qs, i, n);
      ExpireActivates(now);
      assert banks == b && cmdQueues == qs && nextCmdQueueIdx == i && numCmds == n;
    }

    /** The refresh half of `tick`: issue the pending refresh once no bank is busy. */
    method RefreshIfDue(now: nat)
      requires Valid()
      modifies this`banks, this`isWaitingToDoRef
      ensures Valid()
      ensures banks == BanksAfterTick(old(banks), old(isWaitingToDoRef), old(anyBankBusyUntil), now, p.tRFC)
      ensures isWaitingToDoRef == (old(isWaitingToDoRef) && now < old(anyBankBusyUntil))
    {
      ghost var qs, i, n := cmdQueues, nextCmdQueueIdx, numCmds;
      assert QueuesHold(g, p, qs, n) && i < NumQueues(g);
      if isWaitingToDoRef && now >= anyBankBusyUntil {
        IssueRefresh(now);
        isWaitingToDoRef := false;
      }
      assert cmdQueues == qs && nextCmdQueueIdx == i && numCmds == n;
      assert BanksFit(g, banks);
    }

    /** The activate-window half of `tick`: pop the oldest activate cycles that `now` has reached. */
    method ExpireActivates(now: nat)
      modifies this`lastFourActCycles
      ensures lastFourActCycles == DropExpired(old(lastFourActCycles), now)
    {
      while lastFourActCycles != [] && now >= lastFourActCycles[0]
        invariant DropExpired(lastFourActCycles, now) == DropExpired(old(lastFourActCycles), now)
        decreases |lastFourActCycles|
      {
        lastFourActCycles := lastFourActCycles[1..];
      }
    }
  }
}

=== FILE: dram_subchannel.dfy ===
/**
 * A subchannel of the in-house DRAM model: a read queue and a write buffer
 * in front of the ranks, read-after-write forwarding, write-drain mode, and
 * refresh scheduled one rank at a time in round-robin order.
 *
 * `GL_dram_cycle_` and `GL_cycle_` are the parameters `now` and `cycle`.
 * A transaction is referred to by pointer in the source; here it carries the
 * number it was created with, so that the copy in the pending-read table and
 * the one in the read queue can be told to be the same transaction.
 */
module DramSubchannel {
  import opened Wrappers
  import opened Bits
  import opened Defs
  import Mop4
  import opened DramConfig
  import opened DramRank

  /** `TRANS_QUEUE_SIZE`: the bound of the read queue and of the write buffer. */
  const TRANS_QUEUE_SIZE: nat := 128
  /** An opportunistic drain needs more than this many buffered writes. */
  const OPP_DRAIN_MIN: nat := 8

  /** `DRAMTransaction`: a read request and its cycle stamps. */
  datatype Transaction = Transaction(id: nat, lineaddr: nat, cpuCycleAdded: nat,
                                     cpuCycleFired: nat, dramCycleFinished: nat)

  /** `DRAMTransactionComparator`: `t1` has lower priority when it finishes later. */
  predicate FinishesLater(t1: Transaction, t2: Transaction)
  {
    t1.dramCycleFinished > t2.dramCycleFinished
  }

  /**
   * The top of the finished-reads priority queue: under the comparator no
   * entry outranks it, so it finishes no later than any other.
   */
  function Top(q: seq<Transaction>): (r: nat)
    requires |q| > 0
    ensures r < |q|
    ensures forall j :: 0 <= j < |q| ==> !FinishesLater(q[r], q[j])
  {
    if |q| == 1 then 0
    else
      var r := Top(q[1..]) + 1;
      if FinishesLater(q[0], q[r]) then r else 0
  }

  lemma {:induction false} TopIsEarliest(q: seq<Transaction>)
    requires |q| > 0
    ensures forall t :: t in q ==> q[Top(q)].dramCycleFinished <= t.dramCycleFinished
  {
    forall t | t in q ensures q[Top(q)].dramCycleFinished <= t.dramCycleFinished {
      var j :| 0 <= j < |q| && q[j] == t;
      assert !FinishesLater(q[Top(q)], q[j]);
    }
  }

  /** `erase(it)` on a vector. */
  function Erase<T>(s: seq<T>, j: nat): (r: seq<T>)
    requires j < |s|
    ensures |r| == |s| - 1
    ensures forall k :: 0 <= k < j ==> r[k] == s[k]
    ensures forall k :: j <= k < |r| ==> r[k] == s[k + 1]
  {
    s[..j] + s[j + 1..]
  }

  /** `pending_reads_.count(x)`: how many pending reads are for line `x`. */
  function CountLine(ts: seq<Transaction>, x: nat): (r: nat)
    ensures r <= |ts|
    ensures r == 0 <==> forall i :: 0 <= i < |ts| ==> ts[i].lineaddr != x
  {
    if ts == [] then 0
    else (if ts[0].lineaddr == x then 1 else 0) + CountLine(ts[1..], x)
  }

  /** The entries for line `x`, in order. */
  function WithLine(ts: seq<Transaction>, x: nat): (r: seq<Transaction>)
    ensures |r| == CountLine(ts, x)
    ensures forall k :: 0 <= k < |r| ==> r[k].lineaddr == x
  {
    if ts == [] then []
    else if ts[0].lineaddr == x then [ts[0]] + WithLine(ts[1..], x)
    else WithLine(ts[1..], x)
  }

  /** The entries for other lines, in order. */
  function WithoutLine(ts: seq<Transaction>, x: nat): (r: seq<Transaction>)
    ensures |r| == |ts| - CountLine(ts, x)
    ensures forall k :: 0 <= k < |r| ==> r[k].lineaddr != x
  {
    if ts == [] then []
    else if ts[0].lineaddr == x then WithoutLine(ts[1..], x)
    else [ts[0]] + WithoutLine(ts[1..], x)
  }

  /** The two halves split the entries by line: those for `x` and the rest, each entry in exactly one. */
  lemma {:induction false} LineMembers(ts: seq<Transaction>, x: nat)
    ensures forall t :: t in WithLine(ts, x) <==> t in ts && t.lineaddr == x
    ensures forall t :: t in WithoutLine(ts, x) <==> t in ts && t.lineaddr != x
  {
    if ts != [] {
      LineMembers(ts[1..], x);
      assert ts == [ts[0]] + ts[1..];
    }
  }

  /** `find(x)` on the pending reads: the first entry for line `x`. */
  function FindLine(ts: seq<Transaction>, x: nat): (r: nat)
    requires CountLine(ts, x) > 0
    ensures r < |ts| && ts[r].lineaddr == x
    ensures forall k :: 0 <= k < r ==> ts[k].lineaddr != x
  {
    if ts[0].lineaddr == x then 0 else FindLine(ts[1..], x) + 1
  }

  /** Erasing the first entry for `x` leaves the other lines alone and takes that entry off the front of those for `x`. */
  lemma {:induction false} EraseFound(ts: seq<Transaction>, x: nat)
    requires CountLine(ts, x) > 0
    ensures WithoutLine(Erase(ts, FindLine(ts, x)), x) == WithoutLine(ts, x)
    ensures WithLine(ts, x) == [ts[FindLine(ts, x)]] + WithLine(Erase(ts, FindLine(ts, x)), x)
  {
    EraseFoundKeepsOthers(ts, x);
    EraseFoundTakesFirst(ts, x);
  }

  lemma {:induction false} EraseFoundKeepsOthers(ts: seq<Transaction>, x: nat)
    requires CountLine(ts, x) > 0
    ensures WithoutLine(Erase(ts, FindLine(ts, x)), x) == WithoutLine(ts, x)
  {
    if ts[0].lineaddr != x {
      var j := FindLine(ts[1..], x);
      EraseFoundKeepsOthers(ts[1..], x);
      var e, e' := Erase(ts, j + 1), Erase(ts[1..], j);
      assert e == [ts[0]] + e';
      assert e[0] == ts[0] && e[1..] == e';
    } else {
      assert Erase(ts, 0) == ts[1..];
    }
  }

  lemma {:induction false} EraseFoundTakesFirst(ts: seq<Transaction>, x: nat)
    requires CountLine(ts, x) > 0
    ensures WithLine(ts, x) == [ts[FindLine(ts, x)]] + WithLine(Erase(ts, FindLine(ts, x)), x)
  {
    if ts[0].lineaddr != x {
      var j := FindLine(ts[1..], x);
      EraseFoundTakesFirst(ts[1..], x);
      var e, e' := Erase(ts, j + 1), Erase(ts[1..], j);
      assert e == [ts[0]] + e';
      assert e[0] == ts[0] && e[1..] == e';
      assert ts[j + 1] == ts[1..][j];
    } else {
      assert Erase(ts, 0) == ts[1..];
    }
  }

  /** Each transaction stamped finished at `cycle`. */
  function Finish(ts: seq<Transaction>, cycle: nat): (r: seq<Transaction>)
    ensures |r| == |ts|
    ensures forall i :: 0 <= i < |r| ==> r[i] == ts[i].(dramCycleFinished := cycle)
  {
    if ts == [] then [] else [ts[0].(dramCycleFinished := cycle)] + Finish(ts[1..], cycle)
  }

  /** The transaction numbered `id` stamped fired at `cycle`; every other entry as it was. */
  function SetFired(ts: seq<Transaction>, id: nat, cycle: nat): (r: seq<Transaction>)
    ensures |r| == |ts|
    ensures forall i :: 0 <= i < |r| ==> r[i] == if ts[i].id == id then ts[i].(cpuCycleFired := cycle) else ts[i]
  {
    if ts == [] then [] else
      [if ts[0].id == id then ts[0].(cpuCycleFired := cycle) else ts[0]] + SetFired(ts[1..], id, cycle)
  }

  /** The line addresses of the read queue, in order. */
  function Lines(ts: seq<Transaction>): (r: seq<nat>)
    ensures |r| == |ts| && forall i :: 0 <= i < |ts| ==> r[i] == ts[i].lineaddr
  {
    if ts == [] then [] else [ts[0].lineaddr] + Lines(ts[1..])
  }

  // ---------------------------------------------------------------------
  // Write drain

  /**
   * The drain count after `schedule_next_request`'s check: a drain of the
   * whole buffer starts when none is under way and the buffer is full, or
   * every command queue is empty and more than eight writes wait.
   */
  function DrainAfter(drain: nat, buffered: nat, queuesEmpty: bool): (r: nat)
    ensures r != drain <==> (drain == 0 && buffered > 0 &&
      (buffered == TRANS_QUEUE_SIZE || (queuesEmpty && buffered > OPP_DRAIN_MIN)))
    ensures r != drain ==> r == buffered
    ensures drain <= buffered ==> r <= buffered
  {
    if drain == 0 && (buffered == TRANS_QUEUE_SIZE || (queuesEmpty && buffered > OPP_DRAIN_MIN)) then buffered
    else drain
  }

  // ---------------------------------------------------------------------
  // What a completed command settles

  datatype Settles = ReadDone | WriteDone | NoCompletion

  /** As written, `tick` treats every command that is not `READ_CMD()` as a finished write. */
  function CompletionAsWritten(t: CommandType, policy: PagePolicy): Settles
  {
    if t == ReadCmd(policy) then ReadDone else WriteDone
  }

  /** A precharge or activate issued on the way to a read or write settles nothing. */
  function Completion(t: CommandType, policy: PagePolicy): (r: Settles)
    ensures r == ReadDone <==> t == ReadCmd(policy)
    ensures r == WriteDone <==> t == WriteCmd(policy)
  {
    if t == ReadCmd(policy) then ReadDone
    else if t == WriteCmd(policy) then WriteDone
    else NoCompletion
  }

  /** The pending-write set after a command for line `x` completes as `c`. */
  function PendingWritesAfter(c: Settles, pending: set<nat>, x: nat): set<nat>
  {
    if c == WriteDone then pending - {x} else pending
  }

  /**
   * The pending reads, finished reads and pending writes after a command for
   * line `x` completes as `c` with its data ready at `at`. No read is lost:
   * a completed read moves every pending read of its line, stamped `at`,
   * behind the reads already finished, and leaves none of them pending.
   */
  function AfterCompletion(c: Settles, pr: seq<Transaction>, fr: seq<Transaction>, pw: set<nat>, x: nat, at: nat):
    (r: (seq<Transaction>, seq<Transaction>, set<nat>))
    ensures |r.0| + |r.1| == |pr| + |fr| && |fr| <= |r.1| && r.1[..|fr|] == fr
    ensures c == ReadDone ==> (forall k :: 0 <= k < |r.0| ==> r.0[k].lineaddr != x) &&
                              (forall k :: |fr| <= k < |r.1| ==> r.1[k].lineaddr == x && r.1[k].dramCycleFinished == at)
    ensures c != ReadDone ==> r.0 == pr && r.1 == fr
    ensures x in r.2 <==> x in pw && c != WriteDone
  {
    if c == ReadDone then
      (WithoutLine(pr, x), fr + Finish(WithLine(pr, x), at), pw)
    else (pr, fr, PendingWritesAfter(c, pw, x))
  }

  /**
   * As written, the activate that opens the row for a buffered write already
   * clears that line's pending write, so a read of the line issued before the
   * write itself is no longer forwarded from the buffer.
   */
  lemma {:induction false} ActivateClearsPendingWriteAsWritten(x: nat, policy: PagePolicy)
    ensures x !in PendingWritesAfter(CompletionAsWritten(ACTIVATE, policy), {x}, x)
    ensures x in PendingWritesAfter(Completion(ACTIVATE, policy), {x}, x)
  {
  }

  /** Only the write command itself clears the line's pending write. */
  lemma {:induction false} OnlyWriteClearsPending(t: CommandType, policy: PagePolicy, pending: set<nat>, x: nat)
    ensures PendingWritesAfter(Completion(t, policy), pending, x) == (if t == WriteCmd(policy) then pending - {x} else pending)
  {
  }

  // ---------------------------------------------------------------------
  // Refresh round robin

  /** `schedule_refresh`'s index and next-interval update for `n` ranks. */
  function RefreshStep(idx: nat, trefi: nat, n: nat, tREFI: nat): (nat, nat)
  {
    if idx + 1 == n then (0, trefi + tREFI) else (idx + 1, trefi)
  }

  /** The state after `k` calls. */
  function RefreshSteps(idx: nat, trefi: nat, n: nat, tREFI: nat, k: nat): (nat, nat)
    decreases k
  {
    if k == 0 then (idx, trefi)
    else var s := RefreshStep(idx, trefi, n, tREFI); RefreshSteps(s.0, s.1, n, tREFI, k - 1)
  }

  /**
   * From the start of an interval, the `k`-th call flags rank `k`; the call
   * that flags the last rank wraps the index to 0 and moves the next refresh
   * one interval later.
   */
  lemma {:induction false} RefreshRound(n: nat, trefi: nat, tREFI: nat, k: nat)
    requires 0 < n && k <= n
    ensures RefreshSteps(0, trefi, n, tREFI, k) == if k == n then (0, trefi + tREFI) else (k, trefi)
  {
    RefreshFrom(0, trefi, n, tREFI, k);
  }

  lemma {:induction false} RefreshFrom(i: nat, trefi: nat, n: nat, tREFI: nat, k: nat)
    requires i + k <= n && i < n
    ensures RefreshSteps(i, trefi, n, tREFI, k) == if i + k == n then (0, trefi + tREFI) else (i + k, trefi)
    decreases k
  {
    if k > 0 {
      if i + 1 == n {
        assert k == 1;
        assert RefreshSteps(0, trefi + tREFI, n, tREFI, 0) == (0, trefi + tREFI);
      } else {
        RefreshFrom(i + 1, trefi, n, tREFI, k - 1);
      }
    }
  }

  /** The rank count is a power of two, as the round-robin index needs. */
  predicate RankOrg(g: Mop4.Geometry)
  {
    PowerOfTwoOrg(g) && Mop4.BRa(g) < 64 && Pow2(Mop4.BRa(g)) == g.ranks
  }

  /** A power-of-two rank count of at most `2^63` is a positive 64-bit value. */
  lemma {:induction false} RankCountFits(g: Mop4.Geometry)
    requires RankOrg(g)
    ensures 0 < g.ranks < U64_LIMIT
  {
    Pow2Monotone(Mop4.BRa(g), 63);
    Pow2Of64();
    Pow2Add(63, 1);
  }

  /** `RANK(lineaddr)`: the rank a line belongs to. */
  function RankOf(g: Mop4.Geometry, x: nat): (r: nat)
    requires RankOrg(g)
    ensures r < g.ranks
  {
    Mop4.Rank(g, x)
  }

  /** The command `try_and_insert_command<IS_READ>` queues for line `x`. */
  function NewCommand(isRead: bool, x: nat, policy: PagePolicy): Command
  {
    Command(x, if isRead then ReadCmd(policy) else WriteCmd(policy))
  }

  /** Finishing the first entry of a run is finishing it and then the rest. */
  lemma {:induction false} FinishCons(t: Transaction, rest: seq<Transaction>, cycle: nat)
    ensures Finish([t] + rest, cycle) == [t.(dramCycleFinished := cycle)] + Finish(rest, cycle)
  {
    assert ([t] + rest)[1..] == rest;
  }

  /** With no entry for `x`, there is nothing to take out. */
  lemma {:induction false} NoEntryForLine(ts: seq<Transaction>, x: nat)
    requires CountLine(ts, x) == 0
    ensures WithLine(ts, x) == [] && WithoutLine(ts, x) == ts
  {
    if ts != [] {
      NoEntryForLine(ts[1..], x);
      assert ts == [ts[0]] + ts[1..];
    }
  }

  /** The command queues of every rank, as values: rank, then queue, then entry. */
  predicate QueuesFit(g: Mop4.Geometry, rq: seq<seq<seq<Command>>>)
  {
    RankOrg(g) && |rq| == g.ranks && forall i :: 0 <= i < |rq| ==> |rq[i]| == NumQueues(g)
  }

  /** Every queue of every rank is empty. */
  predicate AllEmpty(rq: seq<seq<seq<Command>>>)
  {
    forall i, q :: 0 <= i < |rq| && 0 <= q < |rq[i]| ==> rq[i][q] == []
  }

  /** Whether `try_and_insert_command<IS_READ>` takes line `x` from these queues and pending reads. */
  predicate CanInsert(g: Mop4.Geometry, isRead: bool, x: nat, rq: seq<seq<seq<Command>>>, pending: seq<Transaction>)
    requires QueuesFit(g, rq)
  {
    (isRead || CountLine(pending, x) == 0) && |rq[RankOf(g, x)][QueueOf(g, x)]| < CMD_QUEUE_SIZE
  }

  /** The queues after rank `RANK(x)` appends `c` to queue `QUEUE(x)`. */
  function Appended(g: Mop4.Geometry, rq: seq<seq<seq<Command>>>, x: nat, c: Command): (r: seq<seq<seq<Command>>>)
    requires QueuesFit(g, rq)
    ensures QueuesFit(g, r)
  {
    var i, q := RankOf(g, x), QueueOf(g, x);
    rq[i := rq[i][q := rq[i][q] + [c]]]
  }

  /** The first line from position `i` on that can be inserted. */
  function FirstInsertable(g: Mop4.Geometry, isRead: bool, xs: seq<nat>, i: nat,
                           rq: seq<seq<seq<Command>>>, pending: seq<Transaction>): (r: Option<nat>)
    requires QueuesFit(g, rq) && i <= |xs|
    ensures r.Some? ==> i <= r.value < |xs| && CanInsert(g, isRead, xs[r.value], rq, pending)
    ensures forall k :: i <= k < |xs| && (r.None? || k < r.value) ==> !CanInsert(g, isRead, xs[k], rq, pending)
    decreases |xs| - i
  {
    if i == |xs| then None
    else if CanInsert(g, isRead, xs[i], rq, pending) then Some(i)
    else FirstInsertable(g, isRead, xs, i + 1, rq, pending)
  }

  /** The commands queued across every rank. */
  function Queued(rq: seq<seq<seq<Command>>>): nat
  {
    if rq == [] then 0 else TotalCommands(rq[0]) + Queued(rq[1..])
  }

  /** Replacing one rank's queues changes the count by the difference. */
  lemma {:induction false} QueuedUpdate(rq: seq<seq<seq<Command>>>, i: nat, qs: seq<seq<Command>>)
    requires i < |rq|
    ensures Queued(rq[i := qs]) + TotalCommands(rq[i]) == Queued(rq) + TotalCommands(qs)
  {
    if i == 0 {
      assert rq[i := qs][1..] == rq[1..];
    } else {
      assert rq[i := qs][1..] == rq[1..][i - 1 := qs];
      QueuedUpdate(rq[1..], i - 1, qs);
    }
  }

  /** Appending a command queues exactly one more. */
  lemma {:induction false} AppendedQueuesOne(g: Mop4.Geometry, rq: seq<seq<seq<Command>>>, x: nat, c: Command)
    requires QueuesFit(g, rq)
    ensures Queued(Appended(g, rq, x, c)) == Queued(rq) + 1
  {
    var i, q := RankOf(g, x), QueueOf(g, x);
    TotalCommandsUpdate(rq[i], q, rq[i][q] + [c]);
    QueuedUpdate(rq, i, rq[i][q := rq[i][q] + [c]]);
  }

  /**
   * The drain half of `schedule_next_request` on values: the first buffered
   * write that can be inserted leaves the buffer for its rank's queue and
   * counts against the drain. The drain count is unchanged exactly when no
   * buffered write can be inserted; otherwise one write has moved.
   */
  function DrainStep(g: Mop4.Geometry, policy: PagePolicy, wb: seq<nat>, drain: nat,
                     rq: seq<seq<seq<Command>>>, pending: seq<Transaction>): (r: (seq<nat>, nat, seq<seq<seq<Command>>>))
    requires QueuesFit(g, rq) && drain > 0
    ensures QueuesFit(g, r.2)
    ensures r.1 == drain <==> forall k :: 0 <= k < |wb| ==> !CanInsert(g, false, wb[k], rq, pending)
    ensures r.1 == drain ==> r.0 == wb && r.2 == rq
    ensures r.1 != drain ==> r.1 == drain - 1 && |r.0| == |wb| - 1
    ensures |r.0| + Queued(r.2) == |wb| + Queued(rq)
  {
    match FirstInsertable(g, false, wb, 0, rq, pending)
    case None => (wb, drain, rq)
    case Some(k) =>
      AppendedQueuesOne(g, rq, wb[k], NewCommand(false, wb[k], policy));
      (Erase(wb, k), drain - 1, Appended(g, rq, wb[k], NewCommand(false, wb[k], policy)))
  }

  /**
   * The read half of `schedule_next_request` on values: the first queued read
   * that can be inserted leaves the read queue for its rank's queue and its
   * pending entry is stamped fired. The read queue is unchanged exactly when
   * no queued read can be inserted; otherwise one read has moved.
   */
  function ReadStep(g: Mop4.Geometry, policy: PagePolicy, q: seq<Transaction>, pending: seq<Transaction>,
                    rq: seq<seq<seq<Command>>>, cycle: nat): (r: (seq<Transaction>, seq<Transaction>, seq<seq<seq<Command>>>))
    requires QueuesFit(g, rq)
    ensures QueuesFit(g, r.2) && |r.1| == |pending|
    ensures r.0 == q <==> forall k :: 0 <= k < |q| ==> !CanInsert(g, true, q[k].lineaddr, rq, pending)
    ensures r.0 == q ==> r.1 == pending && r.2 == rq
    ensures |r.0| + Queued(r.2) == |q| + Queued(rq)
  {
    match FirstInsertable(g, true, Lines(q), 0, rq, pending)
    case None => (q, pending, rq)
    case Some(k) =>
      var x := q[k].lineaddr;
      AppendedQueuesOne(g, rq, x, NewCommand(true, x, policy));
      (Erase(q, k), SetFired(pending, q[k].id, cycle), Appended(g, rq, x, NewCommand(true, x, policy)))
  }

  /** One round-robin step over `m` ranks. */
  function NextRank(i: nat, m: nat): nat
  {
    if i + 1 == m then 0 else i + 1
  }

  /** The round-robin index after `k` steps from `start`. */
  function Turns(start: nat, k: nat, m: nat): nat
  {
    if k == 0 then start else NextRank(Turns(start, k - 1, m), m)
  }

  /** For a power-of-two rank count, `INCREMENT_AND_MOD_BY_POW2` is one round-robin step. */
  lemma {:induction false} NextRankIsIncrement(i: nat, g: Mop4.Geometry)
    requires RankOrg(g) && i < g.ranks < U64_LIMIT
    ensures IncrementAndModByPow2(i, g.ranks) == NextRank(i, g.ranks)
  {
    var k, m := Mop4.BRa(g), g.ranks;
    RankCountFits(g);
    IncrementAndModByPow2IsMod(i, k);
    assert IncrementAndModByPow2(i, m) == (i + 1) % m;
    if i + 1 == m {
      DivModUnique(i + 1, m, 1, 0);
    } else {
      DivModUnique(i + 1, m, 0, i + 1);
    }
  }

  /** A round-robin step from `a mod m` lands on `(a + 1) mod m`. */
  lemma {:induction false} NextRankMod(a: nat, m: nat)
    requires m > 0
    ensures NextRank(a % m, m) == (a + 1) % m
  {
    var q, r := a / m, a % m;
    assert a == q * m + r;
    if r + 1 < m {
      DivModUnique(a + 1, m, q, r + 1);
    } else {
      assert a + 1 == (q + 1) * m + 0;
      DivModUnique(a + 1, m, q + 1, 0);
    }
  }

  /** `k` round-robin steps from an index below `m` land on `(start + k) mod m`. */
  lemma {:induction false} TurnsIsMod(start: nat, k: nat, m: nat)
    requires start < m
    ensures Turns(start, k, m) == (start + k) % m
  {
    if k == 0 {
      DivModUnique(start, m, 0, start);
    } else {
      TurnsIsMod(start, k - 1, m);
      NextRankMod(start + k - 1, m);
    }
  }

  /** A subchannel and the ranks behind it. */
  class DRAMSubchannel {
    const g: Mop4.Geometry
    const p: Params
    const ranks: seq<DRAMRank>
    /** The rank objects, as a frame. */
    ghost const rankObjs: set<object>
    /** Each rank's position: the ranks are distinct. */
    ghost const rankIndex: map<DRAMRank, nat>

    var readQueue: seq<Transaction>
    var pendingReads: seq<Transaction>
    var writeBuffer: seq<nat>
    var pendingWrites: set<nat>
    var finishedReads: seq<Transaction>
    var numWritesToDrain: nat
    var nextTrefiDramCycle: nat
    var nextRankToRef: nat
    var nextRankWithCmd: nat
    var numWriteDrains: nat
    var numOppWriteDrains: nat
    var numTransactions: nat

    /** `NUM_RANKS` distinct ranks of this geometry, each valid. */
    ghost predicate RanksOk()
      reads rankObjs
    {
      rankObjs == (set i | 0 <= i < |ranks| :: ranks[i] as object) && this !in rankObjs &&
      RankOrg(g) && |ranks| == g.ranks &&
      (forall i :: 0 <= i < |ranks| ==> ranks[i] in rankIndex && rankIndex[ranks[i]] == i) &&
      (forall i :: 0 <= i < |ranks| ==> ranks[i].g == g && ranks[i].p == p) &&
      (forall i {:trigger ranks[i].Valid()} :: 0 <= i < |ranks| ==> ranks[i].Valid())
    }

    /** The queues stay within `TRANS_QUEUE_SIZE` and the drain never counts more writes than are buffered. */
    predicate BuffersOk()
      reads this`readQueue, this`writeBuffer, this`numWritesToDrain
    {
      |readQueue| <= TRANS_QUEUE_SIZE && |writeBuffer| <= TRANS_QUEUE_SIZE && numWritesToDrain <= |writeBuffer|
    }

    ghost predicate Valid()
      reads this, rankObjs
    {
      RanksOk() && BuffersOk() && nextRankToRef < g.ranks && nextRankWithCmd < g.ranks
    }

    /** Empty queues, no refresh due before cycle 0 has passed, and fresh idle ranks. */
    constructor (g: Mop4.Geometry, p: Params)
      requires RankOrg(g)
      ensures Valid() && this.g == g && this.p == p
      ensures readQueue == [] && pendingReads == [] && writeBuffer == [] && pendingWrites == {} && finishedReads == []
      ensures numWritesToDrain == 0 && nextTrefiDramCycle == 0 && nextRankToRef == 0 && nextRankWithCmd == 0
      ensures forall i :: 0 <= i < |ranks| ==> fresh(ranks[i]) && ranks[i].numCmds == 0 && !ranks[i].isWaitingToDoRef
    {
      var rs: seq<DRAMRank> := [];
      ghost var index: map<DRAMRank, nat> := map[];
      while |rs| < g.ranks
        invariant |rs| <= g.ranks
        invariant forall i :: 0 <= i < |rs| ==> fresh(rs[i]) && rs[i].g == g && rs[i].p == p && rs[i].Valid()
        invariant forall i :: 0 <= i < |rs| ==> rs[i].numCmds == 0 && !rs[i].isWaitingToDoRef
        invariant forall i :: 0 <= i < |rs| ==> rs[i] in index && index[rs[i]] == i
      {
        var r := new DRAMRank(g, p);
        index := index[r := |rs|];
        rs := rs + [r];
      }
      this.g, this.p, ranks := g, p, rs;
      rankObjs := set i | 0 <= i < |rs| :: rs[i] as object;
      rankIndex := index;
      readQueue, pendingReads, writeBuffer, pendingWrites, finishedReads := [], [], [], {}, [];
      numWritesToDrain, nextTrefiDramCycle, nextRankToRef, nextRankWithCmd := 0, 0, 0, 0;
      numWriteDrains, numOppWriteDrains, numTransactions := 0, 0, 0;
    }

    /**
     * `make_request`: a read is taken while the read queue has room, and is
     * finished at once when its line has a buffered write; a write is taken
     * while the write buffer has room. A refused request changes nothing.
     */
    method MakeRequest(lineaddr: nat, isRead: bool, cycle: nat) returns (ok: bool)
      requires Valid()
      modifies this`readQueue, this`pendingReads, this`finishedReads, this`writeBuffer, this`pendingWrites,
               this`numTransactions
      ensures Valid()
      ensures ok <==> if isRead then |old(readQueue)| < TRANS_QUEUE_SIZE else |old(writeBuffer)| < TRANS_QUEUE_SIZE
      ensures ok && isRead && lineaddr in old(pendingWrites) ==>
        finishedReads == old(finishedReads) + [Transaction(old(numTransactions), lineaddr, cycle, cycle, cycle)] &&
        readQueue == old(readQueue) && pendingReads == old(pendingReads)
      ensures ok && isRead && lineaddr !in old(pendingWrites) ==>
        var t := Transaction(old(numTransactions), lineaddr, cycle, 0, 0);
        readQueue == old(readQueue) + [t] && pendingReads == old(pendingReads) + [t] &&
        finishedReads == old(finishedReads)
      ensures isRead ==> writeBuffer == old(writeBuffer) && pendingWrites == old(pendingWrites)
      ensures !isRead ==> readQueue == old(readQueue) && pendingReads == old(pendingReads) && finishedReads == old(finishedReads)
      ensures ok && !isRead ==> writeBuffer == old(writeBuffer) + [lineaddr] && pendingWrites == old(pendingWrites) + {lineaddr}
      ensures !ok ==> (readQueue == old(readQueue) && pendingReads == old(pendingReads) &&
        finishedReads == old(finishedReads) && writeBuffer == old(writeBuffer) && pendingWrites == old(pendingWrites))
    {
      if isRead && |readQueue| < TRANS_QUEUE_SIZE {
        var id := numTransactions;
        numTransactions := numTransactions + 1;
        if lineaddr in pendingWrites {
          finishedReads := finishedReads + [Transaction(id, lineaddr, cycle, cycle, cycle)];
        } else {
          var t := Transaction(id, lineaddr, cycle, 0, 0);
          readQueue := readQueue + [t];
          pendingReads := pendingReads + [t];
        }
        return true;
      } else if !isRead && |writeBuffer| < TRANS_QUEUE_SIZE {
        writeBuffer := writeBuffer + [lineaddr];
        pendingWrites := pendingWrites + {lineaddr};
        return true;
      }
      return false;
    }

    /** `complete_read`: every pending read of the line moves to the finished queue, stamped `cycle + latency`. */
    method CompleteRead(lineaddr: nat, latency: nat, cycle: nat)
      modifies this`pendingReads, this`finishedReads
      ensures pendingReads == WithoutLine(old(pendingReads), lineaddr)
      ensures finishedReads == old(finishedReads) + Finish(WithLine(old(pendingReads), lineaddr), cycle + latency)
    {
      var c := cycle + latency;
      while CountLine(pendingReads, lineaddr) > 0
        invariant WithoutLine(pendingReads, lineaddr) == WithoutLine(old(pendingReads), lineaddr)
        invariant finishedReads + Finish(WithLine(pendingReads, lineaddr), c) ==
          old(finishedReads) + Finish(WithLine(old(pendingReads), lineaddr), c)
        decreases |pendingReads|
      {
        var j := FindLine(pendingReads, lineaddr);
        var t := pendingReads[j];
        var rest := Erase(pendingReads, j);
        ghost var f := Finish(WithLine(rest, lineaddr), c);
        EraseFound(pendingReads, lineaddr);
        FinishCons(t, WithLine(rest, lineaddr), c);
        assert Finish(WithLine(pendingReads, lineaddr), c) == [t.(dramCycleFinished := c)] + f;
        assert finishedReads + ([t.(dramCycleFinished := c)] + f) == (finishedReads + [t.(dramCycleFinished := c)]) + f;
        finishedReads := finishedReads + [t.(dramCycleFinished := c)];
        pendingReads := rest;
      }
      NoEntryForLine(pendingReads, lineaddr);
      assert Finish(WithLine(pendingReads, lineaddr), c) == [];
      assert finishedReads + [] == finishedReads;
    }

    /** `complete_write`: the line no longer has a pending write. */
    method CompleteWrite(lineaddr: nat)
      modifies this`pendingWrites
      ensures pendingWrites == old(pendingWrites) - {lineaddr}
    {
      pendingWrites := pendingWrites - {lineaddr};
    }

    /**
     * `schedule_refresh`: the rank under the round-robin index is flagged;
     * the index moves on, and after the last rank wraps to 0 and moves the
     * next refresh one interval later.
     */
    method ScheduleRefresh()
      requires Valid()
      modifies this`nextRankToRef, this`nextTrefiDramCycle, ranks[nextRankToRef]
      ensures Valid()
      ensures ranks[old(nextRankToRef)].isWaitingToDoRef
      ensures (nextRankToRef, nextTrefiDramCycle) == RefreshStep(old(nextRankToRef), old(nextTrefiDramCycle), g.ranks, p.tREFI)
    {
      ranks[nextRankToRef].SetNeedsRefresh();
      if nextRankToRef + 1 == g.ranks {
        nextRankToRef := 0;
        nextTrefiDramCycle := nextTrefiDramCycle + p.tREFI;
      } else {
        nextRankToRef := nextRankToRef + 1;
      }
    }

    /** `all_cmd_queues_are_empty`: every rank's queues are empty. */
    method AllCmdQueuesAreEmpty() returns (allEmpty: bool)
      requires RanksOk()
      ensures allEmpty <==> forall i :: 0 <= i < |ranks| ==> ranks[i].AllCmdQueuesAreEmpty()
      ensures allEmpty <==> AllEmpty(RankQueues())
    {
      allEmpty := true;
      for i := 0 to |ranks|
        invariant allEmpty <==> forall k :: 0 <= k < i ==> ranks[k].AllCmdQueuesAreEmpty()
      {
        allEmpty := allEmpty && ranks[i].AllCmdQueuesAreEmpty();
      }
    }

    /**
     * `try_and_insert_command<IS_READ>`: a write whose line has a pending
     * read is refused; otherwise the line's rank queues the command when the
     * queue has room.
     */
    method TryAndInsertCommand(isRead: bool, x: nat) returns (ok: bool)
      requires Valid()
      modifies ranks[RankOf(g, x)]
      ensures Valid()
      ensures ok == CanInsert(g, isRead, x, old(RankQueues()), pendingReads)
      ensures RankQueues() == if ok then Appended(g, old(RankQueues()), x, NewCommand(isRead, x, p.pagePolicy))
                              else old(RankQueues())
    {
      if !isRead && CountLine(pendingReads, x) > 0 {
        return false;
      }
      var r := ranks[RankOf(g, x)];
      ok := r.TryAndInsertCommand(isRead, x);
    }

    /** Updating the subchannel's own fields leaves the ranks as they were. */
    twostate lemma {:induction false} RanksUntouched()
      requires old(RanksOk()) && unchanged(rankObjs)
      ensures RanksOk() && RankQueues() == old(RankQueues())
    {
    }

    /** The command queues of every rank. */
    ghost function RankQueues(): (r: seq<seq<seq<Command>>>)
      requires RanksOk()
      reads rankObjs
      ensures QueuesFit(g, r)
      ensures forall i :: 0 <= i < |r| ==> r[i] == ranks[i].cmdQueues
    {
      RanksHaveQueues();
      seq(|ranks|, i requires 0 <= i < |ranks| reads rankObjs => ranks[i].cmdQueues)
    }

    /** Every rank has one queue per bank. */
    lemma {:induction false} RanksHaveQueues()
      requires RanksOk()
      ensures forall i :: 0 <= i < |ranks| ==> |ranks[i].cmdQueues| == NumQueues(g)
    {
      forall i | 0 <= i < |ranks|
        ensures |ranks[i].cmdQueues| == NumQueues(g)
      {
        assert ranks[i].Valid();
      }
    }

    /**
     * The loop of the drain half of `schedule_next_request`: each buffered
     * write in turn is offered to its rank until one is inserted.
     */
    method InsertFirstWrite() returns (k: Option<nat>)
      requires Valid()
      modifies rankObjs
      ensures Valid()
      ensures k == FirstInsertable(g, false, writeBuffer, 0, old(RankQueues()), pendingReads)
      ensures k.Some? ==> RankQueues() == Appended(g, old(RankQueues()), writeBuffer[k.value],
                                                   NewCommand(false, writeBuffer[k.value], p.pagePolicy))
      ensures k.None? ==> RankQueues() == old(RankQueues())
    {
      ghost var rq0 := RankQueues();
      var xs := writeBuffer;
      ghost var target := FirstInsertable(g, false, xs, 0, rq0, pendingReads);
      var i := 0;
      while i < |xs|
        invariant i <= |xs| && Valid()
        invariant RankQueues() == rq0
        invariant FirstInsertable(g, false, xs, i, rq0, pendingReads) == target
        decreases |xs| - i
      {
        var ok := TryAndInsertCommand(false, xs[i]);
        if ok {
          assert FirstInsertable(g, false, xs, i, rq0, pendingReads) == Some(i);
          return Some(i);
        }
        i := i + 1;
      }
      return None;
    }

    /**
     * The drain half of `schedule_next_request`: the first buffered write
     * that can be inserted goes to its rank, leaves the buffer, and counts
     * against the drain; if none can, nothing changes.
     */
    method DrainOneWrite()
      requires Valid() && numWritesToDrain > 0
      modifies this`writeBuffer, this`numWritesToDrain, rankObjs
      ensures Valid()
      ensures (writeBuffer, numWritesToDrain, RankQueues()) ==
        DrainStep(g, p.pagePolicy, old(writeBuffer), old(numWritesToDrain), old(RankQueues()), pendingReads)
    {
      ghost var wb0, d0, rq0 := writeBuffer, numWritesToDrain, RankQueues();
      var k := InsertFirstWrite();
      ghost var step := DrainStep(g, p.pagePolicy, wb0, d0, rq0, pendingReads);
      assert k == FirstInsertable(g, false, wb0, 0, rq0, pendingReads);
      if k.Some? {
        ghost var rq1 := RankQueues();
        assert rq1 == Appended(g, rq0, wb0[k.value], NewCommand(false, wb0[k.value], p.pagePolicy));
        assert step == (Erase(wb0, k.value), d0 - 1, rq1);
        label inserted:
        numWritesToDrain := numWritesToDrain - 1;
        writeBuffer := Erase(writeBuffer, k.value);
        RanksUntouched@inserted();
        assert (writeBuffer, numWritesToDrain, RankQueues()) == step;
      } else {
        assert step == (wb0, d0, rq0);
      }
    }

    /**
     * The loop of the read half of `schedule_next_request`: each queued read
     * in turn is offered to its rank until one is inserted.
     */
    method InsertFirstRead() returns (k: Option<nat>)
      requires Valid()
      modifies rankObjs
      ensures Valid()
      ensures k == FirstInsertable(g, true, Lines(readQueue), 0, old(RankQueues()), pendingReads)
      ensures k.Some? ==> RankQueues() == Appended(g, old(RankQueues()), readQueue[k.value].lineaddr,
                                                   NewCommand(true, readQueue[k.value].lineaddr, p.pagePolicy))
      ensures k.None? ==> RankQueues() == old(RankQueues())
    {
      ghost var rq0 := RankQueues();
      var q := readQueue;
      ghost var xs := Lines(q);
      ghost var target := FirstInsertable(g, true, xs, 0, rq0, pendingReads);
      var i := 0;
      while i < |q|
        invariant i <= |q| && Valid()
        invariant RankQueues() == rq0
        invariant FirstInsertable(g, true, xs, i, rq0, pendingReads) == target
        decreases |q| - i
      {
        var ok := TryAndInsertCommand(true, q[i].lineaddr);
        if ok {
          assert FirstInsertable(g, true, xs, i, rq0, pendingReads) == Some(i);
          return Some(i);
        }
        i := i + 1;
      }
      return None;
    }

    /**
     * The read half of `schedule_next_request`: the first queued read that
     * can be inserted goes to its rank, leaves the read queue, and is stamped
     * fired; if none can, nothing changes.
     */
    method IssueOneRead(cycle: nat)
      requires Valid()
      modifies this`readQueue, this`pendingReads, rankObjs
      ensures Valid()
      ensures (readQueue, pendingReads, RankQueues()) ==
        ReadStep(g, p.pagePolicy, old(readQueue), old(pendingReads), old(RankQueues()), cycle)
    {
      var k := InsertFirstRead();
      if k.Some? {
        var t := readQueue[k.value];
        label inserted:
        pendingReads := SetFired(pendingReads, t.id, cycle);
        readQueue := Erase(readQueue, k.value);
        RanksUntouched@inserted();
      }
    }

    /**
     * The drain check of `schedule_next_request`: with no drain under way, a
     * full buffer, or empty command queues and more than eight buffered
     * writes, start a drain of the whole buffer and count it, as an
     * opportunistic drain when the queues were empty.
     */
    method StartDrainIfDue(allEmpty: bool)
      requires Valid()
      modifies this`numWritesToDrain, this`numWriteDrains, this`numOppWriteDrains
      ensures Valid()
      ensures numWritesToDrain == DrainAfter(old(numWritesToDrain), |writeBuffer|, allEmpty)
      ensures var started := numWritesToDrain != old(numWritesToDrain);
        numWriteDrains == old(numWriteDrains) + (if started then 1 else 0) &&
        numOppWriteDrains == old(numOppWriteDrains) +
          (if started && allEmpty && |writeBuffer| > OPP_DRAIN_MIN then 1 else 0)
    {
      var full := |writeBuffer| == TRANS_QUEUE_SIZE;
      var oppEmpty := allEmpty && |writeBuffer| > OPP_DRAIN_MIN;
      if numWritesToDrain == 0 && (full || oppEmpty) {
        numWritesToDrain := |writeBuffer|;
        numWriteDrains := numWriteDrains + 1;
        if oppEmpty {
          numOppWriteDrains := numOppWriteDrains + 1;
        }
      }
    }

    /**
     * `schedule_next_request`: after the drain check, one buffered write
     * moves to its rank while a drain is under way, otherwise one queued read.
     */
    method ScheduleNextRequest(cycle: nat)
      requires Valid()
      modifies this`numWritesToDrain, this`numWriteDrains, this`numOppWriteDrains, this`writeBuffer,
               this`readQueue, this`pendingReads, rankObjs
      ensures Valid()
      ensures var d := DrainAfter(old(numWritesToDrain), |old(writeBuffer)|, AllEmpty(old(RankQueues())));
        (d > 0 ==> (writeBuffer, numWritesToDrain, RankQueues()) ==
                     DrainStep(g, p.pagePolicy, old(writeBuffer), d, old(RankQueues()), old(pendingReads)) &&
                   readQueue == old(readQueue) && pendingReads == old(pendingReads)) &&
        (d == 0 ==> (readQueue, pendingReads, RankQueues()) ==
                      ReadStep(g, p.pagePolicy, old(readQueue), old(pendingReads), old(RankQueues()), cycle) &&
                    writeBuffer == old(writeBuffer) && numWritesToDrain == 0)
    {
      ghost var rq0, wb0, rd0, pr0 := RankQueues(), writeBuffer, readQueue, pendingReads;
      ghost var d := DrainAfter(numWritesToDrain, |writeBuffer|, AllEmpty(rq0));
      var allEmpty := AllCmdQueuesAreEmpty();
      label checked:
      StartDrainIfDue(allEmpty);
      RanksUntouched@checked();
      assert numWritesToDrain == d && RankQueues() == rq0;
      assert writeBuffer == wb0 && readQueue == rd0 && pendingReads == pr0;
      if numWritesToDrain > 0 {
        DrainOneWrite();
        assert (writeBuffer, numWritesToDrain, RankQueues()) == DrainStep(g, p.pagePolicy, wb0, d, rq0, pr0);
      } else {
        IssueOneRead(cycle);
        assert (readQueue, pendingReads, RankQueues()) == ReadStep(g, p.pagePolicy, rd0, pr0, rq0, cycle);
      }
    }

    /**
     * The completion half of `tick`: a read command finishes every pending
     * read of its line `latency` cycles after `cycle`, and a write command
     * clears its line's pending write.
     */
    method Settle(c: Command, latency: nat, cycle: nat)
      modifies this`pendingReads, this`finishedReads, this`pendingWrites
      ensures (pendingReads, finishedReads, pendingWrites) ==
        AfterCompletion(Completion(c.cmdType, p.pagePolicy), old(pendingReads), old(finishedReads), old(pendingWrites),
                        c.lineaddr, cycle + latency)
    {
      match Completion(c.cmdType, p.pagePolicy)
      case ReadDone => CompleteRead(c.lineaddr, latency, cycle);
      case WriteDone => CompleteWrite(c.lineaddr);
      case NoCompletion =>
    }

    /** One round-robin step: advance past rank `i` and let it select a command. */
    method VisitNextRank(now: nat, cmd0: Command) returns (i: nat, found: bool, cmd: Command)
      requires Valid()
      modifies this`nextRankWithCmd, rankObjs
      ensures Valid()
      ensures i == old(nextRankWithCmd) && nextRankWithCmd == NextRank(i, g.ranks)
      ensures found ==> cmd.cmdType != REFRESH
    {
      i := nextRankWithCmd;
      RankCountFits(g);
      NextRankIsIncrement(i, g);
      nextRankWithCmd := IncrementAndModByPow2(i, g.ranks);
      found, cmd := SelectOn(i, now, cmd0);
    }

    /** `select_command` on rank `i`: a selected command is never a refresh, the rank still valid. */
    method SelectOn(i: nat, now: nat, cmd0: Command) returns (found: bool, cmd: Command)
      requires Valid() && i < |ranks|
      modifies ranks[i]
      ensures Valid()
      ensures found ==> cmd.cmdType != REFRESH
    {
      assert ranks[i].Valid();
      found, cmd := ranks[i].SelectCommand(now, cmd0);
    }

    /** `execute_command` on rank `i` for a command its scan selected: the latency of the command, the rank still valid. */
    method ExecuteOn(i: nat, now: nat, c: Command) returns (latency: nat)
      requires Valid() && i < |ranks| && c.cmdType != REFRESH
      modifies ranks[i]
      ensures Valid()
      ensures latency == Latency(c.cmdType, p)
    {
      var rk := ranks[i];
      assert rk.Valid();
      ghost var qs, idx, n := rk.cmdQueues, rk.nextCmdQueueIdx, rk.numCmds;
      assert QueuesHold(g, p, qs, n) && idx < NumQueues(g);
      var r := rk.ExecuteCommand(now, c);
      assert rk.cmdQueues == qs && rk.nextCmdQueueIdx == idx && rk.numCmds == n;
      match r
      case Ok(l) => latency := l;
      case Err(_) => assert false;
    }

    /**
     * The rank loop of `tick`: each rank in turn from `nextRankWithCmd` is
     * asked for a command, the index moving past every rank asked, until one
     * selects a command; no further rank is asked.
     */
    method SelectFromRanks(now: nat, cmd0: Command) returns (found: bool, i: nat, cmd: Command, visited: nat)
      requires Valid()
      modifies this`nextRankWithCmd, rankObjs
      ensures Valid()
      ensures 0 < visited <= g.ranks && nextRankWithCmd == Turns(old(nextRankWithCmd), visited, g.ranks)
      ensures !found ==> visited == g.ranks
      ensures found ==> i == Turns(old(nextRankWithCmd), visited - 1, g.ranks) && cmd.cmdType != REFRESH
    {
      cmd := cmd0;
      found, i, visited := false, 0, 0;
      RankCountFits(g);
      ghost var start := nextRankWithCmd;
      while visited < |ranks|
        invariant visited <= |ranks| == g.ranks && Valid()
        invariant nextRankWithCmd == Turns(start, visited, g.ranks)
        decreases |ranks| - visited
      {
        i, found, cmd := VisitNextRank(now, cmd);
        visited := visited + 1;
        if found {
          return;
        }
      }
    }

    /**
     * The command half of `tick`: the first rank in round-robin order that
     * selects a command executes it, and the command settles its line. At
     * most one command is issued.
     */
    method IssueCommand(now: nat, cycle: nat, cmd0: Command) returns (issued: Option<Command>, latency: nat, visited: nat)
      requires Valid()
      modifies this`nextRankWithCmd, this`pendingReads, this`finishedReads, this`pendingWrites, rankObjs
      ensures Valid()
      ensures 0 < visited <= g.ranks && nextRankWithCmd == Turns(old(nextRankWithCmd), visited, g.ranks)
      ensures issued.None? ==> visited == g.ranks && pendingReads == old(pendingReads) &&
                               finishedReads == old(finishedReads) && pendingWrites == old(pendingWrites)
      ensures issued.Some? ==>
        var c := issued.value;
        c.cmdType != REFRESH && latency == Latency(c.cmdType, p) &&
        (pendingReads, finishedReads, pendingWrites) ==
          AfterCompletion(Completion(c.cmdType, p.pagePolicy), old(pendingReads), old(finishedReads), old(pendingWrites),
                          c.lineaddr, cycle + latency)
    {
      var found, i, cmd;
      found, i, cmd, visited := SelectFromRanks(now, cmd0);
      if !found {
        return None, 0, visited;
      }
      latency := IssueOn(i, now, cycle, cmd);
      issued := Some(cmd);
    }

    /** The issuing half of `issue_command`: rank `i` executes `c`, then `c` settles after its latency. */
    method IssueOn(i: nat, now: nat, cycle: nat, c: Command) returns (latency: nat)
      requires Valid() && i < |ranks| && c.cmdType != REFRESH
      modifies this`pendingReads, this`finishedReads, this`pendingWrites, ranks[i]
      ensures Valid()
      ensures latency == Latency(c.cmdType, p)
      ensures (pendingReads, finishedReads, pendingWrites) ==
        AfterCompletion(Completion(c.cmdType, p.pagePolicy), old(pendingReads), old(finishedReads), old(pendingWrites),
                        c.lineaddr, cycle + latency)
    {
      latency := ExecuteOn(i, now, c);
      label executed:
      Settle(c, latency, cycle);
      RanksUntouched@executed();
    }

    /**
     * `tick`: when the refresh interval has been reached, the next rank in
     * round-robin order is flagged for refresh; then at most one command is
     * issued, and then one request is scheduled.
     */
    /**
     * What issuing and then scheduling does to the request bookkeeping:
     * `visited` ranks were offered the command in round-robin order, the
     * issued command (if any) settled its reads and writes, and then either
     * one write was drained or one read scheduled against `midQueues`, the
     * ranks' command queues as they stood after the issue.
     */
    twostate predicate Served(issued: Option<Command>, visited: nat, midQueues: seq<seq<seq<Command>>>, cycle: nat)
      requires Valid()
      reads this, rankObjs
    {
      0 < visited <= g.ranks && nextRankWithCmd == Turns(old(nextRankWithCmd), visited, g.ranks) &&
      (issued.None? ==> visited == g.ranks) &&
      var settled :=
        if issued.None? then (old(pendingReads), old(finishedReads), old(pendingWrites))
        else AfterCompletion(Completion(issued.value.cmdType, p.pagePolicy), old(pendingReads), old(finishedReads),
                             old(pendingWrites), issued.value.lineaddr, cycle + Latency(issued.value.cmdType, p));
      finishedReads == settled.1 && pendingWrites == settled.2 && QueuesFit(g, midQueues) &&
      var d := DrainAfter(old(numWritesToDrain), |old(writeBuffer)|, AllEmpty(midQueues));
      (d > 0 ==> (writeBuffer, numWritesToDrain, RankQueues()) ==
                   DrainStep(g, p.pagePolicy, old(writeBuffer), d, midQueues, settled.0) &&
                 readQueue == old(readQueue) && pendingReads == settled.0) &&
      (d == 0 ==> (readQueue, pendingReads, RankQueues()) ==
                    ReadStep(g, p.pagePolicy, old(readQueue), settled.0, midQueues, cycle) &&
                  writeBuffer == old(writeBuffer) && numWritesToDrain == 0)
    }

    method Tick(now: nat, cycle: nat, cmd0: Command) returns (issued: Option<Command>, ghost visited: nat,
                                                             ghost midQueues: seq<seq<seq<Command>>>)
      requires Valid()
      modifies this, rankObjs
      ensures Valid()
      ensures issued.Some? ==> issued.value.cmdType != REFRESH
      ensures Served(issued, visited, midQueues, cycle)
      ensures old(now >= nextTrefiDramCycle) ==>
        (nextRankToRef, nextTrefiDramCycle) == RefreshStep(old(nextRankToRef), old(nextTrefiDramCycle), g.ranks, p.tREFI)
      ensures old(now < nextTrefiDramCycle) ==>
        nextRankToRef == old(nextRankToRef) && nextTrefiDramCycle == old(nextTrefiDramCycle)
    {
      if now >= nextTrefiDramCycle {
        ScheduleRefresh();
      }
      ghost var nr, nt := nextRankToRef, nextTrefiDramCycle;
      issued, visited, midQueues := Serve(now, cycle, cmd0);
      assert nextRankToRef == nr && nextTrefiDramCycle == nt;
    }

    /** The two halves of `tick` after refresh: issue at most one command, then schedule one request. */
    method Serve(now: nat, cycle: nat, cmd0: Command) returns (issued: Option<Command>, ghost visited: nat,
                                                              ghost midQueues: seq<seq<seq<Command>>>)
      requires Valid()
      modifies this`nextRankWithCmd, this`pendingReads, this`finishedReads, this`pendingWrites,
               this`numWritesToDrain, this`numWriteDrains, this`numOppWriteDrains, this`writeBuffer,
               this`readQueue, rankObjs
      ensures Valid()
      ensures issued.Some? ==> issued.value.cmdType != REFRESH
      ensures Served(issued, visited, midQueues, cycle)
    {
      ghost var pr0, fr0, pw0 := pendingReads, finishedReads, pendingWrites;
      ghost var wb0, nw0, rq0 := writeBuffer, numWritesToDrain, readQueue;
      var latency;
      issued, latency, visited := IssueCommand(now, cycle, cmd0);
      midQueues := RankQueues();
      ghost var settled :=
        if issued.None? then (pr0, fr0, pw0)
        else AfterCompletion(Completion(issued.value.cmdType, p.pagePolicy), pr0, fr0, pw0,
                             issued.value.lineaddr, cycle + Latency(issued.value.cmdType, p));
      assert (pendingReads, finishedReads, pendingWrites) == settled;
      assert writeBuffer == wb0 && numWritesToDrain == nw0 && readQueue == rq0;
      ghost var d := DrainAfter(nw0, |wb0|, AllEmpty(midQueues));
      ScheduleNextRequest(cycle);
      if d > 0 {
        assert (writeBuffer, numWritesToDrain, RankQueues()) == DrainStep(g, p.pagePolicy, wb0, d, midQueues, settled.0);
      } else {
        assert (readQueue, pendingReads, RankQueues()) == ReadStep(g, p.pagePolicy, rq0, settled.0, midQueues, cycle);
      }
    }
  }
}

=== FILE: ds3_bankstate.dfy ===
/**
 * DRAMsim3's per-bank state (`BankState`): the CLOSED / OPEN / SREF
 * machine, the earliest-issue time of every command, the rolling
 * accumulated activation (RAA) counter that gates RFM, the per-row PRAC
 * activation counters with their refresh pointer, and the MIRZA and MOAT
 * row-hammer mitigations.
 *
 * The bank's fields live in a class; every mutator is specified by a pure
 * step function on `BankData`, a snapshot of those fields, and the lemmas
 * are stated on the step functions. Statistics are not modelled.
 * `Command`, `CommandType` and `Address` come from `common.h`, which is
 * not part of this model: their shapes and the command classes below
 * (`IsRankCmd`, `IsSbCmd`, `IsRefresh`, `IsRfm`) follow their use in
 * bankstate.cc and channel_state.cc.
 */
module Ds3BankState {
  import opened Wrappers
  import opened Bits

  const U16: nat := 0x1_0000
  const U32: nat := 0x1_0000_0000
  /** `1 << 20`, the range of the random draw MIRZA compares against. */
  const DRAW_RANGE: nat := 0x10_0000

  datatype CommandType = Read | ReadPrecharge | Write | WritePrecharge | Activate | Precharge
                       | RefreshBank | RefSb | RefAb | SrefEnter | SrefExit | RfmSb | RfmAb

  datatype Address = Address(channel: int, rank: int, bankgroup: int, bank: int, row: int, column: int)

  datatype Command = Command(cmdType: CommandType, addr: Address, hexAddr: int)

  predicate IsReadWrite(t: CommandType)
  {
    t == Read || t == ReadPrecharge || t == Write || t == WritePrecharge
  }

  /** Commands that act on every bank of a rank. */
  predicate IsRankCmd(t: CommandType)
  {
    t == RefAb || t == RfmAb || t == SrefEnter || t == SrefExit
  }

  /** Commands that act on one bank index in every bank group (a bank set). */
  predicate IsSbCmd(t: CommandType)
  {
    t == RefSb || t == RfmSb
  }

  predicate IsRefresh(t: CommandType)
  {
    t == RefreshBank || t == RefSb || t == RefAb
  }

  predicate IsRfm(t: CommandType)
  {
    t == RfmSb || t == RfmAb
  }

  datatype Status = Open | Closed | Sref

  /**
   * The configuration values a bank reads. `mirza` and `moat` stand for
   * `mirza_mode == 1` and `moat_mode == 1`.
   */
  datatype BankConfig = BankConfig(rows: nat, rowsRefreshed: nat, rfmMode: int, raammt: int,
                                   refRaaDecrement: nat, rfmRaaDecrement: nat,
                                   mirza: bool, mirzaGroups: nat, mirzaGroupth: nat, mirzaQsize: nat,
                                   mirzaQth: nat, mirzaMintw: nat,
                                   moat: bool, moatth: nat)

  /**
   * A configuration the bank can run with: at least one row, and with
   * MIRZA the rows split into whole groups, so that every row's group
   * indexes `mirza_gct_`.
   */
  predicate ConfigOk(cfg: BankConfig)
  {
    cfg.rows >= 1 && (cfg.mirza ==> cfg.mirzaGroups >= 1 && cfg.rows % cfg.mirzaGroups == 0)
  }

  /** `mirza_group_size`. */
  function GroupSize(cfg: BankConfig): nat
    requires ConfigOk(cfg) && cfg.mirza
  {
    cfg.rows / cfg.mirzaGroups
  }

  /** A row's MIRZA group is a valid group index. */
  lemma {:induction false} GroupInRange(cfg: BankConfig, row: nat)
    requires ConfigOk(cfg) && cfg.mirza && row < cfg.rows
    ensures GroupSize(cfg) >= 1 && row / GroupSize(cfg) < cfg.mirzaGroups
  {
    var gs, n := GroupSize(cfg), cfg.mirzaGroups;
    assert cfg.rows == gs * n;
    var q := row / gs;
    assert q * gs <= row;
    MulLtCancel(q, n, gs);
  }

  /** Cancelling a positive factor on both sides of `<`. */
  lemma {:induction false} MulLtCancel(x: nat, y: nat, b: nat)
    requires b > 0
    ensures x * b < y * b ==> x < y
  {
    if x >= y {
      MulLe(y, x, b);
    }
  }

  datatype MirzaEntry = MirzaEntry(rowid: nat, groupid: nat, actctr: nat)

  /** A snapshot of every field `BankState` changes. */
  datatype BankData = BankData(status: Status, timing: map<CommandType, nat>, openRow: int,
                               rowHitCount: nat, raaCtr: nat, actsCounter: nat,
                               prac: seq<nat>, refIdx: nat,
                               mirzaGct: seq<nat>, mirzaQ: seq<MirzaEntry>, mirzaCurrGidx: nat, mirzaCurrGct: nat,
                               moatMaxPracIdx: int)

  /** The invariant of a bank's fields. */
  predicate DataOk(d: BankData, cfg: BankConfig)
  {
    ConfigOk(cfg) &&
    (forall t: CommandType :: t in d.timing) &&
    (d.status == Open <==> d.openRow != -1) &&
    (d.status == Open ==> 0 <= d.openRow < cfg.rows) &&
    (d.status != Open ==> d.rowHitCount == 0) &&
    |d.prac| == cfg.rows && d.refIdx < cfg.rows &&
    (cfg.mirza ==> |d.mirzaGct| == cfg.mirzaGroups && d.mirzaCurrGidx < cfg.mirzaGroups) &&
    -1 <= d.moatMaxPracIdx < cfg.rows
  }

  /** Every earliest-issue time at 0, as the constructor sets them. */
  const ZERO_TIMES: map<CommandType, nat> :=
    map[Read := 0, ReadPrecharge := 0, Write := 0, WritePrecharge := 0, Activate := 0, Precharge := 0,
        RefreshBank := 0, RefSb := 0, RefAb := 0, SrefEnter := 0, SrefExit := 0, RfmSb := 0, RfmAb := 0]

  /** `ZERO_TIMES` has a time for every command type. */
  lemma {:induction false} ZeroTimesTotal()
    ensures forall t: CommandType :: t in ZERO_TIMES
  {
    forall t: CommandType
      ensures t in ZERO_TIMES
    {
      match t
      case Read =>
      case ReadPrecharge =>
      case Write =>
      case WritePrecharge =>
      case Activate =>
      case Precharge =>
      case RefreshBank =>
      case RefSb =>
      case RefAb =>
      case SrefEnter =>
      case SrefExit =>
      case RfmSb =>
      case RfmAb =>
    }
  }

  /** A bank as the constructor leaves it: closed, every time 0, every counter 0. */
  function InitialData(cfg: BankConfig): (d: BankData)
    requires ConfigOk(cfg)
    ensures DataOk(d, cfg)
    ensures d.status == Closed && d.openRow == -1 && d.mirzaQ == [] && d.moatMaxPracIdx == -1
    ensures forall t: CommandType :: d.timing[t] == 0
    ensures d.raaCtr == 0 && d.refIdx == 0 && forall i :: 0 <= i < |d.prac| ==> d.prac[i] == 0
  {
    ZeroTimesTotal();
    BankData(Closed, ZERO_TIMES, -1, 0, 0, 0,
             seq(cfg.rows, _ => 0), 0,
             if cfg.mirza then seq(cfg.mirzaGroups, _ => 0) else [], [], 0, 0,
             -1)
  }

  /* ---------------- GetReadyCommand ---------------- */

  /**
   * The command the bank needs before it can serve a command of type `t`
   * (`required_type`); `None` where the source aborts.
   */
  function RequiredType(status: Status, t: CommandType, row: int, openRow: int, raaCtr: nat, cfg: BankConfig): Option<CommandType>
  {
    match status
    case Closed =>
      if IsReadWrite(t) then
        if cfg.rfmMode == 1 && raaCtr >= cfg.raammt then Some(RfmSb)
        else if cfg.rfmMode == 2 && raaCtr >= cfg.raammt then Some(RfmAb)
        else Some(Activate)
      else if IsRefresh(t) || t == SrefEnter || IsRfm(t) then Some(t)
      else None
    case Open =>
      if IsReadWrite(t) then (if row == openRow then Some(t) else Some(Precharge))
      else if IsRefresh(t) || t == SrefEnter || IsRfm(t) then Some(Precharge)
      else None
    case Sref =>
      if IsReadWrite(t) then Some(SrefExit) else None
  }

  /** The outcome of asking a bank for a command: a command to issue, nothing yet, or an abort. */
  datatype Ready = Issue(cmd: Command) | Wait | Abort

  /** Whether the bank's state machine takes a command of type `t` in `status`. */
  predicate Accepts(status: Status, t: CommandType)
  {
    match status
    case Open => IsReadWrite(t) || t == Precharge
    case Closed => IsRefresh(t) || IsRfm(t) || t == Activate || t == SrefEnter
    case Sref => t == SrefExit
  }

  /** Whatever the bank asks for first is a command its state machine accepts. */
  lemma {:induction false} RequiredIsAccepted(status: Status, t: CommandType, row: int, openRow: int, raaCtr: nat, cfg: BankConfig)
    requires RequiredType(status, t, row, openRow, raaCtr, cfg).Some?
    ensures Accepts(status, RequiredType(status, t, row, openRow, raaCtr, cfg).value)
  {
  }

  /**
   * A read or write to a closed bank needs an ACTIVATE unless the RAA
   * counter has reached RAAMMT under RFM mode 1 or 2, which asks for a
   * same-bank or an all-bank RFM instead; to an open bank it needs itself
   * on a row hit and PRECHARGE otherwise; to a bank in self-refresh it
   * needs SREF_EXIT.
   */
  lemma {:induction false} ReadWriteRequirement(status: Status, t: CommandType, row: int, openRow: int, raaCtr: nat, cfg: BankConfig)
    requires IsReadWrite(t)
    ensures var r := RequiredType(status, t, row, openRow, raaCtr, cfg);
      var gated := (cfg.rfmMode == 1 || cfg.rfmMode == 2) && raaCtr >= cfg.raammt;
      (status == Closed ==> (r == Some(Activate) <==> !gated) &&
                            (r == Some(RfmSb) <==> gated && cfg.rfmMode == 1) &&
                            (r == Some(RfmAb) <==> gated && cfg.rfmMode == 2)) &&
      (status == Open ==> (r == Some(t) <==> row == openRow) && (r == Some(Precharge) <==> row != openRow)) &&
      (status == Sref ==> r == Some(SrefExit))
  {
  }

  /** Refresh, self-refresh entry and RFM commands need themselves when closed and PRECHARGE when open. */
  lemma {:induction false} MaintenanceRequirement(status: Status, t: CommandType, row: int, openRow: int, raaCtr: nat, cfg: BankConfig)
    requires IsRefresh(t) || t == SrefEnter || IsRfm(t)
    ensures var r := RequiredType(status, t, row, openRow, raaCtr, cfg);
      (status == Closed ==> r == Some(t)) && (status == Open ==> r == Some(Precharge)) && (status == Sref ==> r == None)
  {
  }

  /**
   * `GetReadyCommand`: the command the bank needs first, with the
   * request's address, once the clock has reached that command's
   * earliest-issue time.
   */
  function ReadyFor(d: BankData, cfg: BankConfig, cmd: Command, clk: nat): (r: Ready)
    requires DataOk(d, cfg)
    ensures r.Abort? <==> RequiredType(d.status, cmd.cmdType, cmd.addr.row, d.openRow, d.raaCtr, cfg).None?
    ensures r.Issue? ==> r.cmd.addr == cmd.addr && r.cmd.hexAddr == cmd.hexAddr &&
                         Some(r.cmd.cmdType) == RequiredType(d.status, cmd.cmdType, cmd.addr.row, d.openRow, d.raaCtr, cfg) &&
                         clk >= d.timing[r.cmd.cmdType]
    ensures r.Wait? ==> clk < d.timing[RequiredType(d.status, cmd.cmdType, cmd.addr.row, d.openRow, d.raaCtr, cfg).value]
  {
    match RequiredType(d.status, cmd.cmdType, cmd.addr.row, d.openRow, d.raaCtr, cfg)
    case None => Abort
    case Some(t) => if clk >= d.timing[t] then Issue(Command(t, cmd.addr, cmd.hexAddr)) else Wait
  }

  /* ---------------- UpdateTiming ---------------- */

  /** `UpdateTiming`: the earliest-issue time of `t` becomes at least `time`; no time ever goes down. */
  function TimingUpdated(d: BankData, cfg: BankConfig, t: CommandType, time: nat): (r: BankData)
    requires DataOk(d, cfg)
    ensures DataOk(r, cfg)
    ensures r == d.(timing := r.timing)
    ensures forall c: CommandType :: r.timing[c] >= d.timing[c]
    ensures r.timing[t] >= time
    ensures forall c: CommandType :: c != t ==> r.timing[c] == d.timing[c]
    ensures r.timing[t] == d.timing[t] || r.timing[t] == time
  {
    d.(timing := d.timing[t := if d.timing[t] >= time then d.timing[t] else time])
  }

  /* ---------------- get_geostat_bin ---------------- */

  /** `get_geostat_bin`: 0, 1, then one bin per power of two up to 1024, then 12. */
  function GeostatBin(v: nat): (b: nat)
    ensures b <= 12
    ensures b == 0 <==> v == 0
    ensures b == 1 <==> v == 1
    ensures b == 12 <==> v > 1024
    ensures 2 <= b <= 11 ==> Pow2(b - 2) < v <= Pow2(b - 1)
  {
    if v == 0 then 0
    else if v == 1 then 1
    else if v <= 2 then 2
    else if v <= 4 then 3
    else if v <= 8 then 4
    else if v <= 16 then 5
    else if v <= 32 then 6
    else if v <= 64 then 7
    else if v <= 128 then 8
    else if v <= 256 then 9
    else if v <= 512 then 10
    else if v <= 1024 then 11
    else 12
  }

  /** A larger value never lands in a smaller bin. */
  lemma {:induction false} GeostatBinMonotone(a: nat, b: nat)
    requires a <= b
    ensures GeostatBin(a) <= GeostatBin(b)
  {
  }

  /* ---------------- PRAC refresh ---------------- */

  /** How far row `j` lies after row `start`, going round the `m` rows. */
  function Offset(j: nat, start: nat, m: nat): nat
    requires m > 0
  {
    (j as int - start as int) % m
  }

  /** The row the refresh loop visits at step `i`: `(ref_idx_ + i) % rows`. */
  function Visited(start: nat, i: nat, m: nat): nat
    requires m > 0
  {
    (start + i) % m
  }

  /**
   * The counters after a refresh zeroes `n` rows from `start` on, wrapping
   * round the end of the bank.
   */
  function Cleared(p: seq<nat>, start: nat, n: nat): (r: seq<nat>)
    requires |p| > 0
    ensures |r| == |p|
  {
    seq(|p|, j requires 0 <= j < |p| => if Offset(j, start, |p|) < n then 0 else p[j])
  }

  /**
   * Row `j` is at offset `i` from `start` exactly when the `i`-th step of
   * the refresh loop lands on it, and the loop's `i`-th row is at an
   * offset of at most `i`.
   */
  lemma {:induction false} OffsetStep(j: nat, start: nat, i: nat, m: nat)
    requires j < m && start < m
    ensures j == Visited(start, i, m) ==> Offset(j, start, m) <= i
    ensures Offset(j, start, m) == i ==> j == Visited(start, i, m)
  {
    var o := Offset(j, start, m);
    var diff := j as int - start as int;
    var q := diff / m;
    assert diff == q * m + o;
    assert q == 0 || q == -1 by {
      assert -(m as int) < diff < m;
      MulBounds(q, m);
    }
    if j == Visited(start, i, m) {
      var k := (start + i) / m;
      assert start + i == k * m + j;
      assert i == (k + q) * m + o;
      MulBounds(k + q, m);
    }
    if o == i {
      var s := start + i;
      assert s == j + (-q) * m;
      DivModUnique(s, m, -q, j);
    }
  }

  /** Where a multiple of a positive `m` lies, by the sign of its factor. */
  lemma {:induction false} MulBounds(q: int, m: int)
    ensures q >= 1 && m > 0 ==> q * m >= m
    ensures q <= -1 && m > 0 ==> q * m <= -m
    ensures q <= -2 && m > 0 ==> q * m <= -2 * m
  {
    if m > 0 && q >= 1 {
      assert q * m == (q - 1) * m + m;
    }
    if m > 0 && q <= -1 {
      assert q * m == (q + 1) * m - m;
    }
  }

  /**
   * The refresh zeroes exactly the rows the loop visits: row `j` is zeroed
   * when some step `i < n` visits it, and keeps its counter otherwise.
   */
  lemma {:induction false} ClearedRows(p: seq<nat>, start: nat, n: nat, j: nat)
    requires start < |p| && j < |p|
    ensures Cleared(p, start, n)[j] == (if exists i :: 0 <= i < n && Visited(start, i, |p|) == j then 0 else p[j])
  {
    var m := |p|;
    var o := Offset(j, start, m);
    if exists i :: 0 <= i < n && Visited(start, i, m) == j {
      var i :| 0 <= i < n && Visited(start, i, m) == j;
      OffsetStep(j, start, i, m);
    }
    if o < n {
      OffsetStep(j, start, o, m);
      assert Visited(start, o, m) == j;
    }
  }

  /* ---------------- MIRZA ---------------- */

  /** `std::find_if` on the row id: the first queue slot tracking `row`. */
  function FindRow(q: seq<MirzaEntry>, row: nat, from: nat): (r: Option<nat>)
    requires from <= |q|
    ensures r.Some? ==> from <= r.value < |q| && q[r.value].rowid == row &&
                        forall k :: from <= k < r.value ==> q[k].rowid != row
    ensures r.None? ==> forall k :: from <= k < |q| ==> q[k].rowid != row
    decreases |q| - from
  {
    if from == |q| then None
    else if q[from].rowid == row then Some(from)
    else FindRow(q, row, from + 1)
  }

  /** `std::max_element` by activation count: the first entry with the largest count. */
  function FirstMax(q: seq<MirzaEntry>, i: nat, best: nat): (r: nat)
    requires best < |q| && best < i <= |q|
    requires forall k :: 0 <= k < i ==> q[k].actctr <= q[best].actctr
    requires forall k :: 0 <= k < best ==> q[k].actctr < q[best].actctr
    ensures r < |q|
    ensures forall k :: 0 <= k < |q| ==> q[k].actctr <= q[r].actctr
    ensures forall k :: 0 <= k < r ==> q[k].actctr < q[r].actctr
    decreases |q| - i
  {
    if i == |q| then best
    else if q[best].actctr < q[i].actctr then FirstMax(q, i + 1, i)
    else FirstMax(q, i + 1, best)
  }

  /** The queue without the entries of group `gid` (`remove_if`), in order. */
  function RemoveGroup(q: seq<MirzaEntry>, gid: nat): (r: seq<MirzaEntry>)
    ensures forall k :: 0 <= k < |r| ==> r[k].groupid != gid && r[k] in q
    ensures |r| <= |q|
  {
    if q == [] then []
    else if q[0].groupid == gid then RemoveGroup(q[1..], gid)
    else [q[0]] + RemoveGroup(q[1..], gid)
  }

  /** Every entry of another group survives `RemoveGroup`. */
  lemma {:induction false} RemoveGroupKeeps(q: seq<MirzaEntry>, gid: nat, e: MirzaEntry)
    requires e in q && e.groupid != gid
    ensures e in RemoveGroup(q, gid)
  {
    if q[0] != e {
      RemoveGroupKeeps(q[1..], gid, e);
    }
  }

  /**
   * The random admission test `rand() % (1 << 20) / (1 << 20) < 1.0 / mintw`
   * on the draw: a `mintw` of 0 gives an infinite target and admits
   * every draw. The rational comparison agrees with the double one: both
   * sides are exact except `1.0 / mintw`, which only rounds when `mintw`
   * is not a power of two, and then no multiple of `2^-20` lies between it
   * and its rounding.
   */
  predicate Admitted(draw: nat, mintw: nat)
  {
    mintw == 0 || (draw % DRAW_RANGE) * mintw < DRAW_RANGE
  }

  /** `mirza_act`: count the activation for the row's group and track the row once its group is hot. */
  function MirzaActed(d: BankData, cfg: BankConfig, row: nat, draw: nat): (r: BankData)
    requires DataOk(d, cfg) && row < cfg.rows
    ensures DataOk(r, cfg)
    ensures r == d.(mirzaGct := r.mirzaGct, mirzaQ := r.mirzaQ, mirzaCurrGct := r.mirzaCurrGct)
  {
    if !cfg.mirza then d
    else
      var c := MirzaCounted(d, cfg, row);
      if MirzaCool(c, cfg, row) then c else MirzaTracked(c, cfg, row, draw)
  }

  /** The counting half of `mirza_act`: the group's 16-bit count and, for the current group, the 32-bit current count. */
  function MirzaCounted(d: BankData, cfg: BankConfig, row: nat): (r: BankData)
    requires DataOk(d, cfg) && cfg.mirza && row < cfg.rows
    ensures DataOk(r, cfg)
    ensures r == d.(mirzaGct := r.mirzaGct, mirzaCurrGct := r.mirzaCurrGct)
  {
    GroupInRange(cfg, row);
    var g := row / GroupSize(cfg);
    var d1 := d.(mirzaGct := d.mirzaGct[g := (d.mirzaGct[g] + 1) % U16]);
    if g == d.mirzaCurrGidx then d1.(mirzaCurrGct := (d.mirzaCurrGct + 1) % U32) else d1
  }

  /** After counting, the row's group is still at or below the group threshold. */
  predicate MirzaCool(d: BankData, cfg: BankConfig, row: nat)
    requires DataOk(d, cfg) && cfg.mirza && row < cfg.rows
  {
    GroupInRange(cfg, row);
    var g := row / GroupSize(cfg);
    if g == d.mirzaCurrGidx then d.mirzaCurrGct <= cfg.mirzaGroupth else d.mirzaGct[g] <= cfg.mirzaGroupth
  }

  /** The tracking half of `mirza_act`: count the row again if queued, else queue it if the draw admits it. */
  function MirzaTracked(d: BankData, cfg: BankConfig, row: nat, draw: nat): (r: BankData)
    requires DataOk(d, cfg) && cfg.mirza && row < cfg.rows
    ensures DataOk(r, cfg)
    ensures r == d.(mirzaQ := r.mirzaQ)
  {
    GroupInRange(cfg, row);
    var g := row / GroupSize(cfg);
    match FindRow(d.mirzaQ, row, 0)
    case Some(k) => d.(mirzaQ := d.mirzaQ[k := d.mirzaQ[k].(actctr := (d.mirzaQ[k].actctr + 1) % U16)])
    case None =>
      if Admitted(draw, cfg.mirzaMintw) then d.(mirzaQ := d.mirzaQ + [MirzaEntry(row, g % U16, 1)])
      else d
  }

  /**
   * `mirza_refresh`: when the refresh pointer starts a group, that group's
   * count becomes the current one, is reset, and its queue entries go.
   */
  function MirzaRefreshed(d: BankData, cfg: BankConfig): (r: BankData)
    requires DataOk(d, cfg)
    ensures DataOk(r, cfg)
    ensures r == d.(mirzaCurrGidx := r.mirzaCurrGidx, mirzaCurrGct := r.mirzaCurrGct, mirzaGct := r.mirzaGct, mirzaQ := r.mirzaQ)
  {
    if !cfg.mirza || d.refIdx % GroupSize(cfg) != 0 then d
    else
      GroupInRange(cfg, d.refIdx);
      var gid := d.refIdx / GroupSize(cfg);
      d.(mirzaCurrGidx := gid, mirzaCurrGct := d.mirzaGct[gid], mirzaGct := d.mirzaGct[gid := 0],
         mirzaQ := RemoveGroup(d.mirzaQ, gid))
  }

  /** `mirza_mitig`: drop the first entry with the largest activation count. */
  function MirzaMitigated(d: BankData, cfg: BankConfig): (r: BankData)
    requires DataOk(d, cfg)
    ensures DataOk(r, cfg)
    ensures r == d.(mirzaQ := r.mirzaQ)
  {
    if !cfg.mirza || d.mirzaQ == [] then d
    else
      var k := FirstMax(d.mirzaQ, 1, 0);
      d.(mirzaQ := d.mirzaQ[..k] + d.mirzaQ[k + 1..])
  }

  /**
   * A MIRZA refresh at a group boundary leaves no entry of that group and
   * keeps every entry of the other groups; away from a boundary it changes
   * nothing.
   */
  lemma {:induction false} MirzaRefreshDropsGroup(d: BankData, cfg: BankConfig, e: MirzaEntry)
    requires DataOk(d, cfg) && cfg.mirza
    ensures var r := MirzaRefreshed(d, cfg);
      (d.refIdx % GroupSize(cfg) != 0 ==> r == d) &&
      (d.refIdx % GroupSize(cfg) == 0 ==>
        var gid := d.refIdx / GroupSize(cfg);
        r.mirzaCurrGidx == gid && r.mirzaCurrGct == d.mirzaGct[gid] && r.mirzaGct[gid] == 0 &&
        (forall k :: 0 <= k < |r.mirzaQ| ==> r.mirzaQ[k].groupid != gid) &&
        (e in d.mirzaQ && e.groupid != gid ==> e in r.mirzaQ))
  {
    if d.refIdx % GroupSize(cfg) == 0 {
      GroupInRange(cfg, d.refIdx);
      var gid := d.refIdx / GroupSize(cfg);
      if e in d.mirzaQ && e.groupid != gid {
        RemoveGroupKeeps(d.mirzaQ, gid, e);
      }
    }
  }

  /**
   * A MIRZA mitigation removes one entry holding the largest activation
   * count, the first such, and keeps the others in order.
   */
  lemma {:induction false} MirzaMitigRemovesHottest(d: BankData, cfg: BankConfig)
    requires DataOk(d, cfg) && cfg.mirza && d.mirzaQ != []
    ensures var q, r := d.mirzaQ, MirzaMitigated(d, cfg).mirzaQ;
      exists k :: 0 <= k < |q| && r == q[..k] + q[k + 1..] &&
        (forall i :: 0 <= i < |q| ==> q[i].actctr <= q[k].actctr) &&
        (forall i :: 0 <= i < k ==> q[i].actctr < q[k].actctr)
  {
    var k := FirstMax(d.mirzaQ, 1, 0);
    assert 0 <= k < |d.mirzaQ|;
  }

  /* ---------------- MOAT ---------------- */

  /** `moat_act`: track the activated row if nothing is tracked or it now has the higher PRAC count. */
  function MoatActed(d: BankData, cfg: BankConfig, row: nat): (r: BankData)
    requires DataOk(d, cfg) && row < cfg.rows
    ensures DataOk(r, cfg)
    ensures r == d.(moatMaxPracIdx := r.moatMaxPracIdx)
  {
    if !cfg.moat then d
    else if d.moatMaxPracIdx == -1 then d.(moatMaxPracIdx := row)
    else if d.prac[row] > d.prac[d.moatMaxPracIdx] then d.(moatMaxPracIdx := row)
    else d
  }

  /** `moat_refresh`: forget the tracked row if this refresh covers it (the range does not wrap). */
  function MoatRefreshed(d: BankData, cfg: BankConfig): (r: BankData)
    requires DataOk(d, cfg)
    ensures DataOk(r, cfg)
    ensures r == d.(moatMaxPracIdx := r.moatMaxPracIdx)
  {
    if !cfg.moat then d
    else if d.moatMaxPracIdx >= d.refIdx && d.moatMaxPracIdx < d.refIdx + cfg.rowsRefreshed then d.(moatMaxPracIdx := -1)
    else d
  }

  /** One more activation on a 16-bit counter. */
  function Bump(p: seq<nat>, i: nat): (r: seq<nat>)
    requires i < |p|
    ensures |r| == |p| && r[i] == (p[i] + 1) % U16
    ensures forall j :: 0 <= j < |p| && j != i ==> r[j] == p[j]
  {
    p[i := (p[i] + 1) % U16]
  }

  /**
   * `moat_mitig`: zero the tracked row, count one activation on each
   * neighbour up to two rows away that exists, and stop tracking.
   */
  function MoatMitigated(d: BankData, cfg: BankConfig): (r: BankData)
    requires DataOk(d, cfg)
    ensures DataOk(r, cfg)
    ensures r == d.(prac := r.prac, moatMaxPracIdx := r.moatMaxPracIdx)
  {
    if !cfg.moat || d.moatMaxPracIdx == -1 then d
    else d.(prac := Mitigated(d.prac, d.moatMaxPracIdx), moatMaxPracIdx := -1)
  }

  /** The PRAC counters after mitigating row `i`: it is zeroed and its neighbours up to two away count one more. */
  function Mitigated(p: seq<nat>, i: nat): (r: seq<nat>)
    requires i < |p|
    ensures |r| == |p|
  {
    var p0 := p[i := 0];
    var p1 := if i > 0 then Bump(p0, i - 1) else p0;
    var p2 := if i > 1 then Bump(p1, i - 2) else p1;
    var p3 := if i < |p| - 1 then Bump(p2, i + 1) else p2;
    if i < |p| - 2 then Bump(p3, i + 2) else p3
  }

  /**
   * After a MOAT mitigation the tracked row's counter is 0, each existing
   * row one or two away has one more activation, every other row is
   * untouched and nothing is tracked; with nothing tracked it is a no-op.
   */
  lemma {:induction false} MoatMitigEffect(d: BankData, cfg: BankConfig, j: nat)
    requires DataOk(d, cfg) && cfg.moat && j < cfg.rows
    ensures var r, i := MoatMitigated(d, cfg), d.moatMaxPracIdx;
      (i == -1 ==> r == d) &&
      (i != -1 ==>
        r.moatMaxPracIdx == -1 && r.prac[i] == 0 &&
        (j != i && (j == i - 1 || j == i - 2 || j == i + 1 || j == i + 2) ==> r.prac[j] == (d.prac[j] + 1) % U16) &&
        (j != i && j != i - 1 && j != i - 2 && j != i + 1 && j != i + 2 ==> r.prac[j] == d.prac[j]))
  {
  }

  /* ---------------- UpdateState ---------------- */

  /** `raa_ctr_ -= min(raa_ctr_, dec)`: the counter goes down by `dec` but not below 0. */
  function Decrement(raa: nat, dec: nat): (r: nat)
    ensures r == if raa >= dec then raa - dec else 0
  {
    raa - (if raa < dec then raa else dec)
  }

  /** A refresh command on a closed bank. */
  function Refreshed(d: BankData, cfg: BankConfig): (r: BankData)
    requires DataOk(d, cfg)
    ensures DataOk(r, cfg)
  {
    var d1 := d.(raaCtr := Decrement(d.raaCtr, cfg.refRaaDecrement), actsCounter := 0,
                 prac := Cleared(d.prac, d.refIdx, cfg.rowsRefreshed));
    var d2 := MoatRefreshed(MirzaRefreshed(d1, cfg), cfg);
    d2.(refIdx := (d2.refIdx + cfg.rowsRefreshed) % cfg.rows)
  }

  /** An RFM on a closed bank; the all-bank RFM runs the MIRZA and MOAT mitigations first. */
  function RfmDone(d: BankData, cfg: BankConfig, allBank: bool): (r: BankData)
    requires DataOk(d, cfg)
    ensures DataOk(r, cfg)
  {
    var m := if allBank then MoatMitigated(MirzaMitigated(d, cfg), cfg) else d;
    m.(raaCtr := Decrement(m.raaCtr, cfg.rfmRaaDecrement))
  }

  /** An ACTIVATE on a closed bank. */
  function Activated(d: BankData, cfg: BankConfig, row: nat, draw: nat): (r: BankData)
    requires DataOk(d, cfg) && d.status == Closed && row < cfg.rows
    ensures DataOk(r, cfg)
  {
    MoatActed(MirzaActed(Opened(d, cfg, row), cfg, row, draw), cfg, row)
  }

  /** The part of an ACTIVATE before the mitigations see it: the row opens and both counters count it. */
  function Opened(d: BankData, cfg: BankConfig, row: nat): (r: BankData)
    requires DataOk(d, cfg) && d.status == Closed && row < cfg.rows
    ensures DataOk(r, cfg)
  {
    d.(status := Open, openRow := row, actsCounter := d.actsCounter + 1, raaCtr := d.raaCtr + 1,
       prac := Bump(d.prac, row))
  }

  /**
   * `UpdateState`: the bank's transition on an issued command, `None`
   * where the source aborts. `draw` is the value `rand()` returns if
   * MIRZA consults it.
   */
  function Transition(d: BankData, cfg: BankConfig, cmd: Command, draw: nat): (r: Option<BankData>)
    requires DataOk(d, cfg)
    requires cmd.cmdType == Activate && d.status == Closed ==> 0 <= cmd.addr.row < cfg.rows
    ensures r.Some? <==> Accepts(d.status, cmd.cmdType)
    ensures r.Some? ==> DataOk(r.value, cfg)
  {
    var t := cmd.cmdType;
    match d.status
    case Open =>
      if t == Read || t == Write then Some(d.(rowHitCount := d.rowHitCount + 1))
      else if t == ReadPrecharge || t == WritePrecharge || t == Precharge then
        Some(d.(status := Closed, openRow := -1, rowHitCount := 0))
      else None
    case Closed =>
      if IsRefresh(t) then Some(Refreshed(d, cfg))
      else if IsRfm(t) then Some(RfmDone(d, cfg, t == RfmAb))
      else if t == Activate then Some(Activated(d, cfg, cmd.addr.row, draw))
      else if t == SrefEnter then Some(d.(status := Sref))
      else None
    case Sref =>
      if t == SrefExit then Some(d.(status := Closed)) else None
  }

  /**
   * The status machine: a read or write to the open row counts a row hit;
   * a precharge (explicit or automatic) closes the row; ACTIVATE opens
   * it; SREF_ENTER and SREF_EXIT go to and from self-refresh; refreshes
   * and RFMs keep the bank closed.
   */
  lemma {:induction false} StatusTransitions(d: BankData, cfg: BankConfig, cmd: Command, draw: nat)
    requires DataOk(d, cfg)
    requires cmd.cmdType == Activate && d.status == Closed ==> 0 <= cmd.addr.row < cfg.rows
    requires Accepts(d.status, cmd.cmdType)
    ensures var r, t := Transition(d, cfg, cmd, draw).value, cmd.cmdType;
      ((t == Read || t == Write) ==> r.status == Open && r.openRow == d.openRow && r.rowHitCount == d.rowHitCount + 1) &&
      ((t == ReadPrecharge || t == WritePrecharge || t == Precharge) ==> r.status == Closed && r.openRow == -1 && r.rowHitCount == 0) &&
      (t == Activate ==> r.status == Open && r.openRow == cmd.addr.row) &&
      (t == SrefEnter ==> r.status == Sref) &&
      (t == SrefExit ==> r.status == Closed) &&
      (IsRefresh(t) || IsRfm(t) ==> r.status == Closed)
  {
    var t := cmd.cmdType;
    if t == Activate {
      assert Transition(d, cfg, cmd, draw).value == Activated(d, cfg, cmd.addr.row, draw);
    } else if IsRefresh(t) {
      assert Transition(d, cfg, cmd, draw).value == Refreshed(d, cfg);
    }
  }

  /** ACTIVATE counts one more RAA activation and one more PRAC activation of its row. */
  lemma {:induction false} ActivateCounts(d: BankData, cfg: BankConfig, row: nat, draw: nat)
    requires DataOk(d, cfg) && d.status == Closed && row < cfg.rows
    ensures var r := Activated(d, cfg, row, draw);
      r.raaCtr == d.raaCtr + 1 && r.prac[row] == (d.prac[row] + 1) % U16 &&
      (forall j :: 0 <= j < cfg.rows && j != row ==> r.prac[j] == d.prac[j]) &&
      r.refIdx == d.refIdx && r.timing == d.timing
  {
  }

  /**
   * A refresh lowers the RAA counter by its decrement but not below 0,
   * zeroes the PRAC counters of the rows the loop visits, and moves the
   * refresh pointer on by `rows_refreshed` rows, wrapping.
   */
  lemma {:induction false} RefreshEffect(d: BankData, cfg: BankConfig)
    requires DataOk(d, cfg) && d.status == Closed
    ensures var r := Refreshed(d, cfg);
      r.raaCtr == Decrement(d.raaCtr, cfg.refRaaDecrement) &&
      r.prac == Cleared(d.prac, d.refIdx, cfg.rowsRefreshed) &&
      r.refIdx == (d.refIdx + cfg.rowsRefreshed) % cfg.rows &&
      r.timing == d.timing
  {
  }

  /**
   * An RFM lowers the RAA counter by the RFM decrement but not below 0; a
   * same-bank RFM changes nothing else.
   */
  lemma {:induction false} RfmEffect(d: BankData, cfg: BankConfig, allBank: bool)
    requires DataOk(d, cfg)
    ensures var r := RfmDone(d, cfg, allBank);
      r.raaCtr == Decrement(d.raaCtr, cfg.rfmRaaDecrement) && r.timing == d.timing && r.refIdx == d.refIdx &&
      (!allBank ==> r == d.(raaCtr := r.raaCtr))
  {
  }

  /** A read or write never changes any PRAC counter or the refresh pointer. */
  lemma {:induction false} AccessKeepsCounters(d: BankData, cfg: BankConfig, cmd: Command, draw: nat)
    requires DataOk(d, cfg) && d.status == Open && IsReadWrite(cmd.cmdType)
    ensures var r := Transition(d, cfg, cmd, draw).value;
      r.prac == d.prac && r.refIdx == d.refIdx && r.raaCtr == d.raaCtr && r.timing == d.timing
  {
  }

  /* ---------------- CheckAlert ---------------- */

  /**
   * `CheckAlert`: with MIRZA, some tracked row reached the queue
   * threshold or the queue is full; with MOAT, the tracked row's count is
   * above the threshold.
   */
  predicate Alert(d: BankData, cfg: BankConfig)
    requires DataOk(d, cfg)
  {
    if cfg.mirza then
      (exists k :: 0 <= k < |d.mirzaQ| && d.mirzaQ[k].actctr >= cfg.mirzaQth) || |d.mirzaQ| >= cfg.mirzaQsize
    else if cfg.moat then
      d.moatMaxPracIdx != -1 && d.prac[d.moatMaxPracIdx] > cfg.moatth
    else false
  }

  /** A MOAT mitigation always silences the MOAT alert. */
  lemma {:induction false} MoatMitigClearsAlert(d: BankData, cfg: BankConfig)
    requires DataOk(d, cfg) && !cfg.mirza && cfg.moat
    ensures !Alert(MoatMitigated(d, cfg), cfg)
  {
  }

  /* ---------------- The bank object ---------------- */

  class BankState {
    const cfg: BankConfig
    const rank: int
    const bankgroup: int
    const bank: int
    var status: Status
    var timing: map<CommandType, nat>
    var openRow: int
    var rowHitCount: nat
    var raaCtr: nat
    var actsCounter: nat
    var prac: seq<nat>
    var refIdx: nat
    var mirzaGct: seq<nat>
    var mirzaQ: seq<MirzaEntry>
    var mirzaCurrGidx: nat
    var mirzaCurrGct: nat
    var moatMaxPracIdx: int

    function Snapshot(): BankData
      reads this
    {
      BankData(status, timing, openRow, rowHitCount, raaCtr, actsCounter, prac, refIdx,
               mirzaGct, mirzaQ, mirzaCurrGidx, mirzaCurrGct, moatMaxPracIdx)
    }

    predicate Valid()
      reads this
    {
      DataOk(Snapshot(), cfg)
    }

    /** A closed bank with every time and counter at 0 and nothing tracked. */
    constructor (cfg: BankConfig, rank: int, bankgroup: int, bank: int)
      requires ConfigOk(cfg)
      ensures Valid() && Snapshot() == InitialData(cfg)
      ensures this.cfg == cfg && this.rank == rank && this.bankgroup == bankgroup && this.bank == bank
    {
      this.cfg := cfg;
      this.rank := rank;
      this.bankgroup := bankgroup;
      this.bank := bank;
      status := Closed;
      timing := ZERO_TIMES;
      ZeroTimesTotal();
      openRow := -1;
      rowHitCount := 0;
      raaCtr := 0;
      actsCounter := 0;
      prac := seq(cfg.rows, _ => 0);
      refIdx := 0;
      mirzaGct := if cfg.mirza then seq(cfg.mirzaGroups, _ => 0) else [];
      mirzaQ := [];
      mirzaCurrGidx := 0;
      mirzaCurrGct := 0;
      moatMaxPracIdx := -1;
    }

    /** `GetReadyCommand` on this bank's fields. */
    function GetReadyCommand(cmd: Command, clk: nat): (r: Ready)
      reads this
      requires Valid()
      ensures r == ReadyFor(Snapshot(), cfg, cmd, clk)
    {
      ReadyFor(Snapshot(), cfg, cmd, clk)
    }

    /** `UpdateTiming`: the earliest-issue time of `t` becomes at least `time`. */
    method UpdateTiming(t: CommandType, time: nat)
      requires Valid()
      modifies this
      ensures Valid()
      ensures Snapshot() == TimingUpdated(old(Snapshot()), cfg, t, time)
    {
      var current := timing[t];
      timing := timing[t := if current >= time then current else time];
    }

    /** The PRAC loop of a refresh: zero `rows_refreshed` counters from the refresh pointer on. */
    method ClearRefreshedRows()
      requires Valid()
      modifies this
      ensures Valid()
      ensures Snapshot() == old(Snapshot()).(prac := Cleared(old(prac), refIdx, cfg.rowsRefreshed))
    {
      var p := prac;
      var i := 0;
      while i < cfg.rowsRefreshed
        invariant 0 <= i <= cfg.rowsRefreshed && |p| == cfg.rows
        invariant forall j :: 0 <= j < |p| ==> p[j] == if Offset(j, refIdx, cfg.rows) < i then 0 else prac[j]
      {
        var idx := Visited(refIdx, i, cfg.rows);
        p := p[idx := 0];
        forall j | 0 <= j < |p|
          ensures p[j] == if Offset(j, refIdx, cfg.rows) < i + 1 then 0 else prac[j]
        {
          OffsetStep(j, refIdx, i, cfg.rows);
        }
        i := i + 1;
      }
      assert p == Cleared(prac, refIdx, cfg.rowsRefreshed);
      prac := p;
    }

    /** `mirza_refresh`, before the refresh pointer moves. */
    method MirzaRefresh()
      requires Valid()
      modifies this
      ensures Valid()
      ensures Snapshot() == MirzaRefreshed(old(Snapshot()), cfg)
    {
      if !cfg.mirza {
        return;
      }
      if refIdx % GroupSize(cfg) != 0 {
        return;
      }
      GroupInRange(cfg, refIdx);
      var groupid := refIdx / GroupSize(cfg);
      mirzaCurrGidx := groupid;
      mirzaCurrGct := mirzaGct[groupid];
      mirzaGct := mirzaGct[groupid := 0];
      mirzaQ := RemoveGroup(mirzaQ, groupid);
    }

    /** `mirza_mitig`: erase the first hottest queue entry. */
    method MirzaMitig()
      requires Valid()
      modifies this
      ensures Valid()
      ensures Snapshot() == MirzaMitigated(old(Snapshot()), cfg)
    {
      if !cfg.mirza {
        return;
      }
      if mirzaQ != [] {
        var k := FirstMax(mirzaQ, 1, 0);
        mirzaQ := mirzaQ[..k] + mirzaQ[k + 1..];
      }
    }

    /** `mirza_act` on an activation of `row`; `draw` is what `rand()` returns. */
    method MirzaAct(row: nat, draw: nat)
      requires Valid() && row < cfg.rows
      modifies this
      ensures Valid()
      ensures Snapshot() == MirzaActed(old(Snapshot()), cfg, row, draw)
    {
      if !cfg.mirza {
        return;
      }
      MirzaCount(row);
      if MirzaCool(Snapshot(), cfg, row) {
        return;
      }
      MirzaTrack(row, draw);
    }

    /** The counting half of `mirza_act`. */
    method MirzaCount(row: nat)
      requires Valid() && cfg.mirza && row < cfg.rows
      modifies this
      ensures Valid()
      ensures Snapshot() == MirzaCounted(old(Snapshot()), cfg, row)
    {
      GroupInRange(cfg, row);
      var group := row / GroupSize(cfg);
      mirzaGct := mirzaGct[group := (mirzaGct[group] + 1) % U16];
      if group == mirzaCurrGidx {
        mirzaCurrGct := (mirzaCurrGct + 1) % U32;
      }
    }

    /** The tracking half of `mirza_act`, reached once the row's group is over the threshold. */
    method MirzaTrack(row: nat, draw: nat)
      requires Valid() && cfg.mirza && row < cfg.rows
      modifies this
      ensures Valid()
      ensures Snapshot() == MirzaTracked(old(Snapshot()), cfg, row, draw)
    {
      GroupInRange(cfg, row);
      var group := row / GroupSize(cfg);
      var found := FindRow(mirzaQ, row, 0);
      if found.Some? {
        var k := found.value;
        mirzaQ := mirzaQ[k := mirzaQ[k].(actctr := (mirzaQ[k].actctr + 1) % U16)];
        return;
      }
      if Admitted(draw, cfg.mirzaMintw) {
        mirzaQ := mirzaQ + [MirzaEntry(row, group % U16, 1)];
      }
    }

    /** `moat_act` on an activation of `row`. */
    method MoatAct(row: nat)
      requires Valid() && row < cfg.rows
      modifies this
      ensures Valid()
      ensures Snapshot() == MoatActed(old(Snapshot()), cfg, row)
    {
      if !cfg.moat {
        return;
      }
      if moatMaxPracIdx == -1 {
        moatMaxPracIdx := row;
      } else if prac[row] > prac[moatMaxPracIdx] {
        moatMaxPracIdx := row;
      }
    }

    /** `moat_refresh`, before the refresh pointer moves. */
    method MoatRefresh()
      requires Valid()
      modifies this
      ensures Valid()
      ensures Snapshot() == MoatRefreshed(old(Snapshot()), cfg)
    {
      if !cfg.moat {
        return;
      }
      if moatMaxPracIdx >= refIdx && moatMaxPracIdx < refIdx + cfg.rowsRefreshed {
        moatMaxPracIdx := -1;
      }
    }

    /** `moat_mitig`. */
    method MoatMitig()
      requires Valid()
      modifies this
      ensures Valid()
      ensures Snapshot() == MoatMitigated(old(Snapshot()), cfg)
    {
      if !cfg.moat {
        return;
      }
      if moatMaxPracIdx == -1 {
        return;
      }
      var i: nat := moatMaxPracIdx;
      ghost var target := Mitigated(prac, i);
      prac := prac[i := 0];
      if i > 0 {
        prac := Bump(prac, i - 1);
      }
      if i > 1 {
        prac := Bump(prac, i - 2);
      }
      if i < cfg.rows - 1 {
        prac := Bump(prac, i + 1);
      }
      if i < cfg.rows - 2 {
        prac := Bump(prac, i + 2);
      }
      assert prac == target;
      moatMaxPracIdx := -1;
    }

    /**
     * `UpdateState`: apply an issued command; `ok` is false, and nothing
     * changes, exactly where the source aborts.
     */
    method UpdateState(cmd: Command, draw: nat) returns (ok: bool)
      requires Valid()
      requires cmd.cmdType == Activate && status == Closed ==> 0 <= cmd.addr.row < cfg.rows
      modifies this
      ensures Valid()
      ensures ok == Accepts(old(status), cmd.cmdType)
      ensures ok ==> Snapshot() == Transition(old(Snapshot()), cfg, cmd, draw).value
      ensures !ok ==> Snapshot() == old(Snapshot())
    {
      var t := cmd.cmdType;
      ok := Accepts(status, t);
      if !ok {
        return;
      }
      match status
      case Open =>
        if t == Read || t == Write {
          rowHitCount := rowHitCount + 1;
        } else {
          status := Closed;
          openRow := -1;
          rowHitCount := 0;
        }
      case Closed =>
        if IsRefresh(t) {
          Refresh();
        } else if IsRfm(t) {
          Rfm(t == RfmAb);
        } else if t == Activate {
          ActivateRow(cmd.addr.row, draw);
        } else {
          status := Sref;
        }
      case Sref =>
        status := Closed;
    }

    /** The refresh branch of `UpdateState`. */
    method Refresh()
      requires Valid() && status == Closed
      modifies this
      ensures Valid()
      ensures Snapshot() == Refreshed(old(Snapshot()), cfg)
    {
      raaCtr := Decrement(raaCtr, cfg.refRaaDecrement);
      actsCounter := 0;
      ClearRefreshedRows();
      MirzaRefresh();
      MoatRefresh();
      refIdx := (refIdx + cfg.rowsRefreshed) % cfg.rows;
    }

    /** The RFM branch of `UpdateState`. */
    method Rfm(allBank: bool)
      requires Valid() && status == Closed
      modifies this
      ensures Valid()
      ensures Snapshot() == RfmDone(old(Snapshot()), cfg, allBank)
    {
      if allBank {
        MirzaMitig();
        MoatMitig();
      }
      raaCtr := Decrement(raaCtr, cfg.rfmRaaDecrement);
    }

    /** The ACTIVATE branch of `UpdateState`. */
    method ActivateRow(row: nat, draw: nat)
      requires Valid() && status == Closed && row < cfg.rows
      modifies this
      ensures Valid()
      ensures Snapshot() == Activated(old(Snapshot()), cfg, row, draw)
    {
      ghost var d1 := Opened(Snapshot(), cfg, row);
      status := Open;
      openRow := row;
      actsCounter := actsCounter + 1;
      raaCtr := raaCtr + 1;
      prac := Bump(prac, row);
      assert Snapshot() == d1;
      MirzaAct(row, draw);
      MoatAct(row);
    }

    /** `CheckAlert`. */
    predicate CheckAlert()
      reads this
      requires Valid()
    {
      Alert(Snapshot(), cfg)
    }
  }
}

=== FILE: ds3_channel_state.dfy ===
/**
 * DRAMsim3's per-channel state (`ChannelState`): the banks of every rank
 * and bank group, the refresh and RFM request queues, the self-refresh
 * flags, the tFAW and 32AW activation windows and the ABO alert.
 *
 * `bank_states_` is a vector of bank values, so here it is a nested
 * sequence of `BankData` that the channel's methods reassign. A bank's own
 * operations are the step functions the `BankState` methods are proved to
 * implement: `ReadyFor` (`GetReadyCommand`), `Transition` (`UpdateState`)
 * and `TimingUpdated` (`UpdateTiming`).
 */
module Ds3ChannelState {
  import opened Wrappers
  import opened Bits
  import opened Ds3BankState
  import Ds3Config

  /* ---------------- Configuration ---------------- */

  /** The parts of `Config` the channel reads. */
  datatype ChannelConfig = ChannelConfig(ranks: nat, bankgroups: nat, banksPerGroup: nat, isGDDR: bool,
                                         tFAW: nat, t32AW: nat, tABOAct: nat, aboDelayActs: nat,
                                         alertMode: int, bank: BankConfig)

  /** `banks`: the banks of one rank, `bankgroups * banks_per_group`. */
  function Banks(c: ChannelConfig): nat
  {
    c.bankgroups * c.banksPerGroup
  }

  /** One entry of a timing list: commands of type `cmd` may not issue until `delay` cycles from now. */
  datatype Constraint = Constraint(cmd: CommandType, delay: nat)

  /** The banks a timing list applies to, relative to the issuing command's address. */
  datatype Scope = SameBank | OtherBanksSameBankgroup | OtherBankgroupsSameRank | OtherRanks
                 | SameRank | SameBankset | OtherBanksets

  /** The timing tables (`Timing`): one list per scope and command type. */
  type Timing = (Scope, CommandType) -> seq<Constraint>

  /**
   * Whether bank `k` of bank group `j` of rank `i` lies in scope `s` of a
   * command at address `a`: "other" scopes skip exactly the issuing bank,
   * bank group or rank, and the bank-set scopes go by bank index alone.
   */
  predicate InScope(s: Scope, a: Address, i: nat, j: nat, k: nat)
  {
    match s
    case SameBank => i == a.rank && j == a.bankgroup && k == a.bank
    case OtherBanksSameBankgroup => i == a.rank && j == a.bankgroup && k != a.bank
    case OtherBankgroupsSameRank => i == a.rank && j != a.bankgroup
    case OtherRanks => i != a.rank
    case SameRank => i == a.rank
    case SameBankset => i == a.rank && k == a.bank
    case OtherBanksets => k != a.bank
  }

  /** The banks a command's `UpdateState` reaches. */
  function TargetScope(t: CommandType): Scope
  {
    if IsRankCmd(t) then SameRank else if IsSbCmd(t) then SameBankset else SameBank
  }

  /** The command's address lies inside the channel, as far as its scope needs. */
  predicate Addressed(c: ChannelConfig, cmd: Command)
  {
    0 <= cmd.addr.rank < c.ranks &&
    (!IsRankCmd(cmd.cmdType) ==> 0 <= cmd.addr.bank < c.banksPerGroup) &&
    (!IsRankCmd(cmd.cmdType) && !IsSbCmd(cmd.cmdType) ==> 0 <= cmd.addr.bankgroup < c.bankgroups)
  }

  /* ---------------- The banks ---------------- */

  predicate RowOk(row: seq<BankData>, c: ChannelConfig)
  {
    |row| == c.banksPerGroup && forall k :: 0 <= k < |row| ==> DataOk(row[k], c.bank)
  }

  predicate RankOk(rk: seq<seq<BankData>>, c: ChannelConfig)
  {
    |rk| == c.bankgroups && forall j :: 0 <= j < |rk| ==> RowOk(rk[j], c)
  }

  predicate BanksOk(b: seq<seq<seq<BankData>>>, c: ChannelConfig)
  {
    |b| == c.ranks && forall i :: 0 <= i < |b| ==> RankOk(b[i], c)
  }

  /** The banks as the constructor builds them, every one in its initial state. */
  function InitialBanks(c: ChannelConfig): (b: seq<seq<seq<BankData>>>)
    requires ConfigOk(c.bank)
    ensures BanksOk(b, c)
  {
    seq(c.ranks, _ => seq(c.bankgroups, _ => seq(c.banksPerGroup, _ => InitialData(c.bank))))
  }

  /* ---------------- Refresh and RFM queues ---------------- */

  /** What a `*NeedRefresh` / `*NeedRFM` call is about: one bank, one bank set, or one rank. */
  datatype Key = BankKey(rank: int, bankgroup: int, bank: int) | BanksetKey(rank: int, bank: int) | RankKey(rank: int)

  /** The erase test of each `*Need*` method: a bank set entry is any entry of that rank and bank index. */
  predicate Matches(c: Command, key: Key)
  {
    match key
    case BankKey(r, g, b) => c.addr.rank == r && c.addr.bankgroup == g && c.addr.bank == b
    case BanksetKey(r, b) => c.addr.rank == r && c.addr.bank == b
    case RankKey(r) => c.addr.rank == r
  }

  /** The address a queued request carries: -1 in every field the key does not fix. */
  function KeyAddress(key: Key): Address
  {
    match key
    case BankKey(r, g, b) => Address(-1, r, g, b, -1, -1)
    case BanksetKey(r, b) => Address(-1, r, -1, b, -1, -1)
    case RankKey(r) => Address(-1, r, -1, -1, -1, -1)
  }

  /** The request a `*Need*` call queues, with hex address -1. */
  function Entry(key: Key, t: CommandType): (e: Command)
    ensures Matches(e, key)
  {
    Command(t, KeyAddress(key), -1)
  }

  /** The first index at or after `from` whose entry matches `key`. */
  function FirstMatch(q: seq<Command>, key: Key, from: nat): (r: Option<nat>)
    requires from <= |q|
    ensures r.Some? ==> from <= r.value < |q| && Matches(q[r.value], key) &&
                        forall i :: from <= i < r.value ==> !Matches(q[i], key)
    ensures r.None? ==> forall i :: from <= i < |q| ==> !Matches(q[i], key)
    decreases |q| - from
  {
    if from == |q| then None
    else if Matches(q[from], key) then Some(from)
    else FirstMatch(q, key, from + 1)
  }

  /** The queue after erasing its first entry that matches `key`, if any. */
  function Erased(q: seq<Command>, key: Key): seq<Command>
  {
    match FirstMatch(q, key, 0)
    case None => q
    case Some(i) => q[..i] + q[i + 1..]
  }

  /** The RFM queue after requesting `key`: appended unless an entry for it is already queued. */
  function Requested(q: seq<Command>, key: Key, t: CommandType): seq<Command>
  {
    if exists i :: 0 <= i < |q| && Matches(q[i], key) then q else q + [Entry(key, t)]
  }

  /** The number of entries of `q` that match `key`. */
  function Count(q: seq<Command>, key: Key): nat
  {
    if |q| == 0 then 0 else (if Matches(q[0], key) then 1 else 0) + Count(q[1..], key)
  }

  lemma {:induction false} CountAppend(a: seq<Command>, b: seq<Command>, key: Key)
    ensures Count(a + b, key) == Count(a, key) + Count(b, key)
  {
    if |a| == 0 {
      assert a + b == b;
    } else {
      assert (a + b)[1..] == a[1..] + b;
      CountAppend(a[1..], b, key);
    }
  }

  /** Entries before `i` that do not match contribute nothing. */
  lemma {:induction false} CountNone(q: seq<Command>, key: Key)
    requires forall i :: 0 <= i < |q| ==> !Matches(q[i], key)
    ensures Count(q, key) == 0
  {
    if |q| > 0 {
      CountNone(q[1..], key);
    }
  }

  /**
   * Erasing removes exactly one matching entry when there is one and
   * nothing otherwise, and keeps every other entry, in order.
   */
  lemma {:induction false} ErasedRemovesOne(q: seq<Command>, key: Key)
    ensures var r := Erased(q, key);
      (Count(q, key) == 0 ==> r == q) &&
      (Count(q, key) > 0 ==> |r| == |q| - 1 && Count(r, key) == Count(q, key) - 1) &&
      (forall c :: !Matches(c, key) ==> multiset(r)[c] == multiset(q)[c])
  {
    match FirstMatch(q, key, 0)
    case None =>
      CountNone(q, key);
    case Some(i) =>
      assert q == q[..i] + [q[i]] + q[i + 1..];
      CountAppend(q[..i] + [q[i]], q[i + 1..], key);
      CountAppend(q[..i], [q[i]], key);
      CountAppend(q[..i], q[i + 1..], key);
      CountNone(q[..i], key);
      assert Count([q[i]], key) == 1 by {
        assert [q[i]][1..] == [];
      }
  }

  /** An entry survives erasing only if it was queued. */
  lemma {:induction false} ErasedSubset(q: seq<Command>, key: Key)
    ensures forall c :: c in Erased(q, key) ==> c in q
  {
    match FirstMatch(q, key, 0)
    case None =>
    case Some(i) =>
      assert q == q[..i] + [q[i]] + q[i + 1..];
  }

  /** After a request the key is queued, and the queue grew by at most that one entry. */
  lemma {:induction false} RequestedQueues(q: seq<Command>, key: Key, t: CommandType)
    ensures var r := Requested(q, key, t);
      (exists i :: 0 <= i < |r| && Matches(r[i], key)) &&
      (r == q || r == q + [Entry(key, t)]) &&
      ((exists i :: 0 <= i < |q| && Matches(q[i], key)) <==> r == q)
  {
    var r := Requested(q, key, t);
    if !exists i :: 0 <= i < |q| && Matches(q[i], key) {
      assert r[|q|] == Entry(key, t);
      assert r != q by {
        assert |r| == |q| + 1;
      }
    }
  }

  /** Entries of the refresh queue are refresh commands. */
  predicate RefreshQueueOk(q: seq<Command>)
  {
    forall i :: 0 <= i < |q| ==> IsRefresh(q[i].cmdType)
  }

  /** The rank and bank index of a queued RFM: at most one entry per pair. */
  predicate SameSlot(x: Command, y: Command)
  {
    x.addr.rank == y.addr.rank && x.addr.bank == y.addr.bank
  }

  /** Entries of the RFM queue are RFM commands, at most one per rank and bank index. */
  predicate RfmQueueOk(q: seq<Command>)
  {
    (forall i :: 0 <= i < |q| ==> IsRfm(q[i].cmdType)) &&
    (forall i, j :: 0 <= i < j < |q| ==> !SameSlot(q[i], q[j]))
  }

  /** Erasing keeps the RFM queue free of duplicates. */
  lemma {:induction false} ErasedRfmOk(q: seq<Command>, key: Key)
    requires RfmQueueOk(q)
    ensures RfmQueueOk(Erased(q, key))
  {
    match FirstMatch(q, key, 0)
    case None =>
    case Some(i) =>
      var r := q[..i] + q[i + 1..];
      forall a, b | 0 <= a < b < |r|
        ensures !SameSlot(r[a], r[b])
      {
        var a', b' := if a < i then a else a + 1, if b < i then b else b + 1;
        assert r[a] == q[a'] && r[b] == q[b'];
      }
  }

  /**
   * A bank-set or rank RFM request keeps the RFM queue free of duplicates:
   * it is appended only when nothing with its rank and bank index is queued.
   */
  lemma {:induction false} RequestedRfmOk(q: seq<Command>, key: Key, t: CommandType)
    requires RfmQueueOk(q) && IsRfm(t) && !key.BankKey?
    ensures RfmQueueOk(Requested(q, key, t))
  {
    var r := Requested(q, key, t);
    if r != q {
      forall a | 0 <= a < |q|
        ensures !SameSlot(q[a], Entry(key, t))
      {
        assert !Matches(q[a], key);
      }
      forall a, b | 0 <= a < b < |r|
        ensures !SameSlot(r[a], r[b])
      {
        if b == |q| {
          assert r[b] == Entry(key, t);
        }
      }
    }
  }

  /* ---------------- Activation windows ---------------- */

  /**
   * `UpdateActivationTimes` on one window: drop the front entry if it has
   * expired, then append `curr + span`.
   */
  function Slid(w: seq<nat>, curr: nat, span: nat): (r: seq<nat>)
    ensures 0 < |r| && |w| <= |r| <= |w| + 1
    ensures r[|r| - 1] == curr + span
  {
    (if |w| > 0 && curr >= w[0] then w[1..] else w) + [curr + span]
  }

  /** `IsFAWReady` / `Is32AWReady`: blocked when `size` entries are held and the front has not expired. */
  predicate WindowReady(w: seq<nat>, curr: nat, size: nat)
  {
    !(|w| > 0 && curr < w[0] && |w| >= size)
  }

  predicate SortedTimes(w: seq<nat>)
  {
    forall i, j :: 0 <= i < j < |w| ==> w[i] <= w[j]
  }

  /**
   * Sliding keeps every entry that has not yet expired; only the front
   * can go, and only once `curr` has reached it.
   */
  lemma {:induction false} SlideKeepsLive(w: seq<nat>, curr: nat, span: nat)
    ensures forall x :: x in w && x > curr ==> x in Slid(w, curr, span)
    ensures |Slid(w, curr, span)| == |w| ==> |w| > 0 && w[0] <= curr
  {
    forall x | x in w && x > curr
      ensures x in Slid(w, curr, span)
    {
      if |w| > 0 && curr >= w[0] {
        var i :| 0 <= i < |w| && w[i] == x;
        assert i != 0;
        assert w[1..][i - 1] == x;
      }
    }
  }

  /** With the clock never running backwards, a window stays in time order. */
  lemma {:induction false} SlideSorted(w: seq<nat>, curr: nat, span: nat)
    requires SortedTimes(w) && forall i :: 0 <= i < |w| ==> w[i] <= curr + span
    ensures SortedTimes(Slid(w, curr, span))
  {
  }

  /**
   * On a window in time order, an activation is held back exactly when
   * the window holds at least `size` entries and none of them has expired.
   */
  lemma {:induction false} WindowBlocks(w: seq<nat>, curr: nat, size: nat)
    requires SortedTimes(w) && size > 0
    ensures !WindowReady(w, curr, size) <==> |w| >= size && forall i :: 0 <= i < |w| ==> curr < w[i]
  {
  }

  /* ---------------- Readiness of rank and bank-set commands ---------------- */

  /** A bank's answer is the command asked for itself. */
  predicate IssuesType(o: Ready, t: CommandType)
  {
    o.Issue? && o.cmd.cmdType == t
  }

  /**
   * The rank loop of `GetReadyCommand` from bank `k` of bank group `j` on,
   * with `n` banks counted ready and `last` the latest bank's answer: a
   * bank that needs a different command ends the scan with that command
   * readdressed to the bank; the rank command is ready when all `banks`
   * banks are.
   */
  function RankScan(rk: seq<seq<BankData>>, c: ChannelConfig, cmd: Command, clk: nat,
                    j: nat, k: nat, n: nat, last: Ready): Ready
    requires RankOk(rk, c) && j <= |rk| && (j < |rk| ==> k <= |rk[j]|)
    decreases |rk| - j, if j < |rk| then |rk[j]| - k else 0
  {
    if j == |rk| then (if n == Banks(c) then last else Wait)
    else if k == |rk[j]| then RankScan(rk, c, cmd, clk, j + 1, 0, n, last)
    else
      var o := ReadyFor(rk[j][k], c.bank, cmd, clk);
      match o
      case Abort => Abort
      case Wait => RankScan(rk, c, cmd, clk, j, k + 1, n, o)
      case Issue(x) =>
        if x.cmdType != cmd.cmdType then Issue(x.(addr := Address(-1, cmd.addr.rank, j, k, -1, -1)))
        else RankScan(rk, c, cmd, clk, j, k + 1, n + 1, o)
  }

  /** The banks the rank loop has still to visit from bank `k` of bank group `j`. */
  function Remaining(rk: seq<seq<BankData>>, j: nat, k: nat): nat
    requires j <= |rk| && (j < |rk| ==> k <= |rk[j]|)
    decreases |rk| - j
  {
    if j == |rk| then 0 else (|rk[j]| - k) + Remaining(rk, j + 1, 0)
  }

  lemma {:induction false} RemainingIsBanks(rk: seq<seq<BankData>>, c: ChannelConfig, j: nat)
    requires RankOk(rk, c) && j <= |rk|
    ensures Remaining(rk, j, 0) == (|rk| - j) * c.banksPerGroup
    decreases |rk| - j
  {
    if j < |rk| {
      RemainingIsBanks(rk, c, j + 1);
      assert (|rk| - j) * c.banksPerGroup == c.banksPerGroup + (|rk| - (j + 1)) * c.banksPerGroup;
    }
  }

  /** Every bank from bank `k` of bank group `j` on answers with the command asked for. */
  predicate AllIssueFrom(rk: seq<seq<BankData>>, c: ChannelConfig, cmd: Command, clk: nat, j: nat, k: nat)
    requires RankOk(rk, c) && j <= |rk|
  {
    (j < |rk| ==> forall k' :: k <= k' < |rk[j]| ==> IssuesType(ReadyFor(rk[j][k'], c.bank, cmd, clk), cmd.cmdType)) &&
    (forall j', k' :: j < j' < |rk| && 0 <= k' < |rk[j']| ==> IssuesType(ReadyFor(rk[j'][k'], c.bank, cmd, clk), cmd.cmdType))
  }

  lemma {:induction false} RankScanSound(rk: seq<seq<BankData>>, c: ChannelConfig, cmd: Command, clk: nat,
                                         j: nat, k: nat, n: nat, last: Ready)
    requires RankOk(rk, c) && j <= |rk| && (j < |rk| ==> k <= |rk[j]|)
    requires n + Remaining(rk, j, k) <= Banks(c)
    ensures IssuesType(RankScan(rk, c, cmd, clk, j, k, n, last), cmd.cmdType) ==>
              n + Remaining(rk, j, k) == Banks(c) && AllIssueFrom(rk, c, cmd, clk, j, k) &&
              (Remaining(rk, j, k) == 0 ==> IssuesType(last, cmd.cmdType))
    decreases |rk| - j, if j < |rk| then |rk[j]| - k else 0
  {
    if j == |rk| {
    } else if k == |rk[j]| {
      RankScanSound(rk, c, cmd, clk, j + 1, 0, n, last);
    } else {
      var o := ReadyFor(rk[j][k], c.bank, cmd, clk);
      match o
      case Abort =>
      case Wait =>
        RankScanSound(rk, c, cmd, clk, j, k + 1, n, o);
      case Issue(x) =>
        if x.cmdType == cmd.cmdType {
          RankScanSound(rk, c, cmd, clk, j, k + 1, n + 1, o);
        }
    }
  }

  lemma {:induction false} RankScanComplete(rk: seq<seq<BankData>>, c: ChannelConfig, cmd: Command, clk: nat,
                                            j: nat, k: nat, n: nat, last: Ready)
    requires RankOk(rk, c) && j <= |rk| && (j < |rk| ==> k <= |rk[j]|)
    requires n + Remaining(rk, j, k) == Banks(c) && AllIssueFrom(rk, c, cmd, clk, j, k)
    requires Remaining(rk, j, k) == 0 ==> last == Issue(Command(cmd.cmdType, cmd.addr, cmd.hexAddr))
    ensures RankScan(rk, c, cmd, clk, j, k, n, last) == Issue(Command(cmd.cmdType, cmd.addr, cmd.hexAddr))
    decreases |rk| - j, if j < |rk| then |rk[j]| - k else 0
  {
    if j == |rk| {
    } else if k == |rk[j]| {
      RankScanComplete(rk, c, cmd, clk, j + 1, 0, n, last);
    } else {
      var o := ReadyFor(rk[j][k], c.bank, cmd, clk);
      assert IssuesType(o, cmd.cmdType);
      RankScanComplete(rk, c, cmd, clk, j, k + 1, n + 1, o);
    }
  }

  lemma {:induction false} RankScanRedirects(rk: seq<seq<BankData>>, c: ChannelConfig, cmd: Command, clk: nat,
                                             j: nat, k: nat, n: nat, last: Ready)
    requires RankOk(rk, c) && j <= |rk| && (j < |rk| ==> k <= |rk[j]|)
    requires last == Wait || IssuesType(last, cmd.cmdType)
    ensures var r := RankScan(rk, c, cmd, clk, j, k, n, last);
      r.Issue? && r.cmd.cmdType != cmd.cmdType ==>
        exists j', k' :: 0 <= j' < |rk| && 0 <= k' < |rk[j']| &&
          ReadyFor(rk[j'][k'], c.bank, cmd, clk) == Issue(r.cmd.(addr := cmd.addr)) &&
          r.cmd.addr == Address(-1, cmd.addr.rank, j', k', -1, -1)
    decreases |rk| - j, if j < |rk| then |rk[j]| - k else 0
  {
    if j == |rk| {
    } else if k == |rk[j]| {
      RankScanRedirects(rk, c, cmd, clk, j + 1, 0, n, last);
    } else {
      var o := ReadyFor(rk[j][k], c.bank, cmd, clk);
      match o
      case Abort =>
      case Wait =>
        RankScanRedirects(rk, c, cmd, clk, j, k + 1, n, o);
      case Issue(x) =>
        if x.cmdType != cmd.cmdType {
          var r := RankScan(rk, c, cmd, clk, j, k, n, last);
          assert r.cmd.(addr := cmd.addr) == x;
        } else {
          RankScanRedirects(rk, c, cmd, clk, j, k + 1, n + 1, o);
        }
    }
  }

  /**
   * A rank command is ready exactly when every bank of the rank answers
   * with it (and the rank has banks); it is then the command itself.
   * Any other command the scan returns is one some bank asked for,
   * readdressed to that bank.
   */
  lemma {:induction false} RankReadiness(rk: seq<seq<BankData>>, c: ChannelConfig, cmd: Command, clk: nat)
    requires RankOk(rk, c)
    ensures var r := RankScan(rk, c, cmd, clk, 0, 0, 0, Wait);
      (IssuesType(r, cmd.cmdType) <==> Banks(c) > 0 && AllIssueFrom(rk, c, cmd, clk, 0, 0)) &&
      (IssuesType(r, cmd.cmdType) ==> r == Issue(Command(cmd.cmdType, cmd.addr, cmd.hexAddr))) &&
      (r.Issue? && r.cmd.cmdType != cmd.cmdType ==>
         exists j, k :: 0 <= j < |rk| && 0 <= k < |rk[j]| &&
           ReadyFor(rk[j][k], c.bank, cmd, clk) == Issue(r.cmd.(addr := cmd.addr)) &&
           r.cmd.addr == Address(-1, cmd.addr.rank, j, k, -1, -1))
  {
    RemainingIsBanks(rk, c, 0);
    RankScanSound(rk, c, cmd, clk, 0, 0, 0, Wait);
    RankScanRedirects(rk, c, cmd, clk, 0, 0, 0, Wait);
    if Banks(c) > 0 && AllIssueFrom(rk, c, cmd, clk, 0, 0) {
      RankScanComplete(rk, c, cmd, clk, 0, 0, 0, Wait);
    }
  }

  /**
   * The bank-set loop of `GetReadyCommand`: bank `b` of every bank group
   * from `j` on, ready when all `bankgroups` of them are.
   */
  function SetScan(rk: seq<seq<BankData>>, c: ChannelConfig, cmd: Command, clk: nat, b: nat,
                   j: nat, n: nat, last: Ready): Ready
    requires RankOk(rk, c) && b < c.banksPerGroup && j <= |rk|
    decreases |rk| - j
  {
    if j == |rk| then (if n == c.bankgroups then last else Wait)
    else
      var o := ReadyFor(rk[j][b], c.bank, cmd, clk);
      match o
      case Abort => Abort
      case Wait => SetScan(rk, c, cmd, clk, b, j + 1, n, o)
      case Issue(x) =>
        if x.cmdType != cmd.cmdType then Issue(x.(addr := Address(-1, cmd.addr.rank, j, b, -1, -1)))
        else SetScan(rk, c, cmd, clk, b, j + 1, n + 1, o)
  }

  lemma {:induction false} SetScanSound(rk: seq<seq<BankData>>, c: ChannelConfig, cmd: Command, clk: nat, b: nat,
                                        j: nat, n: nat, last: Ready)
    requires RankOk(rk, c) && b < c.banksPerGroup && j <= |rk| && n + (|rk| - j) <= c.bankgroups
    ensures IssuesType(SetScan(rk, c, cmd, clk, b, j, n, last), cmd.cmdType) ==>
              n + (|rk| - j) == c.bankgroups &&
              forall j' :: j <= j' < |rk| ==> IssuesType(ReadyFor(rk[j'][b], c.bank, cmd, clk), cmd.cmdType)
    decreases |rk| - j
  {
    if j < |rk| {
      var o := ReadyFor(rk[j][b], c.bank, cmd, clk);
      match o
      case Abort =>
      case Wait =>
        SetScanSound(rk, c, cmd, clk, b, j + 1, n, o);
      case Issue(x) =>
        if x.cmdType == cmd.cmdType {
          SetScanSound(rk, c, cmd, clk, b, j + 1, n + 1, o);
        }
    }
  }

  lemma {:induction false} SetScanComplete(rk: seq<seq<BankData>>, c: ChannelConfig, cmd: Command, clk: nat, b: nat,
                                           j: nat, n: nat, last: Ready)
    requires RankOk(rk, c) && b < c.banksPerGroup && j <= |rk| && n + (|rk| - j) == c.bankgroups
    requires forall j' :: j <= j' < |rk| ==> IssuesType(ReadyFor(rk[j'][b], c.bank, cmd, clk), cmd.cmdType)
    requires j == |rk| ==> last == Issue(Command(cmd.cmdType, cmd.addr, cmd.hexAddr))
    ensures SetScan(rk, c, cmd, clk, b, j, n, last) == Issue(Command(cmd.cmdType, cmd.addr, cmd.hexAddr))
    decreases |rk| - j
  {
    if j < |rk| {
      var o := ReadyFor(rk[j][b], c.bank, cmd, clk);
      assert IssuesType(o, cmd.cmdType);
      SetScanComplete(rk, c, cmd, clk, b, j + 1, n + 1, o);
    }
  }

  /**
   * A bank-set command is ready exactly when bank `b` of every bank group
   * answers with it (and there are bank groups); it is then the command
   * itself.
   */
  lemma {:induction false} SetReadiness(rk: seq<seq<BankData>>, c: ChannelConfig, cmd: Command, clk: nat, b: nat)
    requires RankOk(rk, c) && b < c.banksPerGroup
    ensures var r := SetScan(rk, c, cmd, clk, b, 0, 0, Wait);
      (IssuesType(r, cmd.cmdType) <==>
         c.bankgroups > 0 && forall j :: 0 <= j < |rk| ==> IssuesType(ReadyFor(rk[j][b], c.bank, cmd, clk), cmd.cmdType)) &&
      (IssuesType(r, cmd.cmdType) ==> r == Issue(Command(cmd.cmdType, cmd.addr, cmd.hexAddr)))
  {
    SetScanSound(rk, c, cmd, clk, b, 0, 0, Wait);
    if c.bankgroups > 0 && forall j :: 0 <= j < |rk| ==> IssuesType(ReadyFor(rk[j][b], c.bank, cmd, clk), cmd.cmdType) {
      SetScanComplete(rk, c, cmd, clk, b, 0, 0, Wait);
    }
  }

  /* ---------------- Timing fan-out ---------------- */

  /** A bank after `UpdateTiming` for every entry of `list`, in order, `clk` being now. */
  function Constrained(d: BankData, cfg: BankConfig, list: seq<Constraint>, clk: nat): (r: BankData)
    requires DataOk(d, cfg)
    ensures DataOk(r, cfg)
    ensures r == d.(timing := r.timing)
    decreases |list|
  {
    if |list| == 0 then d
    else
      var e := list[|list| - 1];
      TimingUpdated(Constrained(d, cfg, list[..|list| - 1], clk), cfg, e.cmd, clk + e.delay)
  }

  /**
   * After a timing list, no earliest-issue time has gone down, every
   * entry's time is met, and every time is either the old one or one an
   * entry asked for.
   */
  lemma {:induction false} ConstrainedMeets(d: BankData, cfg: BankConfig, list: seq<Constraint>, clk: nat)
    requires DataOk(d, cfg)
    ensures var r := Constrained(d, cfg, list, clk);
      (forall t: CommandType :: r.timing[t] >= d.timing[t]) &&
      (forall e :: e in list ==> r.timing[e.cmd] >= clk + e.delay) &&
      (forall t: CommandType :: r.timing[t] == d.timing[t] ||
                                exists e :: e in list && e.cmd == t && r.timing[t] == clk + e.delay)
    decreases |list|
  {
    if |list| > 0 {
      var init, e := list[..|list| - 1], list[|list| - 1];
      ConstrainedMeets(d, cfg, init, clk);
      assert list == init + [e];
      var m := Constrained(d, cfg, init, clk);
      var r := Constrained(d, cfg, list, clk);
      assert r == TimingUpdated(m, cfg, e.cmd, clk + e.delay);
      forall t: CommandType
        ensures r.timing[t] == d.timing[t] || exists e' :: e' in list && e'.cmd == t && r.timing[t] == clk + e'.delay
      {
        if r.timing[t] != m.timing[t] {
          assert t == e.cmd && e in list;
        } else if m.timing[t] != d.timing[t] {
          var e' :| e' in init && e'.cmd == t && m.timing[t] == clk + e'.delay;
          assert e' in list;
        }
      }
    }
  }

  /** `UpdateTiming` on the timing list of `list`, one bank at a time (the loop over the list). */
  method ApplyList(d: BankData, cfg: BankConfig, list: seq<Constraint>, clk: nat) returns (r: BankData)
    requires DataOk(d, cfg)
    ensures r == Constrained(d, cfg, list, clk)
  {
    r := d;
    var n := 0;
    while n < |list|
      invariant 0 <= n <= |list|
      invariant r == Constrained(d, cfg, list[..n], clk)
    {
      assert list[..n + 1][..n] == list[..n];
      r := TimingUpdated(r, cfg, list[n].cmd, clk + list[n].delay);
      n := n + 1;
    }
    assert list[..n] == list;
  }

  /** Rank `i` after applying `list` to the banks of scope `s`, and only those. */
  predicate RankRetimed(before: seq<seq<BankData>>, after: seq<seq<BankData>>, c: ChannelConfig,
                        s: Scope, a: Address, i: nat, list: seq<Constraint>, clk: nat)
    requires RankOk(before, c)
  {
    |after| == |before| &&
    (forall j :: 0 <= j < |before| ==> |after[j]| == |before[j]|) &&
    forall j, k :: 0 <= j < |before| && 0 <= k < |before[j]| ==>
      after[j][k] == if InScope(s, a, i, j, k) then Constrained(before[j][k], c.bank, list, clk) else before[j][k]
  }

  /** The loops of one `Update*Timing` method over the banks of rank `i`. */
  method RetimeRank(rk: seq<seq<BankData>>, c: ChannelConfig, s: Scope, a: Address, i: nat,
                    list: seq<Constraint>, clk: nat) returns (r: seq<seq<BankData>>)
    requires RankOk(rk, c)
    ensures RankOk(r, c)
    ensures RankRetimed(rk, r, c, s, a, i, list, clk)
  {
    r := rk;
    var j := 0;
    while j < |rk|
      invariant 0 <= j <= |rk| && |r| == |rk|
      invariant forall j' :: j <= j' < |rk| ==> r[j'] == rk[j']
      invariant forall j' :: 0 <= j' < j ==> RowOk(r[j'], c) && |r[j']| == |rk[j']|
      invariant forall j', k :: 0 <= j' < j && 0 <= k < |rk[j']| ==>
        r[j'][k] == if InScope(s, a, i, j', k) then Constrained(rk[j'][k], c.bank, list, clk) else rk[j'][k]
    {
      var row := rk[j];
      var k := 0;
      while k < |row|
        invariant 0 <= k <= |row| && |row| == |rk[j]| && RowOk(row, c)
        invariant forall k' :: k <= k' < |row| ==> row[k'] == rk[j][k']
        invariant forall k' :: 0 <= k' < k ==>
          row[k'] == if InScope(s, a, i, j, k') then Constrained(rk[j][k'], c.bank, list, clk) else rk[j][k']
      {
        if InScope(s, a, i, j, k) {
          var d := ApplyList(row[k], c.bank, list, clk);
          row := row[k := d];
        }
        k := k + 1;
      }
      r := r[j := row];
      j := j + 1;
    }
  }

  /** The list a command of type `t` at `a` applies to bank `k` of bank group `j` of rank `i`. */
  function ListFor(tm: Timing, t: CommandType, a: Address, i: nat, j: nat, k: nat): seq<Constraint>
  {
    if IsRankCmd(t) then
      (if InScope(SameRank, a, i, j, k) then tm(SameRank, t) else [])
    else if IsSbCmd(t) then
      (if InScope(SameBankset, a, i, j, k) then tm(SameBankset, t)
       else if InScope(OtherBanksets, a, i, j, k) then tm(OtherBanksets, t)
       else [])
    else if InScope(SameBank, a, i, j, k) then tm(SameBank, t)
    else if InScope(OtherBanksSameBankgroup, a, i, j, k) then tm(OtherBanksSameBankgroup, t)
    else if InScope(OtherBankgroupsSameRank, a, i, j, k) then tm(OtherBankgroupsSameRank, t)
    else tm(OtherRanks, t)
  }

  /**
   * The four scopes of a bank-level command split the channel: every bank
   * is in exactly one, and the issuing bank is the only one in the
   * same-bank scope. The two bank-set scopes never overlap, and leave out
   * bank `b` of every other rank.
   */
  lemma {:induction false} ScopesPartition(a: Address, i: nat, j: nat, k: nat)
    ensures (if InScope(SameBank, a, i, j, k) then 1 else 0) + (if InScope(OtherBanksSameBankgroup, a, i, j, k) then 1 else 0) +
            (if InScope(OtherBankgroupsSameRank, a, i, j, k) then 1 else 0) + (if InScope(OtherRanks, a, i, j, k) then 1 else 0) == 1
    ensures InScope(SameBank, a, i, j, k) <==> (i, j, k) == (a.rank, a.bankgroup, a.bank)
    ensures !(InScope(SameBankset, a, i, j, k) && InScope(OtherBanksets, a, i, j, k))
    ensures !InScope(SameBankset, a, i, j, k) && !InScope(OtherBanksets, a, i, j, k) <==> i != a.rank && k == a.bank
  {
  }

  /** Every bank of rank `i` after a whole `UpdateTiming`: its own list applied. */
  predicate RankTimed(before: seq<seq<BankData>>, after: seq<seq<BankData>>, c: ChannelConfig, tm: Timing,
                      t: CommandType, a: Address, i: nat, clk: nat)
    requires RankOk(before, c)
  {
    |after| == |before| &&
    (forall j :: 0 <= j < |before| ==> |after[j]| == |before[j]|) &&
    forall j, k :: 0 <= j < |before| && 0 <= k < |before[j]| ==>
      after[j][k] == Constrained(before[j][k], c.bank, ListFor(tm, t, a, i, j, k), clk)
  }

  /** A bank-level command's four scope updates, in turn, give every bank of rank `i` its own list. */
  lemma {:induction false} BankLevelTimed(r0: seq<seq<BankData>>, r1: seq<seq<BankData>>, r2: seq<seq<BankData>>,
                                          r3: seq<seq<BankData>>, r4: seq<seq<BankData>>, c: ChannelConfig, tm: Timing,
                                          t: CommandType, a: Address, i: nat, clk: nat)
    requires RankOk(r0, c) && RankOk(r1, c) && RankOk(r2, c) && RankOk(r3, c)
    requires !IsRankCmd(t) && !IsSbCmd(t)
    requires RankRetimed(r0, r1, c, SameBank, a, i, tm(SameBank, t), clk)
    requires RankRetimed(r1, r2, c, OtherBanksSameBankgroup, a, i, tm(OtherBanksSameBankgroup, t), clk)
    requires RankRetimed(r2, r3, c, OtherBankgroupsSameRank, a, i, tm(OtherBankgroupsSameRank, t), clk)
    requires RankRetimed(r3, r4, c, OtherRanks, a, i, tm(OtherRanks, t), clk)
    ensures RankTimed(r0, r4, c, tm, t, a, i, clk)
  {
    forall j, k | 0 <= j < |r0| && 0 <= k < |r0[j]|
      ensures r4[j][k] == Constrained(r0[j][k], c.bank, ListFor(tm, t, a, i, j, k), clk)
    {
      ScopesPartition(a, i, j, k);
    }
  }

  /** A rank command's one scope update gives every bank of rank `i` its own list. */
  lemma {:induction false} RankLevelTimed(r0: seq<seq<BankData>>, r1: seq<seq<BankData>>, c: ChannelConfig, tm: Timing,
                                          t: CommandType, a: Address, i: nat, clk: nat)
    requires RankOk(r0, c) && IsRankCmd(t)
    requires RankRetimed(r0, r1, c, SameRank, a, i, tm(SameRank, t), clk)
    ensures RankTimed(r0, r1, c, tm, t, a, i, clk)
  {
  }

  /** A bank-set command's two scope updates give every bank of rank `i` its own list. */
  lemma {:induction false} BanksetLevelTimed(r0: seq<seq<BankData>>, r1: seq<seq<BankData>>, r2: seq<seq<BankData>>,
                                             c: ChannelConfig, tm: Timing, t: CommandType, a: Address, i: nat, clk: nat)
    requires RankOk(r0, c) && RankOk(r1, c) && IsSbCmd(t)
    requires RankRetimed(r0, r1, c, SameBankset, a, i, tm(SameBankset, t), clk)
    requires RankRetimed(r1, r2, c, OtherBanksets, a, i, tm(OtherBanksets, t), clk)
    ensures RankTimed(r0, r2, c, tm, t, a, i, clk)
  {
    forall j, k | 0 <= j < |r0| && 0 <= k < |r0[j]|
      ensures r2[j][k] == Constrained(r0[j][k], c.bank, ListFor(tm, t, a, i, j, k), clk)
    {
      ScopesPartition(a, i, j, k);
    }
  }

  /** `num_acts_abo_` after `UpdateTiming`: one more on ACTIVATE, reset by an all-bank RFM. */
  function ActsAfter(n: nat, t: CommandType): nat
  {
    if t == Activate then n + 1 else if t == RfmAb then 0 else n
  }

  /** Commands whose `UpdateTiming` checks the issuing bank for an alert. */
  predicate SameBankAlertCmd(t: CommandType)
  {
    t == Activate || t == ReadPrecharge || t == WritePrecharge || t == Precharge
  }

  /** Commands whose `UpdateTiming` checks the whole rank for an alert. */
  predicate SameRankAlertCmd(t: CommandType)
  {
    t == RfmAb || t == RefAb || IsSbCmd(t)
  }

  /**
   * `UpdateTiming` raises the ABO alert: none is pending, at least
   * `ABO_delay_acts` activations have been counted, alert mode 1 is on,
   * and the bank (or some bank of the rank) reports one.
   */
  predicate AlertRaised(b: seq<seq<seq<BankData>>>, c: ChannelConfig, cmd: Command, alertN: bool, acts: nat)
    requires BanksOk(b, c) && Addressed(c, cmd)
  {
    !alertN && acts >= c.aboDelayActs && c.alertMode == 1 &&
    ((SameBankAlertCmd(cmd.cmdType) && Alert(b[cmd.addr.rank][cmd.addr.bankgroup][cmd.addr.bank], c.bank)) ||
     (SameRankAlertCmd(cmd.cmdType) && RankAlerting(b[cmd.addr.rank], c)))
  }

  /** `IsRWPendingOnRef` on one bank: the row is open and has had no read or write yet. */
  predicate RWPending(d: BankData, row: int)
  {
    d.status == Open && d.rowHitCount == 0 && d.openRow == row
  }

  /**
   * An ACTIVATE leaves its row pending until the first read or write to
   * it, which ends the pending state.
   */
  lemma {:induction false} PendingLifecycle(d: BankData, cfg: BankConfig, cmd: Command, draw: nat)
    requires DataOk(d, cfg) && Accepts(d.status, cmd.cmdType)
    requires cmd.cmdType == Activate ==> 0 <= cmd.addr.row < cfg.rows
    ensures var r := Transition(d, cfg, cmd, draw).value;
      (cmd.cmdType == Activate ==> RWPending(r, cmd.addr.row)) &&
      (cmd.cmdType == Read || cmd.cmdType == Write ==> !RWPending(r, cmd.addr.row))
  {
    StatusTransitions(d, cfg, cmd, draw);
    if cmd.cmdType == Activate {
      assert Transition(d, cfg, cmd, draw).value == Activated(d, cfg, cmd.addr.row, draw);
    }
  }

  /* ---------------- State transitions ---------------- */

  /** A bank after `UpdateState`, or unchanged where the bank refuses the command. */
  function Stepped(d: BankData, cfg: BankConfig, cmd: Command, draw: nat): (r: BankData)
    requires DataOk(d, cfg)
    requires cmd.cmdType == Activate ==> 0 <= cmd.addr.row < cfg.rows
    ensures DataOk(r, cfg)
  {
    match Transition(d, cfg, cmd, draw)
    case Some(x) => x
    case None => d
  }

  /** Every bank of scope `s` in bank group `j` of rank `i` takes the command. */
  predicate RowAccepts(row: seq<BankData>, s: Scope, a: Address, i: nat, j: nat, t: CommandType)
  {
    forall k :: 0 <= k < |row| && InScope(s, a, i, j, k) ==> Accepts(row[k].status, t)
  }

  /** Every bank of scope `s` in rank `i` takes the command. */
  predicate RankAccepts(rk: seq<seq<BankData>>, s: Scope, a: Address, i: nat, t: CommandType)
  {
    forall j :: 0 <= j < |rk| ==> RowAccepts(rk[j], s, a, i, j, t)
  }

  /** Bank group `j` of rank `i` after the banks of scope `s` took the command, and only those. */
  predicate RowStepped(before: seq<BankData>, after: seq<BankData>, c: ChannelConfig,
                       s: Scope, i: nat, j: nat, cmd: Command, draw: nat)
    requires RowOk(before, c)
    requires cmd.cmdType == Activate ==> 0 <= cmd.addr.row < c.bank.rows
  {
    |after| == |before| &&
    forall k :: 0 <= k < |before| ==>
      after[k] == if InScope(s, cmd.addr, i, j, k) then Stepped(before[k], c.bank, cmd, draw) else before[k]
  }

  /** Rank `i` after the banks of scope `s` took the command, and only those. */
  predicate RankStepped(before: seq<seq<BankData>>, after: seq<seq<BankData>>, c: ChannelConfig,
                        s: Scope, i: nat, cmd: Command, draw: nat)
    requires RankOk(before, c)
    requires cmd.cmdType == Activate ==> 0 <= cmd.addr.row < c.bank.rows
  {
    |after| == |before| &&
    forall j :: 0 <= j < |before| ==> RowStepped(before[j], after[j], c, s, i, j, cmd, draw)
  }

  /** The inner bank loop of `UpdateState` over bank group `j` of rank `i`. */
  method StepRow(row: seq<BankData>, c: ChannelConfig, s: Scope, i: nat, j: nat, cmd: Command, draw: nat)
    returns (ok: bool, r: seq<BankData>)
    requires RowOk(row, c)
    requires cmd.cmdType == Activate ==> 0 <= cmd.addr.row < c.bank.rows
    ensures ok == RowAccepts(row, s, cmd.addr, i, j, cmd.cmdType)
    ensures ok ==> RowOk(r, c) && RowStepped(row, r, c, s, i, j, cmd, draw)
  {
    r := row;
    var k := 0;
    while k < |row|
      invariant 0 <= k <= |row| && |r| == |row| && RowOk(r, c)
      invariant forall k' :: k <= k' < |row| ==> r[k'] == row[k']
      invariant forall k' :: 0 <= k' < k ==>
        r[k'] == if InScope(s, cmd.addr, i, j, k') then Stepped(row[k'], c.bank, cmd, draw) else row[k']
      invariant forall k' :: 0 <= k' < k && InScope(s, cmd.addr, i, j, k') ==> Accepts(row[k'].status, cmd.cmdType)
    {
      if InScope(s, cmd.addr, i, j, k) {
        match Transition(r[k], c.bank, cmd, draw)
        case None =>
          return false, r;
        case Some(d) =>
          r := r[k := d];
      }
      k := k + 1;
    }
    ok := true;
  }

  /**
   * The bank loops of `UpdateState` over rank `i`; `ok` is false where a
   * bank refuses the command (the source aborts).
   */
  method StepRank(rk: seq<seq<BankData>>, c: ChannelConfig, s: Scope, i: nat, cmd: Command, draw: nat)
    returns (ok: bool, r: seq<seq<BankData>>)
    requires RankOk(rk, c)
    requires cmd.cmdType == Activate ==> 0 <= cmd.addr.row < c.bank.rows
    ensures ok == RankAccepts(rk, s, cmd.addr, i, cmd.cmdType)
    ensures ok ==> RankOk(r, c) && RankStepped(rk, r, c, s, i, cmd, draw)
  {
    r := rk;
    var j := 0;
    while j < |rk|
      invariant 0 <= j <= |rk| && |r| == |rk|
      invariant forall j' :: j <= j' < |rk| ==> r[j'] == rk[j']
      invariant forall j' :: 0 <= j' < j ==> RowOk(r[j'], c) && RowStepped(rk[j'], r[j'], c, s, i, j', cmd, draw)
      invariant forall j' :: 0 <= j' < j ==> RowAccepts(rk[j'], s, cmd.addr, i, j', cmd.cmdType)
    {
      var rowOk, row := StepRow(rk[j], c, s, i, j, cmd, draw);
      if !rowOk {
        return false, r;
      }
      r := r[j := row];
      j := j + 1;
    }
    ok := true;
  }

  /** The entry the issued command clears from a queue: its bank, its bank set, or its rank. */
  function TargetKey(cmd: Command): Key
  {
    if IsRankCmd(cmd.cmdType) then RankKey(cmd.addr.rank)
    else if IsSbCmd(cmd.cmdType) then BanksetKey(cmd.addr.rank, cmd.addr.bank)
    else BankKey(cmd.addr.rank, cmd.addr.bankgroup, cmd.addr.bank)
  }

  /* ---------------- ABO alert ---------------- */

  /** Some bank of the rank raises `CheckAlert`. */
  predicate RankAlerting(rk: seq<seq<BankData>>, c: ChannelConfig)
    requires RankOk(rk, c)
  {
    exists j, k :: 0 <= j < |rk| && 0 <= k < |rk[j]| && Alert(rk[j][k], c.bank)
  }

  /* ---------------- get_channel ---------------- */

  /** `get_channel`: drop the request bits, then read the channel field. */
  function GetChannel(m: Ds3Config.Mapping, hexAddr: nat): nat
    requires m.chPos >= 0
  {
    And(Shr(Shr(hexAddr, m.shiftBits), m.chPos), m.chMask)
  }

  /** `get_channel` agrees with the channel of the full address decoding, and is below the channel count's power of two. */
  lemma {:induction false} GetChannelAgrees(g: Ds3Config.Geometry, m: Ds3Config.Mapping, hexAddr: nat)
    requires Ds3Config.Decodable(m) && Ds3Config.MasksFor(m, g)
    ensures GetChannel(m, hexAddr) == Ds3Config.AddressMapping(m, hexAddr).channel
    ensures GetChannel(m, hexAddr) < Pow2(Ds3Config.LogBase2(g.channels))
  {
    Ds3Config.FieldBelowWidth(Shr(hexAddr, m.shiftBits), m.chPos, Ds3Config.LogBase2(g.channels));
  }

  /* ---------------- The channel object ---------------- */

  class ChannelState {
    const cfg: ChannelConfig
    const timing: Timing
    var banks: seq<seq<seq<BankData>>>
    var refreshQ: seq<Command>
    var rfmQ: seq<Command>
    var rankIsSref: seq<bool>
    var fourAw: seq<seq<nat>>
    var thirtyTwoAw: seq<seq<nat>>
    var alertN: bool
    var lastAlertClk: nat
    var numActsAbo: nat

    predicate Valid()
      reads this
    {
      ConfigOk(cfg.bank) && BanksOk(banks, cfg) && RefreshQueueOk(refreshQ) && RfmQueueOk(rfmQ) &&
      |rankIsSref| == cfg.ranks && |fourAw| == cfg.ranks && |thirtyTwoAw| == cfg.ranks
    }

    /** Every bank initial, queues and windows empty, no rank in self-refresh, no alert. */
    constructor (c: ChannelConfig, tm: Timing)
      requires ConfigOk(c.bank)
      ensures Valid()
      ensures cfg == c && banks == InitialBanks(c) && refreshQ == [] && rfmQ == []
      ensures rankIsSref == seq(c.ranks, _ => false) && fourAw == seq(c.ranks, _ => []) && thirtyTwoAw == fourAw
      ensures !alertN && lastAlertClk == 0 && numActsAbo == 0
    {
      cfg := c;
      timing := tm;
      banks := InitialBanks(c);
      refreshQ := [];
      rfmQ := [];
      rankIsSref := seq(c.ranks, _ => false);
      fourAw := seq(c.ranks, _ => []);
      thirtyTwoAw := seq(c.ranks, _ => []);
      alertN := false;
      lastAlertClk := 0;
      numActsAbo := 0;
    }

    /** `IsAllBankIdleInRank`: no bank of the rank has a row open. */
    method IsAllBankIdleInRank(rank: nat) returns (idle: bool)
      requires Valid() && rank < cfg.ranks
      ensures idle <==> forall j, k :: 0 <= j < cfg.bankgroups && 0 <= k < cfg.banksPerGroup ==> banks[rank][j][k].status != Open
    {
      var j := 0;
      while j < cfg.bankgroups
        invariant 0 <= j <= cfg.bankgroups
        invariant forall j', k :: 0 <= j' < j && 0 <= k < cfg.banksPerGroup ==> banks[rank][j'][k].status != Open
      {
        var k := 0;
        while k < cfg.banksPerGroup
          invariant 0 <= k <= cfg.banksPerGroup
          invariant forall k' :: 0 <= k' < k ==> banks[rank][j][k'].status != Open
        {
          if banks[rank][j][k].status == Open {
            return false;
          }
          k := k + 1;
        }
        j := j + 1;
      }
      return true;
    }

    /** `IsRWPendingOnRef`: the bank has the command's row open and has not served it yet. */
    predicate IsRWPendingOnRef(cmd: Command)
      reads this
      requires Valid() && Addressed(cfg, cmd) && !IsRankCmd(cmd.cmdType) && !IsSbCmd(cmd.cmdType)
    {
      RWPending(banks[cmd.addr.rank][cmd.addr.bankgroup][cmd.addr.bank], cmd.addr.row)
    }

    /* ---- refresh and RFM requests ---- */

    /** `BankNeedRefresh`: queue a per-bank refresh, or drop the first queued entry of that bank. */
    method BankNeedRefresh(rank: int, bankgroup: int, bank: int, need: bool)
      requires Valid()
      modifies this`refreshQ
      ensures Valid()
      ensures refreshQ == if need then old(refreshQ) + [Entry(BankKey(rank, bankgroup, bank), RefreshBank)]
                          else Erased(old(refreshQ), BankKey(rank, bankgroup, bank))
    {
      NeedRefresh(BankKey(rank, bankgroup, bank), RefreshBank, need);
    }

    /** `BanksetNeedRefresh`: queue a bank-set refresh, or drop the first queued entry of that rank and bank index. */
    method BanksetNeedRefresh(rank: int, bank: int, need: bool)
      requires Valid()
      modifies this`refreshQ
      ensures Valid()
      ensures refreshQ == if need then old(refreshQ) + [Entry(BanksetKey(rank, bank), RefSb)]
                          else Erased(old(refreshQ), BanksetKey(rank, bank))
    {
      NeedRefresh(BanksetKey(rank, bank), RefSb, need);
    }

    /** `RankNeedRefresh`: queue an all-bank refresh, or drop the first queued entry of that rank. */
    method RankNeedRefresh(rank: int, need: bool)
      requires Valid()
      modifies this`refreshQ
      ensures Valid()
      ensures refreshQ == if need then old(refreshQ) + [Entry(RankKey(rank), RefAb)]
                          else Erased(old(refreshQ), RankKey(rank))
    {
      NeedRefresh(RankKey(rank), RefAb, need);
    }

    /** The common body of the three `*NeedRefresh` methods. */
    method NeedRefresh(key: Key, t: CommandType, need: bool)
      requires Valid() && IsRefresh(t)
      modifies this`refreshQ
      ensures Valid()
      ensures refreshQ == if need then old(refreshQ) + [Entry(key, t)] else Erased(old(refreshQ), key)
    {
      if need {
        refreshQ := refreshQ + [Entry(key, t)];
      } else {
        ErasedSubset(refreshQ, key);
        refreshQ := EraseFirst(refreshQ, key);
      }
    }

    /** `BanksetNeedRFM`: queue a bank-set RFM unless one is queued, or drop the first queued one. */
    method BanksetNeedRFM(rank: int, bank: int, need: bool)
      requires Valid()
      modifies this`rfmQ
      ensures Valid()
      ensures rfmQ == if need then Requested(old(rfmQ), BanksetKey(rank, bank), RfmSb)
                      else Erased(old(rfmQ), BanksetKey(rank, bank))
    {
      NeedRfm(BanksetKey(rank, bank), RfmSb, need);
    }

    /** `RankNeedRFM`: queue an all-bank RFM unless anything of the rank is queued, or drop the rank's first entry. */
    method RankNeedRFM(rank: int, need: bool)
      requires Valid()
      modifies this`rfmQ
      ensures Valid()
      ensures rfmQ == if need then Requested(old(rfmQ), RankKey(rank), RfmAb) else Erased(old(rfmQ), RankKey(rank))
    {
      NeedRfm(RankKey(rank), RfmAb, need);
    }

    /** The common body of the two `*NeedRFM` methods: the presence loop, then append or erase. */
    method NeedRfm(key: Key, t: CommandType, need: bool)
      requires Valid() && IsRfm(t) && !key.BankKey?
      modifies this`rfmQ
      ensures Valid()
      ensures rfmQ == if need then Requested(old(rfmQ), key, t) else Erased(old(rfmQ), key)
    {
      var present := false;
      var i := 0;
      while i < |rfmQ|
        invariant 0 <= i <= |rfmQ|
        invariant present <==> exists i' :: 0 <= i' < i && Matches(rfmQ[i'], key)
      {
        if Matches(rfmQ[i], key) {
          present := true;
          break;
        }
        i := i + 1;
      }
      if need && !present {
        RequestedRfmOk(rfmQ, key, t);
        rfmQ := rfmQ + [Entry(key, t)];
      } else if !need {
        ErasedRfmOk(rfmQ, key);
        rfmQ := EraseFirst(rfmQ, key);
      }
    }

    /* ---- activation windows ---- */

    /** `IsFAWReady`. */
    predicate IsFAWReady(rank: nat, curr: nat)
      reads this
      requires Valid() && rank < cfg.ranks
    {
      WindowReady(fourAw[rank], curr, 4)
    }

    /** `Is32AWReady`. */
    predicate Is32AWReady(rank: nat, curr: nat)
      reads this
      requires Valid() && rank < cfg.ranks
    {
      WindowReady(thirtyTwoAw[rank], curr, 32)
    }

    /** `ActivationWindowOk`: tFAW always, and the 32-activation window too for GDDR. */
    predicate ActivationWindowOk(rank: nat, curr: nat)
      reads this
      requires Valid() && rank < cfg.ranks
    {
      if cfg.isGDDR then IsFAWReady(rank, curr) && Is32AWReady(rank, curr) else IsFAWReady(rank, curr)
    }

    /** `UpdateActivationTimes`: slide the rank's tFAW window, and its 32AW window for GDDR. */
    method UpdateActivationTimes(rank: nat, curr: nat)
      requires Valid() && rank < cfg.ranks
      modifies this`fourAw, this`thirtyTwoAw
      ensures Valid()
      ensures fourAw == old(fourAw)[rank := Slid(old(fourAw)[rank], curr, cfg.tFAW)]
      ensures thirtyTwoAw == if cfg.isGDDR then old(thirtyTwoAw)[rank := Slid(old(thirtyTwoAw)[rank], curr, cfg.t32AW)]
                             else old(thirtyTwoAw)
    {
      var w := fourAw[rank];
      if |w| > 0 && curr >= w[0] {
        w := w[1..];
      }
      fourAw := fourAw[rank := w + [curr + cfg.tFAW]];
      if cfg.isGDDR {
        var v := thirtyTwoAw[rank];
        if |v| > 0 && curr >= v[0] {
          v := v[1..];
        }
        thirtyTwoAw := thirtyTwoAw[rank := v + [curr + cfg.t32AW]];
      }
    }

    /* ---- GetReadyCommand ---- */

    /** The rank branch of `GetReadyCommand`. */
    method RankReady(cmd: Command, clk: nat) returns (r: Ready)
      requires Valid() && Addressed(cfg, cmd)
      ensures r == RankScan(banks[cmd.addr.rank], cfg, cmd, clk, 0, 0, 0, Wait)
    {
      var rk := banks[cmd.addr.rank];
      var n, last := 0, Wait;
      var j := 0;
      while j < cfg.bankgroups
        invariant 0 <= j <= |rk|
        invariant RankScan(rk, cfg, cmd, clk, j, 0, n, last) == RankScan(rk, cfg, cmd, clk, 0, 0, 0, Wait)
      {
        var k := 0;
        while k < cfg.banksPerGroup
          invariant 0 <= k <= |rk[j]|
          invariant RankScan(rk, cfg, cmd, clk, j, k, n, last) == RankScan(rk, cfg, cmd, clk, 0, 0, 0, Wait)
        {
          var o := ReadyFor(rk[j][k], cfg.bank, cmd, clk);
          if o.Abort? {
            return Abort;
          }
          if o.Issue? {
            if o.cmd.cmdType != cmd.cmdType {
              return Issue(o.cmd.(addr := Address(-1, cmd.addr.rank, j, k, -1, -1)));
            }
            n := n + 1;
          }
          last := o;
          k := k + 1;
        }
        j := j + 1;
      }
      if n == Banks(cfg) {
        return last;
      }
      return Wait;
    }

    /** The bank-set branch of `GetReadyCommand`. */
    method BanksetReady(cmd: Command, clk: nat) returns (r: Ready)
      requires Valid() && Addressed(cfg, cmd) && !IsRankCmd(cmd.cmdType)
      ensures r == SetScan(banks[cmd.addr.rank], cfg, cmd, clk, cmd.addr.bank, 0, 0, Wait)
    {
      var rk := banks[cmd.addr.rank];
      var b: nat := cmd.addr.bank;
      var n, last := 0, Wait;
      var j := 0;
      while j < cfg.bankgroups
        invariant 0 <= j <= |rk|
        invariant SetScan(rk, cfg, cmd, clk, b, j, n, last) == SetScan(rk, cfg, cmd, clk, b, 0, 0, Wait)
      {
        var o := ReadyFor(rk[j][b], cfg.bank, cmd, clk);
        if o.Abort? {
          return Abort;
        }
        if o.Issue? {
          if o.cmd.cmdType != cmd.cmdType {
            return Issue(o.cmd.(addr := Address(-1, cmd.addr.rank, j, b, -1, -1)));
          }
          n := n + 1;
        }
        last := o;
        j := j + 1;
      }
      if n == cfg.bankgroups {
        return last;
      }
      return Wait;
    }

    /**
     * `GetReadyCommand`. Rank and bank-set commands go through the scans.
     * A bank command is withheld, and its side effect done, when an ABO
     * alert has outlasted tABO_act (queue an all-bank RFM and clear the
     * alert), when the bank asks for an RFM (queue it), or when an
     * ACTIVATE would break the activation window.
     */
    method GetReadyCommand(cmd: Command, clk: nat) returns (r: Ready)
      requires Valid() && Addressed(cfg, cmd)
      modifies this`rfmQ, this`alertN
      ensures Valid()
      ensures IsRankCmd(cmd.cmdType) ==>
        r == RankScan(banks[cmd.addr.rank], cfg, cmd, clk, 0, 0, 0, Wait) && rfmQ == old(rfmQ) && alertN == old(alertN)
      ensures IsSbCmd(cmd.cmdType) ==>
        r == SetScan(banks[cmd.addr.rank], cfg, cmd, clk, cmd.addr.bank, 0, 0, Wait) && rfmQ == old(rfmQ) && alertN == old(alertN)
      ensures !IsRankCmd(cmd.cmdType) && !IsSbCmd(cmd.cmdType) ==>
        var o := ReadyFor(banks[cmd.addr.rank][cmd.addr.bankgroup][cmd.addr.bank], cfg.bank, cmd, clk);
        var expired := old(alertN) && clk > cfg.tABOAct + lastAlertClk;
        (!o.Issue? ==> r == o && rfmQ == old(rfmQ) && alertN == old(alertN)) &&
        (o.Issue? && expired ==> r == Wait && rfmQ == Requested(old(rfmQ), RankKey(cmd.addr.rank), RfmAb) && !alertN) &&
        (o.Issue? && !expired && o.cmd.cmdType == RfmSb ==>
           r == Wait && rfmQ == Requested(old(rfmQ), BanksetKey(cmd.addr.rank, cmd.addr.bank), RfmSb) && alertN == old(alertN)) &&
        (o.Issue? && !expired && o.cmd.cmdType == RfmAb ==>
           r == Wait && rfmQ == Requested(old(rfmQ), RankKey(cmd.addr.rank), RfmAb) && alertN == old(alertN)) &&
        (o.Issue? && !expired && o.cmd.cmdType == Activate ==>
           r == (if ActivationWindowOk(cmd.addr.rank, clk) then o else Wait) && rfmQ == old(rfmQ) && alertN == old(alertN)) &&
        (o.Issue? && !expired && o.cmd.cmdType != RfmSb && o.cmd.cmdType != RfmAb && o.cmd.cmdType != Activate ==>
           r == o && rfmQ == old(rfmQ) && alertN == old(alertN))
    {
      if IsRankCmd(cmd.cmdType) {
        r := RankReady(cmd, clk);
        return;
      }
      if IsSbCmd(cmd.cmdType) {
        r := BanksetReady(cmd, clk);
        return;
      }
      var o := ReadyFor(banks[cmd.addr.rank][cmd.addr.bankgroup][cmd.addr.bank], cfg.bank, cmd, clk);
      if !o.Issue? {
        return o;
      }
      if alertN && clk > cfg.tABOAct + lastAlertClk {
        RankNeedRFM(o.cmd.addr.rank, true);
        alertN := false;
        return Wait;
      }
      if o.cmd.cmdType == RfmSb {
        BanksetNeedRFM(o.cmd.addr.rank, o.cmd.addr.bank, true);
        return Wait;
      }
      if o.cmd.cmdType == RfmAb {
        RankNeedRFM(o.cmd.addr.rank, true);
        return Wait;
      }
      if o.cmd.cmdType == Activate && !ActivationWindowOk(cmd.addr.rank, clk) {
        return Wait;
      }
      return o;
    }

    /* ---- UpdateState ---- */

    /**
     * `UpdateState`: the command's banks take it (all banks of the rank,
     * bank `b` of every bank group, or the one bank); then the rank or
     * bank set's RFM or refresh request is cleared, or the rank's
     * self-refresh flag set or cleared. `ok` is false where a bank refuses
     * the command (the source aborts).
     */
    method UpdateState(cmd: Command, draw: nat) returns (ok: bool)
      requires Valid() && Addressed(cfg, cmd)
      requires cmd.cmdType == Activate ==> 0 <= cmd.addr.row < cfg.bank.rows
      modifies this`banks, this`refreshQ, this`rfmQ, this`rankIsSref
      ensures Valid()
      ensures ok == RankAccepts(old(banks)[cmd.addr.rank], TargetScope(cmd.cmdType), cmd.addr, cmd.addr.rank, cmd.cmdType)
      ensures ok ==> |banks| == |old(banks)| &&
                     (forall i :: 0 <= i < |banks| && i != cmd.addr.rank ==> banks[i] == old(banks)[i]) &&
                     RankStepped(old(banks)[cmd.addr.rank], banks[cmd.addr.rank], cfg, TargetScope(cmd.cmdType),
                                 cmd.addr.rank, cmd, draw)
      ensures ok ==> rfmQ == (if IsRfm(cmd.cmdType) then Erased(old(rfmQ), TargetKey(cmd)) else old(rfmQ))
      ensures ok ==> refreshQ == (if IsRefresh(cmd.cmdType) then Erased(old(refreshQ), TargetKey(cmd)) else old(refreshQ))
      ensures ok ==> rankIsSref == (if cmd.cmdType == SrefEnter then old(rankIsSref)[cmd.addr.rank := true]
                                    else if cmd.cmdType == SrefExit then old(rankIsSref)[cmd.addr.rank := false]
                                    else old(rankIsSref))
      ensures !ok ==> banks == old(banks) && refreshQ == old(refreshQ) && rfmQ == old(rfmQ) && rankIsSref == old(rankIsSref)
    {
      var rank: nat := cmd.addr.rank;
      var t := cmd.cmdType;
      var rk;
      ok, rk := StepRank(banks[rank], cfg, TargetScope(t), rank, cmd, draw);
      if !ok {
        return;
      }
      banks := banks[rank := rk];
      if IsRankCmd(t) {
        if IsRfm(t) {
          RankNeedRFM(rank, false);
        } else if IsRefresh(t) {
          RankNeedRefresh(rank, false);
        } else if t == SrefEnter {
          rankIsSref := rankIsSref[rank := true];
        } else if t == SrefExit {
          rankIsSref := rankIsSref[rank := false];
        }
      } else if IsSbCmd(t) {
        if IsRfm(t) {
          BanksetNeedRFM(rank, cmd.addr.bank, false);
        } else if IsRefresh(t) {
          BanksetNeedRefresh(rank, cmd.addr.bank, false);
        }
      } else {
        if IsRefresh(t) {
          BankNeedRefresh(rank, cmd.addr.bankgroup, cmd.addr.bank, false);
        }
      }
    }

    /* ---- alerts ---- */

    /** `TriggerSameBankAlert`: raise the alert if armed and the command's bank reports one. */
    method TriggerSameBankAlert(cmd: Command, clk: nat)
      requires Valid() && Addressed(cfg, cmd) && !IsRankCmd(cmd.cmdType) && !IsSbCmd(cmd.cmdType)
      modifies this`alertN, this`lastAlertClk
      ensures var raised := !old(alertN) && numActsAbo >= cfg.aboDelayActs && cfg.alertMode == 1 &&
                            Alert(banks[cmd.addr.rank][cmd.addr.bankgroup][cmd.addr.bank], cfg.bank);
        alertN == (old(alertN) || raised) && lastAlertClk == (if raised then clk else old(lastAlertClk))
    {
      if alertN || numActsAbo < cfg.aboDelayActs {
        return;
      }
      if cfg.alertMode == 1 && Alert(banks[cmd.addr.rank][cmd.addr.bankgroup][cmd.addr.bank], cfg.bank) {
        alertN := true;
        lastAlertClk := clk;
      }
    }

    /** `TriggerSameRankAlert`: raise the alert if armed and some bank of the rank reports one. */
    method TriggerSameRankAlert(cmd: Command, clk: nat)
      requires Valid() && Addressed(cfg, cmd)
      modifies this`alertN, this`lastAlertClk
      ensures var raised := !old(alertN) && numActsAbo >= cfg.aboDelayActs && cfg.alertMode == 1 &&
                            RankAlerting(banks[cmd.addr.rank], cfg);
        alertN == (old(alertN) || raised) && lastAlertClk == (if raised then clk else old(lastAlertClk))
    {
      if alertN || numActsAbo < cfg.aboDelayActs {
        return;
      }
      var rk := banks[cmd.addr.rank];
      var j := 0;
      while j < cfg.bankgroups
        invariant 0 <= j <= cfg.bankgroups
        invariant !alertN && lastAlertClk == old(lastAlertClk)
        invariant !(cfg.alertMode == 1 && exists j', k :: 0 <= j' < j && 0 <= k < |rk[j']| && Alert(rk[j'][k], cfg.bank))
      {
        var k := 0;
        while k < cfg.banksPerGroup
          invariant 0 <= k <= cfg.banksPerGroup
          invariant !alertN && lastAlertClk == old(lastAlertClk)
          invariant !(cfg.alertMode == 1 && exists k' :: 0 <= k' < k && Alert(rk[j][k'], cfg.bank))
        {
          if cfg.alertMode == 1 && Alert(rk[j][k], cfg.bank) {
            alertN := true;
            lastAlertClk := clk;
            return;
          }
          k := k + 1;
        }
        j := j + 1;
      }
    }

    /* ---- UpdateTiming ---- */

    /**
     * The `Update*Timing` methods: apply `list` to every bank of scope
     * `s` relative to the command at `a`, and to no other bank.
     */
    method UpdateScopeTiming(s: Scope, a: Address, list: seq<Constraint>, clk: nat)
      requires Valid()
      modifies this`banks
      ensures Valid()
      ensures |banks| == |old(banks)| &&
              forall i :: 0 <= i < |banks| ==> RankRetimed(old(banks)[i], banks[i], cfg, s, a, i, list, clk)
    {
      var b := banks;
      var i := 0;
      while i < |b|
        invariant 0 <= i <= |b| && |banks| == |b|
        invariant BanksOk(banks, cfg)
        invariant forall i' :: i <= i' < |b| ==> banks[i'] == b[i']
        invariant forall i' :: 0 <= i' < i ==> RankRetimed(b[i'], banks[i'], cfg, s, a, i', list, clk)
      {
        var rk := RetimeRank(banks[i], cfg, s, a, i, list, clk);
        banks := banks[i := rk];
        i := i + 1;
      }
    }

    /**
     * `UpdateTiming`: every bank gets the timing list of the scope it is
     * in; ACTIVATE counts toward ABO and slides the activation windows, an
     * all-bank RFM restarts the ABO count, and the alert is checked on the
     * bank or the rank first.
     */
    method UpdateTiming(cmd: Command, clk: nat)
      requires Valid() && Addressed(cfg, cmd)
      modifies this`banks, this`numActsAbo, this`fourAw, this`thirtyTwoAw, this`alertN, this`lastAlertClk
      ensures Valid()
      ensures |banks| == |old(banks)| &&
              forall i :: 0 <= i < |banks| ==> RankTimed(old(banks)[i], banks[i], cfg, timing, cmd.cmdType, cmd.addr, i, clk)
      ensures numActsAbo == ActsAfter(old(numActsAbo), cmd.cmdType)
      ensures cmd.cmdType == Activate ==>
        fourAw == old(fourAw)[cmd.addr.rank := Slid(old(fourAw)[cmd.addr.rank], clk, cfg.tFAW)] &&
        thirtyTwoAw == if cfg.isGDDR then old(thirtyTwoAw)[cmd.addr.rank := Slid(old(thirtyTwoAw)[cmd.addr.rank], clk, cfg.t32AW)]
                       else old(thirtyTwoAw)
      ensures cmd.cmdType != Activate ==> fourAw == old(fourAw) && thirtyTwoAw == old(thirtyTwoAw)
      ensures var raised := AlertRaised(old(banks), cfg, cmd, old(alertN), numActsAbo);
        alertN == (old(alertN) || raised) && lastAlertClk == (if raised then clk else old(lastAlertClk))
    {
      CountAndAlert(cmd, clk);
      if IsRankCmd(cmd.cmdType) {
        RankLevelTiming(cmd, clk);
      } else if IsSbCmd(cmd.cmdType) {
        BanksetLevelTiming(cmd, clk);
      } else {
        BankLevelTiming(cmd, clk);
      }
    }

    /**
     * The parts of `UpdateTiming`'s switch before the timing lists: the
     * ABO activation count, the activation windows and the alert checks,
     * with the source's fall-through order.
     */
    method CountAndAlert(cmd: Command, clk: nat)
      requires Valid() && Addressed(cfg, cmd)
      modifies this`numActsAbo, this`fourAw, this`thirtyTwoAw, this`alertN, this`lastAlertClk
      ensures Valid()
      ensures numActsAbo == ActsAfter(old(numActsAbo), cmd.cmdType)
      ensures cmd.cmdType == Activate ==>
        fourAw == old(fourAw)[cmd.addr.rank := Slid(old(fourAw)[cmd.addr.rank], clk, cfg.tFAW)] &&
        thirtyTwoAw == if cfg.isGDDR then old(thirtyTwoAw)[cmd.addr.rank := Slid(old(thirtyTwoAw)[cmd.addr.rank], clk, cfg.t32AW)]
                       else old(thirtyTwoAw)
      ensures cmd.cmdType != Activate ==> fourAw == old(fourAw) && thirtyTwoAw == old(thirtyTwoAw)
      ensures var raised := AlertRaised(banks, cfg, cmd, old(alertN), numActsAbo);
        alertN == (old(alertN) || raised) && lastAlertClk == (if raised then clk else old(lastAlertClk))
    {
      var t := cmd.cmdType;
      if t == Activate {
        numActsAbo := numActsAbo + 1;
        UpdateActivationTimes(cmd.addr.rank, clk);
      } else if t == RfmAb {
        numActsAbo := 0;
      }
      if SameBankAlertCmd(t) {
        TriggerSameBankAlert(cmd, clk);
      } else if SameRankAlertCmd(t) {
        TriggerSameRankAlert(cmd, clk);
      }
    }

    /** The timing part of `UpdateTiming` for a bank-level command: its four scopes in turn. */
    method BankLevelTiming(cmd: Command, clk: nat)
      requires Valid() && Addressed(cfg, cmd) && !IsRankCmd(cmd.cmdType) && !IsSbCmd(cmd.cmdType)
      modifies this`banks
      ensures Valid()
      ensures |banks| == |old(banks)| &&
              forall i :: 0 <= i < |banks| ==> RankTimed(old(banks)[i], banks[i], cfg, timing, cmd.cmdType, cmd.addr, i, clk)
    {
      var t, a := cmd.cmdType, cmd.addr;
      ghost var b0 := banks;
      UpdateScopeTiming(SameBank, a, timing(SameBank, t), clk);
      ghost var b1 := banks;
      UpdateScopeTiming(OtherBanksSameBankgroup, a, timing(OtherBanksSameBankgroup, t), clk);
      ghost var b2 := banks;
      UpdateScopeTiming(OtherBankgroupsSameRank, a, timing(OtherBankgroupsSameRank, t), clk);
      ghost var b3 := banks;
      UpdateScopeTiming(OtherRanks, a, timing(OtherRanks, t), clk);
      forall i | 0 <= i < |banks|
        ensures RankTimed(b0[i], banks[i], cfg, timing, t, a, i, clk)
      {
        BankLevelTimed(b0[i], b1[i], b2[i], b3[i], banks[i], cfg, timing, t, a, i, clk);
      }
    }

    /** The timing part of `UpdateTiming` for a rank command: every bank of the rank. */
    method RankLevelTiming(cmd: Command, clk: nat)
      requires Valid() && Addressed(cfg, cmd) && IsRankCmd(cmd.cmdType)
      modifies this`banks
      ensures Valid()
      ensures |banks| == |old(banks)| &&
              forall i :: 0 <= i < |banks| ==> RankTimed(old(banks)[i], banks[i], cfg, timing, cmd.cmdType, cmd.addr, i, clk)
    {
      var t, a := cmd.cmdType, cmd.addr;
      ghost var b0 := banks;
      UpdateScopeTiming(SameRank, a, timing(SameRank, t), clk);
      forall i | 0 <= i < |banks|
        ensures RankTimed(b0[i], banks[i], cfg, timing, t, a, i, clk)
      {
        RankLevelTimed(b0[i], banks[i], cfg, timing, t, a, i, clk);
      }
    }

    /** The timing part of `UpdateTiming` for a bank-set command: its bank set, then the other bank sets. */
    method BanksetLevelTiming(cmd: Command, clk: nat)
      requires Valid() && Addressed(cfg, cmd) && IsSbCmd(cmd.cmdType)
      modifies this`banks
      ensures Valid()
      ensures |banks| == |old(banks)| &&
              forall i :: 0 <= i < |banks| ==> RankTimed(old(banks)[i], banks[i], cfg, timing, cmd.cmdType, cmd.addr, i, clk)
    {
      var t, a := cmd.cmdType, cmd.addr;
      ghost var b0 := banks;
      UpdateScopeTiming(SameBankset, a, timing(SameBankset, t), clk);
      ghost var b1 := banks;
      UpdateScopeTiming(OtherBanksets, a, timing(OtherBanksets, t), clk);
      forall i | 0 <= i < |banks|
        ensures RankTimed(b0[i], banks[i], cfg, timing, t, a, i, clk)
      {
        BanksetLevelTimed(b0[i], b1[i], banks[i], cfg, timing, t, a, i, clk);
      }
    }

    /**
     * `UpdateTimingAndStates`: `UpdateState`, then `UpdateTiming`; `mid`
     * is the banks between the two.
     */
    method UpdateTimingAndStates(cmd: Command, clk: nat, draw: nat) returns (ok: bool, ghost mid: seq<seq<seq<BankData>>>)
      requires Valid() && Addressed(cfg, cmd)
      requires cmd.cmdType == Activate ==> 0 <= cmd.addr.row < cfg.bank.rows
      modifies this
      ensures Valid()
      ensures ok == RankAccepts(old(banks)[cmd.addr.rank], TargetScope(cmd.cmdType), cmd.addr, cmd.addr.rank, cmd.cmdType)
      ensures ok ==> BanksOk(mid, cfg) && |mid| == |old(banks)| &&
                     (forall i :: 0 <= i < |mid| && i != cmd.addr.rank ==> mid[i] == old(banks)[i]) &&
                     RankStepped(old(banks)[cmd.addr.rank], mid[cmd.addr.rank], cfg, TargetScope(cmd.cmdType),
                                 cmd.addr.rank, cmd, draw) &&
                     |banks| == |mid| &&
                     forall i :: 0 <= i < |banks| ==> RankTimed(mid[i], banks[i], cfg, timing, cmd.cmdType, cmd.addr, i, clk)
      ensures ok ==> rfmQ == (if IsRfm(cmd.cmdType) then Erased(old(rfmQ), TargetKey(cmd)) else old(rfmQ)) &&
                     refreshQ == (if IsRefresh(cmd.cmdType) then Erased(old(refreshQ), TargetKey(cmd)) else old(refreshQ)) &&
                     rankIsSref == (if cmd.cmdType == SrefEnter then old(rankIsSref)[cmd.addr.rank := true]
                                    else if cmd.cmdType == SrefExit then old(rankIsSref)[cmd.addr.rank := false]
                                    else old(rankIsSref))
      ensures ok ==> numActsAbo == ActsAfter(old(numActsAbo), cmd.cmdType) &&
                     (cmd.cmdType == Activate ==>
                        fourAw == old(fourAw)[cmd.addr.rank := Slid(old(fourAw)[cmd.addr.rank], clk, cfg.tFAW)] &&
                        thirtyTwoAw == if cfg.isGDDR then old(thirtyTwoAw)[cmd.addr.rank := Slid(old(thirtyTwoAw)[cmd.addr.rank], clk, cfg.t32AW)]
                                       else old(thirtyTwoAw)) &&
                     (cmd.cmdType != Activate ==> fourAw == old(fourAw) && thirtyTwoAw == old(thirtyTwoAw)) &&
                     var raised := AlertRaised(mid, cfg, cmd, old(alertN), numActsAbo);
                     alertN == (old(alertN) || raised) && lastAlertClk == (if raised then clk else old(lastAlertClk))
      ensures !ok ==> banks == old(banks) && refreshQ == old(refreshQ) && rfmQ == old(rfmQ) && rankIsSref == old(rankIsSref) &&
                      fourAw == old(fourAw) && thirtyTwoAw == old(thirtyTwoAw) && alertN == old(alertN) &&
                      lastAlertClk == old(lastAlertClk) && numActsAbo == old(numActsAbo)
    {
      ok := UpdateState(cmd, draw);
      mid := banks;
      if ok {
        UpdateTiming(cmd, clk);
      }
    }
  }

  /** `EraseFirst`: the erase loop of the `*Need*` methods. */
  method EraseFirst(q: seq<Command>, key: Key) returns (r: seq<Command>)
    ensures r == Erased(q, key)
  {
    var i := 0;
    while i < |q|
      invariant 0 <= i <= |q|
      invariant FirstMatch(q, key, 0) == FirstMatch(q, key, i)
    {
      if Matches(q[i], key) {
        return q[..i] + q[i + 1..];
      }
      i := i + 1;
    }
    return q;
  }
}

=== FILE: ds3_configuration.dfy ===
/**
 * DRAMsim3's configuration arithmetic (`Config`): the protocol and policy
 * names, the bankgroup and burst derivations of `InitDRAMParams`, the rank
 * count of `CalculateSize`, the address-mapping string of
 * `SetAddressMapping` and the field decoder `AddressMapping`.
 *
 * The INI file is not read here: the values the reader would return are the
 * parameters. Counts are taken as non-negative. `LogBase2` is the floor of
 * the base-2 logarithm with `LogBase2(0) == 0`. Calling into `AbruptExit`
 * is an `Err` result.
 */
module Ds3Config {
  import opened Bits
  import opened BitCount
  import opened Wrappers

  /* ---------------- names ---------------- */

  datatype DRAMProtocol = DDR3 | DDR4 | DDR5 | GDDR5 | GDDR5X | GDDR6 | LPDDR | LPDDR3 | LPDDR4 | HBM | HBM2 | HMC

  /** The name each protocol has in `protocol_pairs`. */
  function ProtocolName(p: DRAMProtocol): string
  {
    match p
    case DDR3 => "DDR3"
    case DDR4 => "DDR4"
    case DDR5 => "DDR5"
    case GDDR5 => "GDDR5"
    case GDDR5X => "GDDR5X"
    case GDDR6 => "GDDR6"
    case LPDDR => "LPDDR"
    case LPDDR3 => "LPDDR3"
    case LPDDR4 => "LPDDR4"
    case HBM => "HBM"
    case HBM2 => "HBM2"
    case HMC => "HMC"
  }

  /** `GetDRAMProtocol`: the protocol of a listed name; any other name aborts. */
  function GetDRAMProtocol(s: string): (r: Option<DRAMProtocol>)
    ensures r.Some? ==> ProtocolName(r.value) == s
  {
    if s == "DDR3" then Some(DDR3)
    else if s == "DDR4" then Some(DDR4)
    else if s == "DDR5" then Some(DDR5)
    else if s == "GDDR5" then Some(GDDR5)
    else if s == "GDDR5X" then Some(GDDR5X)
    else if s == "GDDR6" then Some(GDDR6)
    else if s == "LPDDR" then Some(LPDDR)
    else if s == "LPDDR3" then Some(LPDDR3)
    else if s == "LPDDR4" then Some(LPDDR4)
    else if s == "HBM" then Some(HBM)
    else if s == "HBM2" then Some(HBM2)
    else if s == "HMC" then Some(HMC)
    else None
  }

  /** Every protocol is found under its own name, so the lookup fails exactly on unlisted names. */
  lemma {:induction false} ProtocolNamesResolve(p: DRAMProtocol)
    ensures GetDRAMProtocol(ProtocolName(p)) == Some(p)
  {
  }

  datatype RowBufPolicy = OPEN_PAGE | CLOSE_PAGE | SOFT_CLOSE_PAGE

  function RowBufPolicyName(p: RowBufPolicy): string
  {
    match p
    case OPEN_PAGE => "OPEN_PAGE"
    case CLOSE_PAGE => "CLOSE_PAGE"
    case SOFT_CLOSE_PAGE => "SOFT_CLOSE_PAGE"
  }

  /** The `row_buf_policy` chain of `InitSystemParams`; any other string aborts. */
  function GetRowBufPolicy(s: string): (r: Option<RowBufPolicy>)
    ensures r.Some? ==> RowBufPolicyName(r.value) == s
  {
    if s == "OPEN_PAGE" then Some(OPEN_PAGE)
    else if s == "CLOSE_PAGE" then Some(CLOSE_PAGE)
    else if s == "SOFT_CLOSE_PAGE" then Some(SOFT_CLOSE_PAGE)
    else None
  }

  lemma {:induction false} RowBufPolicyNamesResolve(p: RowBufPolicy)
    ensures GetRowBufPolicy(RowBufPolicyName(p)) == Some(p)
  {
  }

  datatype RefreshPolicy = RANK_LEVEL_SIMULTANEOUS | RANK_LEVEL_STAGGERED | BANKSET_LEVEL_STAGGERED
                         | BANK_LEVEL_STAGGERED | NO_REFRESH

  function RefreshPolicyName(p: RefreshPolicy): string
  {
    match p
    case RANK_LEVEL_SIMULTANEOUS => "RANK_LEVEL_SIMULTANEOUS"
    case RANK_LEVEL_STAGGERED => "RANK_LEVEL_STAGGERED"
    case BANKSET_LEVEL_STAGGERED => "BANKSET_LEVEL_STAGGERED"
    case BANK_LEVEL_STAGGERED => "BANK_LEVEL_STAGGERED"
    case NO_REFRESH => "NO_REFRESH"
  }

  /** The `refresh_policy` chain of `InitSystemParams`; any other string aborts. */
  function GetRefreshPolicy(s: string): (r: Option<RefreshPolicy>)
    ensures r.Some? ==> RefreshPolicyName(r.value) == s
  {
    if s == "RANK_LEVEL_SIMULTANEOUS" then Some(RANK_LEVEL_SIMULTANEOUS)
    else if s == "RANK_LEVEL_STAGGERED" then Some(RANK_LEVEL_STAGGERED)
    else if s == "BANKSET_LEVEL_STAGGERED" then Some(BANKSET_LEVEL_STAGGERED)
    else if s == "BANK_LEVEL_STAGGERED" then Some(BANK_LEVEL_STAGGERED)
    else if s == "NO_REFRESH" then Some(NO_REFRESH)
    else None
  }

  lemma {:induction false} RefreshPolicyNamesResolve(p: RefreshPolicy)
    ensures GetRefreshPolicy(RefreshPolicyName(p)) == Some(p)
  {
  }

  /** The protocol families the configuration asks about. */
  predicate IsGDDR(p: DRAMProtocol) { p == GDDR5 || p == GDDR5X || p == GDDR6 }
  predicate IsHBM(p: DRAMProtocol) { p == HBM || p == HBM2 }
  predicate IsHMC(p: DRAMProtocol) { p == HMC }

  /* ---------------- InitDRAMParams ---------------- */

  /** What the reader returns for `[dram_structure]` and `[hmc] block_size`. */
  datatype DramStructure = DramStructure(protocol: string, bankgroups: nat, banksPerGroup: nat,
                                         bankgroupEnable: bool, rows: nat, columns: nat, deviceWidth: nat,
                                         BL: nat, hbmDualCmd: bool, blockSize: nat)

  /** The structure fields `InitDRAMParams` leaves in `Config`. */
  datatype DramParams = DramParams(protocol: DRAMProtocol, bankgroups: nat, banksPerGroup: nat, banks: nat,
                                   rows: nat, columns: nat, deviceWidth: nat, BL: nat, burstCycle: nat,
                                   hbmDualCmd: bool)

  /** The `BL` a data-rate family divides by to get `burst_cycle`. */
  function BurstDivisor(p: DRAMProtocol): nat
  {
    if p == GDDR5 then 4 else if p == GDDR5X then 8 else if p == GDDR6 then 16 else 2
  }

  /**
   * `InitDRAMParams`: bankgroups fold into one when disabled; HMC derives
   * `BL` from the block size; `burst_cycle` is `BL` over the family's
   * divisor, and a `BL` of 0 (perfect bandwidth) keeps burst 0 but resets
   * `BL`; GDDR columns count `BL` transfers and HBM columns two.
   */
  function InitDRAMParams(d: DramStructure): (r: Result<DramParams, string>)
    requires NamesHMC(d.protocol) ==> d.deviceWidth > 0
    ensures r.Ok? <==> GetDRAMProtocol(d.protocol).Some?
  {
    match GetDRAMProtocol(d.protocol)
    case None => Err(d.protocol)
    case Some(p) =>
      var bankgroups := if d.bankgroupEnable then d.bankgroups else 1;
      var banksPerGroup := if d.bankgroupEnable then d.banksPerGroup else d.banksPerGroup * d.bankgroups;
      var bl0 := if IsHMC(p) then d.blockSize * 8 / d.deviceWidth else d.BL;
      var burst := if bl0 == 0 then 0 else bl0 / BurstDivisor(p);
      var bl := if bl0 != 0 then bl0 else if !IsGDDR(p) && IsHBM(p) then 4 else 8;
      var columns := if IsGDDR(p) then d.columns * bl else if IsHBM(p) then d.columns * 2 else d.columns;
      Ok(DramParams(p, bankgroups, banksPerGroup, bankgroups * banksPerGroup, d.rows, columns,
                    d.deviceWidth, bl, burst, d.hbmDualCmd && IsHBM(p)))
  }

  /** The name under which the HMC branch divides by `device_width`. */
  predicate NamesHMC(s: string) { s == "HMC" }

  /**
   * Folding bankgroups keeps the bank count: `banks` is the configured
   * groups times banks per group either way, and a disabled feature leaves
   * a single group.
   */
  lemma {:induction false} BankgroupFoldKeepsBanks(d: DramStructure)
    requires NamesHMC(d.protocol) ==> d.deviceWidth > 0
    requires InitDRAMParams(d).Ok?
    ensures var r := InitDRAMParams(d).value;
      r.banks == d.bankgroups * d.banksPerGroup && r.banks == r.bankgroups * r.banksPerGroup &&
      (!d.bankgroupEnable ==> r.bankgroups == 1) &&
      (d.bankgroupEnable ==> r.bankgroups == d.bankgroups && r.banksPerGroup == d.banksPerGroup)
  {
    var r := InitDRAMParams(d).value;
    if !d.bankgroupEnable {
      assert r.banksPerGroup == d.banksPerGroup * d.bankgroups;
    }
  }

  /**
   * The burst length of a non-HMC device: `burst_cycle` is `BL` divided by
   * 4, 8, 16 or 2 (GDDR5, GDDR5X, GDDR6, the rest) when `BL` is set; a `BL`
   * of 0 gives burst 0 and becomes 8, or 4 on HBM.
   */
  lemma {:induction false} BurstCycleOfBL(d: DramStructure)
    requires !NamesHMC(d.protocol) && InitDRAMParams(d).Ok?
    ensures var r := InitDRAMParams(d).value;
      (d.BL > 0 ==> r.BL == d.BL && r.burstCycle * BurstDivisor(r.protocol) <= d.BL < (r.burstCycle + 1) * BurstDivisor(r.protocol)) &&
      (d.BL == 0 ==> r.burstCycle == 0 && r.BL == if IsHBM(r.protocol) then 4 else 8)
  {
    var r := InitDRAMParams(d).value;
    assert r.protocol != HMC;
    if d.BL > 0 {
      var k := BurstDivisor(r.protocol);
      assert r.burstCycle == d.BL / k;
    }
  }

  /* ---------------- CalculateSize ---------------- */

  /** `megs_per_rank`: page bytes times rows (in units of 1024) per bank, over all banks and devices. */
  function MegsPerRank(busWidth: nat, deviceWidth: nat, columns: nat, rows: nat, banks: nat): nat
    requires deviceWidth > 0
  {
    var devicesPerRank: nat := busWidth / deviceWidth;
    var pageBits: nat := columns * deviceWidth;
    var pageSize: nat := pageBits / 8;
    var megsPerBank: nat := pageSize * (rows / 1024) / 1024;
    var bankMegs: nat := megsPerBank * banks;
    bankMegs * devicesPerRank
  }

  /** The ranks and channel size `CalculateSize` settles on. */
  datatype Sizing = Sizing(devicesPerRank: nat, ranks: nat, channelSize: nat)

  /**
   * `CalculateSize`: as many whole ranks as fit in the requested channel
   * size, which is rounded down to them; a request smaller than one rank
   * gets one rank and the channel size of one rank.
   */
  function CalculateSize(busWidth: nat, deviceWidth: nat, columns: nat, rows: nat, banks: nat, channelSize: nat): (s: Sizing)
    requires deviceWidth > 0 && MegsPerRank(busWidth, deviceWidth, columns, rows, banks) > 0
    ensures var m := MegsPerRank(busWidth, deviceWidth, columns, rows, banks);
      s.ranks >= 1 && s.channelSize == s.ranks * m &&
      (m > channelSize ==> s.ranks == 1) &&
      (m <= channelSize ==> s.channelSize <= channelSize < s.channelSize + m)
  {
    var m := MegsPerRank(busWidth, deviceWidth, columns, rows, banks);
    var d := busWidth / deviceWidth;
    if m > channelSize then Sizing(d, 1, m)
    else
      var ranks := channelSize / m;
      assert ranks >= 1 by { DivModUnique(channelSize, m, channelSize / m, channelSize % m); }
      Sizing(d, ranks, ranks * m)
  }

  /* ---------------- SetAddressMapping ---------------- */

  /** `LogBase2`: the floor of the base-2 logarithm, 0 for 0 and 1. */
  function LogBase2(x: nat): (r: nat)
    ensures x >= 1 ==> r == Log2(x)
  {
    if x <= 1 then 0 else LogBase2(x / 2) + 1
  }

  /** The counts `SetAddressMapping` reads from `Config`. */
  datatype Geometry = Geometry(busWidth: nat, BL: nat, channels: nat, ranks: nat, bankgroups: nat,
                               banksPerGroup: nat, rows: nat, columns: nat, mopSize: nat)

  /** `request_size_bytes`: the bytes one burst moves, `bus_width / 8 * BL`. */
  function RequestBytes(g: Geometry): nat
  {
    var perBeat: nat := g.busWidth / 8;
    MulNat(perBeat, g.BL)
  }

  function MulNat(a: nat, b: nat): nat
  {
    a * b
  }

  /** `actual_col_bits`: the column bits left once the burst's own bits are taken off. */
  function ColBits(g: Geometry): int
  {
    LogBase2(g.columns) - LogBase2(g.BL)
  }

  /** `field_widths`. */
  function FieldWidths(g: Geometry): map<string, int>
  {
    map["ch" := LogBase2(g.channels), "ra" := LogBase2(g.ranks), "bg" := LogBase2(g.bankgroups),
        "ba" := LogBase2(g.banksPerGroup), "ro" := LogBase2(g.rows), "co" := ColBits(g),
        "hi" := ColBits(g) - LogBase2(g.mopSize), "lo" := LogBase2(g.mopSize)]
  }

  /** The two-character tokens of the mapping string, left to right. */
  function Tokens(s: string): (t: seq<string>)
    requires |s| % 2 == 0
    ensures |t| == |s| / 2
    ensures forall k :: 0 <= k < |t| ==> t[k] == s[2 * k..2 * k + 2]
  {
    if s == [] then [] else [s[..2]] + Tokens(s[2..])
  }

  /** The sum of the widths of `fs`. */
  function Span(fs: seq<string>, widths: map<string, int>): int
    requires forall k :: 0 <= k < |fs| ==> fs[k] in widths
  {
    if fs == [] then 0 else widths[fs[0]] + Span(fs[1..], widths)
  }

  /**
   * The position loop of `SetAddressMapping`: tokens are popped from the
   * back; each gets the running position and adds its width to it. An
   * unknown token aborts, named in the error.
   */
  function Positions(fs: seq<string>, widths: map<string, int>, pos: int, acc: map<string, int>): (r: Result<map<string, int>, string>)
    ensures r.Ok? <==> forall k :: 0 <= k < |fs| ==> fs[k] in widths
    decreases |fs|
  {
    if fs == [] then Ok(acc)
    else
      var t := fs[|fs| - 1];
      if t !in widths then Err(t)
      else
        var r := Positions(fs[..|fs| - 1], widths, pos + widths[t], acc[t := pos]);
        assert forall k :: 0 <= k < |fs| - 1 ==> fs[..|fs| - 1][k] == fs[k];
        r
  }

  lemma {:induction false} SpanSnoc(fs: seq<string>, t: string, widths: map<string, int>)
    requires (forall k :: 0 <= k < |fs| ==> fs[k] in widths) && t in widths
    ensures Span(fs + [t], widths) == Span(fs, widths) + widths[t]
  {
    if fs != [] {
      assert (fs + [t])[1..] == fs[1..] + [t];
      SpanSnoc(fs[1..], t, widths);
    }
  }

  /** A key that is not among the tokens keeps the position it already had. */
  lemma {:induction false} PositionsKeep(fs: seq<string>, widths: map<string, int>, pos: int, acc: map<string, int>, u: string)
    requires forall k :: 0 <= k < |fs| ==> fs[k] in widths
    requires u in acc && u !in fs
    ensures var r := Positions(fs, widths, pos, acc).value;
      u in r && r[u] == acc[u]
    decreases |fs|
  {
    if fs != [] {
      var n := |fs| - 1;
      var t := fs[n];
      var front := fs[..n];
      assert forall k :: 0 <= k < n ==> front[k] == fs[k];
      assert u != t;
      PositionsKeep(front, widths, pos + widths[t], acc[t := pos], u);
    }
  }

  /** No token appears twice. */
  predicate Distinct(fs: seq<string>)
  {
    forall i, j :: 0 <= i < j < |fs| ==> fs[i] != fs[j]
  }

  /**
   * With distinct known tokens, each token's position is the running
   * position plus the widths of the tokens after it: the last token is at
   * the start and every earlier one begins where the next one ends.
   */
  lemma {:induction false} PositionIsSpan(fs: seq<string>, widths: map<string, int>, pos: int, acc: map<string, int>, k: nat)
    requires forall j :: 0 <= j < |fs| ==> fs[j] in widths
    requires Distinct(fs)
    requires k < |fs|
    ensures var r := Positions(fs, widths, pos, acc).value;
      fs[k] in r && r[fs[k]] == pos + Span(fs[k + 1..], widths)
    decreases |fs|
  {
    var n := |fs| - 1;
    var t := fs[n];
    var front := fs[..n];
    assert forall j :: 0 <= j < n ==> front[j] == fs[j];
    if k == n {
      assert t !in front by {
        forall j | 0 <= j < n
          ensures front[j] != t
        {
          assert fs[j] != fs[n];
        }
      }
      PositionsKeep(front, widths, pos + widths[t], acc[t := pos], t);
      assert fs[k + 1..] == [];
    } else {
      PositionIsSpan(front, widths, pos + widths[t], acc[t := pos], k);
      assert front[k + 1..] + [t] == fs[k + 1..];
      SpanSnoc(front[k + 1..], t, widths);
    }
  }

  /** The loop itself, popping `fields` until it is empty. */
  method FieldPositions(fields: seq<string>, widths: map<string, int>) returns (r: Result<map<string, int>, string>)
    ensures r == Positions(fields, widths, 0, map[])
  {
    var fs := fields;
    var pos := 0;
    var fieldPos: map<string, int> := map[];
    while fs != []
      invariant Positions(fs, widths, pos, fieldPos) == Positions(fields, widths, 0, map[])
      decreases |fs|
    {
      var token := fs[|fs| - 1];
      fs := fs[..|fs| - 1];
      if token !in widths {
        return Err(token);
      }
      fieldPos := fieldPos[token := pos];
      pos := pos + widths[token];
    }
    return Ok(fieldPos);
  }

  /** The decoder state `SetAddressMapping` leaves in `Config`; unused positions and masks stay 0. */
  datatype Mapping = Mapping(shiftBits: nat, mopEnabled: bool, mopSize: nat,
                             chPos: int, raPos: int, bgPos: int, baPos: int, roPos: int, coPos: int, hiPos: int, loPos: int,
                             chMask: nat, raMask: nat, bgMask: nat, baMask: nat, roMask: nat, coMask: nat, hiMask: nat, loMask: nat)

  datatype MapError = BadLength | UnrecognizedField(token: string) | MissingField(name: string)

  /** `(1 << width) - 1`. */
  function Mask(w: int): nat
    requires w >= 0
  {
    Pow2(w) - 1
  }

  /** Every width a mask is built from is non-negative, as `1 << width` needs. */
  predicate MaskableWidths(g: Geometry, mop: bool)
  {
    ColBits(g) >= 0 && (mop ==> ColBits(g) >= LogBase2(g.mopSize))
  }

  /** The masks of `m` are `2^width - 1` for the widths of geometry `g`. */
  predicate MasksFor(m: Mapping, g: Geometry)
  {
    m.mopSize == g.mopSize && ColBits(g) >= 0 &&
    m.chMask == Pow2(LogBase2(g.channels)) - 1 && m.raMask == Pow2(LogBase2(g.ranks)) - 1 &&
    m.bgMask == Pow2(LogBase2(g.bankgroups)) - 1 && m.baMask == Pow2(LogBase2(g.banksPerGroup)) - 1 &&
    m.roMask == Pow2(LogBase2(g.rows)) - 1 &&
    (!m.mopEnabled ==> m.coMask == Pow2(ColBits(g)) - 1) &&
    (m.mopEnabled ==>
       ColBits(g) >= LogBase2(g.mopSize) &&
       m.hiMask == Pow2(ColBits(g) - LogBase2(g.mopSize)) - 1 && m.loMask == Pow2(LogBase2(g.mopSize)) - 1)
  }

  /**
   * `SetAddressMapping`: the mapping string must have 6 or 7 two-character
   * fields, 7 meaning MOP; positions come from the position loop; the
   * fields the decoder needs must all be present (`field_pos.at`); masks
   * are `2^width - 1`.
   */
  function SetAddressMapping(g: Geometry, mapping: string): (r: Result<Mapping, MapError>)
    requires MaskableWidths(g, |mapping| == 14)
    ensures r.Ok? ==> |mapping| == 12 || |mapping| == 14
    ensures r.Ok? ==> r.value.mopEnabled == (|mapping| == 14)
    ensures r.Ok? ==> r.value.shiftBits == LogBase2(RequestBytes(g))
    ensures r.Ok? ==> MasksFor(r.value, g)
  {
    if |mapping| != 12 && |mapping| != 14 then Err(BadLength)
    else
      var mop := |mapping| == 14;
      var widths := FieldWidths(g);
      match Positions(Tokens(mapping), widths, 0, map[])
      case Err(t) => Err(UnrecognizedField(t))
      case Ok(pos) =>
        if "ch" !in pos then Err(MissingField("ch"))
        else if "ra" !in pos then Err(MissingField("ra"))
        else if "bg" !in pos then Err(MissingField("bg"))
        else if "ba" !in pos then Err(MissingField("ba"))
        else if "ro" !in pos then Err(MissingField("ro"))
        else if mop && "hi" !in pos then Err(MissingField("hi"))
        else if mop && "lo" !in pos then Err(MissingField("lo"))
        else if !mop && "co" !in pos then Err(MissingField("co"))
        else
          Ok(Mapping(LogBase2(RequestBytes(g)), mop, g.mopSize,
                     pos["ch"], pos["ra"], pos["bg"], pos["ba"], pos["ro"],
                     if mop then 0 else pos["co"], if mop then pos["hi"] else 0, if mop then pos["lo"] else 0,
                     Mask(LogBase2(g.channels)), Mask(LogBase2(g.ranks)), Mask(LogBase2(g.bankgroups)),
                     Mask(LogBase2(g.banksPerGroup)), Mask(LogBase2(g.rows)),
                     if mop then 0 else Mask(ColBits(g)),
                     if mop then Mask(ColBits(g) - LogBase2(g.mopSize)) else 0,
                     if mop then Mask(LogBase2(g.mopSize)) else 0))
  }

  /**
   * A well-formed six-field mapping such as `chrobabgraco` places the last
   * field at bit 0 and each earlier field where the next one ends.
   */
  lemma {:induction false} MappingPositions(g: Geometry, mapping: string)
    requires |mapping| == 12 && MaskableWidths(g, false)
    requires var fs := Tokens(mapping);
      (forall k :: 0 <= k < |fs| ==> fs[k] in FieldWidths(g)) &&
      Distinct(fs)
    requires SetAddressMapping(g, mapping).Ok?
    ensures var fs, m, w := Tokens(mapping), SetAddressMapping(g, mapping).value, FieldWidths(g);
      var pos := Positions(fs, w, 0, map[]).value;
      (forall k :: 0 <= k < |fs| ==> fs[k] in pos && pos[fs[k]] == Span(fs[k + 1..], w)) &&
      m.chPos == pos["ch"] && m.raPos == pos["ra"] && m.bgPos == pos["bg"] && m.baPos == pos["ba"] &&
      m.roPos == pos["ro"] && m.coPos == pos["co"]
  {
    var fs, w := Tokens(mapping), FieldWidths(g);
    forall k | 0 <= k < |fs|
      ensures var pos := Positions(fs, w, 0, map[]).value; fs[k] in pos && pos[fs[k]] == Span(fs[k + 1..], w)
    {
      PositionIsSpan(fs, w, 0, map[], k);
    }
  }

  /** Mappings with the wrong length abort, as do unknown tokens. */
  lemma {:induction false} BadMappingsAbort(g: Geometry, mapping: string)
    requires MaskableWidths(g, |mapping| == 14)
    ensures |mapping| != 12 && |mapping| != 14 ==> SetAddressMapping(g, mapping) == Err(BadLength)
    ensures (|mapping| == 12 || |mapping| == 14) &&
            (exists k :: 0 <= k < |mapping| / 2 && mapping[2 * k..2 * k + 2] !in FieldWidths(g)) ==>
            SetAddressMapping(g, mapping).Err? && SetAddressMapping(g, mapping).error.UnrecognizedField?
  {
    if (|mapping| == 12 || |mapping| == 14) && (exists k :: 0 <= k < |mapping| / 2 && mapping[2 * k..2 * k + 2] !in FieldWidths(g)) {
      var k :| 0 <= k < |mapping| / 2 && mapping[2 * k..2 * k + 2] !in FieldWidths(g);
      assert Tokens(mapping)[k] !in FieldWidths(g);
    }
  }

  /* ---------------- AddressMapping ---------------- */

  datatype Address = Address(channel: nat, rank: nat, bankgroup: nat, bank: nat, row: nat, column: nat)

  /** Every position the decoder shifts by is non-negative. */
  predicate Decodable(m: Mapping)
  {
    m.chPos >= 0 && m.raPos >= 0 && m.bgPos >= 0 && m.baPos >= 0 && m.roPos >= 0 &&
    m.coPos >= 0 && m.hiPos >= 0 && m.loPos >= 0
  }

  /** One field: `(addr >> pos) & mask`. */
  function Field(h: nat, pos: int, mask: nat): nat
    requires pos >= 0
  {
    And(Shr(h, pos), mask)
  }

  /**
   * `AddressMapping`: drop the request's own bits, then take each field;
   * with MOP the column is the high part shifted over the low part.
   */
  function AddressMapping(m: Mapping, addr: nat): Address
    requires Decodable(m)
  {
    var h := Shr(addr, m.shiftBits);
    var co := if m.mopEnabled
      then Or(Shl(Field(h, m.hiPos, m.hiMask), LogBase2(m.mopSize)), Field(h, m.loPos, m.loMask))
      else Field(h, m.coPos, m.coMask);
    Address(Field(h, m.chPos, m.chMask), Field(h, m.raPos, m.raMask), Field(h, m.bgPos, m.bgMask),
            Field(h, m.baPos, m.baMask), Field(h, m.roPos, m.roMask), co)
  }

  /** A field read through a `2^w - 1` mask is the shifted address modulo `2^w`, so it is below `2^w`. */
  lemma {:induction false} FieldBelowWidth(h: nat, pos: nat, w: nat)
    ensures Field(h, pos, Pow2(w) - 1) == Shr(h, pos) % Pow2(w) < Pow2(w)
  {
    AndLowMask(Shr(h, pos), w);
  }

  /** With MOP the column is the high part times the MOP size plus the low part, below `2^col_bits`. */
  lemma {:induction false} MopColumnFits(h: nat, m: Mapping, colBits: nat, l: nat)
    requires Decodable(m) && l <= colBits
    requires m.hiMask == Pow2(colBits - l) - 1 && m.loMask == Pow2(l) - 1
    ensures var hi, lo := Field(h, m.hiPos, m.hiMask), Field(h, m.loPos, m.loMask);
      Or(Shl(hi, l), lo) == hi * Pow2(l) + lo && lo < Pow2(l) && hi * Pow2(l) + lo < Pow2(colBits)
  {
    var hiW: nat := colBits - l;
    FieldBelowWidth(h, m.hiPos, hiW);
    FieldBelowWidth(h, m.loPos, l);
    var hi, lo := Field(h, m.hiPos, m.hiMask), Field(h, m.loPos, m.loMask);
    OrDisjoint(hi, lo, l);
    PackBelow(hi, lo, hiW, l);
  }

  /** Placing a value below `2^a` over one below `2^b` gives a value below `2^(a+b)`. */
  lemma {:induction false} PackBelow(hi: nat, lo: nat, a: nat, b: nat)
    requires hi < Pow2(a) && lo < Pow2(b)
    ensures hi * Pow2(b) + lo < Pow2(a + b)
  {
    var pb := Pow2(b);
    var top: nat := Pow2(a) - 1;
    MulLe(hi, top, pb);
    assert top * pb + pb == Pow2(a) * pb;
    Pow2Add(a, b);
  }

  /** The channel, rank, bank group, bank and row fields are below two to the power of their widths. */
  lemma {:induction false} BankFieldsFit(g: Geometry, m: Mapping, h: nat)
    requires Decodable(m) && MasksFor(m, g)
    ensures Field(h, m.chPos, m.chMask) < Pow2(LogBase2(g.channels))
    ensures Field(h, m.raPos, m.raMask) < Pow2(LogBase2(g.ranks))
    ensures Field(h, m.bgPos, m.bgMask) < Pow2(LogBase2(g.bankgroups))
    ensures Field(h, m.baPos, m.baMask) < Pow2(LogBase2(g.banksPerGroup))
    ensures Field(h, m.roPos, m.roMask) < Pow2(LogBase2(g.rows))
  {
    FieldBelowWidth(h, m.chPos, LogBase2(g.channels));
    FieldBelowWidth(h, m.raPos, LogBase2(g.ranks));
    FieldBelowWidth(h, m.bgPos, LogBase2(g.bankgroups));
    FieldBelowWidth(h, m.baPos, LogBase2(g.banksPerGroup));
    FieldBelowWidth(h, m.roPos, LogBase2(g.rows));
  }

  /**
   * Every field decoded with masks of the widths of `g` (as
   * `SetAddressMapping` builds them) is below two to the power of its
   * width; with MOP the column is the high part times the MOP size plus
   * the low part.
   */
  lemma {:induction false} DecodedFieldsFit(g: Geometry, m: Mapping, addr: nat)
    requires Decodable(m) && MasksFor(m, g)
    ensures var a := AddressMapping(m, addr);
      a.channel < Pow2(LogBase2(g.channels)) && a.rank < Pow2(LogBase2(g.ranks)) &&
      a.bankgroup < Pow2(LogBase2(g.bankgroups)) && a.bank < Pow2(LogBase2(g.banksPerGroup)) &&
      a.row < Pow2(LogBase2(g.rows)) && a.column < Pow2(ColBits(g)) &&
      (m.mopEnabled ==>
        var h := Shr(addr, m.shiftBits);
        var lo := Field(h, m.loPos, m.loMask);
        a.column == Field(h, m.hiPos, m.hiMask) * Pow2(LogBase2(g.mopSize)) + lo &&
        lo < Pow2(LogBase2(g.mopSize)))
  {
    var h := Shr(addr, m.shiftBits);
    BankFieldsFit(g, m, h);
    if m.mopEnabled {
      MopColumnFits(h, m, ColBits(g), LogBase2(g.mopSize));
    } else {
      FieldBelowWidth(h, m.coPos, ColBits(g));
    }
  }
}

=== FILE: make_conf.dfy ===
/**
 * The refresh-window sweep script: for each refresh window it computes the
 * refresh interval in DRAM cycles and runs the INI generator with
 * `-tREFI` and a refresh-policy override. The shell command is modelled
 * as its text and the argument vector the shell hands the generator.
 */
module MakeConf {
  import opened Wrappers
  import opened Decimal
  import opened Bits
  import MakeIni

  /** A refresh window: the `'NONE'` entry or a window of `ms` milliseconds. */
  datatype Window = NoRefresh | Ms(ms: nat)

  /** The sweep, in the script's order. */
  const WINDOWS: seq<Window> := [NoRefresh, Ms(8), Ms(16), Ms(32), Ms(64), Ms(128)]

  /** The interval the `'NONE'` entry passes, in cycles. */
  const NO_REFRESH_TREFI: nat := 18720

  /** The refresh-policy flag as the script spells it, and the spelling the generator reads. */
  const POLICY_FLAG_AS_WRITTEN: string := "-refresh-policy"
  const POLICY_FLAG: string := "-refresh_policy"

  // ---------------------------------------------------------------------
  // Cycle conversion

  /**
   * Python's `round` of the exact quotient `a / b`: the nearest integer,
   * ties to the even one.
   */
  function RoundHalfEven(a: nat, b: nat): (r: nat)
    requires b > 0
    ensures 2 * (r * b - a) <= b && 2 * (a - r * b) <= b
    ensures 2 * (r * b - a) == b || 2 * (a - r * b) == b ==> r % 2 == 0
  {
    var q, m := a / b, a % b;
    assert a == q * b + m;
    if 2 * m < b then q
    else if 2 * m > b then q + 1
    else if q % 2 == 0 then q
    else q + 1
  }

  /**
   * `cyc(x)`: nanoseconds `num / den` to cycles of tCK = 0.416 ns, that is
   * `round(num * 1000 / (den * 416))`.
   */
  function Cyc(num: nat, den: nat): (r: nat)
    requires den > 0
    ensures 2 * (r * den * 416 - num * 1000) <= den * 416
    ensures 2 * (num * 1000 - r * den * 416) <= den * 416
  {
    RoundHalfEven(num * 1000, den * 416)
  }

  /** The refresh interval: the window split into 8192 refreshes, in cycles. */
  function TREFI(w: Window): nat
  {
    match w
    case NoRefresh => NO_REFRESH_TREFI
    case Ms(ms) => Cyc(ms * 1000000, 8 * 1024)
  }

  function Policy(w: Window): string
  {
    if w.NoRefresh? then "NO_REFRESH" else "RANK_LEVEL_STAGGERED"
  }

  /** The window as the f-string prints it. */
  function Label(w: Window): string
  {
    match w
    case NoRefresh => "NONE"
    case Ms(ms) => NatToString(ms)
  }

  function ConfPath(w: Window): string
  {
    "ref/DDR5_32GB_x4_r" + Label(w) + ".ini"
  }

  /** The generator's `sys.argv` for window `w`, with `flag` naming the policy override. */
  function ConfArgv(w: Window, flag: string): seq<string>
  {
    ["make_ini.py", ConfPath(w), "-tREFI", NatToString(TREFI(w)), flag, Policy(w)]
  }

  /** The command line handed to `os.system`: the f-string's words separated by single spaces. */
  function Command(w: Window, flag: string): string
  {
    Join(["python", "make_ini.py", ConfPath(w), "-tREFI", NatToString(TREFI(w)), flag, Policy(w)])
  }

  /** The sweep loop, one command per window. */
  method MakeConf() returns (commands: seq<string>)
    ensures |commands| == |WINDOWS|
    ensures forall i :: 0 <= i < |WINDOWS| ==> commands[i] == Command(WINDOWS[i], POLICY_FLAG)
  {
    commands := Sweep(WINDOWS);
  }

  /** The loop body run over the windows `ws` in order. */
  method Sweep(ws: seq<Window>) returns (commands: seq<string>)
    ensures |commands| == |ws|
    ensures forall i :: 0 <= i < |ws| ==> commands[i] == Command(ws[i], POLICY_FLAG)
  {
    commands := [];
    var i := 0;
    while i < |ws|
      invariant 0 <= i <= |ws| && |commands| == i
      invariant forall k :: 0 <= k < i ==> commands[k] == Command(ws[k], POLICY_FLAG)
    {
      var w := ws[i];
      var tREFI, policy;
      if w.NoRefresh? {
        policy := "NO_REFRESH";
        tREFI := NO_REFRESH_TREFI;
      } else {
        tREFI := Cyc(w.ms * 1000000, 8 * 1024);
        policy := "RANK_LEVEL_STAGGERED";
      }
      var command := Join(["python", "make_ini.py", ConfPath(w), "-tREFI", NatToString(tREFI), POLICY_FLAG, policy]);
      commands := commands + [command];
      i := i + 1;
    }
  }

  // ---------------------------------------------------------------------
  // Properties of the cycle conversion

  lemma {:induction false} MulCancel(k: int, b: nat)
    requires b > 0 && -2 * b < k * b < 2 * b
    ensures -1 <= k <= 1
  {
  }

  /** Doubling the window doubles the interval, up to one cycle of rounding. */
  lemma {:induction false} DoubleWindow(ms: nat)
    ensures -1 <= TREFI(Ms(2 * ms)) - 2 * TREFI(Ms(ms)) <= 1
  {
    var b := 8 * 1024 * 416;
    var r1, r2 := TREFI(Ms(ms)), TREFI(Ms(2 * ms));
    var a := ms * 1000000 * 1000;
    assert 2 * (r1 * b - a) <= b && 2 * (a - r1 * b) <= b;
    assert (2 * ms) * 1000000 * 1000 == 2 * a;
    assert 2 * (r2 * b - 2 * a) <= b && 2 * (2 * a - r2 * b) <= b;
    assert (r2 - 2 * r1) * b == (r2 * b - 2 * a) + 2 * (a - r1 * b);
    MulCancel(r2 - 2 * r1, b);
  }

  lemma {:induction false} RoundOf(a: nat, b: nat, q: nat, m: nat)
    requires 0 < b && m < b && a == q * b + m && 2 * m != b
    ensures RoundHalfEven(a, b) == if 2 * m < b then q else q + 1
  {
    DivModUnique(a, b, q, m);
  }

  /** Rounding to the nearest integer keeps the order of the quotients. */
  lemma {:induction false} RoundMonotone(a1: nat, a2: nat, b: nat)
    requires b > 0 && a1 <= a2
    ensures RoundHalfEven(a1, b) <= RoundHalfEven(a2, b)
  {
    var r1, r2 := RoundHalfEven(a1, b), RoundHalfEven(a2, b);
    if a1 < a2 && r2 < r1 {
      MulStep(r2, r1, b);
    }
  }

  lemma {:induction false} MulStep(x: nat, y: nat, b: nat)
    requires x < y
    ensures x * b + b <= y * b
  {
    MulLe(x + 1, y, b);
  }

  /** A longer refresh window never gives a shorter refresh interval. */
  lemma {:induction false} TREFIMonotone(m: nat, n: nat)
    requires m <= n
    ensures TREFI(Ms(m)) <= TREFI(Ms(n))
  {
    RoundMonotone(m * 1000000 * 1000, n * 1000000 * 1000, 8 * 1024 * 416);
  }

  /** The intervals the sweep computes. */
  lemma {:induction false} SweepIntervals()
    ensures TREFI(Ms(8)) == 2348 && TREFI(Ms(16)) == 4695 && TREFI(Ms(32)) == 9390
    ensures TREFI(Ms(64)) == 18780 && TREFI(Ms(128)) == 37560
  {
    var b := 8 * 1024 * 416;
    assert b == 3407872;
    RoundOf(8000000000, b, 2347, 1724416);
    RoundOf(16000000000, b, 4695, 40960);
    RoundOf(32000000000, b, 9390, 81920);
    RoundOf(64000000000, b, 18780, 163840);
    RoundOf(128000000000, b, 37560, 327680);
  }

  // ---------------------------------------------------------------------
  // From the command line to the generator's argv

  /** Index of the first space, or the length when there is none. */
  function SpaceIndex(s: string): (i: nat)
    ensures i <= |s| && (i < |s| ==> s[i] == ' ')
    ensures forall j :: 0 <= j < i ==> s[j] != ' '
  {
    if s == [] || s[0] == ' ' then 0 else 1 + SpaceIndex(s[1..])
  }

  /** The shell's word split of a command with single spaces and no quoting. */
  function Words(s: string): seq<string>
    decreases |s|
  {
    var i := SpaceIndex(s);
    if i == |s| then [s] else [s[..i]] + Words(s[i + 1..])
  }

  function Join(ws: seq<string>): string
    requires |ws| > 0
  {
    if |ws| == 1 then ws[0] else ws[0] + " " + Join(ws[1..])
  }

  predicate IsWord(w: string)
  {
    forall i :: 0 <= i < |w| ==> w[i] != ' '
  }

  /** The first space after a word is the one that follows it. */
  lemma {:induction false} FirstSpace(w: string, rest: string)
    requires IsWord(w)
    ensures SpaceIndex(w + " " + rest) == |w|
  {
    var s := w + " " + rest;
    assert s[|w|] == ' ';
    assert forall j :: 0 <= j < |w| ==> s[j] == w[j];
  }

  /** Splitting joined words gives the words back. */
  lemma {:induction false} WordsOfJoin(ws: seq<string>)
    requires |ws| > 0 && forall i :: 0 <= i < |ws| ==> IsWord(ws[i])
    ensures Words(Join(ws)) == ws
  {
    if |ws| > 1 {
      var w, rest := ws[0], Join(ws[1..]);
      var s := w + " " + rest;
      assert Join(ws) == s;
      FirstSpace(w, rest);
      assert s[..|w|] == w && s[|w| + 1..] == rest;
      WordsOfJoin(ws[1..]);
      assert ws == [w] + ws[1..];
    }
  }

  lemma {:induction false} NumeralIsWord(n: nat)
    ensures IsWord(NatToString(n))
  {
    var s := NatToString(n);
    assert forall i :: 0 <= i < |s| ==> IsDigit(s[i]);
  }

  lemma {:induction false} PathIsWord(w: Window)
    ensures IsWord(ConfPath(w))
  {
    NumeralIsWord(if w.Ms? then w.ms else 0);
    var p := ConfPath(w);
    var l := Label(w);
    assert forall i :: 0 <= i < |l| ==> p[18 + i] == l[i];
  }

  /** The shell hands the interpreter `python` and then exactly the generator's argv. */
  lemma {:induction false} CommandWords(w: Window, flag: string)
    requires |flag| > 0 && IsWord(flag)
    ensures Words(Command(w, flag)) == ["python"] + ConfArgv(w, flag)
  {
    var ws := ["python"] + ConfArgv(w, flag);
    PathIsWord(w);
    NumeralIsWord(TREFI(w));
    assert forall i :: 0 <= i < |ws| ==> IsWord(ws[i]);
    WordsOfJoin(ws);
  }

  /** Different windows write different files. */
  lemma {:induction false} PathsDistinct(v: Window, w: Window)
    ensures ConfPath(v) == ConfPath(w) <==> v == w
  {
    if ConfPath(v) == ConfPath(w) {
      var pv, pw := ConfPath(v), ConfPath(w);
      assert Label(v) == pv[18..|pv| - 4];
      assert Label(w) == pw[18..|pw| - 4];
      if v.Ms? && w.Ms? {
        NatToStringInjective(v.ms, w.ms);
      }
    }
  }

  // ---------------------------------------------------------------------
  // What the generator writes for each command

  lemma {:induction false} PolicyIsText(w: Window)
    ensures MakeIni.PyValue(Policy(w)) == MakeIni.Str(Policy(w))
  {
    MakeIni.WordStaysText(Policy(w));
  }

  /** The catalog the generator ends its scan with for window `w`. */
  function ConfParams(w: Window, flag: string): MakeIni.Params
    requires |flag| > 0
  {
    MakeIni.DEFAULT_PARAMS["tREFI" := MakeIni.Int(TREFI(w))][flag[1..] := MakeIni.Str(Policy(w))]
  }

  /** The lines the generator writes before the fixed block for window `w`. */
  function ConfLines(w: Window, flag: string): seq<string>
    requires |flag| > 0
  {
    MakeIni.Writes(MakeIni.SECTIONS, ConfParams(w, flag)).0
  }

  lemma {:induction false} ScanOfConf(w: Window, flag: string)
    requires |flag| > 0 && flag[0] == '-'
    ensures MakeIni.ScanArgs(ConfArgv(w, flag)[2..], MakeIni.DEFAULT_PARAMS, []) == MakeIni.Scanned(ConfParams(w, flag), [])
  {
    var n := NatToString(TREFI(w));
    var key := flag[1..];
    var args := ["-" + "tREFI", n, "-" + key, Policy(w)];
    assert "-" + "tREFI" == "-tREFI";
    assert "-" + key == flag;
    assert args == ConfArgv(w, flag)[2..];
    MakeIni.ScanTwoOverrides("tREFI", n, key, Policy(w), MakeIni.DEFAULT_PARAMS);
    MakeIni.PyIntOfPrinted(TREFI(w));
    assert IntToString(TREFI(w)) == n;
    PolicyIsText(w);
  }

  /**
   * The generator completes for every window: it writes the 58 section
   * lines and the fixed block to the window's file, with the interval on
   * line 32 and whatever the catalog holds for `refresh_policy` on line 16.
   */
  lemma {:induction false} RunOfConf(w: Window, flag: string)
    requires |flag| > 0 && flag[0] == '-' && flag[1..] != "tREFI"
    ensures "refresh_policy" in ConfParams(w, flag)
    ensures MakeIni.Run(ConfArgv(w, flag))
      == MakeIni.Outcome([], Some((ConfPath(w), MakeIni.Unlines(ConfLines(w, flag)) + MakeIni.FIXED_TAIL)), MakeIni.Completed)
    ensures |ConfLines(w, flag)| == 58
    ensures ConfLines(w, flag)[16] == MakeIni.KeyLine("refresh_policy", ConfParams(w, flag)["refresh_policy"])
    ensures ConfLines(w, flag)[32] == MakeIni.KeyLine("tREFI", MakeIni.Int(TREFI(w)))
  {
    var argv := ConfArgv(w, flag);
    var p := ConfParams(w, flag);
    ScanOfConf(w, flag);
    assert argv[2..] == ConfArgv(w, flag)[2..];
    MakeIni.ScanKeepsListed(argv[2..]);
    MakeIni.RefreshLines(p);
    assert p["tREFI"] == MakeIni.Int(TREFI(w));
  }

  /**
   * As written, the policy flag names the key `refresh-policy`, which no
   * section lists: every file keeps the default policy.
   */
  lemma {:induction false} PolicyDroppedAsWritten(w: Window)
    ensures |ConfLines(w, POLICY_FLAG_AS_WRITTEN)| == 58
    ensures ConfLines(w, POLICY_FLAG_AS_WRITTEN)[16] == MakeIni.KeyLine("refresh_policy", MakeIni.Str("RANK_LEVEL_STAGGERED"))
    ensures ConfLines(w, POLICY_FLAG_AS_WRITTEN)[32] == MakeIni.KeyLine("tREFI", MakeIni.Int(TREFI(w)))
  {
    assert POLICY_FLAG_AS_WRITTEN[1..] == "refresh-policy";
    RunOfConf(w, POLICY_FLAG_AS_WRITTEN);
    AsWrittenKeepsDefaultPolicy(w);
  }

  /** The misspelt key is a new catalog entry; `refresh_policy` keeps its default. */
  lemma {:induction false} AsWrittenKeepsDefaultPolicy(w: Window)
    ensures ConfParams(w, POLICY_FLAG_AS_WRITTEN)["refresh_policy"] == MakeIni.Str("RANK_LEVEL_STAGGERED")
  {
    var key := POLICY_FLAG_AS_WRITTEN[1..];
    assert key == "refresh-policy";
    assert key[7] != "refresh_policy"[7];
    assert "tREFI" != "refresh_policy";
    MakeIni.DefaultLookup("refresh_policy");
    assert MakeIni.DEFAULT_PARAMS["refresh_policy"] == MakeIni.Str("RANK_LEVEL_STAGGERED");
  }

  /** So the `NONE` entry, which asks for no refresh, gets a file that refreshes. */
  lemma {:induction false} NoRefreshIgnoredAsWritten()
    ensures |ConfLines(NoRefresh, POLICY_FLAG_AS_WRITTEN)| == 58
    ensures ConfLines(NoRefresh, POLICY_FLAG_AS_WRITTEN)[16] != MakeIni.KeyLine("refresh_policy", MakeIni.Str(Policy(NoRefresh)))
  {
    PolicyDroppedAsWritten(NoRefresh);
    MakeIni.KeyLineInjective("refresh_policy", MakeIni.Str("RANK_LEVEL_STAGGERED"), MakeIni.Str("NO_REFRESH"));
  }

  /** With the flag spelled as the generator's key, each file carries its window's policy. */
  lemma {:induction false} PolicyWritten(w: Window)
    ensures |ConfLines(w, POLICY_FLAG)| == 58
    ensures ConfLines(w, POLICY_FLAG)[16] == MakeIni.KeyLine("refresh_policy", MakeIni.Str(Policy(w)))
    ensures ConfLines(w, POLICY_FLAG)[32] == MakeIni.KeyLine("tREFI", MakeIni.Int(TREFI(w)))
  {
    assert POLICY_FLAG[1..] == "refresh_policy";
    RunOfConf(w, POLICY_FLAG);
  }
}

=== FILE: make_ini.dfy ===
/**
 * The DRAMsim3 INI generator script: a 50-entry parameter catalog, four
 * ordered section key lists, a `-NAME VALUE` override scan over the command
 * line, and a writer that emits each section followed by a fixed
 * power/other block. The file the script writes is modelled as its text.
 */
module MakeIni {
  import opened Wrappers
  import opened Decimal

  /** A catalog value: a Python `int` or a Python `str`. */
  datatype Value = Int(i: int) | Str(s: string)

  type Params = map<string, Value>

  /**
   * The default catalog, one dict literal in the script, written here as
   * its four commented groups. `tCK` is the float 0.416 in the script; only
   * its printed form `0.416` matters, so it is kept as that text.
   */
  const DEFAULT_PARAMS: Params :=
    DRAM_STRUCTURE_DEFAULTS + SYSTEM_DEFAULTS + TIMING_DEFAULTS + RFM_DEFAULTS

  const DRAM_STRUCTURE_DEFAULTS: Params := map[
    "protocol" := Str("DDR5"),
    "bankgroups" := Int(8),
    "banks_per_group" := Int(4),
    "rows" := Int(131072),
    "columns" := Int(1024),
    "device_width" := Int(4),
    "BL" := Int(16)
  ]

  const SYSTEM_DEFAULTS: Params := map[
    "channel_size" := Int(16384),
    "channels" := Int(2),
    "bus_width" := Int(32),
    "address_mapping" := Str("rohirababgchlo"),
    "mop_size" := Int(4),
    "queue_structure" := Str("PER_BANK"),
    "refresh_policy" := Str("RANK_LEVEL_STAGGERED"),
    "row_buf_policy" := Str("OPEN_PAGE"),
    "cmd_queue_size" := Int(32),
    "trans_queue_size" := Int(128)
  ]

  const TIMING_DEFAULTS: Params := map[
    "tCK" := Str("0.416"),
    "AL" := Int(0),
    "CL" := Int(40),
    "CWL" := Int(38),
    "tRCD" := Int(40),
    "tRP" := Int(40),
    "tRAS" := Int(77),
    "tRFC" := Int(984),
    "tRFCsb" := Int(456),
    "tRFCb" := Int(528),
    "tREFI" := Int(9360),
    "tREFIsb" := Int(1170),
    "tREFIb" := Int(4680),
    "tRRD_S" := Int(8),
    "tRRD_L" := Int(12),
    "tWTR_S" := Int(6),
    "tWTR_L" := Int(24),
    "tFAW" := Int(32),
    "tWR" := Int(72),
    "tRTP" := Int(18),
    "tCCD_S" := Int(8),
    "tCCD_L" := Int(12),
    "tCKE" := Int(8),
    "tCKESR" := Int(13),
    "tXS" := Int(984),
    "tXP" := Int(18),
    "tRTRS" := Int(2)
  ]

  const RFM_DEFAULTS: Params := map[
    "rfm_mode" := Int(0),
    "raaimt" := Int(16),
    "raammt" := Int(48),
    "rfm_raa_decrement" := Int(16),
    "ref_raa_decrement" := Int(16),
    "tRFM" := Int(492)
  ]

  const DRAM_STRUCTURE: seq<string> :=
    ["protocol", "bankgroups", "banks_per_group", "rows", "columns", "device_width", "BL"]
  const SYSTEM: seq<string> :=
    ["channel_size", "channels", "bus_width", "address_mapping", "mop_size", "queue_structure",
     "refresh_policy", "row_buf_policy", "cmd_queue_size", "trans_queue_size"]
  const TIMING: seq<string> :=
    ["tCK", "AL", "CL", "CWL", "tRCD", "tRP", "tRAS", "tRFC", "tRFCsb", "tRFCb", "tREFI",
     "tREFIsb", "tREFIb", "tRRD_S", "tRRD_L", "tWTR_S", "tWTR_L", "tFAW", "tWR", "tRTP",
     "tCCD_S", "tCCD_L", "tCKE", "tCKESR", "tXS", "tXP", "tRTRS"]
  const RFM: seq<string> :=
    ["rfm_mode", "raaimt", "raammt", "rfm_raa_decrement", "ref_raa_decrement", "tRFM"]

  /** The sections in the order the writer emits them. */
  const SECTIONS: seq<(string, seq<string>)> :=
    [("dram_structure", DRAM_STRUCTURE), ("system", SYSTEM), ("timing", TIMING), ("rfm", RFM)]

  /** The fixed block written after the sections; its first line ends in a space. */
  const FIXED_TAIL: string :=
    "[power] \nVDD = 1.2\nIDD0 = 57\nIPP0 = 3.0\nIDD2P = 25\nIDD2N = 37\nIDD3P = 43\n"
    + "IDD3N = 52\nIDD4W = 150\nIDD4R = 168\nIDD5AB = 250\nIDD6x = 30\n\n[other]\n"
    + "epoch_period = 100000000\noutput_level = 1\noutput_prefix = DDR5_baseline\n"

  // ---------------------------------------------------------------------
  // Python's int() on a str, base 10

  /** Whitespace that int() strips: the characters Python counts as space (separators and the ASCII and Latin-1 controls it treats as space). */
  predicate IsPySpace(c: char)
  {
    c == ' ' || ('\t' <= c <= '\r') || (0x1c <= c as int <= 0x1f) || c as int == 0x85 || c as int == 0xa0 ||
    c as int == 0x1680 || (0x2000 <= c as int <= 0x200a) || c as int == 0x2028 || c as int == 0x2029 ||
    c as int == 0x202f || c as int == 0x205f || c as int == 0x3000
  }

  function StripLeft(s: string): (t: string)
    ensures |t| <= |s| && t == s[|s| - |t|..]
    ensures |t| > 0 ==> !IsPySpace(t[0])
  {
    if |s| > 0 && IsPySpace(s[0]) then StripLeft(s[1..]) else s
  }

  function StripRight(s: string): (t: string)
    ensures |t| <= |s| && t == s[..|t|]
    ensures |t| > 0 ==> !IsPySpace(t[|t| - 1])
  {
    if |s| > 0 && IsPySpace(s[|s| - 1]) then StripRight(s[..|s| - 1]) else s
  }

  /** Decimal digits, where single underscores may separate digits. */
  predicate IsDigitGroup(s: string)
  {
    && |s| > 0 && IsDigit(s[0]) && IsDigit(s[|s| - 1])
    && (forall i :: 0 <= i < |s| ==> IsDigit(s[i]) || s[i] == '_')
    && NoDoubleUnderscore(s)
  }

  predicate NoDoubleUnderscore(s: string)
  {
    |s| < 2 || (!(s[0] == '_' && s[1] == '_') && NoDoubleUnderscore(s[1..]))
  }

  function DropUnderscores(s: string): (t: string)
    requires forall i :: 0 <= i < |s| ==> IsDigit(s[i]) || s[i] == '_'
    ensures AllDigits(t)
    ensures AllDigits(s) ==> t == s
  {
    if s == [] then []
    else if s[0] == '_' then DropUnderscores(s[1..])
    else [s[0]] + DropUnderscores(s[1..])
  }

  function GroupValue(s: string): nat
    requires IsDigitGroup(s)
  {
    DigitsValue(DropUnderscores(s))
  }

  /**
   * `int(s)`: surrounding whitespace, an optional sign, then digits; `None`
   * stands for the ValueError int() raises on anything else.
   */
  function PyInt(s: string): Option<int>
  {
    PyIntStripped(StripRight(StripLeft(s)))
  }

  function PyIntStripped(t: string): Option<int>
  {
    if |t| > 0 && (t[0] == '+' || t[0] == '-') then
      if IsDigitGroup(t[1..]) then Some(if t[0] == '-' then -(GroupValue(t[1..]) as int) else GroupValue(t[1..]))
      else None
    else if IsDigitGroup(t) then Some(GroupValue(t))
    else None
  }

  /** The value an override stores: the int when int() accepts the text, the text otherwise. */
  function PyValue(s: string): Value
  {
    match PyInt(s)
    case Some(n) => Int(n)
    case None => Str(s)
  }

  /** `f'{x}'` of a catalog value. */
  function Render(v: Value): string
  {
    match v
    case Int(n) => IntToString(n)
    case Str(s) => s
  }

  lemma {:induction false} StripPrinted(s: string)
    requires |s| > 0 && !IsPySpace(s[0]) && !IsPySpace(s[|s| - 1])
    ensures StripRight(StripLeft(s)) == s
  {
  }

  lemma {:induction false} DigitsAreGroup(d: string)
    requires |d| > 0 && AllDigits(d)
    ensures IsDigitGroup(d) && GroupValue(d) == DigitsValue(d)
  {
    if |d| >= 2 {
      DigitsAreGroup(d[1..]);
    }
  }

  /** Printing an int and reading it back with int() gives the same int. */
  lemma {:induction false} PyIntOfPrinted(n: int)
    ensures PyInt(IntToString(n)) == Some(n)
    ensures PyValue(IntToString(n)) == Int(n)
  {
    var m: nat := if n < 0 then -n else n;
    var d := NatToString(m);
    NatToStringRoundTrip(m);
    if n < 0 {
      assert IntToString(n) == "-" + d;
      NegatedDigits(d);
    } else {
      PyIntOfDigits(d);
    }
  }

  /** A minus sign before a run of digits is read as the negated value. */
  lemma {:induction false} NegatedDigits(d: string)
    requires |d| > 0 && AllDigits(d)
    ensures PyInt("-" + d) == Some(-(DigitsValue(d) as int))
  {
    var s := "-" + d;
    assert s[0] == '-' && s[1..] == d && s[|s| - 1] == d[|d| - 1];
    assert IsDigit(d[|d| - 1]);
    DigitsAreGroup(d);
    NegativeText(s);
  }

  /** A minus sign before a digit group is read as the group's value negated. */
  lemma {:induction false} NegativeText(t: string)
    requires |t| > 1 && t[0] == '-' && IsDigitGroup(t[1..]) && !IsPySpace(t[|t| - 1])
    ensures PyInt(t) == Some(-(GroupValue(t[1..]) as int))
  {
    StripPrinted(t);
    assert PyInt(t) == PyIntStripped(t);
  }

  /** Leading zeros are accepted, so `007` is stored as the int 7. */
  lemma {:induction false} LeadingZerosAccepted()
    ensures PyValue("007") == Int(7)
  {
    var s := "007";
    ValueOf007();
    DigitsAreGroup(s);
    PyIntOfDigits(s);
  }

  lemma {:induction false} ValueOf007()
    ensures AllDigits("007") && DigitsValue("007") == 7
  {
    var s, s2, s1 := "007", "00", "0";
    assert s1[..0] == [] && DigitsValue(s1) == 0;
    assert s2[..1] == s1 && DigitsValue(s2) == 0;
    assert s[..2] == s2;
  }

  /** A plain run of digits is read as its decimal value. */
  lemma {:induction false} PyIntOfDigits(s: string)
    requires |s| > 0 && AllDigits(s)
    ensures PyInt(s) == Some(DigitsValue(s) as int)
  {
    assert IsDigit(s[0]) && IsDigit(s[|s| - 1]);
    StripPrinted(s);
    DigitsAreGroup(s);
    UnsignedGroup(s);
  }

  /** Text that starts with a digit and is a digit group is read as the group's value. */
  lemma {:induction false} UnsignedGroup(t: string)
    requires IsDigitGroup(t)
    ensures PyIntStripped(t) == Some(GroupValue(t) as int)
  {
    assert IsDigit(t[0]);
  }

  /** Text that starts with a letter stays a string. */
  lemma {:induction false} WordStaysText(s: string)
    requires |s| > 0 && ('A' <= s[0] <= 'Z' || 'a' <= s[0] <= 'z')
    ensures PyValue(s) == Str(s)
  {
    assert StripLeft(s) == s;
    var t := StripRight(s);
    assert |t| > 0 ==> t[0] == s[0];
    assert !IsDigitGroup(t);
    assert !(|t| > 0 && (t[0] == '+' || t[0] == '-'));
    assert PyInt(s) == PyIntStripped(t) == None;
  }

  // ---------------------------------------------------------------------
  // The override scan over argv[2..]

  /** The state the scan ends in: the catalog and the notes printed, or an IndexError. */
  datatype Scan = Scanned(params: Params, notes: seq<string>) | ScanIndexError(notes: seq<string>)

  /** The line printed for an argument that is not a flag. */
  function Note(arg: string): string
  {
    "Note: ignoring argument '" + arg + "'"
  }

  /**
   * The scan, one step per flag or ignored argument. An empty argument fails
   * at `argv[i][0]` and a flag without a following token at `argv[i+1]`;
   * both raise IndexError.
   */
  function ScanArgs(args: seq<string>, p: Params, notes: seq<string>): Scan
    decreases |args|
  {
    if args == [] then Scanned(p, notes)
    else if args[0] == "" then ScanIndexError(notes)
    else if args[0][0] == '-' then
      if |args| < 2 then ScanIndexError(notes)
      else ScanArgs(args[2..], p[args[0][1..] := PyValue(args[1])], notes)
    else ScanArgs(args[1..], p, notes + [Note(args[0])])
  }

  /**
   * The `while i < len(argv)` loop that applies `-NAME VALUE` overrides to
   * the catalog; `args` is `argv[2:]`.
   */
  method ScanOverrides(args: seq<string>) returns (params: Params, notes: seq<string>, ok: bool)
    ensures ok ==> ScanArgs(args, DEFAULT_PARAMS, []) == Scanned(params, notes)
    ensures !ok ==> ScanArgs(args, DEFAULT_PARAMS, []) == ScanIndexError(notes)
  {
    params, notes := DEFAULT_PARAMS, [];
    var i := 0;
    while i < |args|
      invariant 0 <= i <= |args|
      invariant ScanArgs(args[i..], params, notes) == ScanArgs(args, DEFAULT_PARAMS, [])
    {
      assert args[i..][0] == args[i];
      if args[i] == "" {
        return params, notes, false;
      }
      if args[i][0] == '-' {
        if i + 1 >= |args| {
          return params, notes, false;
        }
        var opt := args[i][1..];
        var x := PyValue(args[i + 1]);
        assert args[i..][2..] == args[i + 2..];
        params := params[opt := x];
        i := i + 2;
      } else {
        assert args[i..][1..] == args[i + 1..];
        notes := notes + [Note(args[i])];
        i := i + 1;
      }
    }
    assert args[i..] == [];
    ok := true;
  }

  /** Scanning `a` then `b` is scanning `a + b`, provided the scan of `a` completes. */
  lemma {:induction false} ScanCompose(a: seq<string>, b: seq<string>, p: Params, notes: seq<string>)
    requires ScanArgs(a, p, notes).Scanned?
    ensures ScanArgs(a + b, p, notes) == ScanArgs(b, ScanArgs(a, p, notes).params, ScanArgs(a, p, notes).notes)
    decreases |a|
  {
    if a == [] {
      assert a + b == b;
    } else if a[0][0] == '-' {
      DropAppend(a, b, 2);
      ScanCompose(a[2..], b, p[a[0][1..] := PyValue(a[1])], notes);
    } else {
      DropAppend(a, b, 1);
      ScanCompose(a[1..], b, p, notes + [Note(a[0])]);
    }
  }

  lemma {:induction false} DropAppend<T>(a: seq<T>, b: seq<T>, n: nat)
    requires n <= |a|
    ensures (a + b)[..n] == a[..n] && (a + b)[n..] == a[n..] + b
  {
  }

  /** A completed scan never removes a key, and changes only the keys named by a flag. */
  lemma {:induction false} ScanKeepsKeys(args: seq<string>, p: Params, notes: seq<string>, k: string)
    requires ScanArgs(args, p, notes).Scanned? && k in p
    ensures k in ScanArgs(args, p, notes).params
    ensures (forall i :: 0 <= i < |args| ==> args[i] != "-" + k) ==> ScanArgs(args, p, notes).params[k] == p[k]
    decreases |args|
  {
    if args != [] {
      if args[0][0] == '-' {
        assert args[0] == "-" + args[0][1..];
        assert forall i :: 0 <= i < |args[2..]| ==> args[2..][i] == args[i + 2];
        ScanKeepsKeys(args[2..], p[args[0][1..] := PyValue(args[1])], notes, k);
      } else {
        assert forall i :: 0 <= i < |args[1..]| ==> args[1..][i] == args[i + 1];
        ScanKeepsKeys(args[1..], p, notes + [Note(args[0])], k);
      }
    }
  }

  /** A value token is consumed whatever it looks like, so `-CL -5` stores the int -5. */
  lemma {:induction false} NegativeValueStored()
    ensures ScanArgs(["-CL", "-5"], DEFAULT_PARAMS, []) == Scanned(DEFAULT_PARAMS["CL" := Int(-5)], [])
  {
    assert IntToString(-5) == "-5" by {
      assert NatToString(5) == "5";
    }
    PyIntOfPrinted(-5);
    SingleOverride("CL", "-5", DEFAULT_PARAMS);
  }

  /** One `-NAME VALUE` pair stores `PyValue(VALUE)` under `NAME`. */
  lemma {:induction false} SingleOverride(k: string, v: string, p: Params)
    ensures ScanArgs(["-" + k, v], p, []) == Scanned(p[k := PyValue(v)], [])
  {
    var a := ["-" + k, v];
    assert a[0][0] == '-' && a[0][1..] == k && a[2..] == [];
  }

  /** When a key is given twice, the later value is the one kept. */
  lemma {:induction false} LastOverrideWins(k: string, x: string, y: string, p: Params)
    ensures ScanArgs(["-" + k, x, "-" + k, y], p, []) == Scanned(p[k := PyValue(y)], [])
  {
    var a := ["-" + k, x];
    var b := ["-" + k, y];
    assert ("-" + k)[1..] == k;
    assert ScanArgs(a, p, []) == Scanned(p[k := PyValue(x)], []) by {
      assert a[2..] == [];
    }
    assert ScanArgs(b, p[k := PyValue(x)], []) == Scanned(p[k := PyValue(x)][k := PyValue(y)], []) by {
      assert b[2..] == [];
    }
    ScanCompose(a, b, p, []);
    assert a + b == ["-" + k, x, "-" + k, y];
    assert p[k := PyValue(x)][k := PyValue(y)] == p[k := PyValue(y)];
  }

  /** Two overrides in a row: both values are stored, the second over the first on a clash. */
  lemma {:induction false} ScanTwoOverrides(k1: string, v1: string, k2: string, v2: string, p: Params)
    ensures ScanArgs(["-" + k1, v1, "-" + k2, v2], p, []) == Scanned(p[k1 := PyValue(v1)][k2 := PyValue(v2)], [])
  {
    var args := ["-" + k1, v1, "-" + k2, v2];
    var p1 := p[k1 := PyValue(v1)];
    var p2 := p1[k2 := PyValue(v2)];
    assert ("-" + k1)[1..] == k1 && ("-" + k2)[1..] == k2;
    assert args[2..] == ["-" + k2, v2] && args[2..][2..] == [];
    assert ScanArgs(args[2..][2..], p2, []) == Scanned(p2, []);
    assert ScanArgs(args[2..], p1, []) == ScanArgs(args[2..][2..], p2, []);
    assert ScanArgs(args, p, []) == ScanArgs(args[2..], p1, []);
  }

  /** A flag in last position has no value token: IndexError. */
  lemma {:induction false} FlagAtEndIsIndexError(args: seq<string>, flag: string, p: Params, notes: seq<string>)
    requires ScanArgs(args, p, notes).Scanned? && |flag| > 0 && flag[0] == '-'
    ensures ScanArgs(args + [flag], p, notes).ScanIndexError?
  {
    ScanCompose(args, [flag], p, notes);
  }

  // ---------------------------------------------------------------------
  // The section writer

  function KeyLine(k: string, v: Value): string
  {
    k + " = " + Render(v)
  }

  /** A `key = value` line shows the value it was written from. */
  lemma {:induction false} KeyLineInjective(k: string, v: Value, v': Value)
    ensures KeyLine(k, v) == KeyLine(k, v') <==> Render(v) == Render(v')
  {
    if KeyLine(k, v) == KeyLine(k, v') {
      assert Render(v) == KeyLine(k, v)[|k| + 3..];
      assert Render(v') == KeyLine(k, v')[|k| + 3..];
    }
  }

  /** The lines written for `keys`, and the first key missing from the catalog (the KeyError), if any. */
  function KeyLines(keys: seq<string>, p: Params): (seq<string>, Option<string>)
    decreases |keys|
  {
    if keys == [] then ([], None)
    else
      var (lines, missing) := KeyLines(keys[..|keys| - 1], p);
      var k := keys[|keys| - 1];
      if missing.Some? then (lines, missing)
      else if k in p then (lines + [KeyLine(k, p[k])], None)
      else (lines, Some(k))
  }

  function SectionWrites(name: string, keys: seq<string>, p: Params): (seq<string>, Option<string>)
  {
    var (lines, missing) := KeyLines(keys, p);
    (["[" + name + "]"] + lines + (if missing.None? then [""] else []), missing)
  }

  /** The lines written for the sections `secs`, stopping at the first missing key. */
  function Writes(secs: seq<(string, seq<string>)>, p: Params): (seq<string>, Option<string>)
    decreases |secs|
  {
    if secs == [] then ([], None)
    else
      var (lines, missing) := Writes(secs[..|secs| - 1], p);
      if missing.Some? then (lines, missing)
      else
        var (more, missing') := SectionWrites(secs[|secs| - 1].0, secs[|secs| - 1].1, p);
        (lines + more, missing')
  }

  /** File text of a sequence of lines, each ended by a newline. */
  function Unlines(lines: seq<string>): string
  {
    if lines == [] then "" else Unlines(lines[..|lines| - 1]) + lines[|lines| - 1] + "\n"
  }

  lemma {:induction false} UnlinesAppend(a: seq<string>, b: seq<string>)
    ensures Unlines(a + b) == Unlines(a) + Unlines(b)
    decreases |b|
  {
    if b == [] {
      assert a + b == a;
    } else {
      var last := b[|b| - 1];
      assert (a + b)[..|a + b| - 1] == a + b[..|b| - 1];
      assert (a + b)[|a + b| - 1] == last;
      UnlinesAppend(a, b[..|b| - 1]);
      calc {
        Unlines(a + b);
        Unlines(a + b[..|b| - 1]) + last + "\n";
        Unlines(a) + Unlines(b[..|b| - 1]) + last + "\n";
        Unlines(a) + (Unlines(b[..|b| - 1]) + last + "\n");
      }
    }
  }

  lemma {:induction false} KeyLinesSnoc(keys: seq<string>, j: nat, p: Params)
    requires j < |keys| && KeyLines(keys[..j], p).1 == None
    ensures keys[j] in p ==> KeyLines(keys[..j + 1], p) == (KeyLines(keys[..j], p).0 + [KeyLine(keys[j], p[keys[j]])], None)
    ensures keys[j] !in p ==> KeyLines(keys[..j + 1], p) == (KeyLines(keys[..j], p).0, Some(keys[j]))
  {
    assert keys[..j + 1][..j] == keys[..j];
  }

  lemma {:induction false} WritesSnoc(secs: seq<(string, seq<string>)>, s: nat, p: Params)
    requires s < |secs| && Writes(secs[..s], p).1 == None
    ensures Writes(secs[..s + 1], p) == (Writes(secs[..s], p).0 + SectionWrites(secs[s].0, secs[s].1, p).0, SectionWrites(secs[s].0, secs[s].1, p).1)
  {
    assert secs[..s + 1][..s] == secs[..s];
  }

  lemma {:induction false} KeyLinesStop(keys: seq<string>, n: nat, p: Params)
    requires n <= |keys| && KeyLines(keys[..n], p).1.Some?
    ensures KeyLines(keys, p) == KeyLines(keys[..n], p)
    decreases |keys| - n
  {
    if n < |keys| {
      assert keys[..|keys| - 1][..n] == keys[..n];
      KeyLinesStop(keys[..|keys| - 1], n, p);
    } else {
      assert keys[..n] == keys;
    }
  }

  lemma {:induction false} WritesStop(secs: seq<(string, seq<string>)>, n: nat, p: Params)
    requires n <= |secs| && Writes(secs[..n], p).1.Some?
    ensures Writes(secs, p) == Writes(secs[..n], p)
    decreases |secs| - n
  {
    if n < |secs| {
      assert secs[..|secs| - 1][..n] == secs[..n];
      WritesStop(secs[..|secs| - 1], n, p);
    } else {
      assert secs[..n] == secs;
    }
  }

  /** The inner `for` loop: the `[section]` header, one `key = value` line per key, and a blank line. */
  method WriteSection(sec: string, keys: seq<string>, p: Params) returns (chunk: string, missing: Option<string>)
    ensures chunk == Unlines(SectionWrites(sec, keys, p).0) && missing == SectionWrites(sec, keys, p).1
  {
    ghost var head := ["[" + sec + "]"];
    chunk := "[" + sec + "]" + "\n";
    assert Unlines(head) == chunk;
    assert keys[..0] == [];
    assert head + KeyLines(keys[..0], p).0 == head;
    var j := 0;
    while j < |keys|
      invariant 0 <= j <= |keys|
      invariant KeyLines(keys[..j], p).1 == None
      invariant chunk == Unlines(head + KeyLines(keys[..j], p).0)
    {
      var key := keys[j];
      if key !in p {
        SectionStopsAt(sec, keys, j, p);
        return chunk, Some(key);
      }
      SectionGrows(head, keys, j, p);
      chunk := chunk + KeyLine(key, p[key]) + "\n";
      j := j + 1;
    }
    assert keys[..j] == keys;
    SectionEnds(sec, keys, p);
    chunk := chunk + "\n";
    missing := None;
  }

  /** One more key line: the text grows by exactly that line. */
  lemma {:induction false} SectionGrows(head: seq<string>, keys: seq<string>, j: nat, p: Params)
    requires j < |keys| && KeyLines(keys[..j], p).1 == None && keys[j] in p
    ensures KeyLines(keys[..j + 1], p).1 == None
    ensures Unlines(head + KeyLines(keys[..j + 1], p).0)
         == Unlines(head + KeyLines(keys[..j], p).0) + KeyLine(keys[j], p[keys[j]]) + "\n"
  {
    KeyLinesSnoc(keys, j, p);
    var line := KeyLine(keys[j], p[keys[j]]);
    UnlinesAppend(head + KeyLines(keys[..j], p).0, [line]);
    UnlinesOne(line);
    assert head + KeyLines(keys[..j + 1], p).0 == head + KeyLines(keys[..j], p).0 + [line];
  }

  /** A missing key at position `j`: the section is the header and the lines before it. */
  lemma {:induction false} SectionStopsAt(sec: string, keys: seq<string>, j: nat, p: Params)
    requires j < |keys| && KeyLines(keys[..j], p).1 == None && keys[j] !in p
    ensures SectionWrites(sec, keys, p).1 == Some(keys[j])
    ensures Unlines(SectionWrites(sec, keys, p).0) == Unlines(["[" + sec + "]"] + KeyLines(keys[..j], p).0)
  {
    KeyLinesSnoc(keys, j, p);
    KeyLinesStop(keys, j + 1, p);
    assert ["[" + sec + "]"] + KeyLines(keys, p).0 + [] == ["[" + sec + "]"] + KeyLines(keys[..j], p).0;
  }

  /** Every key present: the section ends with the blank line. */
  lemma {:induction false} SectionEnds(sec: string, keys: seq<string>, p: Params)
    requires KeyLines(keys, p).1 == None
    ensures SectionWrites(sec, keys, p) == (["[" + sec + "]"] + KeyLines(keys, p).0 + [""], None)
    ensures Unlines(SectionWrites(sec, keys, p).0) == Unlines(["[" + sec + "]"] + KeyLines(keys, p).0) + "\n"
  {
    assert keys[..|keys|] == keys;
    UnlinesAppend(["[" + sec + "]"] + KeyLines(keys, p).0, [""]);
    UnlinesOne("");
  }

  lemma {:induction false} UnlinesOne(line: string)
    ensures Unlines([line]) == line + "\n"
  {
    assert [line][..0] == [];
  }

  /** The outer `for` loop over the sections; a KeyError ends it, leaving what was written so far. */
  method WriteSections(secs: seq<(string, seq<string>)>, p: Params) returns (text: string, missing: Option<string>)
    ensures text == Unlines(Writes(secs, p).0) && missing == Writes(secs, p).1
  {
    text := "";
    var s := 0;
    while s < |secs|
      invariant 0 <= s <= |secs|
      invariant Writes(secs[..s], p).1 == None
      invariant text == Unlines(Writes(secs[..s], p).0)
    {
      var chunk, miss := WriteSection(secs[s].0, secs[s].1, p);
      UnlinesAppend(Writes(secs[..s], p).0, SectionWrites(secs[s].0, secs[s].1, p).0);
      WritesSnoc(secs, s, p);
      text := text + chunk;
      if miss.Some? {
        WritesStop(secs, s + 1, p);
        return text, miss;
      }
      s := s + 1;
    }
    assert secs[..s] == secs;
    missing := None;
  }

  // ---------------------------------------------------------------------
  // Layout of the written sections

  /** Every key the sections list, in writing order. */
  function AllKeys(secs: seq<(string, seq<string>)>): seq<string>
    decreases |secs|
  {
    if secs == [] then [] else AllKeys(secs[..|secs| - 1]) + secs[|secs| - 1].1
  }

  /** The number of lines the sections take when no key is missing: header, keys, blank line. */
  function BlockLength(secs: seq<(string, seq<string>)>): nat
    decreases |secs|
  {
    if secs == [] then 0 else BlockLength(secs[..|secs| - 1]) + |secs[|secs| - 1].1| + 2
  }

  predicate AllPresent(keys: seq<string>, p: Params)
  {
    forall i :: 0 <= i < |keys| ==> keys[i] in p
  }

  /** With every key present, one `key = value` line per key, in order. */
  lemma {:induction false} KeyLinesAllPresent(keys: seq<string>, p: Params)
    requires AllPresent(keys, p)
    ensures KeyLines(keys, p).1 == None && |KeyLines(keys, p).0| == |keys|
    ensures forall i :: 0 <= i < |keys| ==> KeyLines(keys, p).0[i] == KeyLine(keys[i], p[keys[i]])
    decreases |keys|
  {
    if keys != [] {
      var init := keys[..|keys| - 1];
      assert forall i :: 0 <= i < |init| ==> init[i] == keys[i];
      KeyLinesAllPresent(init, p);
    }
  }

  /** With every listed key present, the writer never stops early and writes the whole block. */
  lemma {:induction false} WritesAllPresent(secs: seq<(string, seq<string>)>, p: Params)
    requires AllPresent(AllKeys(secs), p)
    ensures Writes(secs, p).1 == None && |Writes(secs, p).0| == BlockLength(secs)
    decreases |secs|
  {
    if secs != [] {
      var init := secs[..|secs| - 1];
      var keys := secs[|secs| - 1].1;
      AllKeysSplit(secs);
      WritesAllPresent(init, p);
      KeyLinesAllPresent(keys, p);
    }
  }

  lemma {:induction false} AllKeysSplit(secs: seq<(string, seq<string>)>)
    requires secs != []
    ensures AllKeys(secs) == AllKeys(secs[..|secs| - 1]) + secs[|secs| - 1].1
    ensures forall p: Params :: AllPresent(AllKeys(secs), p) ==>
      AllPresent(AllKeys(secs[..|secs| - 1]), p) && AllPresent(secs[|secs| - 1].1, p)
  {
    var all := AllKeys(secs);
    var front := AllKeys(secs[..|secs| - 1]);
    var keys := secs[|secs| - 1].1;
    assert forall i :: 0 <= i < |front| ==> front[i] == all[i];
    assert forall i :: 0 <= i < |keys| ==> keys[i] == all[|front| + i];
  }

  /** With every listed key present, section `s` occupies its own slice of the written lines. */
  lemma {:induction false} WritesSectionAt(secs: seq<(string, seq<string>)>, p: Params, s: nat)
    requires AllPresent(AllKeys(secs), p) && s < |secs|
    ensures BlockLength(secs[..s]) + |secs[s].1| + 2 <= |Writes(secs, p).0|
    ensures Writes(secs, p).0[BlockLength(secs[..s])..BlockLength(secs[..s]) + |secs[s].1| + 2]
      == SectionWrites(secs[s].0, secs[s].1, p).0
    decreases |secs|
  {
    var n := |secs| - 1;
    var init := secs[..n];
    WritesLast(secs, p);
    var before := Writes(init, p).0;
    var block := SectionWrites(secs[n].0, secs[n].1, p).0;
    if s == n {
      assert secs[..s] == init;
      SliceOfRight(before, block);
    } else {
      assert secs[..s] == init[..s] && secs[s] == init[s];
      WritesSectionAt(init, p, s);
      SliceOfLeft(before, block, BlockLength(init[..s]), BlockLength(init[..s]) + |init[s].1| + 2);
    }
  }

  /** With every key present, the last section's block follows the lines of the others. */
  lemma {:induction false} WritesLast(secs: seq<(string, seq<string>)>, p: Params)
    requires AllPresent(AllKeys(secs), p) && secs != []
    ensures var n := |secs| - 1;
      AllPresent(AllKeys(secs[..n]), p) &&
      Writes(secs, p).0 == Writes(secs[..n], p).0 + SectionWrites(secs[n].0, secs[n].1, p).0 &&
      |Writes(secs[..n], p).0| == BlockLength(secs[..n]) &&
      |SectionWrites(secs[n].0, secs[n].1, p).0| == |secs[n].1| + 2
  {
    var n := |secs| - 1;
    AllKeysSplit(secs);
    WritesAllPresent(secs[..n], p);
    KeyLinesAllPresent(secs[n].1, p);
  }

  lemma {:induction false} SliceOfRight<T>(a: seq<T>, b: seq<T>)
    ensures (a + b)[|a|..|a| + |b|] == b
  {
  }

  lemma {:induction false} SliceOfLeft<T>(a: seq<T>, b: seq<T>, lo: nat, hi: nat)
    requires lo <= hi <= |a|
    ensures (a + b)[lo..hi] == a[lo..hi]
  {
    assert forall i :: lo <= i < hi ==> (a + b)[i] == a[i];
  }

  /** The header, the line of the `j`-th key and the blank line of section `s`. */
  lemma {:induction false} KeyLineAt(secs: seq<(string, seq<string>)>, p: Params, s: nat, j: nat)
    requires AllPresent(AllKeys(secs), p) && s < |secs| && j < |secs[s].1|
    ensures secs[s].1[j] in p
    ensures BlockLength(secs[..s]) + |secs[s].1| + 2 <= |Writes(secs, p).0|
    ensures Writes(secs, p).0[BlockLength(secs[..s])] == "[" + secs[s].0 + "]"
    ensures Writes(secs, p).0[BlockLength(secs[..s]) + 1 + j] == KeyLine(secs[s].1[j], p[secs[s].1[j]])
    ensures Writes(secs, p).0[BlockLength(secs[..s]) + |secs[s].1| + 1] == ""
  {
    AllKeysPresentIn(secs, p, s);
    WritesSectionAt(secs, p, s);
    KeyLinesAllPresent(secs[s].1, p);
    var lo := BlockLength(secs[..s]);
    var block := SectionWrites(secs[s].0, secs[s].1, p).0;
    assert Writes(secs, p).0[lo + 1 + j] == block[1 + j];
    assert Writes(secs, p).0[lo] == block[0];
    assert Writes(secs, p).0[lo + |secs[s].1| + 1] == block[|secs[s].1| + 1];
  }

  /** Every key of section `s` is among the listed keys. */
  lemma {:induction false} AllKeysPresentIn(secs: seq<(string, seq<string>)>, p: Params, s: nat)
    requires AllPresent(AllKeys(secs), p) && s < |secs|
    ensures AllPresent(secs[s].1, p)
    decreases |secs|
  {
    AllKeysSplit(secs);
    if s < |secs| - 1 {
      var init := secs[..|secs| - 1];
      assert init[s] == secs[s];
      AllKeysPresentIn(init, p, s);
    }
  }

  /** The writer reads only the listed keys: catalogs that agree on them write the same lines. */
  lemma {:induction false} KeyLinesOnlyListed(keys: seq<string>, p: Params, q: Params)
    requires forall i :: 0 <= i < |keys| ==> (keys[i] in p <==> keys[i] in q) && (keys[i] in p ==> p[keys[i]] == q[keys[i]])
    ensures KeyLines(keys, p) == KeyLines(keys, q)
    decreases |keys|
  {
    if keys != [] {
      var init := keys[..|keys| - 1];
      assert forall i :: 0 <= i < |init| ==> init[i] == keys[i];
      KeyLinesOnlyListed(init, p, q);
    }
  }

  lemma {:induction false} WritesOnlyListed(secs: seq<(string, seq<string>)>, p: Params, q: Params)
    requires forall i :: 0 <= i < |AllKeys(secs)| ==> (AllKeys(secs)[i] in p <==> AllKeys(secs)[i] in q)
    requires forall i :: 0 <= i < |AllKeys(secs)| && AllKeys(secs)[i] in p ==> p[AllKeys(secs)[i]] == q[AllKeys(secs)[i]]
    ensures Writes(secs, p) == Writes(secs, q)
    decreases |secs|
  {
    if secs != [] {
      var n := |secs| - 1;
      var init := secs[..n];
      var keys := secs[n].1;
      var all := AllKeys(secs);
      assert all == AllKeys(init) + keys;
      assert forall i :: 0 <= i < |AllKeys(init)| ==> AllKeys(init)[i] == all[i];
      assert forall i :: 0 <= i < |keys| ==> keys[i] == all[|AllKeys(init)| + i];
      WritesOnlyListed(init, p, q);
      KeyLinesOnlyListed(keys, p, q);
    }
  }

  /** An override of a key no section lists leaves the written lines unchanged. */
  lemma {:induction false} UnlistedKeyInvisible(secs: seq<(string, seq<string>)>, p: Params, k: string, v: Value)
    requires forall i :: 0 <= i < |AllKeys(secs)| ==> AllKeys(secs)[i] != k
    ensures Writes(secs, p[k := v]) == Writes(secs, p)
  {
    WritesOnlyListed(secs, p[k := v], p);
  }

  // ---------------------------------------------------------------------
  // The catalog against the section lists

  predicate Distinct(s: seq<string>)
  {
    forall i, j :: 0 <= i < j < |s| ==> s[i] != s[j]
  }

  predicate Disjoint(a: seq<string>, b: seq<string>)
  {
    forall i, j :: 0 <= i < |a| && 0 <= j < |b| ==> a[i] != b[j]
  }

  lemma {:induction false} DistinctConcat(a: seq<string>, b: seq<string>)
    requires Distinct(a) && Distinct(b) && Disjoint(a, b)
    ensures Distinct(a + b)
  {
    forall i, j | 0 <= i < j < |a + b|
      ensures (a + b)[i] != (a + b)[j]
    {
      if j < |a| {
        assert (a + b)[i] == a[i] && (a + b)[j] == a[j];
      } else if i < |a| {
        assert (a + b)[i] == a[i] && (a + b)[j] == b[j - |a|];
      } else {
        assert (a + b)[i] == b[i - |a|] && (a + b)[j] == b[j - |a|];
      }
    }
  }

  lemma {:induction false} DisjointConcat(a: seq<string>, b: seq<string>, c: seq<string>)
    requires Disjoint(a, c) && Disjoint(b, c)
    ensures Disjoint(a + b, c)
  {
    forall i, j | 0 <= i < |a + b| && 0 <= j < |c|
      ensures (a + b)[i] != c[j]
    {
      if i < |a| {
        assert (a + b)[i] == a[i];
      } else {
        assert (a + b)[i] == b[i - |a|];
      }
    }
  }

  lemma {:induction false} ListsDistinct()
    ensures Distinct(DRAM_STRUCTURE) && Distinct(SYSTEM) && Distinct(TIMING) && Distinct(RFM)
  {
    TimingDistinct();
  }

  lemma {:induction false} TimingDistinct()
    ensures Distinct(TIMING)
  {
    TimingDistinctFrom(0, 7);
    TimingDistinctFrom(7, 14);
    TimingDistinctFrom(14, 20);
    TimingDistinctFrom(20, 27);
  }

  /** The timing keys at positions `lo .. hi-1` differ from every later one. */
  lemma {:induction false} TimingDistinctFrom(lo: nat, hi: nat)
    requires (lo, hi) in {(0, 7), (7, 14), (14, 20), (20, 27)}
    ensures forall i, j :: lo <= i < hi && i < j < |TIMING| ==> TIMING[i] != TIMING[j]
  {
  }

  lemma {:induction false} ListsDisjointFromDramStructure()
    ensures Disjoint(DRAM_STRUCTURE, SYSTEM) && Disjoint(DRAM_STRUCTURE, TIMING) && Disjoint(DRAM_STRUCTURE, RFM)
  {
  }

  lemma {:induction false} ListsDisjointFromRfm()
    ensures Disjoint(SYSTEM, TIMING) && Disjoint(SYSTEM, RFM) && Disjoint(TIMING, RFM)
  {
    SystemTimingDisjoint();
    TimingRfmDisjoint();
  }

  lemma {:induction false} SystemTimingDisjoint()
    ensures Disjoint(SYSTEM, TIMING)
  {
  }

  lemma {:induction false} TimingRfmDisjoint()
    ensures Disjoint(TIMING, RFM)
  {
  }

  lemma {:induction false} SectionsKeys()
    ensures AllKeys(SECTIONS) == DRAM_STRUCTURE + SYSTEM + TIMING + RFM
    ensures BlockLength(SECTIONS) == 58
    ensures BlockLength(SECTIONS[..1]) == 9 && BlockLength(SECTIONS[..2]) == 21 && BlockLength(SECTIONS[..3]) == 50
  {
    var s1, s2, s3 := SECTIONS[..1], SECTIONS[..2], SECTIONS[..3];
    assert s1[..0] == [] && s2[..1] == s1 && s3[..2] == s2 && SECTIONS[..3] == s3;
    assert AllKeys(s1) == DRAM_STRUCTURE && BlockLength(s1) == 9;
    assert AllKeys(s2) == DRAM_STRUCTURE + SYSTEM && BlockLength(s2) == 21;
    assert AllKeys(s3) == DRAM_STRUCTURE + SYSTEM + TIMING && BlockLength(s3) == 50;
  }

  /** No key is listed twice, so each parameter is written on exactly one line. */
  lemma {:induction false} SectionKeysDistinct()
    ensures |AllKeys(SECTIONS)| == 50 && Distinct(AllKeys(SECTIONS))
  {
    SectionsKeys();
    ListsDistinct();
    ListsDisjointFromDramStructure();
    ListsDisjointFromRfm();
    DistinctConcat(DRAM_STRUCTURE, SYSTEM);
    DisjointConcat(DRAM_STRUCTURE, SYSTEM, TIMING);
    DistinctConcat(DRAM_STRUCTURE + SYSTEM, TIMING);
    DisjointConcat(DRAM_STRUCTURE, SYSTEM, RFM);
    DisjointConcat(DRAM_STRUCTURE + SYSTEM, TIMING, RFM);
    DistinctConcat(DRAM_STRUCTURE + SYSTEM + TIMING, RFM);
  }

  lemma {:induction false} GroupKeys()
    ensures forall k :: k in DRAM_STRUCTURE_DEFAULTS <==> k in DRAM_STRUCTURE
    ensures forall k :: k in SYSTEM_DEFAULTS <==> k in SYSTEM
    ensures forall k :: k in TIMING_DEFAULTS <==> k in TIMING
    ensures forall k :: k in RFM_DEFAULTS <==> k in RFM
  {
    DramStructureKeys();
    SystemKeys();
    TimingKeys();
    RfmKeys();
  }

  lemma {:induction false} DramStructureKeys()
    ensures forall k :: k in DRAM_STRUCTURE_DEFAULTS <==> k in DRAM_STRUCTURE
  {
  }

  lemma {:induction false} SystemKeys()
    ensures forall k :: k in SYSTEM_DEFAULTS <==> k in SYSTEM
  {
  }

  lemma {:induction false} TimingKeys()
    ensures forall k :: k in TIMING_DEFAULTS <==> k in TIMING
  {
  }

  lemma {:induction false} RfmKeys()
    ensures forall k :: k in RFM_DEFAULTS <==> k in RFM
  {
  }

  /**
   * The catalog holds exactly the keys the sections list: every listed key
   * has a default (so the writer raises no KeyError on the defaults) and
   * every default is written.
   */
  lemma {:induction false} CatalogKeys()
    ensures forall k :: k in DEFAULT_PARAMS <==> k in AllKeys(SECTIONS)
    ensures AllPresent(AllKeys(SECTIONS), DEFAULT_PARAMS)
  {
    SectionsKeys();
    GroupKeys();
    UnionKeys(DRAM_STRUCTURE_DEFAULTS, SYSTEM_DEFAULTS, TIMING_DEFAULTS, RFM_DEFAULTS,
              DRAM_STRUCTURE, SYSTEM, TIMING, RFM);
  }

  /** Merging four catalogs keyed by four lists gives a catalog keyed by their concatenation. */
  lemma {:induction false} UnionKeys(m1: Params, m2: Params, m3: Params, m4: Params,
                                     s1: seq<string>, s2: seq<string>, s3: seq<string>, s4: seq<string>)
    requires forall k :: k in m1 <==> k in s1
    requires forall k :: k in m2 <==> k in s2
    requires forall k :: k in m3 <==> k in s3
    requires forall k :: k in m4 <==> k in s4
    ensures forall k :: k in m1 + m2 + m3 + m4 <==> k in s1 + s2 + s3 + s4
    ensures AllPresent(s1 + s2 + s3 + s4, m1 + m2 + m3 + m4)
  {
    var all := s1 + s2 + s3 + s4;
    forall k
      ensures k in m1 + m2 + m3 + m4 <==> k in all
    {
      assert k in all <==> k in s1 || k in s2 || k in s3 || k in s4;
    }
    forall i | 0 <= i < |all|
      ensures all[i] in m1 + m2 + m3 + m4
    {
      assert all[i] in all;
    }
  }

  lemma {:induction false} DisjointNotIn(a: seq<string>, b: seq<string>, k: string)
    requires Disjoint(a, b) && k in a
    ensures k !in b
  {
  }

  /** A default is the value of the group that lists the key; no later group overrides it. */
  lemma {:induction false} DefaultLookup(k: string)
    ensures k in DRAM_STRUCTURE_DEFAULTS ==> k in DEFAULT_PARAMS && DEFAULT_PARAMS[k] == DRAM_STRUCTURE_DEFAULTS[k]
    ensures k in SYSTEM_DEFAULTS ==> k in DEFAULT_PARAMS && DEFAULT_PARAMS[k] == SYSTEM_DEFAULTS[k]
    ensures k in TIMING_DEFAULTS ==> k in DEFAULT_PARAMS && DEFAULT_PARAMS[k] == TIMING_DEFAULTS[k]
    ensures k in RFM_DEFAULTS ==> k in DEFAULT_PARAMS && DEFAULT_PARAMS[k] == RFM_DEFAULTS[k]
  {
    GroupsDisjoint(k);
    MergeLookup(DRAM_STRUCTURE_DEFAULTS, SYSTEM_DEFAULTS, TIMING_DEFAULTS, RFM_DEFAULTS, k);
  }

  /** A key belongs to at most one group. */
  lemma {:induction false} GroupsDisjoint(k: string)
    ensures k in DRAM_STRUCTURE_DEFAULTS ==> k !in SYSTEM_DEFAULTS && k !in TIMING_DEFAULTS && k !in RFM_DEFAULTS
    ensures k in SYSTEM_DEFAULTS ==> k !in TIMING_DEFAULTS && k !in RFM_DEFAULTS
    ensures k in TIMING_DEFAULTS ==> k !in RFM_DEFAULTS
  {
    GroupKeys();
    ListsDisjointFromDramStructure();
    ListsDisjointFromRfm();
    if k in DRAM_STRUCTURE {
      DisjointNotIn(DRAM_STRUCTURE, SYSTEM, k);
      DisjointNotIn(DRAM_STRUCTURE, TIMING, k);
      DisjointNotIn(DRAM_STRUCTURE, RFM, k);
    }
    if k in SYSTEM {
      DisjointNotIn(SYSTEM, TIMING, k);
      DisjointNotIn(SYSTEM, RFM, k);
    }
    if k in TIMING {
      DisjointNotIn(TIMING, RFM, k);
    }
  }

  lemma {:induction false} MergeLookup(a: Params, b: Params, c: Params, d: Params, k: string)
    ensures k in d ==> (a + b + c + d)[k] == d[k]
    ensures k in c && k !in d ==> (a + b + c + d)[k] == c[k]
    ensures k in b && k !in c && k !in d ==> (a + b + c + d)[k] == b[k]
    ensures k in a && k !in b && k !in c && k !in d ==> (a + b + c + d)[k] == a[k]
  {
  }

  // ---------------------------------------------------------------------
  // The whole script

  /** How the script ends: normally, or with the exception that stops it. */
  datatype Failure = Completed | IndexError | KeyError(key: string)

  /**
   * What the script leaves behind: the notes it printed, the file it
   * opened with the text written to it (none when it stopped before
   * `open`), and how it ended.
   */
  datatype Outcome = Outcome(notes: seq<string>, file: Option<(string, string)>, failure: Failure)

  /**
   * `argv[1]` names the output file (IndexError when absent), the scan runs
   * before the file is opened, and a KeyError leaves the part already written.
   */
  function Run(argv: seq<string>): Outcome
  {
    if |argv| < 2 then Outcome([], None, IndexError)
    else match ScanArgs(argv[2..], DEFAULT_PARAMS, [])
      case ScanIndexError(notes) => Outcome(notes, None, IndexError)
      case Scanned(p, notes) =>
        var (lines, missing) := Writes(SECTIONS, p);
        if missing.Some? then Outcome(notes, Some((argv[1], Unlines(lines))), KeyError(missing.value))
        else Outcome(notes, Some((argv[1], Unlines(lines) + FIXED_TAIL)), Completed)
  }

  /** The script's top level. */
  method MakeIni(argv: seq<string>) returns (outcome: Outcome)
    ensures outcome == Run(argv)
  {
    if |argv| < 2 {
      return Outcome([], None, IndexError);
    }
    var outputFile := argv[1];
    var params, notes, ok := ScanOverrides(argv[2..]);
    if !ok {
      return Outcome(notes, None, IndexError);
    }
    var text, missing := WriteSections(SECTIONS, params);
    if missing.Some? {
      return Outcome(notes, Some((outputFile, text)), KeyError(missing.value));
    }
    text := text + FIXED_TAIL;
    outcome := Outcome(notes, Some((outputFile, text)), Completed);
  }

  /**
   * A scan that completes keeps every listed key, so the writer never meets
   * a missing key: the script's only failures are IndexErrors, and those
   * happen before the file is opened.
   */
  lemma {:induction false} RunNeverKeyError(argv: seq<string>)
    ensures !Run(argv).failure.KeyError?
    ensures Run(argv).failure == IndexError <==> Run(argv).file.None?
  {
    if |argv| >= 2 && ScanArgs(argv[2..], DEFAULT_PARAMS, []).Scanned? {
      ScanKeepsListed(argv[2..]);
    }
  }

  /** After a completed scan, every listed key is present in the catalog it produced. */
  lemma {:induction false} ScanKeepsListed(args: seq<string>)
    requires ScanArgs(args, DEFAULT_PARAMS, []).Scanned?
    ensures AllPresent(AllKeys(SECTIONS), ScanArgs(args, DEFAULT_PARAMS, []).params)
    ensures Writes(SECTIONS, ScanArgs(args, DEFAULT_PARAMS, []).params).1 == None
    ensures |Writes(SECTIONS, ScanArgs(args, DEFAULT_PARAMS, []).params).0| == 58
  {
    var p := ScanArgs(args, DEFAULT_PARAMS, []).params;
    CatalogKeys();
    SectionsKeys();
    forall i | 0 <= i < |AllKeys(SECTIONS)|
      ensures AllKeys(SECTIONS)[i] in p
    {
      ScanKeepsKeys(args, DEFAULT_PARAMS, [], AllKeys(SECTIONS)[i]);
    }
    WritesAllPresent(SECTIONS, p);
  }

  /**
   * A completed scan lets the writer finish: every listed key is present
   * (so `KeyLineAt` places each key's line), the sections take 58 lines
   * and the fixed block follows them.
   */
  lemma {:induction false} RunCompletes(argv: seq<string>, p: Params, notes: seq<string>)
    requires |argv| >= 2 && ScanArgs(argv[2..], DEFAULT_PARAMS, []) == Scanned(p, notes)
    ensures AllPresent(AllKeys(SECTIONS), p)
    ensures |Writes(SECTIONS, p).0| == 58
    ensures Run(argv) == Outcome(notes, Some((argv[1], Unlines(Writes(SECTIONS, p).0) + FIXED_TAIL)), Completed)
  {
    ScanKeepsListed(argv[2..]);
  }

  /** The refresh policy and refresh interval lines of a complete file. */
  lemma {:induction false} RefreshLines(p: Params)
    requires AllPresent(AllKeys(SECTIONS), p)
    ensures "refresh_policy" in p && "tREFI" in p
    ensures |Writes(SECTIONS, p).0| == 58
    ensures Writes(SECTIONS, p).0[16] == KeyLine("refresh_policy", p["refresh_policy"])
    ensures Writes(SECTIONS, p).0[32] == KeyLine("tREFI", p["tREFI"])
  {
    SectionsKeys();
    WritesAllPresent(SECTIONS, p);
    assert SECTIONS[1].1[6] == "refresh_policy" && SECTIONS[2].1[10] == "tREFI";
    KeyLineAt(SECTIONS, p, 1, 6);
    KeyLineAt(SECTIONS, p, 2, 10);
  }
}

=== FILE: mop4.dfy ===
/**
 * The MOP4 line-address layout of the in-house DRAM model. From the least
 * significant end a line address holds two low column bits, then the
 * subchannel, channel, bankgroup, bank and rank, then the remaining column
 * bits, then the row. Every width is `Log2` of the configured count.
 */
module Mop4 {
  import opened Bits
  import opened BitCount
  import opened BitFields

  /** The configured counts (`NUM_CHANNELS`, ...); each is at least one. */
  datatype Geometry = Geometry(channels: nat, subchannels: nat, ranks: nat, bankgroups: nat,
                               banks: nat, rows: nat, columns: nat)

  /**
   * `Log2` is instantiated at every count, and `B_CO - B_LOW` must not
   * wrap, so a geometry has at least four columns.
   */
  predicate Valid(g: Geometry)
  {
    g.channels >= 1 && g.subchannels >= 1 && g.ranks >= 1 && g.bankgroups >= 1 &&
    g.banks >= 1 && g.rows >= 1 && g.columns >= 4
  }

  const B_LOW: nat := 2

  function BCh(g: Geometry): nat requires Valid(g) { Log2(g.channels) }
  function BSc(g: Geometry): nat requires Valid(g) { Log2(g.subchannels) }
  function BRa(g: Geometry): nat requires Valid(g) { Log2(g.ranks) }
  function BBg(g: Geometry): nat requires Valid(g) { Log2(g.bankgroups) }
  function BBa(g: Geometry): nat requires Valid(g) { Log2(g.banks) }
  function BRo(g: Geometry): nat requires Valid(g) { Log2(g.rows) }

  function BCo(g: Geometry): (b: nat)
    requires Valid(g)
    ensures b >= B_LOW
  {
    Log2Monotone(4, g.columns);
    assert Log2(4) == 2 by { assert Log2(2) == 1; }
    Log2(g.columns)
  }

  function ScOff(g: Geometry): nat requires Valid(g) { B_LOW }
  function ChOff(g: Geometry): nat requires Valid(g) { ScOff(g) + BSc(g) }
  function BgOff(g: Geometry): nat requires Valid(g) { ChOff(g) + BCh(g) }
  function BaOff(g: Geometry): nat requires Valid(g) { BgOff(g) + BBg(g) }
  function RaOff(g: Geometry): nat requires Valid(g) { BaOff(g) + BBa(g) }
  function HiOff(g: Geometry): nat requires Valid(g) { RaOff(g) + BRa(g) }
  function RoOff(g: Geometry): nat requires Valid(g) { HiOff(g) + (BCo(g) - B_LOW) }

  /** `MASK(B)`: the low `B` bits set. */
  function Mask(b: nat): nat { Pow2(b) - 1 }

  function Channel(g: Geometry, x: nat): (r: nat)
    requires Valid(g)
    ensures r < Pow2(BCh(g)) && r == Field(x, ChOff(g), BCh(g))
  {
    ShiftMaskIsField(x, ChOff(g), BCh(g));
    And(Shr(x, ChOff(g)), Mask(BCh(g)))
  }

  function Subchannel(g: Geometry, x: nat): (r: nat)
    requires Valid(g)
    ensures r < Pow2(BSc(g)) && r == Field(x, ScOff(g), BSc(g))
  {
    ShiftMaskIsField(x, ScOff(g), BSc(g));
    And(Shr(x, ScOff(g)), Mask(BSc(g)))
  }

  function Rank(g: Geometry, x: nat): (r: nat)
    requires Valid(g)
    ensures r < Pow2(BRa(g)) && r == Field(x, RaOff(g), BRa(g))
  {
    ShiftMaskIsField(x, RaOff(g), BRa(g));
    And(Shr(x, RaOff(g)), Mask(BRa(g)))
  }

  function Bankgroup(g: Geometry, x: nat): (r: nat)
    requires Valid(g)
    ensures r < Pow2(BBg(g)) && r == Field(x, BgOff(g), BBg(g))
  {
    ShiftMaskIsField(x, BgOff(g), BBg(g));
    And(Shr(x, BgOff(g)), Mask(BBg(g)))
  }

  function Bank(g: Geometry, x: nat): (r: nat)
    requires Valid(g)
    ensures r < Pow2(BBa(g)) && r == Field(x, BaOff(g), BBa(g))
  {
    ShiftMaskIsField(x, BaOff(g), BBa(g));
    And(Shr(x, BaOff(g)), Mask(BBa(g)))
  }

  function Row(g: Geometry, x: nat): (r: nat)
    requires Valid(g)
    ensures r < Pow2(BRo(g)) && r == Field(x, RoOff(g), BRo(g))
  {
    ShiftMaskIsField(x, RoOff(g), BRo(g));
    And(Shr(x, RoOff(g)), Mask(BRo(g)))
  }

  /** The column: the two low address bits below the bits stored at `HI_OFF`. */
  function Column(g: Geometry, x: nat): (r: nat)
    requires Valid(g)
    ensures r < Pow2(BCo(g))
    ensures r % 4 == x % 4
    ensures r / 4 == Field(x, HiOff(g), BCo(g) - B_LOW)
  {
    SplitColumn(x, HiOff(g), BCo(g) - B_LOW);
    Or(And(x, Mask(B_LOW)), Shl(And(Shr(x, HiOff(g)), Mask(BCo(g) - B_LOW)), B_LOW))
  }

  /** The two low bits of `x` with the `k` bits at offset `off` placed above them. */
  lemma {:induction false} SplitColumn(x: nat, off: nat, k: nat)
    ensures var r := Or(And(x, Mask(B_LOW)), Shl(And(Shr(x, off), Mask(k)), B_LOW));
      r < Pow2(k + B_LOW) && r % 4 == x % 4 && r / 4 == Field(x, off, k)
  {
    var lwr := And(x, Mask(B_LOW));
    var upp := And(Shr(x, off), Mask(k));
    LowBits(x);
    ShiftMaskIsField(x, off, k);
    JoinColumn(lwr, upp, k);
  }

  lemma {:induction false} LowBits(x: nat)
    ensures And(x, Mask(B_LOW)) == x % 4
  {
    assert Pow2(B_LOW) == 4;
    AndLowMask(x, B_LOW);
  }

  /** `lwr | (upp << 2)` for two low bits `lwr`: the column with `upp` above `lwr`. */
  lemma {:induction false} JoinColumn(lwr: nat, upp: nat, k: nat)
    requires lwr < 4 && upp < Pow2(k)
    ensures Or(lwr, Shl(upp, B_LOW)) == upp * 4 + lwr
    ensures upp * 4 + lwr < Pow2(k + B_LOW)
    ensures (upp * 4 + lwr) % 4 == lwr && (upp * 4 + lwr) / 4 == upp
  {
    assert Pow2(B_LOW) == 4;
    OrDisjoint(upp, lwr, B_LOW);
    OrCommutes(lwr, Shl(upp, B_LOW));
    DivModUnique(upp * 4 + lwr, 4, upp, lwr);
    Pow2Add(k, B_LOW);
  }

  /** Every field the decoders produce for one line address. */
  datatype Location = Location(channel: nat, subchannel: nat, rank: nat, bankgroup: nat,
                               bank: nat, row: nat, column: nat)

  function Decode(g: Geometry, x: nat): Location
    requires Valid(g)
  {
    Location(Channel(g, x), Subchannel(g, x), Rank(g, x), Bankgroup(g, x), Bank(g, x), Row(g, x), Column(g, x))
  }

  /** Each field of a location fits its width. */
  predicate Fits(g: Geometry, l: Location)
    requires Valid(g)
  {
    l.channel < Pow2(BCh(g)) && l.subchannel < Pow2(BSc(g)) && l.rank < Pow2(BRa(g)) &&
    l.bankgroup < Pow2(BBg(g)) && l.bank < Pow2(BBa(g)) && l.row < Pow2(BRo(g)) &&
    l.column < Pow2(BCo(g))
  }

  /** The layout of a location, least significant field first. */
  function Layout(g: Geometry, l: Location): seq<(nat, nat)>
    requires Valid(g)
  {
    [(l.column % 4, B_LOW), (l.subchannel, BSc(g)), (l.channel, BCh(g)), (l.bankgroup, BBg(g)),
     (l.bank, BBa(g)), (l.rank, BRa(g)), (l.column / 4, BCo(g) - B_LOW), (l.row, BRo(g))]
  }

  /** The line address that holds a location. */
  function Assemble(g: Geometry, l: Location): nat
    requires Valid(g)
  {
    Pack(Layout(g, l))
  }

  /** The field offsets are the running sums of the widths in layout order. */
  lemma {:induction false} LayoutOffsets(g: Geometry, l: Location)
    requires Valid(g)
    ensures OffsetOf(Layout(g, l), 1) == ScOff(g) && OffsetOf(Layout(g, l), 2) == ChOff(g)
    ensures OffsetOf(Layout(g, l), 3) == BgOff(g) && OffsetOf(Layout(g, l), 4) == BaOff(g)
    ensures OffsetOf(Layout(g, l), 5) == RaOff(g) && OffsetOf(Layout(g, l), 6) == HiOff(g)
    ensures OffsetOf(Layout(g, l), 7) == RoOff(g)
  {
    var fs := Layout(g, l);
    assert OffsetOf(fs, 0) == 0;
    OffsetStep(fs, 0);
    OffsetStep(fs, 1);
    OffsetStep(fs, 2);
    OffsetStep(fs, 3);
    OffsetStep(fs, 4);
    OffsetStep(fs, 5);
    OffsetStep(fs, 6);
  }

  lemma {:induction false} LayoutInRange(g: Geometry, l: Location)
    requires Valid(g) && Fits(g, l)
    ensures InRange(Layout(g, l))
  {
    var fs := Layout(g, l);
    assert Pow2(B_LOW) == 4;
    Pow2Add(B_LOW, BCo(g) - B_LOW);
    assert l.column / 4 < Pow2(BCo(g) - B_LOW);
    assert forall i :: 0 <= i < |fs| ==> fs[i].0 < Pow2(fs[i].1);
  }

  /** Assembling a location whose fields fit and decoding the address gives the location back. */
  lemma {:induction false} DecodeAssemble(g: Geometry, l: Location)
    requires Valid(g) && Fits(g, l)
    ensures Decode(g, Assemble(g, l)) == l
  {
    LayoutInRange(g, l);
    LayoutOffsets(g, l);
    DecodeAssembleFields(g, l);
    DecodeAssembleColumn(g, l);
  }

  lemma {:induction false} DecodeAssembleFields(g: Geometry, l: Location)
    requires Valid(g) && InRange(Layout(g, l))
    requires OffsetOf(Layout(g, l), 1) == ScOff(g) && OffsetOf(Layout(g, l), 2) == ChOff(g)
    requires OffsetOf(Layout(g, l), 3) == BgOff(g) && OffsetOf(Layout(g, l), 4) == BaOff(g)
    requires OffsetOf(Layout(g, l), 5) == RaOff(g) && OffsetOf(Layout(g, l), 7) == RoOff(g)
    ensures var x := Assemble(g, l);
      Channel(g, x) == l.channel && Subchannel(g, x) == l.subchannel && Rank(g, x) == l.rank &&
      Bankgroup(g, x) == l.bankgroup && Bank(g, x) == l.bank && Row(g, x) == l.row
  {
    var fs := Layout(g, l);
    PackField(fs, 1);
    PackField(fs, 2);
    PackField(fs, 3);
    PackField(fs, 4);
    PackField(fs, 5);
    PackField(fs, 7);
  }

  lemma {:induction false} DecodeAssembleColumn(g: Geometry, l: Location)
    requires Valid(g) && InRange(Layout(g, l)) && OffsetOf(Layout(g, l), 6) == HiOff(g)
    ensures Column(g, Assemble(g, l)) == l.column
  {
    var fs := Layout(g, l);
    var x := Assemble(g, l);
    PackField(fs, 0);
    PackField(fs, 6);
    assert Field(x, 0, B_LOW) == x % 4 by {
      assert Pow2(0) == 1 && Pow2(B_LOW) == 4;
    }
    SameQuarters(Column(g, x), l.column);
  }

  lemma {:induction false} SameQuarters(a: nat, b: nat)
    requires a % 4 == b % 4 && a / 4 == b / 4
    ensures a == b
  {
  }

  /** Address bits at or above the top of the row field do not affect any decoded field. */
  lemma {:induction false} HighBitsIgnored(g: Geometry, x: nat, y: nat)
    requires Valid(g) && x % Pow2(RoOff(g) + BRo(g)) == y % Pow2(RoOff(g) + BRo(g))
    ensures Decode(g, x) == Decode(g, y)
  {
    HighBitsIgnoredFields(g, x, y);
    HighBitsIgnoredColumn(g, x, y);
  }

  lemma {:induction false} HighBitsIgnoredFields(g: Geometry, x: nat, y: nat)
    requires Valid(g) && x % Pow2(RoOff(g) + BRo(g)) == y % Pow2(RoOff(g) + BRo(g))
    ensures Channel(g, x) == Channel(g, y) && Subchannel(g, x) == Subchannel(g, y)
    ensures Rank(g, x) == Rank(g, y) && Bankgroup(g, x) == Bankgroup(g, y)
    ensures Bank(g, x) == Bank(g, y) && Row(g, x) == Row(g, y)
  {
    var t := RoOff(g) + BRo(g);
    FieldIgnoresHigh(x, y, ChOff(g), BCh(g), t);
    FieldIgnoresHigh(x, y, ScOff(g), BSc(g), t);
    FieldIgnoresHigh(x, y, RaOff(g), BRa(g), t);
    FieldIgnoresHigh(x, y, BgOff(g), BBg(g), t);
    FieldIgnoresHigh(x, y, BaOff(g), BBa(g), t);
    FieldIgnoresHigh(x, y, RoOff(g), BRo(g), t);
  }

  lemma {:induction false} HighBitsIgnoredColumn(g: Geometry, x: nat, y: nat)
    requires Valid(g) && x % Pow2(RoOff(g) + BRo(g)) == y % Pow2(RoOff(g) + BRo(g))
    ensures Column(g, x) == Column(g, y)
  {
    var t := RoOff(g) + BRo(g);
    FieldIgnoresHigh(x, y, HiOff(g), BCo(g) - B_LOW, t);
    LowBitsAgree(x, y, t);
    ColumnOfParts(g, x, y);
  }

  lemma {:induction false} LowBitsAgree(x: nat, y: nat, t: nat)
    requires t >= B_LOW && x % Pow2(t) == y % Pow2(t)
    ensures x % 4 == y % 4
  {
    FieldIgnoresHigh(x, y, 0, B_LOW, t);
    assert Pow2(0) == 1 && Pow2(B_LOW) == 4;
    assert x / 1 == x && y / 1 == y;
  }

  lemma {:induction false} ColumnOfParts(g: Geometry, x: nat, y: nat)
    requires Valid(g) && x % 4 == y % 4
    requires Field(x, HiOff(g), BCo(g) - B_LOW) == Field(y, HiOff(g), BCo(g) - B_LOW)
    ensures Column(g, x) == Column(g, y)
  {
    SameQuarters(Column(g, x), Column(g, y));
  }
}

=== FILE: os.dfy ===
/**
 * The simulator's OS: a line address splits into a page number and an
 * in-page line offset, virtual pages are mapped to frames lazily on first
 * use, and the free frames are tracked in a bitmap of 64-frame words from
 * which `map_page` draws frames at random. The draws are a parameter:
 * `rands[i]` is what `rand()` returns on try `i`. A process exit becomes a
 * `None` result.
 */
module Os {
  import opened Bits
  import opened Wrappers
  import opened Defs
  import opened BitCount

  /** How many random frames `map_page` tries before giving up. */
  const RAND_MAP_TRIES: nat := 2048

  /* ---------------- pages and offsets ---------------- */

  /** `Log2<LINES_PER_PAGE>`: the width of the in-page offset. */
  function PageShift(): nat
  {
    SizesArePowersOfTwo();
    Log2(LINES_PER_PAGE)
  }

  /** The page number of a line address. */
  function PageOf(lineaddr: nat): nat
  {
    Shr(lineaddr, PageShift())
  }

  /** The line's offset inside its page. */
  function OffsetOf(lineaddr: nat): nat
  {
    And(lineaddr, LINES_PER_PAGE - 1)
  }

  /** `join_page_and_offset`. */
  function Join(page: nat, off: nat): nat
  {
    Or(Shl(page, PageShift()), off)
  }

  lemma {:induction false} PageShiftIsSix()
    ensures PageShift() == 6 && Pow2(PageShift()) == LINES_PER_PAGE
  {
    SizesArePowersOfTwo();
    Log2OfPow2(6);
  }

  /** The split is division and remainder by the page's line count. */
  lemma {:induction false} SplitIsDivMod(lineaddr: nat)
    ensures PageOf(lineaddr) == lineaddr / LINES_PER_PAGE
    ensures OffsetOf(lineaddr) == lineaddr % LINES_PER_PAGE < LINES_PER_PAGE
  {
    PageShiftIsSix();
    AndLowMask(lineaddr, 6);
  }

  /** Joining a page and an in-range offset, then splitting, gives both back. */
  lemma {:induction false} SplitJoin(page: nat, off: nat)
    requires off < LINES_PER_PAGE
    ensures Join(page, off) == page * LINES_PER_PAGE + off
    ensures PageOf(Join(page, off)) == page && OffsetOf(Join(page, off)) == off
  {
    PageShiftIsSix();
    OrDisjoint(page, off, 6);
    var x := page * LINES_PER_PAGE + off;
    SplitIsDivMod(x);
    DivModUnique(x, LINES_PER_PAGE, page, off);
  }

  /** Splitting a line address and joining the parts gives it back. */
  lemma {:induction false} JoinSplit(lineaddr: nat)
    ensures Join(PageOf(lineaddr), OffsetOf(lineaddr)) == lineaddr
  {
    var page, off := PageOf(lineaddr), OffsetOf(lineaddr);
    SplitIsDivMod(lineaddr);
    SplitJoin(page, off);
    assert LINES_PER_PAGE == 64;
    assert lineaddr / 64 * 64 + lineaddr % 64 == lineaddr;
  }

  /* ---------------- the frame bitmap ---------------- */

  /** Frame `pfn` lives in word `pfn >> 6` of a bitmap of `words` words. */
  lemma {:induction false} FrameWord(pfn: nat, numFrames: nat, words: nat)
    requires pfn < numFrames == 64 * words
    ensures pfn / 64 < words
  {
  }

  /** Frame `pfn` is marked taken in the bitmap. */
  predicate Taken(words: seq<nat>, pfn: nat)
    requires pfn / 64 < |words|
  {
    Bit(words[pfn / 64], pfn % 64)
  }

  /** The bitmap with frame `pfn` marked taken. */
  function Take(words: seq<nat>, pfn: nat): (r: seq<nat>)
    requires pfn / 64 < |words|
    ensures |r| == |words|
  {
    words[pfn / 64 := Or(words[pfn / 64], Pow2(pfn % 64))]
  }

  /** Taking a free frame marks that frame and leaves every other frame as it was. */
  lemma {:induction false} TakeMarks(words: seq<nat>, pfn: nat, q: nat)
    requires pfn / 64 < |words| && q / 64 < |words| && !Taken(words, pfn)
    ensures Taken(Take(words, pfn), q) <==> q == pfn || Taken(words, q)
  {
    var w := words[pfn / 64];
    OrClearBit(w, pfn % 64);
    if q / 64 == pfn / 64 {
      AddClearBit(w, pfn % 64, q % 64);
      assert q == q / 64 * 64 + q % 64 && pfn == pfn / 64 * 64 + pfn % 64;
    }
  }

  /** In a bitmap whose first word is 1 and whose other words are 0, only frame 0 is taken. */
  lemma {:induction false} OnlyFrameZero(words: seq<nat>, pfn: nat)
    requires 0 < |words| && words[0] == 1 && forall i :: 0 < i < |words| ==> words[i] == 0
    requires pfn / 64 < |words|
    ensures Taken(words, pfn) <==> pfn == 0
  {
    var q, k := pfn / 64, pfn % 64;
    assert pfn == 64 * q + k;
    if q == 0 {
      OneHasOnlyBitZero(k);
    } else {
      assert words[q] == 0;
    }
  }

  /** Bit `k` of 1 is set exactly when `k` is 0. */
  lemma {:induction false} OneHasOnlyBitZero(k: nat)
    ensures Bit(1, k) <==> k == 0
  {
    if k == 0 {
      assert Pow2(0) == 1;
    } else {
      Pow2Monotone(1, k);
      assert Pow2(1) == 2;
      DivModUnique(1, Pow2(k), 0, 1);
    }
  }

  /**
   * The frame `map_page` settles on from try `i` on: the frame of the first
   * draw that is free, or None when every remaining draw hits a taken frame.
   */
  function FirstFree(words: seq<nat>, numFrames: nat, rands: seq<nat>, i: nat): (r: Option<nat>)
    requires 0 < numFrames == 64 * |words| && i <= |rands|
    ensures r.Some? ==> r.value < numFrames && !Taken(words, r.value)
    ensures r.Some? ==> exists k :: i <= k < |rands| && r.value == rands[k] % numFrames
    ensures r.None? <==> forall k :: i <= k < |rands| ==> Taken(words, rands[k] % numFrames)
    decreases |rands| - i
  {
    if i == |rands| then None
    else if !Taken(words, rands[i] % numFrames) then Some(rands[i] % numFrames)
    else FirstFree(words, numFrames, rands, i + 1)
  }

  /* ---------------- the page tables ---------------- */

  /** `vpn_to_page_` and `pfn_to_vpn_` after `v2p` maps virtual page `vpn` to frame `pfn`. */
  function Record(vpnToPage: map<nat, nat>, pfnToVpn: map<nat, nat>, vpn: nat, pfn: nat): (r: (map<nat, nat>, map<nat, nat>))
    ensures r.0.Keys == vpnToPage.Keys + {vpn} && r.1.Keys == pfnToVpn.Keys + {pfn}
    ensures r.0[vpn] == pfn && r.1[pfn] == vpn
  {
    (vpnToPage[vpn := pfn], pfnToVpn[pfn := vpn])
  }

  /** As written, `v2p` fills in only the forward table. */
  function RecordAsWritten(vpnToPage: map<nat, nat>, pfnToVpn: map<nat, nat>, vpn: nat, pfn: nat): (r: (map<nat, nat>, map<nat, nat>))
    ensures r.0 == vpnToPage[vpn := pfn] && r.1 == pfnToVpn
  {
    (vpnToPage[vpn := pfn], pfnToVpn)
  }

  /** The reverse table of `tables` answers for the frame of every mapped page. */
  predicate Inverse(vpnToPage: map<nat, nat>, pfnToVpn: map<nat, nat>)
  {
    forall vpn :: vpn in vpnToPage ==> vpnToPage[vpn] in pfnToVpn && pfnToVpn[vpnToPage[vpn]] == vpn
  }

  /**
   * As written, no `v2p` call ever gives `pfn_to_vpn_` an entry: starting
   * from the empty tables, the frame just mapped has no reverse entry, so
   * `p2v` on any address of that frame fails; recording both directions
   * keeps the tables inverse.
   */
  lemma {:induction false} P2VAsWrittenAlwaysFails(vpnToPage: map<nat, nat>, vpn: nat, pfn: nat)
    ensures pfn !in RecordAsWritten(vpnToPage, map[], vpn, pfn).1
    ensures !Inverse(RecordAsWritten(vpnToPage, map[], vpn, pfn).0, RecordAsWritten(vpnToPage, map[], vpn, pfn).1)
  {
    var t := RecordAsWritten(vpnToPage, map[], vpn, pfn);
    assert vpn in t.0 && t.0[vpn] !in t.1;
  }

  /** Recording a mapping to a frame not yet in the reverse table keeps the tables inverse. */
  lemma {:induction false} RecordKeepsInverse(vpnToPage: map<nat, nat>, pfnToVpn: map<nat, nat>, vpn: nat, pfn: nat)
    requires Inverse(vpnToPage, pfnToVpn) && vpn !in vpnToPage && pfn !in pfnToVpn
    ensures Inverse(Record(vpnToPage, pfnToVpn, vpn, pfn).0, Record(vpnToPage, pfnToVpn, vpn, pfn).1)
  {
    var (f, b) := Record(vpnToPage, pfnToVpn, vpn, pfn);
    forall v | v in f
      ensures f[v] in b && b[f[v]] == v
    {
      if v != vpn {
        assert f[v] == vpnToPage[v] && vpnToPage[v] in pfnToVpn && vpnToPage[v] != pfn;
      }
    }
  }

  /* ---------------- the OS object ---------------- */

  class OS {
    const numFrames: nat
    var sVirtualPages: nat
    var sPageFaults: nat
    var pfnToVpn: map<nat, nat>
    /** `vpn_to_page_`: an `OSPage` holds only its frame number here. */
    var vpnToPage: map<nat, nat>
    /** `avail_frames_`: bit `pfn & 63` of word `pfn >> 6` is set when frame `pfn` is taken. */
    const availFrames: array<nat>

    /**
     * Frame 0 is never handed out, every mapped page sits in a taken frame
     * below `num_frames`, no two pages share a frame, and the reverse table
     * answers for every mapped frame.
     */
    ghost predicate Valid()
      reads this, availFrames
    {
      0 < numFrames == 64 * availFrames.Length && Taken(availFrames[..], 0) &&
      (forall vpn :: vpn in vpnToPage ==> 0 < vpnToPage[vpn] < numFrames) &&
      (forall vpn :: vpn in vpnToPage ==> Taken(availFrames[..], vpnToPage[vpn])) &&
      (forall v, w :: v in vpnToPage && w in vpnToPage && v != w ==> vpnToPage[v] != vpnToPage[w]) &&
      Inverse(vpnToPage, pfnToVpn) &&
      (forall pfn :: pfn in pfnToVpn ==> pfnToVpn[pfn] in vpnToPage && vpnToPage[pfnToVpn[pfn]] == pfn)
    }

    /** The constructor: `dram_size_mb` MiB of 4 KiB frames, all free but frame 0. */
    constructor (dramSizeMb: nat)
      requires dramSizeMb > 0
      ensures Valid()
      ensures numFrames == 256 * dramSizeMb && vpnToPage == map[] && pfnToVpn == map[]
      ensures sVirtualPages == 0 && sPageFaults == 0
      ensures forall pfn: nat :: pfn < numFrames ==> (Taken(availFrames[..], pfn) <==> pfn == 0)
    {
      var n := (1024 * 1024 * dramSizeMb) / OS_PAGESIZE;
      DivModUnique(1024 * 1024 * dramSizeMb, OS_PAGESIZE, 256 * dramSizeMb, 0);
      numFrames := n;
      availFrames := new nat[n / 64](_ => 0);
      sVirtualPages, sPageFaults := 0, 0;
      pfnToVpn, vpnToPage := map[], map[];
      new;
      availFrames[0] := 1;
      forall pfn: nat | pfn < numFrames
        ensures Taken(availFrames[..], pfn) <==> pfn == 0
      {
        FrameWord(pfn, numFrames, availFrames.Length);
        OnlyFrameZero(availFrames[..], pfn);
      }
    }

    /** `p2v`: the virtual line address of a physical one, or None when the frame has no reverse entry. */
    function P2V(lineaddr: nat): (r: Option<nat>)
      reads this
      ensures r.Some? <==> PageOf(lineaddr) in pfnToVpn
      ensures r.Some? ==> PageOf(r.value) == pfnToVpn[PageOf(lineaddr)] && OffsetOf(r.value) == OffsetOf(lineaddr)
    {
      var pfn, off := PageOf(lineaddr), OffsetOf(lineaddr);
      SplitIsDivMod(lineaddr);
      if pfn in pfnToVpn then
        SplitJoin(pfnToVpn[pfn], off);
        Some(Join(pfnToVpn[pfn], off))
      else None
    }

    /** The physical line address of a mapped virtual one. */
    ghost function Translation(lineaddr: nat): nat
      reads this
      requires PageOf(lineaddr) in vpnToPage
    {
      Join(vpnToPage[PageOf(lineaddr)], OffsetOf(lineaddr))
    }

    /** On a valid OS, `p2v` undoes the translation of every mapped line address. */
    lemma {:induction false} P2VUndoesV2P(lineaddr: nat)
      requires Valid() && PageOf(lineaddr) in vpnToPage
      ensures P2V(Translation(lineaddr)) == Some(lineaddr)
    {
      var vpn, off := PageOf(lineaddr), OffsetOf(lineaddr);
      SplitIsDivMod(lineaddr);
      SplitJoin(vpnToPage[vpn], off);
      JoinSplit(lineaddr);
    }

    /**
     * `map_page`: one page fault, then up to 2048 draws; the first draw whose
     * frame is free is taken. None stands for the exit after the last try.
     */
    method MapPage(rands: seq<nat>) returns (r: Option<nat>)
      requires Valid() && |rands| == RAND_MAP_TRIES
      modifies this`sPageFaults, availFrames
      ensures Valid()
      ensures sPageFaults == old(sPageFaults) + 1
      ensures r == FirstFree(old(availFrames[..]), numFrames, rands, 0)
      ensures availFrames[..] == if r.Some? then Take(old(availFrames[..]), r.value) else old(availFrames[..])
    {
      sPageFaults := sPageFaults + 1;
      ghost var words := availFrames[..];
      for i := 0 to RAND_MAP_TRIES
        invariant availFrames[..] == words && sPageFaults == old(sPageFaults) + 1
        invariant FirstFree(words, numFrames, rands, i) == FirstFree(words, numFrames, rands, 0)
      {
        var pfn := rands[i] % numFrames;
        FrameWord(pfn, numFrames, availFrames.Length);
        var ii, off := pfn / 64, pfn % 64;
        if !Bit(availFrames[ii], off) {
          TakeFrame(pfn);
          return Some(pfn);
        }
      }
      return None;
    }

    /** Sets the bit of free frame `pfn`: `avail_frames_[pfn >> 6] |= 1 << (pfn & 63)`. */
    method TakeFrame(pfn: nat)
      requires Valid() && pfn < numFrames
      requires !Taken(availFrames[..], pfn)
      modifies availFrames
      ensures Valid()
      ensures availFrames[..] == Take(old(availFrames[..]), pfn)
    {
      ghost var words := availFrames[..];
      FrameWord(pfn, numFrames, availFrames.Length);
      var ii, off := pfn / 64, pfn % 64;
      availFrames[ii] := Or(availFrames[ii], Pow2(off));
      assert availFrames[..] == Take(words, pfn);
      TakeMarks(words, pfn, 0);
      forall vpn | vpn in vpnToPage
        ensures Taken(availFrames[..], vpnToPage[vpn])
      {
        FrameWord(vpnToPage[vpn], numFrames, availFrames.Length);
        TakeMarks(words, pfn, vpnToPage[vpn]);
      }
    }

    /**
     * `v2p`: a page not yet mapped gets a frame from `map_page` and both
     * tables record it; the address keeps its in-page offset.
     */
    method V2P(lineaddr: nat, rands: seq<nat>) returns (r: Option<nat>)
      requires Valid() && |rands| == RAND_MAP_TRIES
      modifies this`vpnToPage, this`pfnToVpn, this`sVirtualPages, this`sPageFaults, availFrames
      ensures Valid()
      ensures r.None? <==>
        PageOf(lineaddr) !in old(vpnToPage) && FirstFree(old(availFrames[..]), numFrames, rands, 0).None?
      ensures r.Some? ==> PageOf(lineaddr) in vpnToPage && r.value == Translation(lineaddr)
      ensures PageOf(lineaddr) in old(vpnToPage) ==>
        vpnToPage == old(vpnToPage) && pfnToVpn == old(pfnToVpn) && availFrames[..] == old(availFrames[..]) &&
        sVirtualPages == old(sVirtualPages) && sPageFaults == old(sPageFaults)
      ensures PageOf(lineaddr) !in old(vpnToPage) && r.Some? ==>
        var pfn := vpnToPage[PageOf(lineaddr)];
        Some(pfn) == FirstFree(old(availFrames[..]), numFrames, rands, 0) &&
        (vpnToPage, pfnToVpn) == Record(old(vpnToPage), old(pfnToVpn), PageOf(lineaddr), pfn) &&
        sVirtualPages == old(sVirtualPages) + 1 && sPageFaults == old(sPageFaults) + 1
    {
      var vpn, off := PageOf(lineaddr), OffsetOf(lineaddr);
      if vpn !in vpnToPage {
        ghost var words := availFrames[..];
        var pfn := MapPage(rands);
        if pfn.None? {
          return None;
        }
        var f := pfn.value;
        assert !Taken(words, f) && Taken(words, 0);
        assert f !in pfnToVpn;
        forall v | v in vpnToPage
          ensures vpnToPage[v] != f
        {
          assert Taken(words, vpnToPage[v]);
        }
        RecordKeepsInverse(vpnToPage, pfnToVpn, vpn, f);
        FrameWord(f, numFrames, availFrames.Length);
        TakeMarks(words, f, f);
        var tables := Record(vpnToPage, pfnToVpn, vpn, f);
        vpnToPage, pfnToVpn := tables.0, tables.1;
        sVirtualPages := sVirtualPages + 1;
      }
      r := Some(Join(vpnToPage[vpn], off));
    }
  }
}

=== FILE: replacement.dfy ===
/**
 * Victim selection in one cache set (`CacheSet::lru`, `srrip`, `prowb`,
 * `belady`). A set is a hash map from tag to entry; its iteration order is
 * whatever the map gives, so the model takes the entries as a sequence in
 * that order and every "first" below means first in that order. Each policy
 * returns the position of the victim. Every policy starts from `begin()`, so
 * the set must not be empty.
 */
module Replacement {
  import opened Wrappers
  import Bits

  /** `std::numeric_limits<uint64_t>::max()`: the next use of a line that is never used again. */
  const UINT64_MAX: nat := 0xFFFF_FFFF_FFFF_FFFF
  /** `std::numeric_limits<uint8_t>::max()`: the width of `rrpv_`. */
  const UINT8_MAX: nat := 0xFF

  /** One `(tag, CacheEntry)` pair of the set. */
  datatype Line = Line(tag: nat, dirty: bool, lruTimestamp: nat, rrpv: nat)

  /* ---------------- LRU ---------------- */

  /** `r` is the first of the first `n` lines with the smallest timestamp among them. */
  ghost predicate FirstOldestIn(s: seq<Line>, n: nat, r: nat)
  {
    r < n <= |s| &&
    (forall j :: 0 <= j < n ==> s[r].lruTimestamp <= s[j].lruTimestamp) &&
    (forall j :: 0 <= j < r ==> s[j].lruTimestamp > s[r].lruTimestamp)
  }

  /** The scan of `lru` from position `i` on, with `v` the victim so far. */
  function LruScan(s: seq<Line>, i: nat, v: nat): (r: nat)
    requires v < i <= |s|
    ensures r < |s|
    decreases |s| - i
  {
    if i == |s| then v
    else LruScan(s, i + 1, if s[i].lruTimestamp < s[v].lruTimestamp then i else v)
  }

  /** `lru`: start at the first line and move to any strictly older one. */
  function Lru(s: seq<Line>): (r: nat)
    requires |s| > 0
    ensures r < |s|
  {
    LruScan(s, 1, 0)
  }

  lemma {:induction false} LruScanFindsOldest(s: seq<Line>, i: nat, v: nat)
    requires v < i <= |s| && FirstOldestIn(s, i, v)
    ensures FirstOldestIn(s, |s|, LruScan(s, i, v))
    decreases |s| - i
  {
    if i < |s| {
      LruScanFindsOldest(s, i + 1, if s[i].lruTimestamp < s[v].lruTimestamp then i else v);
    }
  }

  /** `lru` returns the oldest line, the first of them on a tie. */
  lemma {:induction false} LruIsFirstOldest(s: seq<Line>)
    requires |s| > 0
    ensures FirstOldestIn(s, |s|, Lru(s))
  {
    LruScanFindsOldest(s, 1, 0);
  }

  /* ---------------- Random ---------------- */

  /**
   * `rand`: the line at position `draw & (size()-1)`, where `draw` is the
   * generator's output. The set size is a power of two `2^k` (the associativity),
   * so the mask picks the position `draw mod size`, always inside the set.
   */
  function RandomWay(s: seq<Line>, draw: nat, k: nat): (r: nat)
    requires |s| == Bits.Pow2(k)
    ensures r < |s| && r == draw % |s|
  {
    Bits.AndLowMask(draw, k);
    Bits.And(draw, |s| - 1)
  }

  /* ---------------- PRoWB ---------------- */

  /** `r` is the first clean line among the first `n` with the smallest timestamp among the clean ones. */
  ghost predicate FirstOldestCleanIn(s: seq<Line>, n: nat, r: nat)
  {
    r < n <= |s| && !s[r].dirty &&
    (forall j :: 0 <= j < n && !s[j].dirty ==> s[r].lruTimestamp <= s[j].lruTimestamp) &&
    (forall j :: 0 <= j < r && !s[j].dirty ==> s[j].lruTimestamp > s[r].lruTimestamp)
  }

  /** Some line of the set is clean. */
  ghost predicate AnyClean(s: seq<Line>)
  {
    exists j :: 0 <= j < |s| && !s[j].dirty
  }

  /** The scan of `prowb` from position `i` on: a clean line replaces a dirty victim or an older clean one. */
  function ProwbScan(s: seq<Line>, i: nat, v: nat): (r: nat)
    requires i <= |s| && v < |s|
    ensures r < |s|
    decreases |s| - i
  {
    if i == |s| then v
    else ProwbScan(s, i + 1, if !s[i].dirty && (s[v].dirty || s[i].lruTimestamp < s[v].lruTimestamp) then i else v)
  }

  /** `prowb`: the LRU line if it is clean, otherwise a scan for the oldest clean line. */
  function Prowb(s: seq<Line>): (r: nat)
    requires |s| > 0
    ensures r < |s|
  {
    var v := Lru(s);
    if s[v].dirty then ProwbScan(s, 0, v) else v
  }

  lemma {:induction false} ProwbScanFindsOldestClean(s: seq<Line>, i: nat, v: nat)
    requires i <= |s| && v < |s|
    requires FirstOldestCleanIn(s, i, v) || (s[v].dirty && forall j :: 0 <= j < i ==> s[j].dirty)
    ensures var r := ProwbScan(s, i, v);
      FirstOldestCleanIn(s, |s|, r) || (r == v && forall j :: 0 <= j < |s| ==> s[j].dirty)
    decreases |s| - i
  {
    if i < |s| {
      var v' := if !s[i].dirty && (s[v].dirty || s[i].lruTimestamp < s[v].lruTimestamp) then i else v;
      ProwbScanFindsOldestClean(s, i + 1, v');
    }
  }

  /**
   * `prowb` evicts the oldest clean line, the first of them on a tie, and
   * falls back to the LRU line only when every line is dirty.
   */
  lemma {:induction false} ProwbPrefersClean(s: seq<Line>)
    requires |s| > 0
    ensures AnyClean(s) ==> FirstOldestCleanIn(s, |s|, Prowb(s))
    ensures !AnyClean(s) ==> Prowb(s) == Lru(s)
  {
    var v := Lru(s);
    LruIsFirstOldest(s);
    if s[v].dirty {
      ProwbScanFindsOldestClean(s, 0, v);
    } else {
      assert FirstOldestCleanIn(s, |s|, v);
    }
  }

  /* ---------------- Belady ---------------- */

  /** `_next`: the instruction of the next use, or never. */
  function NextUse(q: seq<nat>): nat
  {
    if q == [] then UINT64_MAX else q[0]
  }

  /** Every line of the set has an access stream; `belady_access_stream_.at` throws otherwise. */
  predicate Streamed(s: seq<Line>, stream: map<nat, seq<nat>>)
  {
    forall j :: 0 <= j < |s| ==> s[j].tag in stream
  }

  /** When the line at position `j` is next used. */
  function When(s: seq<Line>, stream: map<nat, seq<nat>>, j: nat): nat
    requires j < |s| && s[j].tag in stream
  {
    NextUse(stream[s[j].tag])
  }

  /** `r` is the first line with the furthest next use. */
  ghost predicate FirstFurthest(s: seq<Line>, stream: map<nat, seq<nat>>, n: nat, r: nat)
    requires Streamed(s, stream)
  {
    r < n <= |s| &&
    (forall j :: 0 <= j < n ==> When(s, stream, j) <= When(s, stream, r)) &&
    (forall j :: 0 <= j < r ==> When(s, stream, j) < When(s, stream, r))
  }

  /** The scan of `belady` as written: `v_when` keeps the first line's next use for the whole loop. */
  function BeladyScanAsWritten(s: seq<Line>, stream: map<nat, seq<nat>>, i: nat, v: nat, vWhen: nat): (r: nat)
    requires Streamed(s, stream) && i <= |s| && v < |s|
    ensures r < |s|
    decreases |s| - i
  {
    if i == |s| then v
    else BeladyScanAsWritten(s, stream, i + 1, if When(s, stream, i) > vWhen then i else v, vWhen)
  }

  /** `belady` as written; `None` when some line has no access stream. */
  function BeladyAsWritten(s: seq<Line>, stream: map<nat, seq<nat>>): (r: Option<nat>)
    requires |s| > 0
    ensures r.Some? <==> Streamed(s, stream)
    ensures r.Some? ==> r.value < |s|
  {
    if Streamed(s, stream) then Some(BeladyScanAsWritten(s, stream, 1, 0, When(s, stream, 0))) else None
  }

  /** The scan of `belady` with `v_when` following the victim. */
  function BeladyScan(s: seq<Line>, stream: map<nat, seq<nat>>, i: nat, v: nat): (r: nat)
    requires Streamed(s, stream) && v < i <= |s|
    ensures r < |s|
    decreases |s| - i
  {
    if i == |s| then v
    else BeladyScan(s, stream, i + 1, if When(s, stream, i) > When(s, stream, v) then i else v)
  }

  /** `belady` as intended; `None` when some line has no access stream. */
  function Belady(s: seq<Line>, stream: map<nat, seq<nat>>): (r: Option<nat>)
    requires |s| > 0
    ensures r.Some? <==> Streamed(s, stream)
    ensures r.Some? ==> r.value < |s|
  {
    if Streamed(s, stream) then Some(BeladyScan(s, stream, 1, 0)) else None
  }

  lemma {:induction false} BeladyScanFindsFurthest(s: seq<Line>, stream: map<nat, seq<nat>>, i: nat, v: nat)
    requires Streamed(s, stream) && v < i <= |s| && FirstFurthest(s, stream, i, v)
    ensures FirstFurthest(s, stream, |s|, BeladyScan(s, stream, i, v))
    decreases |s| - i
  {
    if i < |s| {
      BeladyScanFindsFurthest(s, stream, i + 1, if When(s, stream, i) > When(s, stream, v) then i else v);
    }
  }

  /** `belady` evicts the line used furthest in the future, the first of them on a tie. */
  lemma {:induction false} BeladyIsFirstFurthest(s: seq<Line>, stream: map<nat, seq<nat>>)
    requires |s| > 0 && Streamed(s, stream)
    ensures FirstFurthest(s, stream, |s|, Belady(s, stream).value)
  {
    BeladyScanFindsFurthest(s, stream, 1, 0);
  }

  /** As written, the victim is the last line used later than the first line, or the first line. */
  lemma {:induction false} BeladyAsWrittenIsLastLater(s: seq<Line>, stream: map<nat, seq<nat>>, i: nat, v: nat)
    requires Streamed(s, stream) && 1 <= i <= |s| && v < i
    requires v == 0 || When(s, stream, v) > When(s, stream, 0)
    requires forall j :: v < j < i ==> When(s, stream, j) <= When(s, stream, 0)
    ensures var r := BeladyScanAsWritten(s, stream, i, v, When(s, stream, 0));
      (r == 0 || When(s, stream, r) > When(s, stream, 0)) &&
      (forall j :: r < j < |s| ==> When(s, stream, j) <= When(s, stream, 0))
    decreases |s| - i
  {
    if i < |s| {
      var v' := if When(s, stream, i) > When(s, stream, 0) then i else v;
      BeladyAsWrittenIsLastLater(s, stream, i + 1, v');
    }
  }

  /**
   * Three lines next used at instructions 1, 3 and 2: the scan as written
   * compares the third line with the first one's 1 rather than the second's
   * 3, and evicts the third line, which is not the one used furthest away.
   */
  lemma BeladyAsWrittenMissesFurthest()
    ensures var s := [Line(10, false, 0, 0), Line(11, false, 0, 0), Line(12, false, 0, 0)];
      var stream := map[10 := [1], 11 := [3], 12 := [2]];
      BeladyAsWritten(s, stream) == Some(2) && Belady(s, stream) == Some(1)
  {
    var s := [Line(10, false, 0, 0), Line(11, false, 0, 0), Line(12, false, 0, 0)];
    var stream := map[10 := [1], 11 := [3], 12 := [2]];
    assert When(s, stream, 0) == 1 && When(s, stream, 1) == 3 && When(s, stream, 2) == 2;
  }

  /* ---------------- SRRIP ---------------- */

  /** Every `rrpv_` fits its `uint8_t`. */
  ghost predicate RrpvsFit(s: seq<Line>)
  {
    forall j :: 0 <= j < |s| ==> s[j].rrpv <= UINT8_MAX
  }

  /** Some line has re-reference prediction 0. */
  ghost predicate HasZero(s: seq<Line>)
  {
    exists j :: 0 <= j < |s| && s[j].rrpv == 0
  }

  /** The smallest `rrpv_` of a non-empty set. */
  function MinRrpv(s: seq<Line>): (m: nat)
    requires |s| > 0
    ensures forall j :: 0 <= j < |s| ==> m <= s[j].rrpv
    ensures exists j :: 0 <= j < |s| && m == s[j].rrpv
  {
    if |s| == 1 then s[0].rrpv
    else
      var t := MinRrpv(s[1..]);
      assert forall j :: 1 <= j < |s| ==> s[j] == s[1..][j - 1];
      if s[0].rrpv <= t then s[0].rrpv else t
  }

  /** A prediction held by some line and at most every line's is the minimum. */
  lemma {:induction false} MinIsBelowAll(s: seq<Line>, w: nat, m: nat)
    requires w < |s| && m == s[w].rrpv
    requires forall j :: 0 <= j < |s| ==> m <= s[j].rrpv
    ensures MinRrpv(s) == m
  {
  }

  /** Every line's `rrpv_` lowered by `d`, which is at most each of them. */
  function Aged(s: seq<Line>, d: nat): (a: seq<Line>)
    requires forall j :: 0 <= j < |s| ==> d <= s[j].rrpv
    ensures |a| == |s|
  {
    seq(|s|, j requires 0 <= j < |s| => s[j].(rrpv := s[j].rrpv - d))
  }

  /** A sequence lowered entry by entry is the aged one. */
  lemma {:induction false} AgedPointwise(s: seq<Line>, d: nat, t: seq<Line>)
    requires forall j :: 0 <= j < |s| ==> d <= s[j].rrpv
    requires |t| == |s| && forall j :: 0 <= j < |s| ==> t[j] == s[j].(rrpv := s[j].rrpv - d)
    ensures t == Aged(s, d)
  {
    var a := Aged(s, d);
    assert forall j :: 0 <= j < |s| ==> t[j] == a[j];
  }

  /**
   * Aging by the minimum keeps tags, dirty bits and timestamps, keeps the
   * order of the predictions, keeps them in range and creates a 0.
   */
  lemma {:induction false} AgingByMinimum(s: seq<Line>)
    requires |s| > 0 && RrpvsFit(s)
    ensures var a := Aged(s, MinRrpv(s));
      RrpvsFit(a) && HasZero(a) &&
      (forall j :: 0 <= j < |s| ==> a[j] == s[j].(rrpv := a[j].rrpv)) &&
      (forall j, k :: 0 <= j < |s| && 0 <= k < |s| ==> (a[j].rrpv <= a[k].rrpv <==> s[j].rrpv <= s[k].rrpv))
  {
    var m := MinRrpv(s);
    var a := Aged(s, m);
    var w :| 0 <= w < |s| && m == s[w].rrpv;
    assert a[w].rrpv == 0;
  }

  /**
   * `srrip`'s first loop: the first line with prediction 0 if there is one;
   * otherwise the smallest prediction, starting from `UINT8_MAX`.
   */
  method ScanForZero(ls: seq<Line>) returns (found: bool, i: nat, jmp: nat)
    requires |ls| > 0 && RrpvsFit(ls)
    ensures found ==> i < |ls| && ls[i].rrpv == 0 && forall j :: 0 <= j < i ==> ls[j].rrpv != 0
    ensures !found ==> !HasZero(ls) && jmp == MinRrpv(ls)
  {
    jmp := UINT8_MAX;
    i := 0;
    ghost var w := 0;
    while i < |ls|
      invariant i <= |ls| && jmp <= UINT8_MAX && w < |ls|
      invariant forall j :: 0 <= j < i ==> ls[j].rrpv != 0 && jmp <= ls[j].rrpv
      invariant if i == 0 then jmp == UINT8_MAX else jmp == ls[w].rrpv
    {
      if ls[i].rrpv == 0 {
        return true, i, jmp;
      }
      if ls[i].rrpv < jmp || i == 0 {
        w := i;
      }
      jmp := if ls[i].rrpv < jmp then ls[i].rrpv else jmp;
      i := i + 1;
    }
    MinIsBelowAll(ls, w, jmp);
    found := false;
  }

  /** `srrip`'s second loop: every prediction lowered by `d`. */
  method AgeAll(ls: seq<Line>, d: nat) returns (t: seq<Line>)
    requires forall j :: 0 <= j < |ls| ==> d <= ls[j].rrpv
    ensures t == Aged(ls, d)
  {
    t := ls;
    var k := 0;
    while k < |t|
      invariant k <= |t| == |ls|
      invariant forall j :: 0 <= j < k ==> t[j] == ls[j].(rrpv := ls[j].rrpv - d)
      invariant forall j :: k <= j < |t| ==> t[j] == ls[j]
    {
      t := t[k := t[k].(rrpv := t[k].rrpv - d)];
      k := k + 1;
    }
    AgedPointwise(ls, d, t);
  }

  /**
   * The set whose entries `srrip` changes in place. Only the entries are
   * modelled; the Belady streams are the `stream` parameter above.
   */
  class CacheSet {
    var lines: seq<Line>

    ghost predicate Valid()
      reads this
    {
      RrpvsFit(lines)
    }

    constructor (lines: seq<Line>)
      requires RrpvsFit(lines)
      ensures Valid() && this.lines == lines
    {
      this.lines := lines;
    }

    /**
     * `srrip`: the first line with prediction 0; when there is none, every
     * prediction drops by the smallest one and the search runs again.
     */
    method Srrip() returns (r: nat)
      requires Valid() && |lines| > 0
      modifies this
      ensures Valid() && r < |lines| && lines[r].rrpv == 0
      ensures forall j :: 0 <= j < r ==> lines[j].rrpv != 0
      ensures lines == if HasZero(old(lines)) then old(lines) else Aged(old(lines), MinRrpv(old(lines)))
      decreases if HasZero(lines) then 0 else 1
    {
      var found, i, jmp := ScanForZero(lines);
      if found {
        return i;
      }
      AgingByMinimum(lines);
      lines := AgeAll(lines, jmp);
      r := Srrip();
    }
  }
}

=== FILE: ring.dfy ===
/**
 * Fixed-size ring buffers as the simulator keeps them: an array of slots, a
 * head index and a count. `Window` is the sequence of live entries, oldest
 * first.
 */
module Ring {
  import opened Bits

  /** The `size` live entries starting at slot `ptr`, wrapping at the end of `slots`. */
  function Window<T>(slots: seq<T>, ptr: nat, size: nat): (w: seq<T>)
    requires 0 < |slots| && size <= |slots|
    ensures |w| == size
  {
    seq(size, k requires 0 <= k < size => slots[(ptr + k) % |slots|])
  }

  /** Two positions fewer than `n` apart land in different slots. */
  lemma {:induction false} ModDistinct(ptr: nat, k: nat, size: nat, n: nat)
    requires k < size < n
    ensures (ptr + k) % n != (ptr + size) % n
  {
    var a, b := ptr + k, ptr + size;
    if a % n == b % n {
      assert b - a == (b / n - a / n) * n;
      MulSmall(b / n - a / n, n);
    }
  }

  /** Storing into the slot after the last live entry leaves the live entries alone. */
  lemma {:induction false} WriteBeyondWindow<T>(slots: seq<T>, ptr: nat, size: nat, e: T)
    requires size < |slots|
    ensures Window(slots[(ptr + size) % |slots| := e], ptr, size) == Window(slots, ptr, size)
  {
    var n := |slots|;
    var v, w := Window(slots[(ptr + size) % n := e], ptr, size), Window(slots, ptr, size);
    forall k | 0 <= k < size
      ensures v[k] == w[k]
    {
      ModDistinct(ptr, k, size, n);
    }
  }

  /** Storing into the slot after the last live entry and counting it appends it. */
  lemma {:induction false} PushBack<T>(slots: seq<T>, ptr: nat, size: nat, e: T)
    requires size < |slots|
    ensures Window(slots[(ptr + size) % |slots| := e], ptr, size + 1) == Window(slots, ptr, size) + [e]
  {
    var n := |slots|;
    var s' := slots[(ptr + size) % n := e];
    WriteBeyondWindow(slots, ptr, size, e);
    assert Window(s', ptr, size + 1) == Window(s', ptr, size) + [e];
  }

  /** Moving the head on by one and dropping the count removes the oldest entry. */
  lemma {:induction false} PopFront<T>(slots: seq<T>, ptr: nat, size: nat)
    requires 0 < size <= |slots|
    ensures Window(slots, (ptr + 1) % |slots|, size - 1) == Window(slots, ptr, size)[1..]
  {
    var n := |slots|;
    var v, w := Window(slots, (ptr + 1) % n, size - 1), Window(slots, ptr, size);
    forall k | 0 <= k < size - 1
      ensures v[k] == w[k + 1]
    {
      ModAddLeft(ptr + 1, k, n);
    }
  }

  /** Wrapping before adding gives the same slot as wrapping after. */
  lemma {:induction false} ModAddLeft(a: nat, k: nat, n: nat)
    requires n > 0
    ensures ((a % n) + k) % n == (a + k) % n
  {
    var q, r := a / n, a % n;
    assert a == q * n + r;
    ModShift(r + k, q, n);
  }

  /** The oldest live entry sits at the head slot. */
  lemma {:induction false} WindowHead<T>(slots: seq<T>, ptr: nat, size: nat)
    requires 0 < size <= |slots| && ptr < |slots|
    ensures Window(slots, ptr, size)[0] == slots[ptr]
  {
    assert Window(slots, ptr, size)[0] == slots[ptr % |slots|];
  }

  /** Stepping a slot index on by one and wrapping is stepping the position on by one. */
  lemma {:induction false} ModSucc(a: nat, n: nat)
    requires n > 0
    ensures (a % n + 1) % n == (a + 1) % n
  {
    assert a + 1 == (a % n + 1) + (a / n) * n;
    ModShift(a % n + 1, a / n, n);
  }

  /** Adding a multiple of `n` does not change the remainder. */
  lemma {:induction false} ModShift(x: nat, q: nat, n: nat)
    requires n > 0
    ensures (x + q * n) % n == x % n
  {
    var y := x + q * n;
    assert y == (x / n + q) * n + x % n;
    DivModUnique(y, n, x / n + q, x % n);
  }
}

=== FILE: wrappers.dfy ===
/** Option and Result shapes shared by the modules of this model. */
module Wrappers {
  datatype Option<T> = None | Some(value: T)
  {
    predicate IsSome() { this.Some? }
  }

  datatype Result<T, E> = Ok(value: T) | Err(error: E)
  {
    predicate IsOk() { this.Ok? }
  }
}
